=== FILE: README.md ===
# postraft in Dafny

A model of the postraft poster backend and the proofs about it. postraft renders marketing posters: a template, which is a canvas size plus an ordered list of background, image and text layers, is filled in with a product's data. The model covers the renderer and the generation pipeline around it:

- **Renderer:** the layers, and the engine that paints them in order and contains each layer's faults.
- **Workers:** the render jobs that record one poster outcome per attempt and aggregate batches, and the queue manager with its batch wrappers.
- **Generation service:** admission (template access, product ownership, campaign ownership, monthly quota), listing, lookup and deletion of posters.
- **Supporting rules:**
  - plan limits and the route guards;
  - the template and product validators and stores;
  - registration, login and the password-reset token lifecycle;
  - the product and poster routes' own logic;
  - the response envelopes;
  - the S3 and Cloudinary file stores' key and URL handling.

How the source's shapes appear in the model:

- **Pure code** becomes functions over a small JSON value type (`Json.Json`). Python's `dict.get`, truthiness, `str()`, `strip()`, `split()` and `os.path.splitext` are written out in `Json`, `Strings` and `Builtins`.
- **State** lives in classes:
  - the database is one `Models.Database` object with one map per table;
  - the queue manager keeps its cached connection, queues and jobs;
  - a canvas keeps an append-only log of draw operations;
  - the two file stores keep their lazily made client or configured flag.
- **Loops** are methods with invariants, each proved against a specification function.
- **Outside calls** become parameters: Pillow's measurement, decoding and reading of colours, image fetches, uploads, the SDK calls, the clock, UUIDs, random tokens and password hashing.

The modules follow the source files:

- BaseLayer, BackgroundLayer, ImageLayer, TextLayer and Engine: backend/renderer/.
- RenderJob, QueueManager and BatchJob: backend/app/workers/.
- GenerationService: backend/app/core/posters/generation_service.py.
- Authorization and Authentication: backend/app/core/auth/.
- TemplateValidators and TemplateService: backend/app/core/templates/.
- ProductValidators and ProductService: backend/app/core/products/.
- Decorators and Responses: backend/app/utils/.
- ProductRoutes and PosterRoutes: backend/app/routes/.
- S3Storage and CloudinaryStorage: backend/app/infrastructure/storage/.
- Shared helpers: Wrappers, Json, Strings, Builtins, Arith, Drawing, Models and Listing.

Where a comment in the source and its code disagree, the model follows the code. Examples:

- `create_product` raises "Invalid price format" for a negative price, because its own "Price must be positive" is caught by the surrounding `except`.
- `_check_generation_limit` ignores its `count` argument.

## Model

| member | source | states |
|---|---|---|
| BaseLayer.Layer.constructor | backend/renderer/layers/base_layer.py:7-8 | the layer keeps the configuration it was given, unchanged |
| BaseLayer.Layer.ResolveKey | backend/renderer/layers/base_layer.py:22-44 | the loop over the `.`-separated parts answers the segment-by-segment lookup `Resolve`: `dict.get` in a mapping, `getattr` on any other value that has the attribute, and None once a value has none; `data` is not changed |
| BaseLayer.ResolveConcat | backend/renderer/layers/base_layer.py:36-44 | resolving a path `a + b` is resolving `b` inside the value `a` leads to, whether that walk ends at a mapping, an attribute or None (None offering no attribute other than None) |
| BaseLayer.ResolveStops | backend/renderer/layers/base_layer.py:39-42 | a value that is not a mapping and has no attribute named by the next segment ends the walk with None |
| BaseLayer.ResolveFromNone | backend/renderer/layers/base_layer.py:39-42 | walking on from None ends in None, since None has no attribute but None itself |
| BaseLayer.KeyComposition | backend/renderer/layers/base_layer.py:33-44 | resolving `p1.rest` equals resolving `rest` inside the value at `p1` |
| BaseLayer.SingleSegment | backend/renderer/layers/base_layer.py:33-38 | a key without `.` is the single lookup `data.get(key)` |
| BaseLayer.TwoSegments | backend/renderer/layers/base_layer.py:33-44 | two dot-free segments through two mappings are two `.get`s |
| BaseLayer.AttributeOfField | backend/renderer/layers/base_layer.py:36-42 | a third segment after a field that is not a mapping reads that field's attribute (`product.price.real`), and gives None when it has no such attribute |
| BaseLayer.ProductPrice | backend/renderer/layers/base_layer.py:33-44 | `'product.price'` yields `data['product']['price']`, and None when the product has no price |
| BackgroundLayer.ParseHex | backend/renderer/layers/background_layer.py:45 | `int(pair, 16)` on a slice of at most two characters lies in -255..255 when it parses |
| BackgroundLayer.StripShortIsStrip | backend/renderer/layers/background_layer.py:45 | the whitespace strip `int(..., 16)` applies to a slice of at most two characters agrees with `str.strip` |
| BackgroundLayer.ParseHexPair | backend/renderer/layers/background_layer.py:45 | two hex digits parse to the byte `16*hi + lo` they spell |
| BackgroundLayer.StripHashes | backend/renderer/layers/background_layer.py:44 | `lstrip('#')` leaves a suffix of the input that does not start with `#` |
| BackgroundLayer.ParseSixHex | backend/renderer/layers/background_layer.py:42-45 | `#rrggbb` parses, each component is the byte its pair at offset 0, 2 or 4 spells, in 0..255 |
| BackgroundLayer.DrawRows | backend/renderer/layers/background_layer.py:30-40 | the row loop appends exactly the gradient's `height` full-width lines, row y at height y, to the canvas log |
| BackgroundLayer.RenderGradient | backend/renderer/layers/background_layer.py:20-40 | colours default to white-to-black and are parsed before drawing; a bad colour list faults with the canvas untouched, otherwise the rows are drawn |
| BackgroundLayer.Render | backend/renderer/layers/background_layer.py:7-18 | `color` gives one fill from (0,0) to the canvas size when Pillow reads the colour, and otherwise draws nothing and raises; without `color`, `gradient` gives the gradient; with neither nothing is drawn |
| BackgroundLayer.GradientRowsShape | backend/renderer/layers/background_layer.py:30-40 | exactly n lines, line y running from (0,y) to (width,y) in that row's colour |
| BackgroundLayer.TruncMonotone | backend/renderer/layers/background_layer.py:35-37 | `int()` of a quotient by a positive divisor is monotone in the numerator |
| BackgroundLayer.TruncExact | backend/renderer/layers/background_layer.py:35-37 | `int()` of an exact multiple divided back gives the factor |
| BackgroundLayer.ChannelAtTop | backend/renderer/layers/background_layer.py:32-37 | row 0 has exactly the start value |
| BackgroundLayer.ChannelBetween | backend/renderer/layers/background_layer.py:32-37 | every row's channel lies between start and end inclusive |
| BackgroundLayer.ChannelMonotone | backend/renderer/layers/background_layer.py:32-37 | the channel moves monotonically from start toward end as y grows |
| BackgroundLayer.LastRowShortOfEnd | backend/renderer/layers/background_layer.py:32-37 | the last row need not reach the end colour: 0 to 255 over two rows ends at 127 |
| BackgroundLayer.ChannelAtBottom | backend/renderer/layers/background_layer.py:32-37 | the last row is within one step, `(end-start)/h` rounded up, of the end value |
| BackgroundLayer.ColorWins | backend/renderer/layers/background_layer.py:11-18 | with `color` present only the solid fill is drawn, even if `gradient` is there too, and a colour Pillow cannot read draws nothing and raises; with neither key nothing is drawn |
| ImageLayer.RoundCorners | backend/renderer/layers/image_layer.py:108-123 | rounding the corners keeps the picture's size, since the mask has the picture's size |
| ImageLayer.DrawPlaceholder | backend/renderer/layers/image_layer.py:125-142 | for numeric x, y, w and h (ints, floats and bools alike; defaults 0, 0, 400, 400) draws the grey box (x,y)-(x+w,y+h), then both diagonals |
| ImageLayer.TryRender | backend/renderer/layers/image_layer.py:21-63 | the guarded block: fetch, flatten RGBA/LA/P on white, resize by `fit` (default cover) to the box, round corners when the numeric `border_radius` is above 0, paste at the integer position (x,y), border only when `border` is set (width 2, `#000000` by default), raising after the paste when Pillow cannot read the border colour or the width is not a 32-bit integer; it stops at the first exception, keeping what was drawn |
| ImageLayer.RenderFetched | backend/renderer/layers/image_layer.py:21-67 | for a truthy image reference: whatever the guarded block drew, followed by the placeholder exactly when it raised (a bad border colour or width included); the render then succeeds unless the placeholder itself raises |
| ImageLayer.Render | backend/renderer/layers/image_layer.py:9-67 | a falsy image reference (key `product.image` by default) draws the placeholder and returns without fetching; an exception in the guarded block, a bad border colour or width included, is swallowed and the placeholder drawn |
| ImageLayer.CoverSizeCovers | backend/renderer/layers/image_layer.py:72-84 | cover scales to the box height when `img_w*th > tw*img_h`, else to the box width; the other side is the truncated aspect-preserving length and is never shorter than the box |
| ImageLayer.CoverFillsBox | backend/renderer/layers/image_layer.py:86-95 | the crop box is exactly tw x th, lies inside the resized picture, and its two margins differ by at most one |
| ImageLayer.ThumbByWidth | backend/renderer/layers/image_layer.py:98 | a picture relatively wider than the box shrinks to the box width, its height rounded to the nearest aspect-preserving length as Pillow's `thumbnail` does, within 1..h and the box |
| ImageLayer.ThumbByHeight | backend/renderer/layers/image_layer.py:98 | a picture relatively taller than the box shrinks to the box height, its width rounded to the nearest aspect-preserving length as Pillow's `thumbnail` does, within 1..w and the box |
| ImageLayer.ThumbWidthNearest | backend/renderer/layers/image_layer.py:98 | when the box height binds, the thumbnail width is the positive whole number nearest the aspect-preserving width (Pillow's `round_aspect`, ties to the smaller) |
| ImageLayer.ThumbHeightNearest | backend/renderer/layers/image_layer.py:98 | when the box width binds, the thumbnail height gives an aspect ratio at least as near the picture's as any other positive height |
| ImageLayer.ThumbSizeFits | backend/renderer/layers/image_layer.py:98 | the thumbnail never grows the picture, fits the box and keeps both sides positive |
| ImageLayer.ContainFillsBox | backend/renderer/layers/image_layer.py:97-106 | any fit other than cover gives exactly tw x th on white, the thumbnail centred at `((tw-w)//2, (th-h)//2)` and inside the box |
| ImageLayer.ContainExample | backend/renderer/layers/image_layer.py:97-106 | 1000 x 667 contained in 400 x 400 becomes 400 x 267 centred at (0, 66), and 5 x 3 into 100 x 1 becomes 2 x 1, both as Pillow rounds |
| ImageLayer.PastedFillsBox | backend/renderer/layers/image_layer.py:37-63 | whatever the fit, the pasted picture is exactly w x h and pasted at the configured (x,y), and a border frames that same box |
| ImageLayer.BorderFaultDrawsPlaceholder | backend/renderer/layers/image_layer.py:53-67 | once the picture is pasted, the border is drawn exactly when Pillow reads its colour and width; otherwise the paste stays and the placeholder is drawn over it |
| ImageLayer.FaultsAbsorbed | backend/renderer/layers/image_layer.py:21-67 | with a string key and a placeholder that can be drawn, the layer never fails: every fetch, decode or resize fault ends in the placeholder |
| ImageLayer.MissingImageDrawsPlaceholder | backend/renderer/layers/image_layer.py:13-19 | a missing or falsy image reference draws exactly the placeholder and fetches nothing |
| ImageLayer.CoverExample | backend/renderer/layers/image_layer.py:72-95 | a 100 x 100 picture covering a 50 x 200 box is scaled to 200 x 200 and cropped at (75, 0, 125, 200) |
| TextLayer.GetFont | backend/renderer/layers/text_layer.py:79-93 | the TrueType font is used exactly when the name is `bold` or `regular`, its file exists and it loads; an unknown name, a missing file or a load error falls back to the default font; an unhashable name raises Python's `unhashable type` error |
| TextLayer.JoinEach | backend/renderer/layers/text_layer.py:110-114 | each finished line is its words joined by single spaces |
| TextLayer.WrapText | backend/renderer/layers/text_layer.py:95-116 | the loop over the words builds exactly the greedy lines of `WrapLines`, joined by newlines |
| TextLayer.JoinEachAppend | backend/renderer/layers/text_layer.py:110-114 | appending a finished line appends its joined text |
| TextLayer.Render | backend/renderer/layers/text_layer.py:14-77 | draws the content with position defaults 0 (any number), size 48, font `regular`, colour `#000000`, wrapped only when `max_width` is truthy, moved by the alignment, the shadow first when `shadow` is truthy; a colour Pillow cannot read raises after the shadow, without the text |
| TextLayer.Place | backend/renderer/layers/text_layer.py:36-77 | once the string is known, the layer draws exactly what the placement rules give for it: the optional shadow, then the text when Pillow reads its colour, the layer raising otherwise |
| TextLayer.FlattenAppend | backend/renderer/layers/text_layer.py:97-116 | the words of the lines plus one more line are the words so far followed by that line's words |
| TextLayer.WrapKeepsWords | backend/renderer/layers/text_layer.py:101-114 | the greedy pass keeps every word once and in order |
| TextLayer.FinishLine | backend/renderer/layers/text_layer.py:109-114 | closing the current line keeps the lines non-empty, the multi-word lines within the width, and each break greedy |
| TextLayer.WrapShape | backend/renderer/layers/text_layer.py:101-114 | the greedy pass ends with non-empty lines, every line of two or more words within `max_width`, and each line starting with a word that did not fit on the previous one |
| TextLayer.WrapLinesCorrect | backend/renderer/layers/text_layer.py:95-116 | the lines joined back are `text.split()`; no line is empty; only a single word alone on its line can exceed the width |
| TextLayer.WrapBlank | backend/renderer/layers/text_layer.py:52-116 | all-whitespace text wraps to `''` when `max_width` is truthy, and is left as is otherwise |
| TextLayer.ValueWins | backend/renderer/layers/text_layer.py:18-34 | a static `value` wins over `key` and is drawn as `str(value)` without the prefix |
| TextLayer.NothingToDraw | backend/renderer/layers/text_layer.py:21-31 | with neither `value` nor `key`, or with a key that resolves to None, nothing is drawn and the layer does not fail |
| TextLayer.ShadowBeneath | backend/renderer/layers/text_layer.py:66-77 | the text is drawn last, in the configured colour, and only when Pillow reads that colour; the shadow is drawn before it exactly when `shadow` is truthy, at (x+3, y+3) in `#00000080`, and is all that is drawn when the colour is refused |
| TextLayer.AlignAnchors | backend/renderer/layers/text_layer.py:56-64 | `right` moves x left by the width, `center` by `width//2`, any other value leaves x unchanged |
| Engine.Outcomes | backend/renderer/engine.py:41-52 | one outcome per entry of `layers`, in list order |
| Engine.LayerEntries | backend/renderer/engine.py:40-42 | a list gives its entries and an empty mapping or string none; a non-empty mapping or string fails as `'str' object has no attribute 'get'` (its first item is a string) and any other value as `'<type>' object is not iterable` |
| Engine.CanvasSize | backend/renderer/engine.py:31-36 | the canvas is `canvas.w` x `canvas.h`, 1080 by default, exactly when both are non-negative ints or bools; otherwise Python's error, in Pillow's order: a canvas that is not a mapping has no `get`, a side that is not a number cannot be compared with 0, a negative side is `Width and height must be >= 0`, and a float cannot be read as an int |
| Engine.RenderLayer | backend/renderer/engine.py:42-52 | a known-type entry draws its layer once, and what it drew stays even when it then raised; an unknown or missing type draws nothing; a non-mapping entry or an unhashable type aborts with the canvas untouched |
| Engine.Render | backend/renderer/engine.py:19-59 | the canvas is `canvas.w` x `canvas.h` (1080 by default) and starts white; the layers are drawn in list order, and the PNG holds exactly their drawing calls |
| Engine.FileSystem.constructor | backend/renderer/engine.py:61-73 | the file store starts empty |
| Engine.RenderToFile | backend/renderer/engine.py:61-73 | `render_to_file` writes exactly the PNG `render` returns at the path and touches no other file; when `render` raises nothing is written |
| Engine.SequenceAppend | backend/renderer/engine.py:41-52 | running the layers in sequence is compositional: the first abort wins, and otherwise the calls of `a` come before those of `b` |
| Engine.ComposeAppend | backend/renderer/engine.py:41-52 | rendering `a + b` draws `a`'s calls and then `b`'s |
| Engine.OutcomesAppend | backend/renderer/engine.py:41-52 | the outcomes of `a + b` are those of `a` followed by those of `b` |
| Engine.UnknownTypeSkipped | backend/renderer/engine.py:10-46 | removing a layer of missing or unknown type changes nothing |
| Engine.LayerErrorsContained | backend/renderer/engine.py:48-52 | whatever the layers themselves do, the render succeeds when every entry is a mapping with a hashable type: a layer's exception never stops the later layers |
| Engine.EmptyTemplate | backend/renderer/engine.py:31-40 | a template without canvas settings or layers gives a blank white 1080 x 1080 PNG |
| RenderJob.OptionalText | backend/app/workers/render_job.py:47-56 | a missing text column appears as None in the data context |
| RenderJob.DataContext | backend/app/workers/render_job.py:47-60 | the context holds the product's name, price, image (from `image_url`), category, sku and description; `campaign` is present exactly when a campaign was found, set to `rules or {}` |
| RenderJob.CampaignFor | backend/app/workers/render_job.py:35 | the campaign is looked up only for a truthy id, and is absent when the id is unknown |
| RenderJob.RenderDefinition | backend/app/workers/render_job.py:65-66 | the template's definition is rendered by the poster renderer; a definition that is not a mapping raises |
| RenderJob.Attempt | backend/app/workers/render_job.py:32-77 | template, product and user are checked in that order, each with its own `... not found` error, and success implies all three exist; a falsy upload URL is an error |
| RenderJob.GeneratePoster | backend/app/workers/render_job.py:13-129 | success adds exactly one `generated` poster with the upload URL and `template.format`, and raises that user's `monthly_generations` by exactly one; failure leaves the counter alone and records at most one `failed` poster (`''`, `square`, `str(e)`), none when recording it fails, then re-raises; the next key moves on exactly when a row is written |
| RenderJob.RecordPoster | backend/app/workers/render_job.py:82-125 | the new poster goes under a fresh key, the next key moves on by one, and nothing else changes |
| RenderJob.OnePosterPerAttempt | backend/app/workers/render_job.py:92-124 | a poster under a new key adds exactly one row |
| RenderJob.Failures | backend/app/workers/render_job.py:156-160 | the batch's error entries, in input order, each carrying `product_id` and the error string; at most one per item |
| RenderJob.Successes | backend/app/workers/render_job.py:152-155 | the batch's results, in input order; at most one per item |
| RenderJob.EveryItemCounted | backend/app/workers/render_job.py:151-160 | every item is either a success or a failure: the two lists together are as long as the input |
| RenderJob.BatchStep | backend/app/workers/render_job.py:151-160 | one more item extends exactly one of the two lists by that item's outcome |
| RenderJob.BatchItem | backend/app/workers/render_job.py:151-160 | one item of the batch succeeds or fails exactly as its attempt does, writes that attempt's row (if any) under the next key, and raises the user's counter by one exactly on success; plans and resets are untouched |
| RenderJob.BatchCount | backend/app/workers/render_job.py:151-160 | a batch writes at most one row per item |
| RenderJob.BatchRows | backend/app/workers/render_job.py:151-160 | the rows a batch writes sit under exactly the consecutive keys from the first free one, one per written row |
| RenderJob.BatchRowsOwned | backend/app/workers/render_job.py:151-160 | each row of a batch is keyed by its own id and belongs to the requesting user and to one of the batch's products |
| RenderJob.BatchCountSplit | backend/app/workers/render_job.py:151-160 | the rows written are one per success plus one per failure whose `failed` row committed |
| RenderJob.PostersStep | backend/app/workers/render_job.py:151-160 | one more item adds that item's row, if any, under the next key |
| RenderJob.BatchAdvance | backend/app/workers/render_job.py:151-160 | one item's outcome carries the tables and the two lists one product further along the batch |
| RenderJob.RunBatch | backend/app/workers/render_job.py:151-160 | the loop attempts every product in order: the lists are the failures and successes, the posters table gains exactly the batch's rows, the user's counter rises by the successes, and no other table changes |
| RenderJob.GenerateBatch | backend/app/workers/render_job.py:132-171 | every product id is attempted in input order and one failure does not stop the rest; `total == len(product_ids)`, `successful + failed == total`; the posters table gains one `generated` row per success and one `failed` row per recorded failure, in order under fresh consecutive keys; the user's counter rises by the number of successes; no other table or user changes |
| QueueManager.MergeOptions | backend/app/workers/queue_manager.py:55-66 | defaults timeout 600, `result_ttl` 3600, `failure_ttl` 86400; caller options override the defaults, and an explicit non-None `timeout` overrides both |
| QueueManager.PlainOptions | backend/app/workers/queue_manager.py:55-66 | with no caller options a job gets exactly the three defaults, the timeout replaced by an explicit one |
| QueueManager.PublicStatus | backend/app/workers/queue_manager.py:117-125 | queued→pending, started→processing, finished→completed, failed→failed, anything else→`unknown` |
| QueueManager.StatusReport | backend/app/workers/queue_manager.py:109-140 | an unfetchable job gives `{'status':'not_found','message':'Job not found'}`; otherwise the mapped status and the three timestamps (None when unset), `result` only for finished jobs and `error` only for failed ones, `'Unknown error'` by default |
| QueueManager.QueueManager.constructor | backend/app/workers/queue_manager.py:9-10 | no connection, no queues and no jobs at first |
| QueueManager.QueueManager.GetRedisConnection | backend/app/workers/queue_manager.py:12-19 | the connection is made once, from `REDIS_URL` or `redis://localhost:6379/0`, and reused afterwards |
| QueueManager.QueueManager.GetQueue | backend/app/workers/queue_manager.py:21-36 | at most one queue per name; a cached queue is returned unchanged and nothing else changes |
| QueueManager.QueueManager.EnqueueJob | backend/app/workers/queue_manager.py:38-76 | one queued job is added under a new id, with the merged options, on the named queue; no other job changes; a new queue name adds that one queue, a known one changes no queue, and a cached connection is kept |
| QueueManager.QueueManager.GetJob | backend/app/workers/queue_manager.py:78-96 | the stored job, or None when it cannot be fetched; the job store is not changed |
| QueueManager.QueueManager.GetJobStatus | backend/app/workers/queue_manager.py:98-140 | the status report of the stored job, or `not_found` |
| QueueManager.FreshJobIsPending | backend/app/workers/queue_manager.py:117-138 | a job just enqueued reports `pending`, with neither result nor error |
| BatchJob.OptionalId | backend/app/workers/batch_job.py:4-24 | a missing campaign id is passed to the job as None |
| BatchJob.EnqueueSinglePoster | backend/app/workers/batch_job.py:4-21 | one `generate_poster` job with (template_id, product_id, user_id, campaign_id) on `poster-generation`, timeout 300 and the default lifetimes, and its id returned; the poster queue is made when missing and no other queue changes |
| BatchJob.EnqueueBatchPosters | backend/app/workers/batch_job.py:24-41 | one `generate_batch` job with the whole product-id list on `poster-generation`, timeout 1800 and the default lifetimes, and its id returned; the poster queue is made when missing and no other queue changes |
| BatchJob.BatchArgs | backend/app/workers/batch_job.py:31-36 | the product ids travel to the batch job as one list, in order |
| GenerationService.GenerationLimit | backend/app/core/posters/generation_service.py:222-243 | a plan value of `-1` is unlimited; otherwise the quota is `max(0, limit - used)`, and the `count` argument plays no part |
| GenerationService.QuotaAgreesWithPlanCheck | backend/app/core/posters/generation_service.py:222-243 | the quota allows one more poster exactly when the plan's `can_generate_poster` rule allows it |
| GenerationService.Admit | backend/app/core/posters/generation_service.py:33-66 | the checks run in order (template exists, template access, products non-empty, ownership, campaign, quota), each with its own message; the request is admitted exactly when all of them pass |
| GenerationService.RepeatShrinksSet | backend/app/core/posters/generation_service.py:47-53 | a list that repeats an id names fewer distinct ids than it has entries |
| GenerationService.DistinctBound | backend/app/core/posters/generation_service.py:47-53 | a list names at most as many distinct ids as it has entries |
| GenerationService.RepeatedProductRefused | backend/app/core/posters/generation_service.py:47-53 | the ownership check counts distinct rows, so a request that repeats a product id is refused |
| GenerationService.SubsetCard | backend/app/core/posters/generation_service.py:256-264 | a subset has no more elements than its superset |
| GenerationService.OverQuotaRefused | backend/app/core/posters/generation_service.py:61-66 | asking for more posters than `limit - used` on a limited plan is refused |
| GenerationService.QueueGeneration | backend/app/core/posters/generation_service.py:11-100 | nothing is queued on refusal; one product gives one `single` job with total 1, more give one `batch` job with `total = len(product_ids)`, on the poster queue, and the job id is returned; the job carries the template, the product id or the whole id list, the user and the campaign, with a timeout of 300 or 1800 seconds and the default lifetimes; only the poster queue can be added |
| GenerationService.GetJobStatus | backend/app/core/posters/generation_service.py:102-113 | the queue's status report for the job, the job store unchanged |
| GenerationService.GetPoster | backend/app/core/posters/generation_service.py:175-198 | `Poster not found` when absent, `Unauthorized access to poster` for another user's poster, otherwise the poster |
| GenerationService.DeletePoster | backend/app/core/posters/generation_service.py:200-220 | removes exactly the poster `get_poster` hands out and nothing else; on its errors nothing changes |
| GenerationService.Rows | backend/app/core/posters/generation_service.py:159-166 | the page's rows are the posters the ids name, in order |
| GenerationService.GetUserPosters | backend/app/core/posters/generation_service.py:115-173 | exactly the user's posters passing every truthy filter, newest first and each once; totals, page count, `has_next`/`has_prev` and the page slice agree with them |
| GenerationService.GenerationStats | backend/app/core/posters/generation_service.py:245-264 | `unlimited` holds exactly when the plan limit is `-1`, which is exactly when `remaining` is unlimited; `used`/`limit` are the user's and the plan's; successful plus failed never exceed the total |
| Authorization.LimitCheck | backend/app/core/auth/authorization.py:14-46 | the shared shape of the three checks: allowed exactly when the limit is `-1` or usage is below it, and allowed exactly when the message is empty |
| Authorization.CanCreateProduct | backend/app/core/auth/authorization.py:6-23 | `max_products == -1` allows; a product count at or above the maximum denies with a non-empty message; otherwise allowed with `""` |
| Authorization.CanCreateTemplate | backend/app/core/auth/authorization.py:25-35 | the same shape with `max_templates` and the template count |
| Authorization.CanGeneratePoster | backend/app/core/auth/authorization.py:37-46 | a limit of `-1` always allows; `monthly_generations >= limit` denies |
| Authorization.HasFeature | backend/app/core/auth/authorization.py:48-60 | the plan's feature value, `False` for a feature key the plan lacks |
| Authorization.DenialIsMonotone | backend/app/core/auth/authorization.py:14-46 | once a check denies, more usage still denies with the same `... limit reached (N)` message |
| Decorators.Refusal | backend/app/utils/decorators.py:27-28 | the refusal body is exactly `{"error": message}` with the given status |
| Decorators.AuthRequired | backend/app/utils/decorators.py:8-29 | a failed token check, a non-integer identity and an unknown user each answer 401 with their message; a handler exception becomes 401; any answer other than 401 is the handler's own answer for the user the token names |
| Decorators.TokenIdentifiesUser | backend/app/utils/decorators.py:21-26 | the identity issued as `str(user.id)` leads the guard back to that same user's handler answer |
| Decorators.LimitFor | backend/app/utils/decorators.py:50-60 | `product`, `template` and `generation` pick the matching authorization check; any other resource is denied with "Invalid resource type" |
| Decorators.PlanLimit | backend/app/utils/decorators.py:62-65 | a denied check answers 403 with the check's message and never calls the handler; an allowed one answers whatever the handler answers |
| Decorators.RequiresFeature | backend/app/utils/decorators.py:84-89 | a plan whose feature value is falsy answers 403 naming the feature; otherwise the handler answers |
| Decorators.MissingFeatureRefused | backend/app/utils/decorators.py:84-88 | a feature the plan does not list at all is refused with 403 |
| Decorators.AdminRequiredAsWritten | backend/app/utils/decorators.py:105-110 | reading `is_admin`, which the user model does not define, raises for every user |
| Decorators.AdminGuardLocksOutEveryone | backend/app/utils/decorators.py:105-110 | stacked under `auth_required`, the guard as written answers 401 for every known user, so no request reaches the handler |
| Decorators.AdminRequired | backend/app/utils/decorators.py:105-110 | with an admin flag read: administrators get the handler's answer, anyone else 403 "Admin access required" |
| Decorators.AdminReachesHandler | backend/app/utils/decorators.py:105-110 | with the flag read, an administrator's authenticated request reaches the handler's answer |
| TemplateValidators.LayerError | backend/app/core/templates/validators.py:69-77 | at most one error per layer, and none exactly when the layer is a mapping whose `type` is one of the four known types |
| TemplateValidators.LayerErrorsCount | backend/app/core/templates/validators.py:69-77 | the layer loop reports at most one error per layer |
| TemplateValidators.LayerErrorsNone | backend/app/core/templates/validators.py:69-77 | the layer loop reports nothing exactly when every layer passes |
| TemplateValidators.CanvasErrors | backend/app/core/templates/validators.py:49-57 | the canvas part reports at most one error |
| TemplateValidators.DefinitionErrorsExact | backend/app/core/templates/validators.py:41-79 | the structure check reports nothing exactly for a mapping with a canvas mapping holding `w` and `h` and a non-empty list of layers that all pass |
| TemplateValidators.ValidateDefinition | backend/app/core/templates/validators.py:41-79 | the errors collected step by step, the layer loop included, are the ones the structure check specifies, in order |
| TemplateValidators.NameErrors | backend/app/core/templates/validators.py:19-23 | no name error exactly when the name is a string of at least two characters once stripped |
| TemplateValidators.FormatErrors | backend/app/core/templates/validators.py:25-29 | no format error exactly when the format is `square`, `story` or `a4` |
| TemplateValidators.DefErrors | backend/app/core/templates/validators.py:31-36 | a missing definition gives the single "required" error; no error exactly for a well-formed definition |
| TemplateValidators.CreateErrors | backend/app/core/templates/validators.py:19-23 | the check raises exactly when the name is present and truthy but not a string |
| TemplateValidators.CreateAcceptsExactly | backend/app/core/templates/validators.py:10-38 | `validate_create` reports no error exactly when name, format and definition each meet their rule |
| TemplateValidators.ValidateCreate | backend/app/core/templates/validators.py:10-38 | the method answers the specified error list, and `is_valid` holds exactly when that list is empty |
| TemplateService.GetTemplate | backend/app/core/templates/template_service.py:33-56 | an unknown id is "Template not found"; another user's private template is "Unauthorized access to template"; the template is answered exactly when it is a system template or the user's own |
| TemplateService.NewTemplate | backend/app/core/templates/template_service.py:59-104 | the checks raise in the source's order; a created template belongs to the user, is private and active, has the stripped name, a known format and a mapping definition holding `canvas` and `layers` |
| TemplateService.ValidatedDataCreates | backend/app/core/templates/template_service.py:73-92 | data the template validator accepts always passes the service's own, weaker checks |
| TemplateService.InsertError | backend/app/models/template.py:12-18 | the INSERT goes through exactly when the template fits its columns (name 200, format 50, each URL 500 and not a mapping); a mapping URL is the driver's `can't adapt` error, background before preview, and otherwise an over-long text the column's length error |
| TemplateService.Committed | backend/app/core/templates/template_service.py:94-109 | a built template is stored exactly when it fits its columns, and is refused with the INSERT's error otherwise; a refusal before the commit passes through |
| TemplateService.LongNameReachesCommit | backend/app/core/templates/template_service.py:73-109 | the validator does not bound the name, so accepted data whose stripped name is longer than 200 builds a template the commit refuses |
| TemplateService.CreateTemplate | backend/app/core/templates/template_service.py:59-109 | the answer is the built template once committed: it is stored under a fresh id when it fits its columns and nothing else changes; on a refusal, by the service's checks or the columns, the store is unchanged; system templates are kept |
| TemplateService.Edited | backend/app/core/templates/template_service.py:112-153 | lookup errors pass through; a system template is never edited; the edit succeeds exactly when a truthy name is text, the format is known and the definition a mapping; each present field is set (the name stripped, and only when truthy) and each absent one keeps its old value; only the owner's template changes, keeping its id, owner, flags and creation time |
| TemplateService.ChangeError | backend/app/core/templates/template_service.py:127-154 | the UPDATE sends only the changed columns and goes through exactly when each of them fits; a changed mapping background URL is the driver's `can't adapt` error |
| TemplateService.Updated | backend/app/core/templates/template_service.py:112-156 | the answer is the edited template when the commit takes its changed columns, the commit's error when it does not, and the edit's own error when the edit fails |
| TemplateService.FittingUpdateCommits | backend/app/core/templates/template_service.py:112-156 | an update whose name fits once stripped and whose URLs fit commits whenever the service's checks pass |
| TemplateService.UpdateRefusals | backend/app/core/templates/template_service.py:137-148 | an unknown format answers `Invalid format`, and a definition that is not a mapping answers `Template definition must be a valid JSON object` |
| TemplateService.UpdateTemplate | backend/app/core/templates/template_service.py:112-156 | the store holds the updated template at its id on success and is unchanged on a refusal, by the checks or the columns; system templates are kept |
| TemplateService.DeleteTemplate | backend/app/core/templates/template_service.py:159-177 | the template goes exactly when it is the user's own and not a system template; otherwise the store is unchanged and the lookup or "Cannot delete system templates" error is answered |
| TemplateService.Duplicate | backend/app/core/templates/template_service.py:221-230 | the copy is the user's private, active template named "(Copy)" after the original, with the original's format, definition and URLs, and the user may use it; for an original that fits its columns the copy fits exactly when the original name has at most 193 characters |
| TemplateService.DuplicateTemplate | backend/app/core/templates/template_service.py:207-235 | a template the user may use is copied under a fresh id when the copy fits its columns, and otherwise refused with the INSERT's error; one the user may not use is refused with the lookup error; a refusal changes nothing |
| TemplateService.GetAllTemplates | backend/app/core/templates/template_service.py:9-30 | exactly the active templates the user may use, each once, system templates first and newest first within each group |
| TemplateService.GetTemplatesByFormat | backend/app/core/templates/template_service.py:180-204 | the same listing restricted to one format |
| TemplateService.SystemTemplatesFirst | backend/app/core/templates/template_service.py:25-27 | in a listing, every template before a system template is itself a system template |
| ProductValidators.Then | backend/app/core/products/validators.py:14-49 | errors accumulate in check order, and an exception raised by an earlier check escapes the validator |
| ProductValidators.ThenFromEmpty | backend/app/core/products/validators.py:14 | with nothing collected yet, the next check's outcome is the whole outcome |
| ProductValidators.NameLength | backend/app/core/products/validators.py:19-22 | a non-string name raises; a string name adds no error exactly when its stripped length is between 2 and 200, and at most one otherwise |
| ProductValidators.PriceRange | backend/app/core/products/validators.py:28-35 | no price error exactly when the price parses as a number between 0 and 1e9 |
| ProductValidators.LengthBound | backend/app/core/products/validators.py:38-47 | a falsy optional field adds nothing; a present one adds its message exactly when longer than the limit, and a value without a length raises |
| ProductValidators.OptionalFieldsRaise | backend/app/core/products/validators.py:37-47 | an exception raised before the optional fields escapes unchanged |
| ProductValidators.CreateNameErrors | backend/app/core/products/validators.py:16-22 | at most one name error on creation |
| ProductValidators.CreatePriceErrors | backend/app/core/products/validators.py:24-35 | at most one price error on creation; a falsy price, 0 included, is reported missing |
| ProductValidators.UpdateNameErrors | backend/app/core/products/validators.py:61-68 | at most one name error on update, none when the name is absent |
| ProductValidators.UpdatePriceErrors | backend/app/core/products/validators.py:70-79 | at most one price error on update, none when the price is absent |
| ProductValidators.CheckLength | backend/app/core/products/validators.py:38-47 | one optional-field step of the imperative validator is the specified bound check |
| ProductValidators.CheckName | backend/app/core/products/validators.py:16-22 | the imperative name step is the specified name check, raising on a non-string name |
| ProductValidators.ValidateCreate | backend/app/core/products/validators.py:7-49 | the method answers the specified error list, or the exception; `is_valid` holds exactly when the list is empty |
| ProductValidators.ValidateUpdate | backend/app/core/products/validators.py:52-93 | the same for updates, where only the fields present are checked |
| ProductValidators.FinishOptional | backend/app/core/products/validators.py:81-93 | the category, sku and description steps and the verdict are the specified ones |
| ProductValidators.WithinBound | backend/app/core/products/validators.py:38-47 | a bound check adds nothing exactly when the field is absent, falsy or no longer than its limit |
| ProductValidators.OptionalFieldsClean | backend/app/core/products/validators.py:37-47 | the optional checks add nothing exactly when every optional field is within its bound |
| ProductValidators.CreateHeadClean | backend/app/core/products/validators.py:16-35 | the name and price checks of creation report nothing exactly when the name and a truthy price meet their rules |
| ProductValidators.CreateAcceptsExactly | backend/app/core/products/validators.py:7-49 | `validate_create` reports nothing exactly when the data meets every field rule |
| ProductValidators.OptionalGrows | backend/app/core/products/validators.py:37-47 | the optional checks never remove errors collected before them |
| ProductValidators.UpdateHeadClean | backend/app/core/products/validators.py:61-79 | the name and price checks of an update report nothing exactly when the fields present meet their rules |
| ProductValidators.UpdateAcceptsExactly | backend/app/core/products/validators.py:52-93 | `validate_update` reports nothing exactly when the fields the update carries meet their rules |
| ProductValidators.StringFieldsNeverRaise | backend/app/core/products/validators.py:17-47 | a request whose name and optional fields are strings, absent or falsy never makes either validator raise |
| ProductService.ParsePrice | backend/app/core/products/product_service.py:31-36 | a price is accepted exactly when it parses as a non-negative number; both failures surface as "Invalid price format" |
| ProductService.OptionalText | backend/app/core/products/product_service.py:50-52 | a falsy optional text is stored as none, a string stripped, and any other truthy value raises on `strip` |
| ProductService.NewProduct | backend/app/core/products/product_service.py:10-54 | the checks raise in the source's order; a built row belongs to the user, stores the stripped name, the parsed price and the stripped optional texts, and its SKU, as given, matched no stored row |
| ProductService.InsertError | backend/app/models/product.py:11-17 | the INSERT goes through exactly when every text fits its column (name 200, category 100, image URL 500, SKU 100) and the SKU is unused; a mapping image URL is the driver's `can't adapt type 'dict'`, an over-long text PostgreSQL's `value too long for type character varying(n)`, and a fitting row with a used SKU the unique constraint's error |
| ProductService.Committed | backend/app/core/products/product_service.py:56-57 | the commit refuses a row a column does not take, a mapping image URL with the driver's `can't adapt` error before anything else, and otherwise a row whose stored SKU another row already has, with the unique constraint's error; every other row is stored as built |
| ProductService.CreateInInactiveSession | backend/app/core/products/product_service.py:24-57 | after a failed commit the session cannot be used: the name and price checks still raise their own errors, and any data that passes them gets the session's rollback error, from the SKU lookup or from the read of the expired user's id, so nothing is ever created |
| ProductService.InsertKeepsSkusUnique | backend/app/core/products/product_service.py:38-57 | adding a row whose SKU no row has keeps the `sku` column unique |
| ProductService.PaddedSkuReachesCommit | backend/app/core/products/product_service.py:39-51 | a padded copy of a stored SKU, with a name and SKU that fit their columns, passes the service's duplicate check and is refused only by the database constraint |
| ProductService.ValidatedDataCreates | backend/app/core/products/product_service.py:24-54 | data the product validator accepts, with text fields given as text and an unused SKU, always builds a product |
| ProductService.ValidatedRowStorable | backend/app/core/products/product_service.py:46-57 | a row built from data the product validator accepts fits its columns whenever its image URL does, so only a used SKU can stop its commit |
| ProductService.GetProduct | backend/app/core/products/product_service.py:119-141 | an unknown id is "Product not found", another user's row "Unauthorized access to product"; the row is answered exactly when it is the user's |
| ProductService.CreateProduct | backend/app/core/products/product_service.py:10-59 | the answer is what the create comes to in the session: a committed row is stored under a fresh id and a refusal leaves the store unchanged; a failed commit leaves the session inactive, and in an inactive session nothing is stored; the SKUs stay unique |
| ProductService.Edited | backend/app/core/products/product_service.py:143-191 | lookup errors pass through; the edit succeeds exactly when the name, price, category, SKU and description checks pass, an unparseable price answering `Invalid price format`; each present key sets its field (name stripped when truthy, price parsed, text or None for category and description, the SKU by the SKU rule, image URL as given); only the owner's row is edited, keeping its id, owner and creation time; a SKU that changes is one no row has |
| ProductService.ChangeError | backend/app/core/products/product_service.py:186-192 | the UPDATE sends only the changed columns and goes through exactly when each of them fits; a changed mapping image URL is the driver's `can't adapt` error and an over-long changed text the column's length error |
| ProductService.Updated | backend/app/core/products/product_service.py:143-194 | the answer is the edited row when the commit takes its changed columns, the commit's error when it does not, and the edit's own error when the edit fails |
| ProductService.ValidatedUpdateCommits | backend/app/core/products/product_service.py:143-194 | an update the validator accepts, with text given as text and a fitting image URL, commits whenever the service's own checks pass |
| ProductService.SkuUpdate | backend/app/core/products/product_service.py:177-184 | an absent SKU keeps the current one; a SKU only changes to a non-empty stripped value no row has |
| ProductService.UpdateKeepsAbsentFields | backend/app/core/products/product_service.py:161-190 | every field whose key the update lacks keeps its stored value |
| ProductService.BlankValuesKeepNameAndSku | backend/app/core/products/product_service.py:162-184 | a falsy name or a blank SKU never clears the stored name or SKU |
| ProductService.ReplaceKeepsSkusUnique | backend/app/core/products/product_service.py:177-184 | replacing a row by one whose SKU is unchanged or unused keeps the `sku` column unique |
| ProductService.UpdateProduct | backend/app/core/products/product_service.py:143-194 | the store holds the updated row on success and is unchanged on a refusal, including a commit the columns refuse; the SKUs stay unique |
| ProductService.DeleteProduct | backend/app/core/products/product_service.py:196-211 | the owner's row goes together with the posters made from it; a lookup error leaves everything unchanged |
| ProductService.Categories | backend/app/core/products/product_service.py:213-229 | exactly the non-empty categories of the user's own products |
| ProductService.CategoriesIgnoreOthers | backend/app/core/products/product_service.py:224-227 | another user's product never adds or removes a category |
| ProductService.UpdateProductImage | backend/app/core/products/product_service.py:231-248 | only the image URL of the owner's row changes, when the column takes a changed URL; a lookup error or an over-long URL (`value too long for type character varying(500)`) leaves the store unchanged |
| Authentication.RegisterError | backend/app/core/auth/authentication.py:31-50 | registration is refused exactly when the email is empty or lacks `@`, the password is shorter than 8, the user name shorter than 2, the lower-cased email is taken, or no Free plan exists; the first failing check's message is the answer |
| Authentication.LowerIdempotent | backend/app/core/auth/authentication.py:43-54 | lower-casing a stored email again changes nothing, so stored emails stay lower-case |
| Authentication.UserInsertError | backend/app/models/user.py:10-11 | the INSERT of a new user goes through exactly when the user name fits its 80 characters and the email its 120, the user name being checked first |
| Authentication.RegisterUser | backend/app/core/auth/authentication.py:16-61 | a refusal by the checks or by the columns (user name over 80, email over 120) changes nothing and answers that error; otherwise a new user with a fresh id, the lower-cased email, the hashed password and the Free plan is added, and emails stay lower-case and unique |
| Authentication.LoginUser | backend/app/core/auth/authentication.py:72-90 | login succeeds exactly when a user has the lower-cased email and the password checks; an unknown email and a wrong password get the same message |
| Authentication.GetCurrentUser | backend/app/core/auth/authentication.py:101-117 | the user with that id, or "User not found" exactly when there is none |
| Authentication.OverwriteKeepsNormal | backend/app/core/auth/authentication.py:154-157 | giving a user's existing reset record an unused token keeps one record per user and tokens unique |
| Authentication.InsertKeepsNormal | backend/app/core/auth/authentication.py:158-164 | a user's first reset record, with an unused token, keeps one record per user and tokens unique |
| Authentication.ForgotPassword | backend/app/core/auth/authentication.py:120-189 | the answer never reveals whether the email is known; for a known user the single reset record gets the new token, unused, expiring an hour from now; other users' records are untouched |
| Authentication.IssueReset | backend/app/core/auth/authentication.py:150-166 | the user's existing reset record takes the new token, unused and with the new expiry, or a first record is added; other users' records and every other table are unchanged |
| Authentication.FindResetRecord | backend/app/core/auth/authentication.py:210-226 | a missing or used token, an expired token and a vanished user each get their message; otherwise the live, unexpired record is found |
| Authentication.SpendKeepsNormal | backend/app/core/auth/authentication.py:231-233 | marking a record used keeps the records normal and leaves no live record for its token |
| Authentication.ResetPassword | backend/app/core/auth/authentication.py:192-235 | a weak password or an unknown token is refused and nothing changes; a live, unexpired token sets the hashed new password and is spent, so no live record remains for it |
| Authentication.ValidateResetToken | backend/app/core/auth/authentication.py:265-300 | the same checks as a reset, changing nothing; success carries the user's email and the expiry |
| Authentication.ResetTwice | backend/app/core/auth/authentication.py:192-235 | a token resets a password at most once: after a successful reset the same token is refused |
| Authentication.ForgotThenValidate | backend/app/core/auth/authentication.py:120-189 | after a reset request for a known email, the new token is accepted until its expiry and names that email |
| Responses.SuccessResponse | backend/app/utils/responses.py:3-17 | the envelope has `success: true`, a `message` exactly when the message is truthy and a `data` exactly when data is not None; reading `data` back gives what was put in |
| Responses.CreatedResponse | backend/app/utils/responses.py:36-38 | a success envelope with status 201 carrying the data |
| Responses.ErrorResponse | backend/app/utils/responses.py:19-34 | the envelope has `success: false`, the message under `error` and the details under `errors` exactly when they are truthy |
| Responses.NoContentResponse | backend/app/utils/responses.py:40-42 | an empty body with status 204 |
| Responses.EnvelopesDiffer | backend/app/utils/responses.py:12-30 | a success envelope and an error envelope never coincide |
| Listing.Insert | backend/app/core/posters/generation_service.py:156 | placing a row into an ordered listing adds exactly that row, once |
| Listing.InsertDescending | backend/app/core/posters/generation_service.py:156 | placing a row in front of the first one that does not sort before it keeps the listing ordered, newest first |
| Listing.InsertDistinct | backend/app/core/posters/generation_service.py:140-156 | placing a new row keeps every row listed once |
| Listing.DistinctCount | backend/app/core/posters/generation_service.py:140-156 | in a listing without repeats each row occurs at most once |
| Listing.TwoOccurrences | backend/app/core/posters/generation_service.py:140-156 | a row at two positions occurs at least twice |
| Listing.SelectSorted | backend/app/core/posters/generation_service.py:140-156 | the listing holds exactly the rows passing the filter, each once, ordered by the descending sort key |
| Listing.PageItems | backend/app/core/posters/generation_service.py:159-163 | a page never holds more than `per_page` rows, and a page past the end is empty |
| Listing.PageLocation | backend/app/core/posters/generation_service.py:159-170 | every row sits on the page its index names, at the offset its index names, and that page is within the page count |
| ProductRoutes.AllowedFile | backend/app/routes/products.py:15-17 | a name passes only if it has a dot, and then exactly when the text after its last dot, lower-cased, is an allowed extension |
| ProductRoutes.AllowedFileOfParts | backend/app/routes/products.py:15-17 | a name made of any stem, a dot and a dot-free extension passes exactly when the lower-cased extension is allowed |
| ProductRoutes.ClampPaging | backend/app/routes/products.py:51-55 | the page is at least 1 and kept when valid; the page size lies in [1, 100] and falls back to 20 when outside it |
| ProductRoutes.ClampIdempotent | backend/app/routes/products.py:51-55 | clamping already clamped paging changes nothing |
| ProductRoutes.UploadRejection | backend/app/routes/products.py:222-244 | the request passes exactly when a file is present, named, of an allowed type and at most 10 MB; every refusal is a 400 |
| ProductRoutes.UploadProductImage | backend/app/routes/products.py:204-269 | a refused request reads nothing and calls no storage; an unknown or foreign product is a 404; otherwise an existing image is deleted before the upload; the answer is 200 exactly when the upload yields a URL that the image column takes, and then only the product's image URL changes; a failed upload or update is a 500 with the store unchanged |
| ProductRoutes.BulkItems | backend/app/routes/products.py:310-321 | the items are accepted exactly when the body is a mapping whose `products` is a list of at most 100 entries; the other bodies get the source's refusals, including the 500 a list or string body reaches |
| ProductRoutes.Expected | backend/app/routes/products.py:326-345 | an item is known to fail exactly when it is not a mapping or the validator reports or raises something, and its entry carries its index |
| ProductRoutes.MatchesStep | backend/app/routes/products.py:326 | the known entry of the next item extends the record of the items seen |
| ProductRoutes.ReportedStep | backend/app/routes/products.py:330-345 | reporting one more item keeps the earlier items reported |
| ProductRoutes.BulkItem | backend/app/routes/products.py:327-345 | one item ends up either as a new product under a fresh id or as an error entry for its index, the known entry when there is one, with the table unchanged; the table and the session's state afterwards are those `ItemStep` gives |
| ProductRoutes.ItemStep | backend/app/routes/products.py:326-345 | a malformed or refused item gives its known entry and leaves the session as it is; a product made takes the next id and is added to the table; a commit that fails leaves the session inactive, and an inactive session makes nothing and stays inactive |
| ProductRoutes.AcceptedStep | backend/app/routes/products.py:337-345 | an item the validator accepts comes to what `create_product` answers in the session, and a failed commit makes the session inactive |
| ProductRoutes.CreateAccepted | backend/app/routes/products.py:337-345 | handing an accepted item to `create_product` changes the table and the session as `ItemStep` says |
| ProductRoutes.Run | backend/app/routes/products.py:326-345 | every item is counted once; from an inactive session nothing is made and the session stays as it is |
| ProductRoutes.InactiveStays | backend/app/routes/products.py:326-345 | once the session is inactive the loop makes nothing more and leaves the session as it is |
| ProductRoutes.RunWithAppend | backend/app/routes/products.py:326 | whatever the step, the loop over two lists one after the other is the loop over the first followed by the loop over the second from the state the first left |
| ProductRoutes.RunAppend | backend/app/routes/products.py:326-345 | the bulk loop over two lists one after the other is the loop over the first followed by the loop over the second from the session the first left |
| ProductRoutes.NothingAfterFailedCommit | backend/app/routes/products.py:326-345 | once a commit among the first n items has failed, the rest of the list makes nothing, leaves the table as it is and adds one error entry per item |
| ProductRoutes.FailedCommitStopsLaterItems | backend/app/routes/products.py:326-345 | a first item that passes validation but whose commit fails leaves the whole list unmade, every item with an error entry and the table unchanged |
| ProductRoutes.RunStep | backend/app/routes/products.py:326-345 | one turn of the loop moves one item from what remains to what is done, without changing the overall result |
| ProductRoutes.CreateNext | backend/app/routes/products.py:326-345 | one turn of the loop keeps the equation between what is done, what remains and the whole list's result, and the loop's account |
| ProductRoutes.CreatedIdsAppend | backend/app/routes/products.py:339 | a product made adds exactly its id to the ids made |
| ProductRoutes.TallyMade | backend/app/routes/products.py:338-339 | the loop's account stays true after one more product is made |
| ProductRoutes.TallyReported | backend/app/routes/products.py:330-345 | the loop's account stays true after one more item is reported |
| ProductRoutes.EveryKnownEntryReported | backend/app/routes/products.py:326-345 | after the loop, every malformed or refused item has its entry in the errors |
| ProductRoutes.CreateAll | backend/app/routes/products.py:323-345 | after the loop each item is in exactly one of the two lists, the error indices increase, every known entry is reported and only the products made were added; the lists and the table are exactly what `Bulk` gives item by item in one session that a failed commit leaves inactive |
| ProductRoutes.BulkCreateProducts | backend/app/routes/products.py:292-355 | a refused body changes nothing; otherwise every item is counted once in `created` or `errors`, every malformed or invalid item is reported, the table gains exactly the products made, the lists are exactly what `Bulk` gives in one session that a failed commit leaves inactive, and the message reads `Created N products` for the N made |
| PosterRoutes.Ints | backend/app/routes/posters.py:49-57 | a list is read as integers exactly when every element is one, keeping length and order |
| PosterRoutes.CheckGenerate | backend/app/routes/posters.py:36-51 | a falsy body, a falsy `template_id` and an empty or non-list `product_ids` are 400s with their messages; a body that is not a mapping is the 500 failure; a falsy `campaign_id` names no campaign and never stops the request; an accepted request carries exactly the ids the body names |
| PosterRoutes.QueuedMessage | backend/app/routes/posters.py:60-63 | the message is singular exactly when one poster is queued |
| PosterRoutes.JobJson | backend/app/core/posters/generation_service.py:78-100 | the job answer holds exactly the job id, kind, template, products and total |
| PosterRoutes.GeneratePosters | backend/app/routes/posters.py:11-68 | a refused request queues nothing and answers its status and message; a request the service refuses answers 400 with its message and queues nothing; a queued job is a 201 carrying the job and a message that counts the posters |
| PosterRoutes.MessageAgreesWithJob | backend/app/routes/posters.py:60-63 | the message is singular exactly for a single job |
| PosterRoutes.GetPosters | backend/app/routes/posters.py:118-142 | the paging is clamped as for products; the listing holds exactly the user's posters passing the filters, distinct and newest first; the page is the `page`-th slice of `per_page` of them, with the page count and `has_next`/`has_prev` to match |
| PosterRoutes.Filter | backend/app/routes/posters.py:225 | the filter keeps only alphanumerics, space, `_`, `-` and `.`, never lengthening the name |
| PosterRoutes.FilterAppend | backend/app/routes/posters.py:225 | filtering a concatenation filters each part |
| PosterRoutes.FilterKeepsKept | backend/app/routes/posters.py:225 | a name of kept characters passes the filter unchanged |
| PosterRoutes.StripKept | backend/app/routes/posters.py:225 | `strip()` of kept characters leaves only kept characters |
| PosterRoutes.StripUnspaced | backend/app/routes/posters.py:225 | a name without surrounding whitespace is left alone by `strip()` |
| PosterRoutes.Sanitize | backend/app/routes/posters.py:225 | a sanitised name is no longer than the original, holds only kept characters and has no surrounding whitespace |
| PosterRoutes.SanitizeIdempotent | backend/app/routes/posters.py:225 | sanitising a sanitised name changes nothing |
| PosterRoutes.NamePrefix | backend/app/routes/posters.py:223 | at most the first 30 characters of the product name, all of it when it is short |
| PosterRoutes.IntTextKept | backend/app/routes/posters.py:223-225 | the poster id's decimal text survives the filter |
| PosterRoutes.HeadKept | backend/app/routes/posters.py:223-225 | the `poster_<id>_` head passes the filter unchanged |
| PosterRoutes.EntryNameShape | backend/app/routes/posters.py:223-225 | an entry name is the `poster_<id>_` head, the filtered name prefix and `.png`, so it is bounded by the id's length plus 42 |
| PosterRoutes.Entry | backend/app/routes/posters.py:211-231 | a requested id adds an entry exactly when it names the user's generated poster with an image that downloads and a product; the entry is the sanitised name and the downloaded bytes |
| PosterRoutes.EntriesAppend | backend/app/routes/posters.py:211-231 | with every lookup answering found or not found, the ids are handled independently: a skipped poster does not affect the others |
| PosterRoutes.EntriesFromIds | backend/app/routes/posters.py:211-231 | the archive has no more entries than ids, and each comes from one requested id |
| PosterRoutes.ArchiveHoldsOwnGeneratedPosters | backend/app/routes/posters.py:211-231 | every archive entry is a generated poster of the user, under a name of kept characters |
| PosterRoutes.DownloadPosters | backend/app/routes/posters.py:186-243 | a body that is not a mapping is the 500 failure; a missing, empty or non-list `poster_ids` is a 400; otherwise the archive is the entries of the requested ids, in order |
| S3Storage.ObjectKey | backend/app/infrastructure/storage/s3_storage.py:40-42 | an object key is the folder, a slash, the UUID and the upload's extension, so it always lies under `{folder}/` |
| S3Storage.ExtractKey | backend/app/infrastructure/storage/s3_storage.py:79 | no key is read exactly when the URL does not contain the marker |
| S3Storage.MarkerSlash | backend/app/infrastructure/storage/s3_storage.py:57 | with slash-free bucket and region the marker is at least 19 characters and its only slash is its last character |
| S3Storage.FirstMarkerAfterScheme | backend/app/infrastructure/storage/s3_storage.py:57 | in a public URL the marker first occurs right after `https://` |
| S3Storage.KeyRoundTrip | backend/app/infrastructure/storage/s3_storage.py:57-79 | reading the key back out of the public URL of a key gives that key, when bucket and region are slash-free and the key does not repeat the marker |
| S3Storage.NoMarkerNoKey | backend/app/infrastructure/storage/s3_storage.py:79 | a URL without the marker yields no key |
| S3Storage.BucketText | backend/app/infrastructure/storage/s3_storage.py:79 | the bucket as the f-string shows it: `None` before the client is made |
| S3Storage.S3Storage.constructor | backend/app/infrastructure/storage/s3_storage.py:11-13 | a new store has neither client nor bucket |
| S3Storage.S3Storage.GetClient | backend/app/infrastructure/storage/s3_storage.py:15-25 | the client and the bucket are made from the settings on first use and kept afterwards |
| S3Storage.S3Storage.UploadFile | backend/app/infrastructure/storage/s3_storage.py:27-65 | the client is set up; the answer is a URL exactly when the upload of `{folder}/{uuid}{ext}` succeeds, and that URL is the key's public URL |
| S3Storage.S3Storage.DeleteFile | backend/app/infrastructure/storage/s3_storage.py:67-87 | as written: the answer is the key read with the bucket the store holds when called, then deleted; a URL without that marker fails before the client is made |
| S3Storage.FreshStoreCannotDelete | backend/app/infrastructure/storage/s3_storage.py:79-81 | on a fresh store, deleting the URL of any key of a bucket, region and key without a capital `N` fails, because the marker then begins with `None` |
| S3Storage.S3Storage.DeleteFileAfterSetup | backend/app/infrastructure/storage/s3_storage.py:79-82 | with the client made first, the key is read with the configured bucket's marker |
| S3Storage.UploadThenDelete | backend/app/infrastructure/storage/s3_storage.py:57-82 | with the client made first, the URL an upload answers deletes exactly that key, fresh store or not |
| CloudinaryStorage.IndexOf | backend/app/infrastructure/storage/cloudinary_storage.py:76 | `list.index`: the first position holding the value |
| CloudinaryStorage.AfterUpload | backend/app/infrastructure/storage/cloudinary_storage.py:74-77 | no tail is read exactly when no path segment is `upload`, the case in which `index` raises |
| CloudinaryStorage.PublicIdOf | backend/app/infrastructure/storage/cloudinary_storage.py:74-84 | as written, no public id is read exactly when no path segment is `upload` |
| CloudinaryStorage.SplitExtParts | backend/app/infrastructure/storage/cloudinary_storage.py:82-84 | `splitext` of a dot-free stem followed by an extension splits at that extension |
| CloudinaryStorage.SplitLead | backend/app/infrastructure/storage/cloudinary_storage.py:74 | splitting a path on `/` separates a slash-free leading segment |
| CloudinaryStorage.SplitLead3 | backend/app/infrastructure/storage/cloudinary_storage.py:74 | the same for three leading segments |
| CloudinaryStorage.DeliveryUrlSegments | backend/app/infrastructure/storage/cloudinary_storage.py:73 | a delivery URL is made of its scheme, host, cloud, `image`, `upload` and tail segments |
| CloudinaryStorage.DeliverySplit | backend/app/infrastructure/storage/cloudinary_storage.py:74 | the segments of a delivery URL, as `split('/')` finds them |
| CloudinaryStorage.AfterUploadDelivery | backend/app/infrastructure/storage/cloudinary_storage.py:74-77 | on a delivery URL of a slash-free cloud name other than `upload`, the text after `upload/` is the tail |
| CloudinaryStorage.VersionedTail | backend/app/infrastructure/storage/cloudinary_storage.py:79-82 | a tail `v{version}/{public id}{ext}` yields the public id |
| CloudinaryStorage.UploadedUrlYieldsId | backend/app/infrastructure/storage/cloudinary_storage.py:73-84 | the versioned URL an upload answers yields the public id it was uploaded under |
| CloudinaryStorage.VersionlessIdMisread | backend/app/infrastructure/storage/cloudinary_storage.py:79-82 | as written, a version-less URL whose path starts with `v` loses its first segment: `videos/clip.mp4` yields `clip` |
| CloudinaryStorage.PublicIdOfFixed | backend/app/infrastructure/storage/cloudinary_storage.py:74-84 | with the corrected reading, no public id is read exactly when no path segment is `upload` |
| CloudinaryStorage.FixedVersionedTail | backend/app/infrastructure/storage/cloudinary_storage.py:79-82 | the corrected reading drops a numeric version segment and yields the public id |
| CloudinaryStorage.FixedVersionlessTail | backend/app/infrastructure/storage/cloudinary_storage.py:79-84 | the corrected reading keeps a version-less `{folder}/{name}` whole |
| CloudinaryStorage.FixedVersionlessUrl | backend/app/infrastructure/storage/cloudinary_storage.py:73-84 | the corrected reading keeps a version-less URL's whole public id |
| CloudinaryStorage.FixedReadsVersionlessVideo | backend/app/infrastructure/storage/cloudinary_storage.py:79-84 | the corrected reading gives `videos/clip` for the URL the as-written reading misreads |
| CloudinaryStorage.FixedUploadedUrlYieldsId | backend/app/infrastructure/storage/cloudinary_storage.py:73-84 | the corrected reading still gives the uploaded public id for the SDK's versioned URL |
| CloudinaryStorage.UploadAnswer | backend/app/infrastructure/storage/cloudinary_storage.py:53-57 | the answer is the reply's `secure_url` exactly when the call succeeded and the reply carries one |
| CloudinaryStorage.DeleteAnswer | backend/app/infrastructure/storage/cloudinary_storage.py:86-92 | deletion answers true exactly when an id was read and the SDK's reply says `ok` |
| CloudinaryStorage.CloudinaryStorage.constructor | backend/app/infrastructure/storage/cloudinary_storage.py:13-14 | a new store is not configured |
| CloudinaryStorage.CloudinaryStorage.Configure | backend/app/infrastructure/storage/cloudinary_storage.py:16-24 | the SDK is configured with the settings on first use only |
| CloudinaryStorage.CloudinaryStorage.UploadFile | backend/app/infrastructure/storage/cloudinary_storage.py:26-57 | the SDK is configured; the upload goes under `{folder}/{uuid}`, and the answer is the reply's secure URL |
| CloudinaryStorage.CloudinaryStorage.DeleteFile | backend/app/infrastructure/storage/cloudinary_storage.py:59-92 | as written: the SDK is configured and the public id the URL yields is destroyed |
| CloudinaryStorage.CloudinaryStorage.DeleteFileFixed | backend/app/infrastructure/storage/cloudinary_storage.py:59-92 | the same with the corrected reading of the public id |

## Left out

- ImageLayer.TryRender: `x`, `y`, `w` and `h` must be integers (a bool counts) and the sides positive; a float position or side, or a side of 0 or less, is modelled as the exception it raises in `paste` or `resize`, although Pillow accepts some of them (a float crop box is rounded, and a zero-width box with `fit` cover proceeds). Pillow's own integer checks are not modelled in more detail.
- ImageLayer.RenderFetched: inherits the integer position and positive sides of `ImageLayer.TryRender`.
- ImageLayer.Render: inherits the integer position and positive sides of `ImageLayer.TryRender`.
- ImageLayer.ContainFillsBox: the thumbnail's size follows Pillow's `round_aspect` (nearest aspect-preserving side, ties to the smaller) in exact arithmetic; Pillow compares in floating point, which can break a near-tie the other way.
- Json.PyStr: lists and mappings are printed as `[...]` and `{...}` rather than Python's `repr`, because a mapping here keeps no insertion order to print in. This affects text drawn from a list or mapping value and the `Layer i has invalid type` message of a layer whose type is a list or mapping.
- TextLayer.ValueWins: a static `value` that is a list or mapping is drawn abbreviated, as `Json.PyStr` prints it.
- TextLayer.Render: text drawn from a list or mapping is abbreviated, as `Json.PyStr` prints it.
- TemplateValidators.LayerError: a layer type that is a list or mapping is printed abbreviated, as `Json.PyStr` prints it.
- ProductValidators.PriceRange: a price string is read as an optional sign and plain decimal digits with at most one point; Python's `float()` also reads exponents (`1e3`), underscores (`1_000`), `inf` and `nan`, and `nan` passes both range checks. Those forms are answered as not a number.
- ProductService.ParsePrice: reads prices as `ProductValidators.PriceRange` does, so `1e3`, `1_000`, `inf` and `nan` are refused as `Invalid price format`.
- ProductService.NewProduct: inherits the price reading of `ProductService.ParsePrice`.
- ProductService.Updated: inherits the price reading of `ProductService.ParsePrice`.
- ProductValidators.CreateAcceptsExactly: inherits the price reading of `ProductValidators.PriceRange`.
- ProductValidators.CreatePriceErrors: inherits the price reading of `ProductValidators.PriceRange`.
- ProductValidators.UpdatePriceErrors: inherits the price reading of `ProductValidators.PriceRange`.
- ProductValidators.CreateHeadClean: inherits the price reading of `ProductValidators.PriceRange`.
- ProductValidators.UpdateHeadClean: inherits the price reading of `ProductValidators.PriceRange`.
- ProductValidators.ValidateCreate: inherits the price reading of `ProductValidators.PriceRange`.
- ProductValidators.ValidateUpdate: inherits the price reading of `ProductValidators.PriceRange`.
- ProductValidators.UpdateAcceptsExactly: inherits the price reading of `ProductValidators.PriceRange`.
- ProductService.ValidatedDataCreates: inherits the price reading of `ProductService.ParsePrice`.
- ProductService.CreateProduct: inherits the price reading of `ProductService.ParsePrice`.
- ProductService.UpdateProduct: inherits the price reading of `ProductService.ParsePrice`.
- ProductRoutes.BulkItem: inherits the price reading of `ProductService.ParsePrice`.
- ProductRoutes.CreateAll: inherits the price reading of `ProductService.ParsePrice`.
- ProductRoutes.BulkCreateProducts: inherits the price reading of `ProductService.ParsePrice`.
- ProductService.Committed: the error texts are only the first line of the driver's or PostgreSQL's message. Python's `str(e)` also carries the driver's exception name, a `DETAIL` line where there is one, the SQL statement, its parameters and a link to background notes.
- ProductService.Committed: a text longer than its column whose excess is all spaces is stored by PostgreSQL cut to the column's length; the model accepts it but keeps the whole text. Only an image URL can carry such an excess, since the other texts are stripped.
- ProductService.Committed: an image URL that is a number, a bool or a list is stored by PostgreSQL as its text form. The model keeps the JSON value, accepts it whatever the length of that text, and accepts a list mixing types, which PostgreSQL refuses.
- ProductService.Updated: shares the column gaps of `ProductService.Committed` for the columns it changes.
- ProductService.UpdateProductImage: shares the trailing-space gap of `ProductService.Committed`.
- TemplateService.Committed: shares the error-text, trailing-space and non-text URL gaps of `ProductService.Committed`, for the name and both URLs.
- TemplateService.Updated: shares the column gaps of `TemplateService.Committed` for the columns it changes.
- TemplateService.DuplicateTemplate: shares the column gaps of `TemplateService.Committed`.
- Authentication.RegisterUser: shares the error-text and trailing-space gaps of `ProductService.Committed` for the user name and email. The password hash is taken to fit its 255 characters, as every hash the library makes does.
- ProductService.CreateInInactiveSession: the rollback error's text stops after its first two sentences. Python's also names the original exception and links to background notes.
- ProductService.NewProduct: a truthy SKU that is not a string is modelled as matching no stored row, so the create fails on `strip`. On PostgreSQL the lookup itself raises, because no operator compares the text column with a number, and the transaction is left aborted.
- ProductRoutes.BulkCreateProducts: inherits the SKU gap of `ProductService.NewProduct`: after such an item, Python's later items fail because the transaction is aborted, while the model goes on.
- Engine.Render: Pillow also refuses a side too large for a C int and a canvas too large to allocate. Those limits are not modelled.
- BaseLayer.Resolve: `getattr` is an oracle over data values; attributes that are methods or other objects with no JSON form are not modelled.
- Pixels: Pillow's drawing, resampling, alpha compositing, PNG encoding and text measurement. The canvas records the draw operations and their arguments instead; pictures are symbolic terms.
- Floating point: gradient channels, cover scaling and prices use exact rationals with truncation toward zero. Python's binary rounding is not modelled, and `str()` of a float is approximated by its decimal expansion. A JSON integer price beyond the float range makes Python's `float()` raise `OverflowError`, which neither the validators nor the service catch, so Python answers `int too large to convert to float` or a 500; the model reads the exact value, and the validator answers `Price is too large`.
- Unicode: `isalnum`, `isspace`, `lower` and `split` are modelled on ASCII. Non-ASCII letters count as neither alphanumeric nor whitespace.
- The database: commits, rollbacks, the session and its identity map are abstracted.
  - A failed operation leaves the tables unchanged.
  - The session's state is modelled only in bulk create: a commit that fails leaves the session inactive, since nothing rolls it back, and every later lookup or commit of the request raises.
  - Foreign keys are not enforced, except the cascade from a product to its posters.
  - Deleting a template that posters refer to is not modelled.
- `get_user_products` (product search with `ilike`, category filter, pagination) is not modelled. Its listing shape is the one proved for posters, and `ilike` pattern matching is outside the string model.
- `paginate` itself is modelled only as the page slice and page count. Its SQL `LIMIT/OFFSET` is not.
- Thin routes are left out, because they only forward to modelled service calls and map `ValueError` to 404 and anything else to 500:
  - auth and template routes;
  - `get_poster`, `delete_poster`, `get_stats` and `get_job_status`;
  - product CRUD routes other than image upload and bulk create.
- `get_products` reads `page` and `per_page` with `int()`. A non-numeric value there, which answers 500, is not modelled; only the clamp is.
- Non-integer ids: the model reads only JSON integers as ids. PostgreSQL compares a numeric string (`"5"`) or a float (`5.0`) with an integer key, so Python finds those rows; other values (`"abc"`, `true`, a list) make the lookup raise. The lines below say what each member then does differently.
- PosterRoutes.CheckGenerate: a `template_id`, product id or truthy `campaign_id` that is not a JSON integer is answered 500 here; in Python a numeric string or float id is looked up as the integer and the request can be queued.
- PosterRoutes.GeneratePosters: inherits the id reading of `PosterRoutes.CheckGenerate`; also, a falsy `campaign_id` other than null and 0 (`false`, `""`, `0.0`, `[]`, `{}`) is handed to the job as null, where Python hands on the value itself.
- PosterRoutes.Entry: only a JSON integer id is looked up; a numeric string or float id that Python finds is taken as not found.
- PosterRoutes.EntriesAppend: holds only while every lookup answers found or not found; in Python an id whose lookup raises in PostgreSQL (`"abc"`, `true`) aborts the transaction, and every later id of the request then fails and is skipped too.
- PosterRoutes.DownloadPosters: inherits the id reading of `PosterRoutes.Entry` and the independence gap of `PosterRoutes.EntriesAppend`.
- `ProductRoutes.InvalidTypeMessage` fixes one order of the allowed extensions. Python prints a set in hash order.
- The `plan_limit` and `requires_feature` route guards are modelled one at a time. Their stacking on a particular route is not composed into one member.
- `enqueue_job`'s fallback that retries without a timeout on `TypeError` is not modelled. The RQ library is not part of this model.
- Missing settings: a `KeyError` from a missing setting in `_get_client` or `_configure` is not modelled. The settings are passed in whole.
- The Cloudinary SDK configuration is global to the process. The model keeps it per store. The extension that `upload_file` computes and never uses is not modelled.
- S3 URLs are built with the region read from the application settings at each call. The model passes the settings to each call.
- Email delivery, logging and console output are left out. None of them reaches a result.
- Access tokens: the JWT is modelled as the user id's text. Signing, expiry and verification are an oracle (`identity` in `Decorators.AuthRequired`).
- Password hashing is an uninterpreted function `Hashed`.
- The storage and network oracles are functions, so the same call always gets the same answer. Retries and flaky services are not modelled.
- Concurrency is not modelled: parallel workers, and two requests racing on the same SKU or the same reset token.

## Findings

| source | as written | input that shows it | evidently intended | confidence | as-written member | corrected member |
|---|---|---|---|---|---|---|
| backend/app/utils/decorators.py:107 | `admin_required` reads `current_user.is_admin`, which the user model does not define; under `auth_required` the `AttributeError` becomes 401 | any authenticated request to a route guarded by `admin_required` | administrators reach the handler, and anyone else gets 403 | high, not executed | Decorators.AdminGuardLocksOutEveryone | Decorators.AdminReachesHandler |
| backend/app/infrastructure/storage/s3_storage.py:79-81 | `delete_file` builds the URL marker from `self.bucket` before `_get_client` has set it, so on a fresh store the marker starts with `None` | the first call on a new store, `delete_file("https://b.s3.r.amazonaws.com/products/x.png")` | the marker names the configured bucket, so the URL `upload_file` answers deletes its key | high, not executed | S3Storage.FreshStoreCannotDelete | S3Storage.UploadThenDelete |
| backend/app/infrastructure/storage/cloudinary_storage.py:79-82 | any tail after `upload/` that starts with `v` loses its first segment as if it were a version | `https://res.cloudinary.com/c/image/upload/videos/clip.mp4` gives the public id `clip` | only a `v` followed by digits is a version; `videos/clip` is destroyed | medium, not executed | CloudinaryStorage.VersionlessIdMisread | CloudinaryStorage.FixedReadsVersionlessVideo |

=== FILE: arith.dfy ===
/** Small facts about integer multiplication and floor division that the
    solver does not find unaided. */
module Arith {
  lemma MulLe(x: int, y: int, d: int)
    requires d >= 0 && x <= y
    ensures x * d <= y * d
  {}

  lemma MulCancelLt(x: int, y: int, d: int)
    requires d > 0 && x * d < y * d
    ensures x < y
  {}

  lemma DivBounds(n: int, d: int)
    requires d > 0
    ensures (n / d) * d <= n < (n / d) * d + d
  {}

  lemma DivMonotone(a: int, b: int, d: int)
    requires d > 0 && a <= b
    ensures a / d <= b / d
  {
    DivBounds(a, d);
    DivBounds(b, d);
    MulCancelLt(a / d, b / d + 1, d);
  }

  lemma DivExact(k: int, d: int)
    requires d > 0
    ensures (k * d) / d == k
  {
    DivBounds(k * d, d);
    MulCancelLt((k * d) / d, k + 1, d);
    MulCancelLt(k - 1, (k * d) / d, d);
  }

  lemma MulLt(x: int, y: int, d: int)
    requires d > 0 && x < y
    ensures x * d < y * d
  {}
}

=== FILE: authentication.dfy ===
/** Accounts and password resets (backend/app/core/auth/authentication.py).
    Emails are stored lower-cased and are unique; each user has at most
    one reset-token record, overwritten by every new request, and a token
    resets the password once. The clock is the `now` argument, a fresh
    random token is the `newToken` argument, and the access token issued is
    the user id as text (see `Decorators.TokenIdentifiesUser`). Sending
    email is not modelled: its outcome never reaches the result. */
module Authentication {
  import opened Wrappers
  import opened Strings
  import opened Models

  const MinPasswordLength := 8
  const ResetLifetime := 3600   // one hour, in seconds
  const GenericResetMessage := "If an account exists with this email, you will receive a password reset link shortly."

  /** The `unique=True` constraint on `User.email`, with every stored email
      lower-cased by `register_user`. */
  ghost predicate EmailsNormal(users: map<int, User>) {
    (forall k :: k in users ==> Lower(users[k].email) == users[k].email)
    && forall a, b :: a in users && b in users && a != b ==> users[a].email != users[b].email
  }

  /** At most one reset record per user, and tokens unique (the `unique=True`
      constraint on `PasswordResetToken.token`). */
  ghost predicate ResetsNormal(resets: map<int, ResetRecord>) {
    (forall a, b :: a in resets && b in resets && a != b ==> resets[a].userId != resets[b].userId)
    && forall a, b :: a in resets && b in resets && a != b ==> resets[a].token != resets[b].token
  }

  predicate EmailTaken(users: map<int, User>, email: string) {
    exists k :: k in users && users[k].email == email
  }

  predicate HasPlanNamed(plans: map<int, Plan>, name: string) {
    exists k :: k in plans && plans[k].name == name
  }

  predicate TokenInUse(resets: map<int, ResetRecord>, token: string) {
    exists k :: k in resets && resets[k].token == token
  }

  /** A record `filter_by(token=token, used=False)` finds. */
  predicate Live(resets: map<int, ResetRecord>, token: string, k: int) {
    k in resets && resets[k].token == token && !resets[k].used
  }

  /** `not p or len(p) < 8`. */
  predicate WeakPassword(p: string) {
    p == "" || |p| < MinPasswordLength
  }

  /** The first of `register_user`'s checks that fails, if any. */
  function RegisterError(users: map<int, User>, plans: map<int, Plan>, email: string, password: string,
                         userName: string): (e: Option<string>)
    ensures e.None? <==> email != "" && '@' in email && !WeakPassword(password) && |userName| >= 2
                         && !EmailTaken(users, Lower(email)) && HasPlanNamed(plans, "Free")
  {
    if email == "" || '@' !in email then Some("Invalid email address")
    else if WeakPassword(password) then Some("Password must be at least 8 characters")
    else if userName == "" || |userName| < 2 then Some("User name must be at least 2 characters")
    else if EmailTaken(users, Lower(email)) then Some("Email already registered")
    else if !HasPlanNamed(plans, "Free") then Some("Default plan not found")
    else None
  }

  /** Lower-casing twice changes nothing. */
  lemma LowerIdempotent(s: string)
    ensures Lower(Lower(s)) == Lower(s)
  {
    var l := Lower(s);
    forall i | 0 <= i < |s| ensures Lower(l)[i] == l[i] {
      if 'A' <= l[i] <= 'Z' {
        assert 'A' <= s[i] <= 'Z';
      }
    }
  }

  /** The error the INSERT of a new user raises, if any: `user_name` is a
      `String(80)` column and `email` a `String(120)` one (user.py:10-11),
      checked in that order. The password hash is shorter than its
      `String(255)` column for every hashing method of the library and
      always fits. */
  function UserInsertError(userName: string, email: string): (e: Option<string>)
    ensures e.None? <==> TextFits(userName, 80) && TextFits(email, 120)
    ensures e.Some? ==> e == Some(TooLong(80)) || e == Some(TooLong(120))
    ensures !TextFits(userName, 80) ==> e == Some(TooLong(80))
  {
    if !TextFits(userName, 80) then Some(TooLong(80))
    else if !TextFits(email, 120) then Some(TooLong(120))
    else None
  }

  /** `register_user`: a new user on the Free plan, with the email
      lower-cased and the password hashed. */
  method RegisterUser(db: Database, email: string, password: string, userName: string, now: int)
    returns (r: Result<User>)
    requires db.Valid() && EmailsNormal(db.users)
    modifies db
    ensures db.Valid() && EmailsNormal(db.users)
    ensures r.Err? <==> RegisterError(old(db.users), old(db.plans), email, password, userName).Some?
                        || UserInsertError(userName, Lower(email)).Some?
    ensures RegisterError(old(db.users), old(db.plans), email, password, userName).Some? ==>
              r == Err(RegisterError(old(db.users), old(db.plans), email, password, userName).value)
    ensures RegisterError(old(db.users), old(db.plans), email, password, userName).None? && r.Err? ==>
              r == Err(UserInsertError(userName, Lower(email)).value)
    ensures r.Err? ==> db.users == old(db.users) && db.nextId == old(db.nextId)
    ensures r.Ok? ==> r.value.id !in old(db.users) && db.users == old(db.users)[r.value.id := r.value]
    ensures r.Ok? ==> r.value.email == Lower(email) && r.value.userName == userName
                      && r.value.passwordHash == Hashed(password) && r.value.monthlyGenerations == 0
                      && r.value.passwordChangedAt == Some(now)
                      && r.value.planId in db.plans && db.plans[r.value.planId].name == "Free"
    ensures db.plans == old(db.plans) && db.products == old(db.products) && db.templates == old(db.templates)
    ensures db.posters == old(db.posters) && db.campaigns == old(db.campaigns) && db.resets == old(db.resets)
  {
    var e := RegisterError(db.users, db.plans, email, password, userName);
    if e.Some? {
      return Err(e.value);
    }
    var refused := UserInsertError(userName, Lower(email));
    if refused.Some? {
      return Err(refused.value);
    }
    var planId :| planId in db.plans && db.plans[planId].name == "Free";
    var id := db.NewId();
    var user := User(id, userName, Lower(email), Hashed(password), planId, 0, Some(now), now);
    LowerIdempotent(email);
    db.users := db.users[id := user];
    r := Ok(user);
  }

  /** `login_user`: the user whose email matches and whose password
      checks; an unknown email and a wrong password get the same answer. */
  method LoginUser(users: map<int, User>, email: string, password: string) returns (r: Result<User>)
    requires EmailsNormal(users)
    ensures r.Ok? <==> exists k :: k in users && users[k].email == Lower(email) && users[k].passwordHash == Hashed(password)
    ensures r.Ok? ==> r.value in users.Values && r.value.email == Lower(email)
    ensures r.Err? ==> r.error == "Invalid email or password"
  {
    if !EmailTaken(users, Lower(email)) {
      return Err("Invalid email or password");
    }
    var k :| k in users && users[k].email == Lower(email);
    if users[k].passwordHash != Hashed(password) {
      return Err("Invalid email or password");
    }
    r := Ok(users[k]);
  }

  /** `get_current_user`. */
  function GetCurrentUser(users: map<int, User>, id: int): (r: Result<User>)
    ensures r.Ok? <==> id in users
    ensures r.Ok? ==> r.value == users[id]
    ensures r.Err? ==> r.error == "User not found"
  {
    if id in users then Ok(users[id]) else Err("User not found")
  }

  /** Giving a user's record an unused token keeps the records normal. */
  lemma OverwriteKeepsNormal(resets: map<int, ResetRecord>, k: int, token: string, expiry: int)
    requires ResetsNormal(resets) && k in resets && !TokenInUse(resets, token)
    ensures ResetsNormal(resets[k := resets[k].(token := token, expiresAt := expiry, used := false)])
  {
    var m := resets[k := resets[k].(token := token, expiresAt := expiry, used := false)];
    forall a, b | a in m && b in m && a != b ensures m[a].userId != m[b].userId && m[a].token != m[b].token {
      if a == k {
        assert resets[b].token != token;
      } else if b == k {
        assert resets[a].token != token;
      }
    }
  }

  /** A first record for a user, with an unused token, keeps the records
      normal. */
  lemma InsertKeepsNormal(resets: map<int, ResetRecord>, id: int, record: ResetRecord)
    requires ResetsNormal(resets) && id !in resets && !TokenInUse(resets, record.token)
    requires forall k :: k in resets ==> resets[k].userId != record.userId
    ensures ResetsNormal(resets[id := record])
  {
    var m := resets[id := record];
    forall a, b | a in m && b in m && a != b ensures m[a].userId != m[b].userId && m[a].token != m[b].token {
      if a == id {
        assert resets[b].token != record.token;
      } else if b == id {
        assert resets[a].token != record.token;
      }
    }
  }

  /** `forgot_password`: for a known email the user's single reset record
      gets the new token, expires an hour from now and is unused again;
      the answer is the same whether or not the email is known. */
  method ForgotPassword(db: Database, email: string, now: int, newToken: string) returns (message: string)
    requires db.Valid() && EmailsNormal(db.users) && ResetsNormal(db.resets)
    requires !TokenInUse(db.resets, newToken)
    modifies db
    ensures db.Valid() && ResetsNormal(db.resets)
    ensures message == GenericResetMessage
    ensures !EmailTaken(old(db.users), Lower(email)) ==> db.resets == old(db.resets) && db.nextId == old(db.nextId)
    ensures EmailTaken(old(db.users), Lower(email)) ==>
              exists k :: k in db.resets && db.resets[k].token == newToken && !db.resets[k].used
                          && db.resets[k].expiresAt == now + ResetLifetime
                          && db.resets[k].userId in db.users && db.users[db.resets[k].userId].email == Lower(email)
    // records of other users are untouched
    ensures forall k :: (k in old(db.resets) && (old(db.resets)[k].userId !in db.users
                           || db.users[old(db.resets)[k].userId].email != Lower(email))) ==>
              k in db.resets && db.resets[k] == old(db.resets)[k]
    ensures forall k :: k in db.resets && k !in old(db.resets) ==> db.resets[k].token == newToken
    ensures db.users == old(db.users) && db.plans == old(db.plans) && db.products == old(db.products)
    ensures db.templates == old(db.templates) && db.posters == old(db.posters) && db.campaigns == old(db.campaigns)
  {
    message := GenericResetMessage;
    if !EmailTaken(db.users, Lower(email)) {
      return;
    }
    var uid :| uid in db.users && db.users[uid].email == Lower(email);
    IssueReset(db, uid, newToken, now + ResetLifetime);
  }

  /** The reset record `forgot_password` leaves for a known user: the
      user's existing record takes the new token, or a first record is
      added for the user. */
  method IssueReset(db: Database, uid: int, newToken: string, expiry: int)
    requires db.Valid() && ResetsNormal(db.resets) && !TokenInUse(db.resets, newToken) && uid in db.users
    modifies db
    ensures db.Valid() && ResetsNormal(db.resets)
    ensures exists k :: Live(db.resets, newToken, k) && db.resets[k].userId == uid && db.resets[k].expiresAt == expiry
    ensures forall k :: k in old(db.resets) && old(db.resets)[k].userId != uid ==>
              k in db.resets && db.resets[k] == old(db.resets)[k]
    ensures forall k :: k in db.resets && k !in old(db.resets) ==> db.resets[k].token == newToken
    ensures db.users == old(db.users) && db.plans == old(db.plans) && db.products == old(db.products)
    ensures db.templates == old(db.templates) && db.posters == old(db.posters) && db.campaigns == old(db.campaigns)
  {
    if exists k :: k in db.resets && db.resets[k].userId == uid {
      var k :| k in db.resets && db.resets[k].userId == uid;
      OverwriteKeepsNormal(db.resets, k, newToken, expiry);
      db.resets := db.resets[k := db.resets[k].(token := newToken, expiresAt := expiry, used := false)];
      assert Live(db.resets, newToken, k);
    } else {
      var id := db.NewId();
      var record := ResetRecord(uid, newToken, expiry, false, None);
      InsertKeepsNormal(db.resets, id, record);
      db.resets := db.resets[id := record];
      assert Live(db.resets, newToken, id);
    }
  }

  /** The record a token names and the user it belongs to, or the error the
      token checks raise; `unknown` is the message for a token that is
      missing or already used. */
  method FindResetRecord(resets: map<int, ResetRecord>, users: map<int, User>, token: string, now: int,
                         unknown: string) returns (r: Result<int>)
    requires ResetsNormal(resets)
    ensures r.Ok? ==> Live(resets, token, r.value) && resets[r.value].expiresAt >= now
                      && resets[r.value].userId in users
    ensures (forall k :: !Live(resets, token, k)) ==> r == Err(unknown)
    ensures forall k :: Live(resets, token, k) ==>
              (resets[k].expiresAt < now ==> r == Err("Reset token has expired"))
              && (resets[k].expiresAt >= now && resets[k].userId !in users ==> r == Err("User not found"))
              && (resets[k].expiresAt >= now && resets[k].userId in users ==> r == Ok(k))
  {
    if !exists k :: k in resets && Live(resets, token, k) {
      return Err(unknown);
    }
    var k :| k in resets && Live(resets, token, k);
    if resets[k].expiresAt < now {
      return Err("Reset token has expired");
    }
    if resets[k].userId !in users {
      return Err("User not found");
    }
    r := Ok(k);
  }

  /** Marking a record used keeps the records normal, and leaves no live
      record for its token. */
  lemma SpendKeepsNormal(resets: map<int, ResetRecord>, k: int, now: int)
    requires ResetsNormal(resets) && k in resets
    ensures var m := resets[k := resets[k].(used := true, usedAt := Some(now))];
            ResetsNormal(m) && forall j :: !Live(m, resets[k].token, j)
  {
    var m := resets[k := resets[k].(used := true, usedAt := Some(now))];
    forall j | j in m && j != k ensures m[j].token != resets[k].token {
      assert resets[j].token != resets[k].token;
    }
  }

  /** `reset_password`: a live, unexpired token sets the new password
      and is used up. */
  method ResetPassword(db: Database, token: string, newPassword: string, now: int) returns (r: Result<User>)
    requires ResetsNormal(db.resets)
    modifies db
    ensures ResetsNormal(db.resets)
    ensures WeakPassword(newPassword) ==> r == Err("Password must be at least 8 characters")
    ensures !WeakPassword(newPassword) && (forall k :: !Live(old(db.resets), token, k)) ==>
              r == Err("Invalid or expired reset token")
    ensures r.Err? ==> db.users == old(db.users) && db.resets == old(db.resets)
    ensures r.Ok? ==> exists k :: Live(old(db.resets), token, k) && old(db.resets)[k].expiresAt >= now
                        && db.resets == old(db.resets)[k := old(db.resets)[k].(used := true, usedAt := Some(now))]
                        && var uid := old(db.resets)[k].userId;
                           uid in old(db.users)
                           && r.value == old(db.users)[uid].(passwordHash := Hashed(newPassword),
                                                             passwordChangedAt := Some(now))
                           && db.users == old(db.users)[uid := r.value]
    // the token is spent: it cannot reset again
    ensures r.Ok? ==> forall k :: !Live(db.resets, token, k)
    ensures db.nextId == old(db.nextId) && db.plans == old(db.plans) && db.products == old(db.products)
    ensures db.templates == old(db.templates) && db.posters == old(db.posters) && db.campaigns == old(db.campaigns)
  {
    if WeakPassword(newPassword) {
      return Err("Password must be at least 8 characters");
    }
    var found := FindResetRecord(db.resets, db.users, token, now, "Invalid or expired reset token");
    if found.Err? {
      return Err(found.error);
    }
    var k := found.value;
    var record := db.resets[k];
    SpendKeepsNormal(db.resets, k, now);
    var user := db.users[record.userId].(passwordHash := Hashed(newPassword), passwordChangedAt := Some(now));
    db.users := db.users[record.userId := user];
    db.resets := db.resets[k := record.(used := true, usedAt := Some(now))];
    r := Ok(user);
    assert Live(old(db.resets), token, k);
  }

  /** `validate_reset_token`: the same checks as a reset, changing nothing;
      the answer carries the user's email and the expiry. */
  method ValidateResetToken(resets: map<int, ResetRecord>, users: map<int, User>, token: string, now: int)
    returns (r: Result<(string, int)>)
    requires ResetsNormal(resets)
    ensures (forall k :: !Live(resets, token, k)) ==> r == Err("Invalid reset token")
    ensures r.Ok? <==> exists k :: Live(resets, token, k) && resets[k].expiresAt >= now && resets[k].userId in users
    ensures r.Ok? ==> exists k :: Live(resets, token, k) && r.value == (users[resets[k].userId].email, resets[k].expiresAt)
  {
    var found := FindResetRecord(resets, users, token, now, "Invalid reset token");
    if found.Err? {
      return Err(found.error);
    }
    var record := resets[found.value];
    r := Ok((users[record.userId].email, record.expiresAt));
  }

  /** A token resets a password at most once: after a successful reset,
      the same token is refused. */
  method ResetTwice(db: Database, token: string, first: string, second: string, now: int, later: int)
    returns (r1: Result<User>, r2: Result<User>)
    requires ResetsNormal(db.resets) && !WeakPassword(second)
    modifies db
    ensures r1.Ok? ==> r2 == Err("Invalid or expired reset token")
  {
    r1 := ResetPassword(db, token, first, now);
    r2 := ResetPassword(db, token, second, later);
  }

  /** After `forgot_password` for a known user, that user's newToken token is
      accepted by `validate_reset_token` until it expires. */
  method ForgotThenValidate(db: Database, email: string, now: int, newToken: string, at: int)
    returns (r: Result<(string, int)>)
    requires db.Valid() && EmailsNormal(db.users) && ResetsNormal(db.resets) && !TokenInUse(db.resets, newToken)
    requires EmailTaken(db.users, Lower(email)) && at <= now + ResetLifetime
    modifies db
    ensures r.Ok? && r.value.0 == Lower(email)
  {
    var _ := ForgotPassword(db, email, now, newToken);
    r := ValidateResetToken(db.resets, db.users, token := newToken, now := at);
    var k :| k in db.resets && db.resets[k].token == newToken && !db.resets[k].used
             && db.resets[k].expiresAt == now + ResetLifetime
             && db.resets[k].userId in db.users && db.users[db.resets[k].userId].email == Lower(email);
    assert Live(db.resets, newToken, k);
  }
}

=== FILE: authorization.dfy ===
/** Plan limits and features (backend/app/core/auth/authorization.py):
    each check answers whether the user may go on and, when not, why. */
module Authorization {
  import opened Json
  import opened Strings
  import opened Models

  /** `(can_do, error_message)`. */
  datatype Verdict = Verdict(allowed: bool, message: string)

  /** The shared shape of the three limit checks: -1 is unlimited,
      otherwise the current usage must be below the limit. */
  function LimitCheck(limit: int, used: int, what: string): (v: Verdict)
    ensures v.allowed <==> limit == -1 || used < limit
    ensures v.allowed <==> v.message == ""
  {
    if limit == -1 then Verdict(true, "")
    else if used >= limit then
      Verdict(false, what + " limit reached (" + IntText(limit) + "). Upgrade your plan.")
    else Verdict(true, "")
  }

  /** `can_create_product`: `productCount` is the number of products the
      user owns. */
  function CanCreateProduct(plan: Plan, productCount: nat): (v: Verdict)
    ensures v.allowed <==> plan.maxProducts == -1 || productCount < plan.maxProducts
    ensures v.allowed <==> v.message == ""
  {
    LimitCheck(plan.maxProducts, productCount, "Product")
  }

  /** `can_create_template`. */
  function CanCreateTemplate(plan: Plan, templateCount: nat): (v: Verdict)
    ensures v.allowed <==> plan.maxTemplates == -1 || templateCount < plan.maxTemplates
    ensures v.allowed <==> v.message == ""
  {
    LimitCheck(plan.maxTemplates, templateCount, "Template")
  }

  /** `can_generate_poster`: compares the user's generations this month
      with the plan's monthly allowance. */
  function CanGeneratePoster(plan: Plan, user: User): (v: Verdict)
    ensures v.allowed <==> plan.monthlyGenerations == -1 || user.monthlyGenerations < plan.monthlyGenerations
    ensures v.allowed <==> v.message == ""
  {
    LimitCheck(plan.monthlyGenerations, user.monthlyGenerations, "Monthly generation")
  }

  /** `has_feature`: the plan's feature value, `False` when absent. The
      callers test its truthiness. */
  function HasFeature(plan: Plan, feature: string): (v: Json)
    ensures feature !in plan.features ==> v == JBool(false)
    ensures feature in plan.features ==> v == plan.features[feature]
  {
    Get(plan.features, feature, JBool(false))
  }

  /** Usage only grows towards a denial: once a limit check denies, every
      higher usage is denied too, and a denial names the limit. */
  lemma DenialIsMonotone(limit: int, used: int, more: int, what: string)
    requires !LimitCheck(limit, used, what).allowed && used <= more
    ensures !LimitCheck(limit, more, what).allowed
    ensures LimitCheck(limit, more, what).message == LimitCheck(limit, used, what).message
    ensures StartsWith(LimitCheck(limit, used, what).message, what + " limit reached (" + IntText(limit) + ")")
  {
    var p := what + " limit reached (" + IntText(limit);
    var m := p + "). Upgrade your plan.";
    assert LimitCheck(limit, used, what).message == m;
    assert ")" + ". Upgrade your plan." == "). Upgrade your plan.";
    assert m == p + ")" + ". Upgrade your plan.";
    assert m[..|p + ")"|] == p + ")";
  }
}

=== FILE: background_layer.dfy ===
/** Background layer (backend/renderer/layers/background_layer.py): a solid
    fill of the whole canvas, or a vertical two-colour gradient drawn one
    horizontal line per row. */
module BackgroundLayer {
  import opened Wrappers
  import opened Json
  import opened Strings
  import opened Drawing
  import opened BaseLayer
  import opened Arith

  // ---- colour parsing ----

  predicate IsHexDigit(c: char) { '0' <= c <= '9' || 'a' <= c <= 'f' || 'A' <= c <= 'F' }

  function HexValue(c: char): (v: int)
    requires IsHexDigit(c)
    ensures 0 <= v < 16
  {
    if '0' <= c <= '9' then c as int - '0' as int
    else if 'a' <= c <= 'f' then c as int - 'a' as int + 10
    else c as int - 'A' as int + 10
  }

  /** Value of a run of hex digits. */
  function HexDigits(s: string): (v: int)
    requires forall k :: 0 <= k < |s| ==> IsHexDigit(s[k])
    ensures 0 <= v
    ensures |s| <= 1 ==> v <= 15
    ensures |s| <= 2 ==> v <= 255
  {
    if s == [] then 0 else 16 * HexDigits(s[..|s| - 1]) + HexValue(s[|s| - 1])
  }

  predicate AllHex(s: string) { forall k :: 0 <= k < |s| ==> IsHexDigit(s[k]) }

  /** `s.strip()` written out for the at most two characters of a slice;
      `StripShortIsStrip` shows it agrees with `Strip`. */
  function StripShort(s: string): (r: string)
    requires |s| <= 2
  {
    if s == [] then s
    else if |s| == 1 then (if IsSpace(s[0]) then [] else s)
    else if IsSpace(s[0]) then (if IsSpace(s[1]) then [] else s[1..])
    else if IsSpace(s[1]) then s[..1]
    else s
  }

  lemma StripShortIsStrip(s: string)
    requires |s| <= 2
    ensures StripShort(s) == Strip(s)
  {
    if |s| == 1 {
      assert s[1..] == [] && s[..0] == [];
    } else if |s| == 2 {
      var tail := s[1..];
      assert tail[1..] == [] && tail[..0] == [];
      assert s[..1][..0] == [] && s[..1] == [s[0]];
      if IsSpace(s[0]) {
        assert StripStart(s) == StripStart(tail);
        if IsSpace(s[1]) {
          assert StripStart(tail) == StripStart(tail[1..]) == [];
        } else {
          assert StripStart(tail) == tail;
          assert StripEnd(tail) == tail;
        }
      } else {
        assert StripStart(s) == s;
        if IsSpace(s[1]) {
          assert StripEnd(s) == StripEnd(s[..1]) == s[..1];
        } else {
          assert StripEnd(s) == s;
        }
      }
    }
  }

  /** `int(s, 16)` for the at most two characters of a slice: surrounding
      whitespace and a sign are accepted, anything else raises. */
  function ParseHex(s: string): (r: Option<int>)
    requires |s| <= 2
    ensures r.Some? ==> -255 <= r.value <= 255
  {
    var t := StripShort(s);
    var digits := if t != [] && (t[0] == '-' || t[0] == '+') then t[1..] else t;
    if digits != [] && AllHex(digits) then
      Some(if t[0] == '-' then -HexDigits(digits) else HexDigits(digits))
    else None
  }

  /** A hex digit is neither whitespace nor a sign. */
  lemma HexNotSpace(c: char)
    requires IsHexDigit(c)
    ensures !IsSpace(c) && c != '-' && c != '+'
  {
  }

  /** Two digits are worth sixteen times the first plus the second. */
  lemma TwoDigits(p: string)
    requires |p| == 2 && IsHexDigit(p[0]) && IsHexDigit(p[1])
    ensures HexDigits(p) == PairValue(p[0], p[1])
  {
    var q := p[..1];
    assert q == [p[0]] && q[..0] == [];
    assert HexDigits(q) == HexValue(p[0]);
  }

  /** The byte two hex digits spell: sixteen times the first plus the
      second. */
  function PairValue(hi: char, lo: char): (v: int)
    requires IsHexDigit(hi) && IsHexDigit(lo)
    ensures 0 <= v <= 255
  {
    16 * HexValue(hi) + HexValue(lo)
  }

  /** Two hex digits parse to the byte they spell. */
  lemma ParseHexPair(p: string)
    requires |p| == 2 && IsHexDigit(p[0]) && IsHexDigit(p[1])
    ensures ParseHex(p) == Some(PairValue(p[0], p[1]))
  {
    HexNotSpace(p[0]);
    HexNotSpace(p[1]);
    assert AllHex(p);
    TwoDigits(p);
  }

  /** Python slice `s[i:j]`, clamped to the string. */
  function Slice(s: string, i: nat, j: nat): (r: string)
    requires i <= j
    ensures |r| <= j - i
  {
    if i >= |s| then "" else if j >= |s| then s[i..] else s[i..j]
  }

  /** `color.lstrip('#')`. */
  function StripHashes(s: string): (r: string)
    ensures r == [] || r[0] != '#'
    ensures |r| <= |s| && r == s[|s| - |r|..]
  {
    if s != [] && s[0] == '#' then StripHashes(s[1..]) else s
  }

  datatype Rgb3 = Rgb3(r: int, g: int, b: int)

  /** `_parse_color`: the hex pairs at offsets 0, 2 and 4 after the leading
      `#`s; a value that is not a string, or a pair that does not parse,
      raises. */
  function ParseColor(v: Json): (c: Option<Rgb3>)
  {
    if !v.JStr? then None
    else
      var t := StripHashes(v.s);
      var r := ParseHex(Slice(t, 0, 2));
      var g := ParseHex(Slice(t, 2, 4));
      var b := ParseHex(Slice(t, 4, 6));
      if r.Some? && g.Some? && b.Some? then Some(Rgb3(r.value, g.value, b.value)) else None
  }

  predicate SixHex(t: string) {
    |t| == 6 && forall k :: 0 <= k < 6 ==> IsHexDigit(t[k])
  }

  /** A `#rrggbb` string parses, and each component is the byte its two
      digits spell, so it lies in 0..255. */
  lemma ParseSixHex(t: string)
    requires SixHex(t)
    ensures ParseColor(JStr("#" + t)).Some?
    ensures var c := ParseColor(JStr("#" + t)).value;
      && c.r == PairValue(t[0], t[1])
      && c.g == PairValue(t[2], t[3])
      && c.b == PairValue(t[4], t[5])
      && 0 <= c.r <= 255 && 0 <= c.g <= 255 && 0 <= c.b <= 255
  {
    assert IsHexDigit(t[0]) && IsHexDigit(t[1]) && IsHexDigit(t[2]);
    assert IsHexDigit(t[3]) && IsHexDigit(t[4]) && IsHexDigit(t[5]);
    var r := PairValue(t[0], t[1]);
    var g := PairValue(t[2], t[3]);
    var b := PairValue(t[4], t[5]);
    PairAt(t, 0, 1, 2);
    PairAt(t, 2, 3, 4);
    PairAt(t, 4, 5, 6);
    StripOneHash(t);
    ParseOfPairs(JStr("#" + t), t, r, g, b);
  }

  /** `_parse_color` on a string that strips to `t` combines the three
      pairs of `t`. */
  lemma ParseOfPairs(v: Json, t: string, r: int, g: int, b: int)
    requires v.JStr? && StripHashes(v.s) == t
    requires ParseHex(Slice(t, 0, 2)) == Some(r)
    requires ParseHex(Slice(t, 2, 4)) == Some(g)
    requires ParseHex(Slice(t, 4, 6)) == Some(b)
    ensures ParseColor(v) == Some(Rgb3(r, g, b))
  {
  }

  /** One leading `#` before text that does not start with one is stripped. */
  lemma StripOneHash(t: string)
    requires t == [] || t[0] != '#'
    ensures StripHashes("#" + t) == t
  {
    assert ("#" + t)[1..] == t;
  }

  /** The pair at offsets i and k = i + 1 of hex digits, sliced up to
      j = i + 2, parses to its byte. */
  lemma PairAt(t: string, i: nat, k: nat, j: nat)
    requires k == i + 1 && j == i + 2 <= |t| && IsHexDigit(t[i]) && IsHexDigit(t[k])
    ensures ParseHex(Slice(t, i, j)) == Some(PairValue(t[i], t[k]))
  {
    var p := t[i..j];
    SliceInside(t, i, j);
    assert p[0] == t[i] && p[1] == t[k];
    ParseHexPair(p);
  }

  lemma SliceInside(s: string, i: nat, j: nat)
    requires i <= j <= |s|
    ensures Slice(s, i, j) == s[i..j]
  {
  }

  // ---- the gradient ----

  /** Python's `int(n / d)` for d > 0: truncation toward zero. */
  function Trunc(n: int, d: int): int
    requires d > 0
  {
    if n >= 0 then n / d else -((-n) / d)
  }

  /** Channel value on row y of h: `int(start + (end - start) * (y / h))`,
      computed exactly. */
  function Channel(start: int, end: int, y: int, h: int): int
    requires h > 0
  {
    Trunc(start * h + (end - start) * y, h)
  }

  function RowColor(c0: Rgb3, c1: Rgb3, y: int, h: int): Paint
    requires h > 0
  {
    Rgb(Channel(c0.r, c1.r, y, h), Channel(c0.g, c1.g, y, h), Channel(c0.b, c1.b, y, h))
  }

  /** The first n horizontal lines of a gradient over a w x h canvas. */
  function GradientRows(w: int, h: int, c0: Rgb3, c1: Rgb3, n: nat): seq<DrawOp>
    requires h > 0
  {
    if n == 0 then []
    else GradientRows(w, h, c0, c1, n - 1) + [Line(0.0, (n - 1) as real, w as real, (n - 1) as real, RowColor(c0, c1, n - 1, h), 1)]
  }

  /** The two colours of a gradient: `colors` (default white to black),
      its first two entries parsed. Anything else raises. */
  function GradientColors(gradient: Json): Option<(Rgb3, Rgb3)> {
    if !gradient.JObj? then None
    else
      var colors := Get(gradient.fields, "colors", JList([JStr("#ffffff"), JStr("#000000")]));
      if !colors.JList? || |colors.items| < 2 then None
      else
        var c0 := ParseColor(colors.items[0]);
        var c1 := ParseColor(colors.items[1]);
        if c0.Some? && c1.Some? then Some((c0.value, c1.value)) else None
  }

  /** What `_render_gradient` draws on a w x h canvas. */
  function GradientEffect(gradient: Json, w: int, h: int): Effect {
    match GradientColors(gradient)
    case None => Effect([], false)
    case Some((c0, c1)) => Effect(if h > 0 then GradientRows(w, h, c0, c1, h) else [], true)
  }

  /** What `render` draws on a w x h canvas: a solid fill if `color` is
      given (or nothing, raising, when Pillow cannot read it as a colour),
      otherwise the gradient if `gradient` is given, otherwise nothing. */
  function BackgroundEffect(config: Config, w: int, h: int, env: Env): Effect {
    if "color" in config then
      if !InkAccepted(env, config["color"]) then Effect([], false)
      else Effect([Rect(0.0, 0.0, w as real, h as real, Some(Given(config["color"])), None, JInt(1))], true)
    else if "gradient" in config then GradientEffect(config["gradient"], w, h)
    else Effect([], true)
  }

  /** The drawing loop of `_render_gradient`: one full-width line per row,
      top to bottom. */
  method DrawRows(canvas: Canvas, c0: Rgb3, c1: Rgb3)
    requires canvas.height > 0
    modifies canvas
    ensures canvas.ops == old(canvas.ops) + GradientRows(canvas.width, canvas.height, c0, c1, canvas.height)
  {
    var h := canvas.height;
    for y := 0 to h
      invariant canvas.ops == old(canvas.ops) + GradientRows(canvas.width, h, c0, c1, y)
    {
      canvas.Draw(Line(0.0, y as real, canvas.width as real, y as real, RowColor(c0, c1, y, h), 1));
    }
  }

  /** `_render_gradient`: the colours are read and parsed before anything
      is drawn, so a bad colour leaves the canvas untouched. */
  method RenderGradient(canvas: Canvas, gradient: Json) returns (ok: bool)
    modifies canvas
    ensures ok == GradientEffect(gradient, canvas.width, canvas.height).ok
    ensures canvas.ops == old(canvas.ops) + GradientEffect(gradient, canvas.width, canvas.height).ops
  {
    var colors := GradientColors(gradient);
    ghost var effect := GradientEffect(gradient, canvas.width, canvas.height);
    if colors.None? {
      assert effect == Effect([], false);
      return false;
    }
    var (c0, c1) := colors.value;
    assert effect.ok && effect.ops ==
      if canvas.height > 0 then GradientRows(canvas.width, canvas.height, c0, c1, canvas.height) else [];
    if canvas.height > 0 {
      DrawRows(canvas, c0, c1);
    }
    return true;
  }

  method Render(layer: Layer, canvas: Canvas, data: Json, env: Env) returns (ok: bool)
    modifies canvas
    ensures ok == BackgroundEffect(layer.config, canvas.width, canvas.height, env).ok
    ensures canvas.ops == old(canvas.ops) + BackgroundEffect(layer.config, canvas.width, canvas.height, env).ops
  {
    if "color" in layer.config {
      var color := layer.config["color"];
      if !InkAccepted(env, color) {
        return false;
      }
      canvas.Draw(Rect(0.0, 0.0, canvas.width as real, canvas.height as real, Some(Given(color)), None, JInt(1)));
      ok := true;
    } else if "gradient" in layer.config {
      ok := RenderGradient(canvas, layer.config["gradient"]);
    } else {
      ok := true;
    }
  }

  // ---- properties ----

  /** Exactly `n` lines, row y being the full-width line at height y. */
  lemma {:induction false} GradientRowsShape(w: int, h: int, c0: Rgb3, c1: Rgb3, n: nat)
    requires h > 0
    ensures |GradientRows(w, h, c0, c1, n)| == n
    ensures forall y :: 0 <= y < n ==>
      GradientRows(w, h, c0, c1, n)[y] == Line(0.0, y as real, w as real, y as real, RowColor(c0, c1, y, h), 1)
  {
    if n > 0 {
      GradientRowsShape(w, h, c0, c1, n - 1);
    }
  }

  lemma TruncMonotone(a: int, b: int, d: int)
    requires d > 0 && a <= b
    ensures Trunc(a, d) <= Trunc(b, d)
  {
    if a >= 0 {
      DivMonotone(a, b, d);
    } else if b >= 0 {
      assert (-a) / d >= 0;
    } else {
      DivMonotone(-b, -a, d);
    }
  }

  /** Truncating k * d / d gives k back. */
  lemma TruncExact(k: int, d: int)
    requires d > 0
    ensures Trunc(k * d, d) == k
  {
    if k >= 0 {
      MulLe(0, k, d);
      DivExact(k, d);
    } else {
      assert -(k * d) == (-k) * d;
      MulLe(k, 0, d);
      DivExact(-k, d);
    }
  }

  /** Row 0 is the start colour exactly (the factor is 0). */
  lemma ChannelAtTop(start: int, end: int, h: int)
    requires h > 0
    ensures Channel(start, end, 0, h) == start
  {
    TruncExact(start, h);
  }

  /** Every row's channel lies between the start and end values. */
  lemma ChannelBetween(start: int, end: int, y: int, h: int)
    requires 0 <= y < h
    ensures start <= end ==> start <= Channel(start, end, y, h) <= end
    ensures end <= start ==> end <= Channel(start, end, y, h) <= start
  {
    var n := start * h + (end - start) * y;
    if start <= end {
      Between(start, end, y, h);
      TruncBetween(start, n, end, h);
    } else {
      Between(end, start, h - y, h);
      assert n == end * h + (start - end) * (h - y);
      TruncBetween(end, n, start, h);
    }
  }

  /** lo*h + (hi - lo)*y lies between lo*h and hi*h for y in 0..h. */
  lemma Between(lo: int, hi: int, y: int, h: int)
    requires lo <= hi && 0 <= y <= h
    ensures lo * h <= lo * h + (hi - lo) * y <= hi * h
  {
    MulLe(0, y, hi - lo);
    MulLe(y, h, hi - lo);
    assert lo * h + (hi - lo) * h == hi * h;
  }

  /** A numerator between a*d and b*d truncates to a value between a and b. */
  lemma TruncBetween(a: int, n: int, b: int, d: int)
    requires d > 0 && a * d <= n <= b * d
    ensures a <= Trunc(n, d) <= b
  {
    TruncExact(a, d);
    TruncExact(b, d);
    TruncMonotone(a * d, n, d);
    TruncMonotone(n, b * d, d);
  }

  /** The channel moves monotonically from start toward end as y grows. */
  lemma ChannelMonotone(start: int, end: int, y1: int, y2: int, h: int)
    requires h > 0 && y1 <= y2
    ensures start <= end ==> Channel(start, end, y1, h) <= Channel(start, end, y2, h)
    ensures end <= start ==> Channel(start, end, y2, h) <= Channel(start, end, y1, h)
  {
    var n1 := start * h + (end - start) * y1;
    var n2 := start * h + (end - start) * y2;
    if start <= end {
      MulLe(y1, y2, end - start);
      assert n1 <= n2;
      TruncMonotone(n1, n2, h);
    } else {
      MulLe(y1, y2, start - end);
      assert n2 <= n1;
      TruncMonotone(n2, n1, h);
    }
  }

  /** The last row sits (h-1)/h of the way: from black to white over two
      rows it is 127, not 255. */
  lemma LastRowShortOfEnd()
    ensures Channel(0, 255, 1, 2) == 127
  {
  }

  /** The last row is within one step (|end - start| / h, rounded up) of
      the end colour. */
  lemma ChannelAtBottom(start: int, end: int, h: int)
    requires h > 0 && 0 <= start && 0 <= end
    ensures start <= end ==>
      0 <= end - Channel(start, end, h - 1, h) &&
      h * (end - Channel(start, end, h - 1, h)) <= end - start + h - 1
    ensures end < start ==>
      0 <= Channel(start, end, h - 1, h) - end &&
      h * (Channel(start, end, h - 1, h) - end) <= start - end
  {
    var n := start * h + (end - start) * (h - 1);
    assert n == end * h - (end - start);
    ChannelBetween(start, end, h - 1, h);
    MulLe(0, h, start);
    MulLe(0, h, end);
    var c := Channel(start, end, h - 1, h);
    assert c == n / h;
    DivBounds(n, h);
  }

  /** With both `color` and `gradient`, only the solid fill happens, and
      an unreadable colour draws nothing at all (the gradient is not tried);
      with neither, nothing is drawn. */
  lemma ColorWins(config: Config, w: int, h: int, env: Env)
    ensures "color" in config && InkAccepted(env, config["color"]) ==>
      BackgroundEffect(config, w, h, env) ==
        Effect([Rect(0.0, 0.0, w as real, h as real, Some(Given(config["color"])), None, JInt(1))], true)
    ensures "color" in config && !InkAccepted(env, config["color"]) ==> BackgroundEffect(config, w, h, env) == Effect([], false)
    ensures "color" !in config && "gradient" !in config ==> BackgroundEffect(config, w, h, env) == Effect([], true)
  {
  }
}

=== FILE: base_layer.dfy ===
/** The part every layer shares (backend/renderer/layers/base_layer.py): the
    stored configuration and dot-path lookup into the data context. */
module BaseLayer {
  import opened Wrappers
  import opened Json
  import opened Strings

  /** Value reached by following `parts` one segment at a time: a mapping
      is looked up with `.get` (a missing key gives `None`, JNull), any
      other value gives its attribute of that name (`getattr`) when
      `attribute` says it has one, and the walk ends with `None` at a value
      that has none. */
  function Resolve(parts: seq<string>, value: Json, attribute: (Json, string) -> Option<Json>): Json
    decreases |parts|
  {
    if parts == [] then value
    else match value
      case JObj(m) => Resolve(parts[1..], Get(m, parts[0], JNull), attribute)
      case _ =>
        match attribute(value, parts[0])
        case None => JNull
        case Some(a) => Resolve(parts[1..], a, attribute)
  }

  class Layer {
    const config: Config

    constructor (config: Config)
      ensures this.config == config
    {
      this.config := config;
    }

    /** `resolve_key(key, data)`: walks the `.`-separated parts of `key`. */
    method ResolveKey(key: string, data: Json, attribute: (Json, string) -> Option<Json>) returns (value: Json)
      ensures value == Resolve(Split(key, "."), data, attribute)
    {
      var parts := Split(key, ".");
      value := data;
      for i := 0 to |parts|
        invariant Resolve(parts[i..], value, attribute) == Resolve(parts, data, attribute)
      {
        assert parts[i..][1..] == parts[i + 1..];
        if value.JObj? {
          value := Get(value.fields, parts[i], JNull);
        } else {
          var a := attribute(value, parts[i]);
          if a.None? {
            return JNull;
          }
          value := a.value;
        }
      }
      assert parts[|parts|..] == [];
    }
  }

  /** `None` offers nothing further to walk: each of its attributes is
      either absent or `None` again (as `None.__doc__` is). */
  ghost predicate InertNone(attribute: (Json, string) -> Option<Json>) {
    forall s :: attribute(JNull, s).None? || attribute(JNull, s) == Some(JNull)
  }

  /** Walking on from `None` ends in `None`. */
  lemma {:induction false} ResolveFromNone(parts: seq<string>, attribute: (Json, string) -> Option<Json>)
    requires InertNone(attribute)
    ensures Resolve(parts, JNull, attribute) == JNull
    decreases |parts|
  {
    if parts != [] {
      assert attribute(JNull, parts[0]).None? || attribute(JNull, parts[0]) == Some(JNull);
      ResolveFromNone(parts[1..], attribute);
    }
  }

  /** Resolution is compositional: following `a + b` is following `b` from
      wherever `a` leads, whether the walk through `a` ends at a mapping, at
      an attribute or at `None`. */
  lemma {:induction false} ResolveConcat(a: seq<string>, b: seq<string>, value: Json,
                                         attribute: (Json, string) -> Option<Json>)
    requires InertNone(attribute)
    ensures Resolve(a + b, value, attribute) == Resolve(b, Resolve(a, value, attribute), attribute)
    decreases |a|
  {
    if a == [] {
      assert a + b == b;
    } else {
      assert (a + b)[1..] == a[1..] + b;
      assert (a + b)[0] == a[0];
      if value.JObj? {
        ResolveConcat(a[1..], b, Get(value.fields, a[0], JNull), attribute);
      } else if attribute(value, a[0]).Some? {
        ResolveConcat(a[1..], b, attribute(value, a[0]).value, attribute);
      } else {
        ResolveFromNone(b, attribute);
      }
    }
  }

  /** A value that is not a mapping and has no attribute named by the next
      segment ends the walk with `None`. */
  lemma ResolveStops(parts: seq<string>, value: Json, attribute: (Json, string) -> Option<Json>)
    requires parts != [] && !value.JObj? && attribute(value, parts[0]).None?
    ensures Resolve(parts, value, attribute) == JNull
  {
  }

  /** `resolve_key('p1.rest', data)` resolves `rest` inside the value `p1`
      leads to. */
  lemma KeyComposition(p1: string, rest: string, data: Json, attribute: (Json, string) -> Option<Json>)
    requires InertNone(attribute)
    ensures Resolve(Split(p1 + "." + rest, "."), data, attribute)
         == Resolve(Split(rest, "."), Resolve(Split(p1, "."), data, attribute), attribute)
  {
    assert p1 + "." + rest == p1 + ['.'] + rest;
    SplitConcat(p1, '.', rest);
    ResolveConcat(Split(p1, "."), Split(rest, "."), data, attribute);
  }

  /** A key without a dot is a single `data.get(key)`. */
  lemma SingleSegment(key: string, data: Config, attribute: (Json, string) -> Option<Json>)
    requires !Contains(key, ".")
    ensures Resolve(Split(key, "."), JObj(data), attribute) == Get(data, key, JNull)
  {
    SplitAbsent(key, ".");
  }

  /** Two dot-free segments through two mappings are two `.get`s. */
  lemma TwoSegments(p1: string, p2: string, data: Config, inner: Config,
                    attribute: (Json, string) -> Option<Json>)
    requires !Contains(p1, ".") && !Contains(p2, ".")
    requires p1 in data && data[p1] == JObj(inner)
    ensures Resolve(Split(p1 + "." + p2, "."), JObj(data), attribute) == Get(inner, p2, JNull)
  {
    assert p1 + "." + p2 == p1 + ['.'] + p2;
    SplitConcat(p1, '.', p2);
    SplitAbsent(p1, ".");
    SplitAbsent(p2, ".");
    var parts := [p1, p2];
    assert Split(p1 + "." + p2, ".") == parts;
    assert parts[1..] == [p2] && [p2][1..] == [];
    assert Resolve(parts, JObj(data), attribute) == Resolve([p2], JObj(inner), attribute);
  }

  /** A third segment after a field that is not a mapping reads that
      field's attribute (`product.price.real` gives the price's `real`), or
      `None` when it has no such attribute. */
  lemma AttributeOfField(p1: string, p2: string, p3: string, data: Config, inner: Config,
                         attribute: (Json, string) -> Option<Json>)
    requires !Contains(p1, ".") && !Contains(p2, ".") && !Contains(p3, ".")
    requires p1 in data && data[p1] == JObj(inner) && p2 in inner && !inner[p2].JObj?
    ensures attribute(inner[p2], p3).Some? ==>
              Resolve(Split(p1 + "." + p2 + "." + p3, "."), JObj(data), attribute) == attribute(inner[p2], p3).value
    ensures attribute(inner[p2], p3).None? ==>
              Resolve(Split(p1 + "." + p2 + "." + p3, "."), JObj(data), attribute) == JNull
  {
    ThreeSegments(p1, p2, p3);
    var parts, field := [p1, p2, p3], inner[p2];
    assert parts[1..] == [p2, p3] && [p2, p3][1..] == [p3] && [p3][1..] == [];
    assert Get(data, p1, JNull) == JObj(inner) && Get(inner, p2, JNull) == field;
    assert Resolve(parts, JObj(data), attribute) == Resolve([p2, p3], JObj(inner), attribute);
    assert Resolve([p2, p3], JObj(inner), attribute) == Resolve([p3], field, attribute);
    match attribute(field, p3)
    case None =>
    case Some(v) =>
      assert Resolve([p3], field, attribute) == Resolve([], v, attribute) == v;
  }

  /** Three dot-free segments joined by dots split back into themselves. */
  lemma ThreeSegments(p1: string, p2: string, p3: string)
    requires !Contains(p1, ".") && !Contains(p2, ".") && !Contains(p3, ".")
    ensures Split(p1 + "." + p2 + "." + p3, ".") == [p1, p2, p3]
  {
    var head := p1 + "." + p2;
    assert head + "." + p3 == head + ['.'] + p3;
    assert head == p1 + ['.'] + p2;
    SplitConcat(head, '.', p3);
    SplitConcat(p1, '.', p2);
    SplitAbsent(p1, ".");
    SplitAbsent(p2, ".");
    SplitAbsent(p3, ".");
  }

  /** `'product.price'` yields `data['product']['price']`, and a segment
      missing from a mapping yields `None` rather than an error. */
  lemma ProductPrice(product: Config, data: Config, attribute: (Json, string) -> Option<Json>)
    requires "product" in data && data["product"] == JObj(product)
    ensures "price" in product ==> Resolve(Split("product.price", "."), JObj(data), attribute) == product["price"]
    ensures "price" !in product ==> Resolve(Split("product.price", "."), JObj(data), attribute) == JNull
  {
    AbsentChar("product", '.');
    AbsentChar("price", '.');
    assert "product.price" == "product" + "." + "price";
    TwoSegments("product", "price", data, product, attribute);
  }
}

=== FILE: batch_job.dfy ===
/** The two enqueue wrappers of backend/app/workers/batch_job.py: one poster
    job, or one job for a whole list of products, both on the
    `poster-generation` queue. */
module BatchJob {
  import opened Wrappers
  import opened Json
  import opened QueueManager

  const PosterQueue := "poster-generation"
  const SingleTimeout := 300   // 5 minutes
  const BatchTimeout := 1800   // 30 minutes

  /** A Python `int | None` argument as the job stores it. */
  function OptionalId(id: Option<int>): (j: Json)
    ensures id.None? <==> j == JNull
  {
    if id.Some? then JInt(id.value) else JNull
  }

  /** The arguments of a `generate_poster` job. */
  function SingleArgs(templateId: int, productId: int, userId: int, campaignId: Option<int>): (args: seq<Json>)
    ensures |args| == 4 && args[1] == JInt(productId) && args[3] == OptionalId(campaignId)
  {
    [JInt(templateId), JInt(productId), JInt(userId), OptionalId(campaignId)]
  }

  /** The arguments of a `generate_batch` job: the product ids travel as
      one list. */
  function BatchArgs(templateId: int, productIds: seq<int>, userId: int, campaignId: Option<int>): (args: seq<Json>)
    ensures |args| == 4 && args[1].JList? && |args[1].items| == |productIds|
    ensures forall i :: 0 <= i < |productIds| ==> args[1].items[i] == JInt(productIds[i])
  {
    [JInt(templateId), JList(seq(|productIds|, i requires 0 <= i < |productIds| => JInt(productIds[i]))),
     JInt(userId), OptionalId(campaignId)]
  }

  /** The options of a job run with `timeout` seconds and the default
      result and failure lifetimes. */
  function JobOptions(timeout: int): map<string, Json> {
    map["timeout" := JInt(timeout), "result_ttl" := JInt(DefaultResultTtl), "failure_ttl" := JInt(DefaultFailureTtl)]
  }

  /** `enqueue_single_poster`: a `generate_poster` job with the four ids;
      answers the new job's id. */
  method EnqueueSinglePoster(qm: QueueManager, templateId: int, productId: int, userId: int,
                             campaignId: Option<int>, jobId: string, now: string, configured: Option<string>)
    returns (id: string)
    requires qm.Valid() && jobId !in qm.jobs
    modifies qm
    ensures qm.Valid()
    ensures id == jobId && id in qm.jobs && qm.jobs == old(qm.jobs)[id := qm.jobs[id]]
    ensures qm.jobs[id].func == "generate_poster" && qm.jobs[id].queue == PosterQueue
    ensures qm.jobs[id].args == SingleArgs(templateId, productId, userId, campaignId)
    ensures qm.jobs[id].options == JobOptions(SingleTimeout)
    ensures qm.jobs[id].status == "queued"
    ensures PosterQueue in qm.queues && qm.queues[PosterQueue].name == PosterQueue
    ensures qm.queues == old(qm.queues)[PosterQueue := qm.queues[PosterQueue]]
    ensures PosterQueue in old(qm.queues) ==> qm.queues == old(qm.queues)
  {
    PlainOptions(Some(SingleTimeout));
    var job := qm.EnqueueJob("generate_poster", SingleArgs(templateId, productId, userId, campaignId),
                             PosterQueue, Some(SingleTimeout), map[], jobId, now, configured);
    id := job.id;
  }

  /** `enqueue_batch_posters`: a `generate_batch` job carrying the whole
      id list; answers the new job's id. */
  method EnqueueBatchPosters(qm: QueueManager, templateId: int, productIds: seq<int>, userId: int,
                             campaignId: Option<int>, jobId: string, now: string, configured: Option<string>)
    returns (id: string)
    requires qm.Valid() && jobId !in qm.jobs
    modifies qm
    ensures qm.Valid()
    ensures id == jobId && id in qm.jobs && qm.jobs == old(qm.jobs)[id := qm.jobs[id]]
    ensures qm.jobs[id].func == "generate_batch" && qm.jobs[id].queue == PosterQueue
    ensures qm.jobs[id].args == BatchArgs(templateId, productIds, userId, campaignId)
    ensures qm.jobs[id].options == JobOptions(BatchTimeout)
    ensures qm.jobs[id].status == "queued"
    ensures PosterQueue in qm.queues && qm.queues[PosterQueue].name == PosterQueue
    ensures qm.queues == old(qm.queues)[PosterQueue := qm.queues[PosterQueue]]
    ensures PosterQueue in old(qm.queues) ==> qm.queues == old(qm.queues)
  {
    PlainOptions(Some(BatchTimeout));
    var job := qm.EnqueueJob("generate_batch", BatchArgs(templateId, productIds, userId, campaignId),
                             PosterQueue, Some(BatchTimeout), map[], jobId, now, configured);
    id := job.id;
  }
}

=== FILE: builtins.dfy ===
/** The Python built-ins the backend applies to request values: `len`,
    `str.strip`, `float` and the type names that appear in their error
    messages. A call that Python rejects with `TypeError` or
    `AttributeError` gives `Err` carrying Python's message. */
module Builtins {
  import opened Wrappers
  import opened Json
  import opened Strings

  /** `type(v).__name__`. */
  function TypeName(v: Json): string {
    match v
    case JNull => "NoneType"
    case JBool(_) => "bool"
    case JInt(_) => "int"
    case JFloat(_) => "float"
    case JStr(_) => "str"
    case JList(_) => "list"
    case JObj(_) => "dict"
  }

  /** The message of the `AttributeError` raised by `v.attr` when `v` has no
      such attribute. */
  function NoAttribute(v: Json, attr: string): string {
    "'" + TypeName(v) + "' object has no attribute '" + attr + "'"
  }

  /** The message of the `TypeError` raised when a list or a mapping `v` is
      used as a dictionary key (`in`, `dict.get`). */
  function Unhashable(v: Json): string {
    "unhashable type: '" + TypeName(v) + "'"
  }

  /** `len(v)`. */
  function Len(v: Json): (r: Result<nat>)
    ensures r.Ok? <==> (v.JStr? || v.JList? || v.JObj?)
    ensures v.JStr? ==> r == Ok(|v.s|)
    ensures v.JList? ==> r == Ok(|v.items|)
  {
    match v
    case JStr(s) => Ok(|s|)
    case JList(xs) => Ok(|xs|)
    case JObj(m) => Ok(|m|)
    case _ => Err("object of type '" + TypeName(v) + "' has no len()")
  }

  /** `v.strip()`: only strings have it. */
  function StripValue(v: Json): (r: Result<string>)
    ensures r.Ok? <==> v.JStr?
    ensures r.Ok? ==> r.value == Strip(v.s)
  {
    if v.JStr? then Ok(Strip(v.s)) else Err(NoAttribute(v, "strip"))
  }

  /** Value of a run of decimal digits. */
  function DigitsValue(s: string): (n: nat)
    requires forall k :: 0 <= k < |s| ==> IsDigit(s[k])
  {
    if s == [] then 0
    else
      assert IsDigit(s[|s| - 1]);
      10 * DigitsValue(s[..|s| - 1]) + (s[|s| - 1] as int - '0' as int)
  }

  function Pow10(n: nat): (p: nat)
    ensures p >= 1
  {
    if n == 0 then 1 else 10 * Pow10(n - 1)
  }

  predicate AllDigits(s: string) {
    forall k :: 0 <= k < |s| ==> IsDigit(s[k])
  }

  /** `float(s)` for decimal text: surrounding whitespace, an optional sign,
      digits with at most one decimal point and at least one digit. */
  function ParseFloatText(s: string): (r: Option<real>)
    ensures r.Some? ==> Strip(s) != []
  {
    var t := Strip(s);
    var neg := |t| > 0 && t[0] == '-';
    var body := if |t| > 0 && (t[0] == '-' || t[0] == '+') then t[1..] else t;
    var dot := Find(body, ".", 0);
    var whole := if dot < 0 then body else body[..dot];
    var frac := if dot < 0 then "" else body[dot + 1..];
    if AllDigits(whole) && AllDigits(frac) && |whole| + |frac| > 0 then
      var v := DigitsValue(whole) as real + DigitsValue(frac) as real / Pow10(|frac|) as real;
      Some(if neg then -v else v)
    else None
  }

  /** `float(v)`; `None` stands for the `ValueError` or `TypeError` it
      raises. */
  function ToFloat(v: Json): (r: Option<real>)
    ensures v.JInt? ==> r == Some(v.i as real)
    ensures v.JFloat? ==> r == Some(v.r)
    ensures v.JNull? || v.JList? || v.JObj? ==> r.None?
  {
    match v
    case JInt(i) => Some(i as real)
    case JFloat(x) => Some(x)
    case JBool(b) => Some(if b then 1.0 else 0.0)
    case JStr(s) => ParseFloatText(s)
    case _ => None
  }

  /** An optional sign and at least one decimal digit, read as a number;
      `None` for any other text. */
  function SignedDigits(t: string): (r: Option<int>)
    ensures r.Some? ==> t != []
  {
    var neg := |t| > 0 && t[0] == '-';
    var body := if |t| > 0 && (t[0] == '-' || t[0] == '+') then t[1..] else t;
    if body != [] && AllDigits(body) then
      var v: int := DigitsValue(body);
      Some(if neg then -v else v)
    else None
  }

  /** `int(s)` for text: surrounding whitespace, an optional sign and at
      least one decimal digit. The message quotes the text between plain
      single quotes, where Python writes its `repr` (which escapes quotes,
      backslashes and control characters, and switches to double quotes
      for text holding a single quote). */
  function ParseIntText(s: string): (r: Result<int>)
    ensures r.Ok? ==> Strip(s) != []
  {
    var v := SignedDigits(Strip(s));
    if v.Some? then Ok(v.value)
    else Err("invalid literal for int() with base 10: '" + s + "'")
  }

  lemma DigitCharValue(d: int)
    requires 0 <= d <= 9
    ensures IsDigit(DigitChar(d)) && DigitChar(d) as int - '0' as int == d
  {
    assert "0123456789"[0] == '0' && "0123456789"[1] == '1' && "0123456789"[2] == '2';
    assert "0123456789"[3] == '3' && "0123456789"[4] == '4' && "0123456789"[5] == '5';
    assert "0123456789"[6] == '6' && "0123456789"[7] == '7' && "0123456789"[8] == '8';
    assert "0123456789"[9] == '9';
  }

  /** The text of a natural number is a non-empty run of digits worth
      that number. */
  lemma {:induction false} NatTextDigits(n: nat)
    ensures IntText(n) != [] && AllDigits(IntText(n))
    ensures DigitsValue(IntText(n)) == n
  {
    if n < 10 {
      DigitCharValue(n);
    } else {
      NatTextDigits(n / 10);
      DigitCharValue(n % 10);
      var t := IntText(n);
      assert t == IntText(n / 10) + [DigitChar(n % 10)];
      assert t[..|t| - 1] == IntText(n / 10);
    }
  }

  /** Text that neither starts nor ends with whitespace is its own strip. */
  lemma StripUntouched(t: string)
    requires t != [] && !IsSpace(t[0]) && !IsSpace(t[|t| - 1])
    ensures Strip(t) == t
  {
    assert StripStart(t) == t;
  }

  /** A non-empty run of digits reads as its value. */
  lemma ParseDigits(d: string)
    requires d != [] && AllDigits(d)
    ensures ParseIntText(d) == Ok(DigitsValue(d))
  {
    assert IsDigit(d[0]) && IsDigit(d[|d| - 1]);
    StripUntouched(d);
    assert SignedDigits(d) == Some(DigitsValue(d));
  }

  /** A minus sign before a non-empty run of digits negates its value. */
  lemma ParseNegatedDigits(t: string)
    requires |t| >= 2 && t[0] == '-' && AllDigits(t[1..])
    ensures ParseIntText(t) == Ok(-(DigitsValue(t[1..]) as int))
  {
    assert IsDigit(t[1..][|t| - 2]);
    StripUntouched(t);
    NegativeDigits(t);
    ParseUnpadded(t, -(DigitsValue(t[1..]) as int));
  }

  /** Text without surrounding whitespace reads as its signed digits. */
  lemma ParseUnpadded(t: string, v: int)
    requires Strip(t) == t && SignedDigits(t) == Some(v)
    ensures ParseIntText(t) == Ok(v)
  {
  }

  /** A minus sign and a non-empty run of digits read as the negated value
      of the digits. */
  lemma NegativeDigits(t: string)
    requires |t| >= 2 && t[0] == '-' && AllDigits(t[1..])
    ensures SignedDigits(t) == Some(-(DigitsValue(t[1..]) as int))
  {
  }

  /** `int(str(i)) == i`: reading back the text of an integer gives the
      integer. */
  lemma IntTextRoundTrip(i: int)
    ensures ParseIntText(IntText(i)) == Ok(i)
  {
    var n := if i < 0 then -i else i;
    NatTextDigits(n);
    assert IntText(i) == if i < 0 then "-" + IntText(n) else IntText(n);
    if i < 0 {
      assert IntText(i)[1..] == IntText(n);
      ParseNegatedDigits(IntText(i));
    } else {
      ParseDigits(IntText(n));
    }
  }
}

=== FILE: cloudinary_storage.dfy ===
/** The Cloudinary file store of
    backend/app/infrastructure/storage/cloudinary_storage.py: uploads
    under the public id `{folder}/{uuid}`, and deletion by the public id
    read back out of a delivery URL. The SDK is configured once per
    store; the SDK calls are oracles that answer None when they raise. */
module CloudinaryStorage {
  import opened Wrappers
  import opened Json
  import opened Strings

  /** The three settings `_configure` hands to the SDK. */
  datatype Credentials = Credentials(cloudName: string, apiKey: string, apiSecret: string)

  // ---- reading a public id out of a URL ----

  /** The first position of `x` in `xs` (`list.index`). */
  function IndexOf(xs: seq<string>, x: string): (i: nat)
    requires x in xs
    ensures i < |xs| && xs[i] == x && x !in xs[..i]
  {
    if xs[0] == x then 0
    else
      var j := IndexOf(xs[1..], x);
      assert xs[..j + 1] == [xs[0]] + xs[1..][..j];
      j + 1
  }

  /** The `/`-joined segments after the first segment `upload`, or None
      when no segment is `upload` (`list.index` raises). */
  function AfterUpload(url: string): (r: Option<string>)
    ensures r.None? <==> "upload" !in Split(url, "/")
  {
    var parts := Split(url, "/");
    if "upload" !in parts then None
    else Some(Join(parts[IndexOf(parts, "upload") + 1..], "/"))
  }

  /** What `delete_file` makes of the text after `upload/`: when it starts
      with `v` its first segment is taken for the version and dropped;
      then the extension goes. */
  function TailId(tail: string): string {
    if StartsWith(tail, "v") then SplitExt(Join(Split(tail, "/")[1..], "/")).0
    else SplitExt(tail).0
  }

  /** The public id `delete_file` destroys for a URL, as written. */
  function PublicIdOf(url: string): (r: Option<string>)
    ensures r.None? <==> "upload" !in Split(url, "/")
  {
    match AfterUpload(url)
    case None => None
    case Some(tail) => Some(TailId(tail))
  }

  /** A delivery URL: `https://res.cloudinary.com/{cloud}/image/upload/{tail}`. */
  function DeliveryUrl(cloud: string, tail: string): string {
    "https://res.cloudinary.com/" + cloud + "/image/upload/" + tail
  }

  /** A path whose extension `splitext` finds exactly at `ext`: no dot in
      the stem, which does not end a directory. */
  predicate PlainStem(stem: string) {
    stem != [] && stem[|stem| - 1] != '/' && '.' !in stem
  }

  /** An extension: empty, or a dot followed by neither dot nor `/`. */
  predicate PlainExt(ext: string) {
    ext == [] || (ext[0] == '.' && forall k :: 1 <= k < |ext| ==> ext[k] != '.' && ext[k] != '/')
  }

  lemma SplitExtParts(stem: string, ext: string)
    requires PlainStem(stem) && PlainExt(ext)
    ensures SplitExt(stem + ext) == (stem, ext)
  {
    var p := stem + ext;
    var sepIndex := RFind(p, '/');
    var dotIndex := RFind(p, '.');
    if ext == [] {
      assert p == stem;
      assert dotIndex == -1;
    } else {
      var n := |stem|;
      assert p[n] == '.';
      forall k | n < k < |p|
        ensures p[k] != '.' && p[k] != '/'
      {
        assert p[k] == ext[k - n];
      }
      assert dotIndex == n;
      assert p[n - 1] == stem[n - 1];
      assert sepIndex < n - 1;
      assert p[n - 1] != '.' by {
        assert stem[n - 1] in stem;
      }
      assert p[..n] == stem && p[n..] == ext;
    }
  }

  /** Splitting a leading slash-free segment off. */
  lemma SplitLead(a: string, b: string)
    requires '/' !in a
    ensures Split(a + "/" + b, "/") == [a] + Split(b, "/")
  {
    assert "/" == ['/'];
    SplitConcat(a, '/', b);
    forall k | 0 <= k < |a| ensures a[k] != '/' {
      assert a[k] in a;
    }
    AbsentChar(a, '/');
    SplitAbsent(a, "/");
  }

  function Joined3(a: string, b: string, c: string, rest: string): string {
    a + "/" + (b + "/" + (c + "/" + rest))
  }

  /** Splitting three leading slash-free segments off. */
  lemma SplitLead3(a: string, b: string, c: string, rest: string)
    requires '/' !in a && '/' !in b && '/' !in c
    ensures Split(Joined3(a, b, c, rest), "/") == [a, b, c] + Split(rest, "/")
  {
    SplitLead(c, rest);
    SplitLead(b, c + "/" + rest);
    SplitLead(a, b + "/" + (c + "/" + rest));
  }

  lemma DeliveryUrlSegments(cloud: string, tail: string)
    ensures DeliveryUrl(cloud, tail) == Joined3("https:", "", "res.cloudinary.com", Joined3(cloud, "image", "upload", tail))
  {
    assert "https://res.cloudinary.com/" == "https:" + "/" + ("" + "/" + ("res.cloudinary.com" + "/"));
    assert "/image/upload/" == "/" + ("image" + "/" + ("upload" + "/"));
  }

  /** The segments of a delivery URL. */
  lemma DeliverySplit(cloud: string, tail: string)
    requires '/' !in cloud
    ensures Split(DeliveryUrl(cloud, tail), "/")
         == ["https:", "", "res.cloudinary.com", cloud, "image", "upload"] + Split(tail, "/")
  {
    DeliveryUrlSegments(cloud, tail);
    SplitLead3(cloud, "image", "upload", tail);
    HostHasNoSlash();
    SplitLead3("https:", "", "res.cloudinary.com", Joined3(cloud, "image", "upload", tail));
    SixSegments("https:", "", "res.cloudinary.com", cloud, "image", "upload", Split(tail, "/"));
  }

  lemma SixSegments(a: string, b: string, c: string, d: string, e: string, f: string, rest: seq<string>)
    ensures [a, b, c] + ([d, e, f] + rest) == [a, b, c, d, e, f] + rest
  {
  }

  /** The fixed segments of a delivery URL hold no `/`. */
  lemma HostHasNoSlash()
    ensures '/' !in "https:" && '/' !in "res.cloudinary.com"
  {
    var host := "res.cloudinary.com";
    forall k | 0 <= k < |host| ensures host[k] != '/' {
    }
  }

  /** On a delivery URL, the text after `upload/` is the tail. */
  lemma AfterUploadDelivery(cloud: string, tail: string)
    requires '/' !in cloud && cloud != "upload"
    ensures AfterUpload(DeliveryUrl(cloud, tail)) == Some(tail)
  {
    var parts := Split(DeliveryUrl(cloud, tail), "/");
    DeliverySplit(cloud, tail);
    assert parts[5] == "upload";
    var i := IndexOf(parts, "upload");
    assert i <= 5 ==> parts[..6][i] == parts[i];
    assert i == 5;
    assert parts[6..] == Split(tail, "/");
    JoinSplit(tail, "/");
  }

  /** A versioned tail `v{version}/{public id}{ext}` yields the public id. */
  lemma VersionedTail(version: string, publicId: string, ext: string)
    requires '/' !in version && PlainStem(publicId) && PlainExt(ext)
    ensures TailId("v" + version + "/" + publicId + ext) == publicId
  {
    var t := "v" + version + "/" + publicId + ext;
    assert t == ("v" + version) + "/" + (publicId + ext);
    assert t[..1] == "v";
    SplitLead("v" + version, publicId + ext);
    JoinSplit(publicId + ext, "/");
    SplitExtParts(publicId, ext);
  }

  /** The URL the SDK answers for an upload (it carries the version)
      yields the uploaded public id again. */
  lemma UploadedUrlYieldsId(cloud: string, version: string, publicId: string, ext: string)
    requires '/' !in cloud && cloud != "upload" && '/' !in version
    requires PlainStem(publicId) && PlainExt(ext)
    ensures PublicIdOf(DeliveryUrl(cloud, "v" + version + "/" + publicId + ext)) == Some(publicId)
  {
    AfterUploadDelivery(cloud, "v" + version + "/" + publicId + ext);
    VersionedTail(version, publicId, ext);
  }

  /** As written, a version-less URL whose public id starts with `v` loses
      its first segment: `videos/clip` is read as `clip`. */
  lemma VersionlessIdMisread(cloud: string)
    requires '/' !in cloud && cloud != "upload"
    ensures PublicIdOf(DeliveryUrl(cloud, "videos/clip.mp4")) == Some("clip")
  {
    assert "videos/clip.mp4" == "v" + "ideos" + "/" + "clip" + ".mp4";
    AfterUploadDelivery(cloud, "videos/clip.mp4");
    VersionedTail("ideos", "clip", ".mp4");
  }

  // ---- the corrected reading ----

  /** A version segment: `v` and one or more digits. */
  predicate IsVersion(s: string) {
    |s| >= 2 && s[0] == 'v' && forall k :: 1 <= k < |s| ==> IsDigit(s[k])
  }

  /** The tail's first segment is dropped only when it is a version. */
  function TailIdFixed(tail: string): string {
    var parts := Split(tail, "/");
    if |parts| >= 2 && IsVersion(parts[0]) then SplitExt(Join(parts[1..], "/")).0
    else SplitExt(tail).0
  }

  function PublicIdOfFixed(url: string): (r: Option<string>)
    ensures r.None? <==> "upload" !in Split(url, "/")
  {
    match AfterUpload(url)
    case None => None
    case Some(tail) => Some(TailIdFixed(tail))
  }

  /** With a numeric version, the corrected reading yields the public id. */
  lemma FixedVersionedTail(version: string, publicId: string, ext: string)
    requires IsVersion("v" + version) && PlainStem(publicId) && PlainExt(ext)
    ensures TailIdFixed("v" + version + "/" + publicId + ext) == publicId
  {
    var t := "v" + version + "/" + publicId + ext;
    assert t == ("v" + version) + "/" + (publicId + ext);
    assert '/' !in version by {
      forall k | 0 <= k < |version| ensures version[k] != '/' {
        assert ("v" + version)[k + 1] == version[k];
      }
    }
    SplitLead("v" + version, publicId + ext);
    JoinSplit(publicId + ext, "/");
    SplitExtParts(publicId, ext);
  }

  /** Without a version, the corrected reading keeps the whole public id
      `{folder}/{name}` whenever the folder is not itself a version. */
  lemma FixedVersionlessTail(folder: string, name: string, ext: string)
    requires '/' !in folder && !IsVersion(folder) && PlainStem(folder + "/" + name) && PlainExt(ext)
    ensures TailIdFixed(folder + "/" + name + ext) == folder + "/" + name
  {
    var t := folder + "/" + name + ext;
    assert t == folder + "/" + (name + ext);
    SplitLead(folder, name + ext);
    assert t == (folder + "/" + name) + ext;
    SplitExtParts(folder + "/" + name, ext);
  }

  /** The corrected reading keeps a version-less URL's whole public id. */
  lemma FixedVersionlessUrl(cloud: string, folder: string, name: string, ext: string)
    requires '/' !in cloud && cloud != "upload"
    requires '/' !in folder && !IsVersion(folder) && PlainStem(folder + "/" + name) && PlainExt(ext)
    ensures PublicIdOfFixed(DeliveryUrl(cloud, folder + "/" + name + ext)) == Some(folder + "/" + name)
  {
    AfterUploadDelivery(cloud, folder + "/" + name + ext);
    FixedVersionlessTail(folder, name, ext);
  }

  /** The URL the as-written reading misreads, read correctly. */
  lemma FixedReadsVersionlessVideo(cloud: string)
    requires '/' !in cloud && cloud != "upload"
    ensures PublicIdOfFixed(DeliveryUrl(cloud, "videos/clip.mp4")) == Some("videos/clip")
  {
    assert "videos/clip.mp4" == "videos" + "/" + "clip" + ".mp4";
    assert !IsDigit("videos"[1]);
    assert "videos" + "/" + "clip" == "videos/clip";
    assert PlainStem("videos/clip");
    assert PlainExt(".mp4");
    FixedVersionlessUrl(cloud, "videos", "clip", ".mp4");
  }

  /** With the corrected reading the SDK's versioned URL still yields the
      uploaded public id. */
  lemma FixedUploadedUrlYieldsId(cloud: string, version: string, publicId: string, ext: string)
    requires '/' !in cloud && cloud != "upload" && IsVersion("v" + version)
    requires PlainStem(publicId) && PlainExt(ext)
    ensures PublicIdOfFixed(DeliveryUrl(cloud, "v" + version + "/" + publicId + ext)) == Some(publicId)
  {
    AfterUploadDelivery(cloud, "v" + version + "/" + publicId + ext);
    FixedVersionedTail(version, publicId, ext);
  }

  // ---- the store ----

  /** What `upload_file` answers for the SDK's reply: its `secure_url`,
      None when the call raised or the reply has none. */
  function UploadAnswer(reply: Option<Config>): (url: Option<Json>)
    ensures url.Some? <==> reply.Some? && "secure_url" in reply.value && reply.value["secure_url"] != JNull
    ensures url.Some? ==> url.value == reply.value["secure_url"]
  {
    if reply.None? then None
    else
      var u := Get(reply.value, "secure_url", JNull);
      if u == JNull then None else Some(u)
  }

  /** What `delete_file` answers: true exactly when an id was read and the
      SDK's reply to destroying it says `ok`. */
  function DeleteAnswer(id: Option<string>, destroy: string -> Option<Config>): (ok: bool)
    ensures ok <==> id.Some? && destroy(id.value).Some? && "result" in destroy(id.value).value
                    && destroy(id.value).value["result"] == JStr("ok")
  {
    id.Some? && var reply := destroy(id.value);
    reply.Some? && Get(reply.value, "result", JNull) == JStr("ok")
  }

  class CloudinaryStorage {
    var configured: bool
    /** The SDK configuration this store has set. */
    var sdk: Option<Credentials>

    predicate Valid()
      reads this
    {
      configured <==> sdk.Some?
    }

    constructor ()
      ensures Valid() && !configured
    {
      configured := false;
      sdk := None;
    }

    /** `_configure`: the SDK is configured on first use only. */
    method Configure(cfg: Credentials)
      requires Valid()
      modifies this
      ensures Valid() && configured
      ensures old(configured) ==> sdk == old(sdk)
      ensures !old(configured) ==> sdk == Some(cfg)
    {
      if !configured {
        sdk := Some(cfg);
        configured := true;
      }
    }

    /** `upload_file`: the file goes under the public id `{folder}/{uuid}`. */
    method UploadFile(folder: string, uuid: string, cfg: Credentials,
                      upload: (string, string) -> Option<Config>)
      returns (url: Option<Json>)
      requires Valid()
      modifies this
      ensures Valid() && configured
      ensures old(configured) ==> sdk == old(sdk)
      ensures !old(configured) ==> sdk == Some(cfg)
      ensures url == UploadAnswer(upload(folder + "/" + uuid, folder))
    {
      Configure(cfg);
      var publicId := folder + "/" + uuid;
      url := UploadAnswer(upload(publicId, folder));
    }

    /** `delete_file`, reading the public id as written. */
    method DeleteFile(url: string, cfg: Credentials, destroy: string -> Option<Config>)
      returns (ok: bool)
      requires Valid()
      modifies this
      ensures Valid() && configured
      ensures old(configured) ==> sdk == old(sdk)
      ensures !old(configured) ==> sdk == Some(cfg)
      ensures ok == DeleteAnswer(PublicIdOf(url), destroy)
    {
      Configure(cfg);
      var id := PublicIdOf(url);
      if id.None? {
        return false;
      }
      var reply := destroy(id.value);
      ok := reply.Some? && Get(reply.value, "result", JNull) == JStr("ok");
    }

    /** `delete_file` with the corrected reading of the public id. */
    method DeleteFileFixed(url: string, cfg: Credentials, destroy: string -> Option<Config>)
      returns (ok: bool)
      requires Valid()
      modifies this
      ensures Valid() && configured
      ensures old(configured) ==> sdk == old(sdk)
      ensures !old(configured) ==> sdk == Some(cfg)
      ensures ok == DeleteAnswer(PublicIdOfFixed(url), destroy)
    {
      Configure(cfg);
      var id := PublicIdOfFixed(url);
      if id.None? {
        return false;
      }
      var reply := destroy(id.value);
      ok := reply.Some? && Get(reply.value, "result", JNull) == JStr("ok");
    }
  }
}

=== FILE: decorators.dfy ===
/** The route guards (backend/app/utils/decorators.py). A guarded route is
    a handler from the current user to a response; a handler that raises
    gives `Err` with the exception's message. */
module Decorators {
  import opened Wrappers
  import opened Json
  import opened Strings
  import opened Builtins
  import opened Models
  import opened Authorization
  import opened Responses

  type Handler = User -> Result<Response>

  /** `jsonify({'error': message}), status`. */
  function Refusal(message: string, status: int): (r: Response)
    ensures r.status == status && r.body == JObj(map["error" := JStr(message)])
  {
    Response(JObj(map["error" := JStr(message)]), status)
  }

  /** `auth_required`: `identity` is what `verify_jwt_in_request` and
      `get_jwt_identity` yield (a failure carries its message); the
      identity is read as an integer user id and looked up. Any exception
      on the way, including one the handler raises, becomes 401 with its
      message. */
  function AuthRequired(identity: Result<string>, users: map<int, User>, handler: Handler): (r: Response)
    ensures identity.Err? ==> r == Refusal(identity.error, 401)
    ensures identity.Ok? && ParseIntText(identity.value).Err? ==>
              r == Refusal(ParseIntText(identity.value).error, 401)
    ensures identity.Ok? && ParseIntText(identity.value).Ok? && ParseIntText(identity.value).value !in users ==>
              r == Refusal("User not found", 401)
    ensures identity.Ok? && ParseIntText(identity.value).Ok? && ParseIntText(identity.value).value in users ==>
              var out := handler(users[ParseIntText(identity.value).value]);
              r == if out.Ok? then out.value else Refusal(out.error, 401)
    // only a handler's own answer gets past the guard
    ensures r.status != 401 ==>
              identity.Ok? && ParseIntText(identity.value).Ok? && ParseIntText(identity.value).value in users &&
              handler(users[ParseIntText(identity.value).value]) == Ok(r)
  {
    if identity.Err? then Refusal(identity.error, 401)
    else
      var id := ParseIntText(identity.value);
      if id.Err? then Refusal(id.error, 401)
      else if id.value !in users then Refusal("User not found", 401)
      else
        var out := handler(users[id.value]);
        if out.Ok? then out.value else Refusal(out.error, 401)
  }

  /** The token issued at login carries `str(user.id)`; presented again,
      it leads `auth_required` to that same user. */
  lemma TokenIdentifiesUser(u: User, users: map<int, User>, handler: Handler)
    requires u.id in users && users[u.id] == u && handler(u).Ok?
    ensures AuthRequired(Ok(IntText(u.id)), users, handler) == handler(u).value
  {
    IntTextRoundTrip(u.id);
  }

  /** What a plan limit is measured against: the user, the user's plan
      and how many products and templates the user owns. */
  datatype Account = Account(user: User, plan: Plan, productCount: nat, templateCount: nat)

  /** The check `plan_limit(resource)` applies. */
  function LimitFor(resource: string, account: Account): (v: Verdict)
    ensures resource == "product" ==> v == CanCreateProduct(account.plan, account.productCount)
    ensures resource == "template" ==> v == CanCreateTemplate(account.plan, account.templateCount)
    ensures resource == "generation" ==> v == CanGeneratePoster(account.plan, account.user)
    ensures resource !in {"product", "template", "generation"} ==> v == Verdict(false, "Invalid resource type")
  {
    if resource == "product" then CanCreateProduct(account.plan, account.productCount)
    else if resource == "template" then CanCreateTemplate(account.plan, account.templateCount)
    else if resource == "generation" then CanGeneratePoster(account.plan, account.user)
    else Verdict(false, "Invalid resource type")
  }

  /** `plan_limit(resource)`: a denial answers 403 with the reason and the
      handler is not called; otherwise the handler answers. */
  function PlanLimit(resource: string, account: Account, handler: Handler): (r: Result<Response>)
    ensures !LimitFor(resource, account).allowed ==>
              r == Ok(Refusal(LimitFor(resource, account).message, 403))
    ensures LimitFor(resource, account).allowed ==> r == handler(account.user)
  {
    var v := LimitFor(resource, account);
    if !v.allowed then Ok(Refusal(v.message, 403)) else handler(account.user)
  }

  /** `requires_feature(feature)`: a plan without the feature answers 403
      naming it. */
  function RequiresFeature(feature: string, user: User, plan: Plan, handler: Handler): (r: Result<Response>)
    ensures !Truthy(HasFeature(plan, feature)) ==>
              r == Ok(Response(JObj(map["error" := JStr("This feature requires a plan upgrade"),
                                        "feature" := JStr(feature)]), 403))
    ensures Truthy(HasFeature(plan, feature)) ==> r == handler(user)
  {
    if !Truthy(HasFeature(plan, feature)) then
      Ok(Response(JObj(map["error" := JStr("This feature requires a plan upgrade"),
                           "feature" := JStr(feature)]), 403))
    else handler(user)
  }

  /** A feature the plan does not list is refused. */
  lemma MissingFeatureRefused(feature: string, user: User, plan: Plan, handler: Handler)
    requires feature !in plan.features
    ensures RequiresFeature(feature, user, plan, handler).Ok?
    ensures RequiresFeature(feature, user, plan, handler).value.status == 403
  {
  }

  /** `admin_required` as written: it reads `current_user.is_admin`, an
      attribute the user model does not define, so it raises whatever the
      user. */
  function AdminRequiredAsWritten(user: User, handler: Handler): (r: Result<Response>)
    ensures r == Err("'User' object has no attribute 'is_admin'")
  {
    Err("'User' object has no attribute 'is_admin'")
  }

  /** Stacked under `auth_required`, the guard as written turns every
      authenticated request into 401: no user ever reaches the handler. */
  lemma AdminGuardLocksOutEveryone(identity: string, users: map<int, User>, handler: Handler)
    requires ParseIntText(identity).Ok? && ParseIntText(identity).value in users
    ensures AuthRequired(Ok(identity), users, u => AdminRequiredAsWritten(u, handler))
            == Refusal("'User' object has no attribute 'is_admin'", 401)
  {
  }

  /** `admin_required` with the admin flag it means to read, here given
      by `isAdmin`: administrators reach the handler, anyone else gets
      403. */
  function AdminRequired(user: User, isAdmin: User -> bool, handler: Handler): (r: Result<Response>)
    ensures isAdmin(user) ==> r == handler(user)
    ensures !isAdmin(user) ==> r == Ok(Refusal("Admin access required", 403))
  {
    if !isAdmin(user) then Ok(Refusal("Admin access required", 403)) else handler(user)
  }

  /** With the flag read, an administrator's request reaches the handler
      through `auth_required`. */
  lemma AdminReachesHandler(identity: string, users: map<int, User>, isAdmin: User -> bool, handler: Handler)
    requires ParseIntText(identity).Ok? && ParseIntText(identity).value in users
    requires isAdmin(users[ParseIntText(identity).value])
    requires handler(users[ParseIntText(identity).value]).Ok?
    ensures AuthRequired(Ok(identity), users, u => AdminRequired(u, isAdmin, handler))
            == handler(users[ParseIntText(identity).value]).value
  {
  }
}

=== FILE: drawing.dfy ===
/** The Pillow surface the renderer paints on, kept abstract: a canvas is the
    log of the drawing calls made on it (`draw.rectangle`, `draw.line`,
    `canvas.paste`, `draw.text`), and a picture is the term built by the
    image operations (decode, flatten, resize, crop, thumbnail, mask).
    What Pillow does with them (rasterising, resampling, PNG encoding) is
    outside the model; sizes are not. */
module Drawing {
  import opened Wrappers
  import opened Json

  /** A colour as handed to Pillow: a configuration value (a colour string)
      or an RGB triple computed by the renderer. */
  datatype Paint = Given(value: Json) | Rgb(r: int, g: int, b: int)

  datatype Font = TrueType(path: string, size: Json) | DefaultFont

  datatype Mode = RGB | RGBA | LA | P | L | OtherMode(name: string)

  datatype Picture =
    | Decoded(source: Json, mode: Mode, w: int, h: int)
    | Flattened(src: Picture)              // pasted onto a white RGB image of its size
    | Resized(src: Picture, w: int, h: int)
    | Cropped(src: Picture, left: int, top: int, right: int, bottom: int)
    | Thumbnail(src: Picture, boxW: int, boxH: int)
    | Centered(src: Picture, w: int, h: int, offX: int, offY: int)  // on a white w x h image
    | Rounded(src: Picture, radius: real)   // masked by a rounded rectangle of its size

  /** Size `thumbnail((bw, bh))` shrinks a w x h image to: unchanged when
      it already fits, otherwise the side that is relatively too long
      becomes the box side and the other is Pillow's `round_aspect` of the
      aspect-preserving length, never below 1. When the width is the free
      side the floor wins unless the ceiling gives a strictly nearer aspect
      ratio `w / h`; when the height is free the comparison is of
      `bw / n` against `w / h`, and a floor of 0 always wins. */
  function ThumbSize(w: int, h: int, bw: int, bh: int): (int, int)
    requires w > 0 && h > 0 && bw > 0 && bh > 0
  {
    if bw >= w && bh >= h then (w, h)
    else if bw * h >= bh * w then
      var f := bh * w / h;
      (Max1(if 2 * (bh * w - f * h) <= h then f else f + 1), bh)
    else
      var f := bw * h / w;
      var c := if f * w == bw * h then f else f + 1;
      (bw, Max1(if f == 0 || bw * h * (f + c) <= 2 * w * f * c then f else c))
  }

  function Max1(n: int): int { if n < 1 then 1 else n }

  function Width(p: Picture): int {
    match p
    case Decoded(_, _, w, _) => w
    case Flattened(src) => Width(src)
    case Resized(_, w, _) => w
    case Cropped(_, l, _, r, _) => r - l
    case Thumbnail(src, bw, bh) =>
      if Width(src) > 0 && Height(src) > 0 && bw > 0 && bh > 0
      then ThumbSize(Width(src), Height(src), bw, bh).0 else Width(src)
    case Centered(_, w, _, _, _) => w
    case Rounded(src, _) => Width(src)
  }

  function Height(p: Picture): int {
    match p
    case Decoded(_, _, _, h) => h
    case Flattened(src) => Height(src)
    case Resized(_, _, h) => h
    case Cropped(_, _, t, _, b) => b - t
    case Thumbnail(src, bw, bh) =>
      if Width(src) > 0 && Height(src) > 0 && bw > 0 && bh > 0
      then ThumbSize(Width(src), Height(src), bw, bh).1 else Height(src)
    case Centered(_, _, h, _, _) => h
    case Rounded(src, _) => Height(src)
  }

  /** One drawing call on the canvas. Pillow's drawing calls take int or
      float coordinates; `paste` takes only ints. */
  datatype DrawOp =
    | Rect(x0: real, y0: real, x1: real, y1: real, fill: Option<Paint>, outline: Option<Paint>, strokeWidth: Json)
    | Line(x0: real, y0: real, x1: real, y1: real, color: Paint, lineWidth: int)
    | Paste(pic: Picture, left: int, top: int)
    | Text(x: real, y: real, text: string, font: Font, ink: Paint)

  /** The encoded PNG: stands for the bytes `canvas.save(..., 'PNG')` writes. */
  datatype Png = Png(width: int, height: int, ops: seq<DrawOp>)

  /** What an image fetch (`requests.get` then `Image.open`) produced. */
  datatype Fetch = Fetched(pic: Picture) | FetchFailed

  /** The world outside the renderer: network, font files, Pillow's text
      measurement (`textbbox` width), Pillow's colour reading (`inkOk`:
      whether `ImageDraw._getink` accepts a value, through
      `ImageColor.getrgb` for a string) and the attributes Python objects
      carry (`hasattr`/`getattr`, None when there is no such attribute), as
      fixed but unknown functions. */
  datatype Env = Env(
    fetch: Json -> Fetch,
    attribute: (Json, string) -> Option<Json>,
    measure: (Font, string) -> int,
    fontFileExists: string -> bool,
    fontLoads: (string, Json) -> bool,
    inkOk: Json -> bool)

  /** Whether a drawing call given the colour `v` gets past reading it:
      None always does (Pillow falls back to its default ink), any other
      value when Pillow can read it as a colour. When it cannot, the call
      raises before drawing anything. */
  predicate InkAccepted(env: Env, v: Json) {
    v.JNull? || env.inkOk(v)
  }

  /** What rendering one layer does to the canvas: the drawing calls it made,
      in order, and whether it finished (`ok`) or raised part-way. */
  datatype Effect = Effect(ops: seq<DrawOp>, ok: bool)

  /** An RGB image that starts all white; drawing appends to its log. */
  class Canvas {
    const width: int
    const height: int
    var ops: seq<DrawOp>

    constructor (width: int, height: int)
      ensures this.width == width && this.height == height
      ensures ops == []
    {
      this.width := width;
      this.height := height;
      ops := [];
    }

    method Draw(op: DrawOp)
      modifies this
      ensures ops == old(ops) + [op]
    {
      ops := ops + [op];
    }

    /** `canvas.save(output, format='PNG')`. */
    function Encode(): (png: Png)
      reads this
      ensures png.width == width && png.height == height && png.ops == ops
    {
      Png(width, height, ops)
    }
  }
}

=== FILE: engine.dfy ===
/** The poster renderer (backend/renderer/engine.py): a white canvas of the
    template's size, the layers drawn in order by their type, each layer's
    failure contained to that layer, and the result encoded as PNG. */
module Engine {
  import opened Wrappers
  import opened Json
  import opened Builtins
  import opened Drawing
  import opened BaseLayer
  import BackgroundLayer
  import ImageLayer
  import TextLayer

  datatype LayerKind = Background | Image | TextKind

  /** `LAYER_CLASSES`: the layer types the renderer knows. */
  function KindOf(t: Json): Option<LayerKind> {
    if t == JStr("background") then Some(Background)
    else if t == JStr("image") then Some(Image)
    else if t == JStr("text") then Some(TextKind)
    else None
  }

  /** What one entry of `layers` adds to a w x h canvas. An entry that is
      not a mapping, or whose `type` is unhashable, aborts the whole
      render; an unknown or missing type adds nothing; a known layer adds
      whatever it drew, even if it then raised (the error is swallowed). */
  function LayerOps(entry: Json, w: int, h: int, data: Json, env: Env): Result<seq<DrawOp>> {
    if !entry.JObj? then Err(NoAttribute(entry, "get"))
    else
      var t := Get(entry.fields, "type", JNull);
      if t.JList? || t.JObj? then Err(Unhashable(t))
      else match KindOf(t)
        case None => Ok([])
        case Some(Background) => Ok(BackgroundLayer.BackgroundEffect(entry.fields, w, h, env).ops)
        case Some(Image) => Ok(ImageLayer.ImageEffect(entry.fields, data, env).ops)
        case Some(TextKind) => Ok(TextLayer.TextEffect(entry.fields, data, env).ops)
  }

  /** The outcomes of a sequence of layers run one after another: the
      calls of each in turn, or the first abort. */
  function Sequence(outcomes: seq<Result<seq<DrawOp>>>): Result<seq<DrawOp>> {
    if outcomes == [] then Ok([])
    else
      var before := Sequence(outcomes[..|outcomes| - 1]);
      var last := outcomes[|outcomes| - 1];
      if before.Err? then before
      else if last.Err? then last
      else Ok(before.value + last.value)
  }

  function Outcomes(entries: seq<Json>, w: int, h: int, data: Json, env: Env): (rs: seq<Result<seq<DrawOp>>>)
    ensures |rs| == |entries|
    ensures forall k :: 0 <= k < |entries| ==> rs[k] == LayerOps(entries[k], w, h, data, env)
  {
    seq(|entries|, k requires 0 <= k < |entries| => LayerOps(entries[k], w, h, data, env))
  }

  /** The canvas log after drawing `entries` in order. */
  function Compose(entries: seq<Json>, w: int, h: int, data: Json, env: Env): Result<seq<DrawOp>> {
    Sequence(Outcomes(entries, w, h, data, env))
  }

  /** Iterating `layers`: a list gives its entries; an empty mapping or
      string gives none; anything else aborts (a non-empty mapping or string
      yields strings, which have no `.get`; other values are not iterable). */
  function LayerEntries(layers: Json): (r: Result<seq<Json>>)
    ensures layers.JList? ==> r == Ok(layers.items)
    ensures (layers.JObj? && layers.fields != map[]) || (layers.JStr? && layers.s != "") ==>
              r == Err(NoAttribute(JStr(""), "get"))
    ensures !(layers.JList? || layers.JObj? || layers.JStr?) ==>
              r == Err("'" + TypeName(layers) + "' object is not iterable")
  {
    match layers
    case JList(items) => Ok(items)
    case JObj(m) => if m == map[] then Ok([]) else Err(NoAttribute(JStr(""), "get"))
    case JStr(s) => if s == "" then Ok([]) else Err(NoAttribute(JStr(""), "get"))
    case _ => Err("'" + TypeName(layers) + "' object is not iterable")
  }

  const NegativeSize := "Width and height must be >= 0"
  const FloatSize := "'float' object cannot be interpreted as an integer"

  /** The `TypeError` of `v < 0` for a value that is not a number. */
  function NotComparable(v: Json): string {
    "'<' not supported between instances of '" + TypeName(v) + "' and 'int'"
  }

  /** Canvas size: `canvas.w` and `canvas.h`, 1080 by default, as
      `Image.new` takes them. Pillow first compares each side with 0 (a
      negative number is refused, a value that is not a number cannot be
      compared), then reads both as C ints, which a float is not; a bool
      is the int 0 or 1. */
  function CanvasSize(template: Config): (r: Result<(int, int)>)
    ensures var canvas := Get(template, "canvas", JObj(map[]));
            !canvas.JObj? ==> r == Err(NoAttribute(canvas, "get"))
    ensures r.Ok? ==>
              var canvas := Get(template, "canvas", JObj(map[]));
              canvas.JObj? && Integral(Get(canvas.fields, "w", JInt(1080))) == Some(r.value.0)
              && Integral(Get(canvas.fields, "h", JInt(1080))) == Some(r.value.1)
              && r.value.0 >= 0 && r.value.1 >= 0
    ensures var canvas := Get(template, "canvas", JObj(map[]));
            canvas.JObj? ==>
              var w, h := Integral(Get(canvas.fields, "w", JInt(1080))), Integral(Get(canvas.fields, "h", JInt(1080)));
              (w.Some? && h.Some? && w.value >= 0 && h.value >= 0 ==> r.Ok?)
    ensures var canvas := Get(template, "canvas", JObj(map[]));
            canvas.JObj? ==>
              var w, h := Get(canvas.fields, "w", JInt(1080)), Get(canvas.fields, "h", JInt(1080));
              (Number(w).None? ==> r == Err(NotComparable(w)))
              && (Number(w).Some? && Number(w).value < 0.0 ==> r == Err(NegativeSize))
              && (Number(w).Some? && Number(w).value >= 0.0 && Number(h).None? ==> r == Err(NotComparable(h)))
              && (Number(w).Some? && Number(w).value >= 0.0 ==>
                    (Number(h).Some? && Number(h).value < 0.0 ==> r == Err(NegativeSize))
                    && (Number(h).Some? && Number(h).value >= 0.0 && (w.JFloat? || h.JFloat?) ==> r == Err(FloatSize)))
  {
    var canvas := Get(template, "canvas", JObj(map[]));
    if !canvas.JObj? then Err(NoAttribute(canvas, "get"))
    else
      var w := Get(canvas.fields, "w", JInt(1080));
      var h := Get(canvas.fields, "h", JInt(1080));
      if Number(w).None? then Err(NotComparable(w))
      else if Number(w).value < 0.0 then Err(NegativeSize)
      else if Number(h).None? then Err(NotComparable(h))
      else if Number(h).value < 0.0 then Err(NegativeSize)
      else if w.JFloat? || h.JFloat? then Err(FloatSize)
      else Ok((Integral(w).value, Integral(h).value))
  }

  /** The PNG `render` returns. */
  function Rendered(template: Config, data: Json, env: Env): Result<Png> {
    var size := CanvasSize(template);
    if size.Err? then Err(size.error)
    else
      var entries := LayerEntries(Get(template, "layers", JList([])));
      if entries.Err? then Err(entries.error)
      else
        var ops := Compose(entries.value, size.value.0, size.value.1, data, env);
        if ops.Err? then Err(ops.error) else Ok(Png(size.value.0, size.value.1, ops.value))
  }

  /** Renders one entry onto the canvas. */
  method RenderLayer(entry: Json, canvas: Canvas, data: Json, env: Env) returns (r: Result<()>)
    modifies canvas
    ensures LayerOps(entry, canvas.width, canvas.height, data, env).Err? <==> r.Err?
    ensures r.Err? ==> r.error == LayerOps(entry, canvas.width, canvas.height, data, env).error
    ensures r.Ok? ==> canvas.ops == old(canvas.ops) + LayerOps(entry, canvas.width, canvas.height, data, env).value
    ensures r.Err? ==> canvas.ops == old(canvas.ops)
  {
    if !entry.JObj? {
      return Err(NoAttribute(entry, "get"));
    }
    var t := Get(entry.fields, "type", JNull);
    if t.JList? || t.JObj? {
      return Err(Unhashable(t));
    }
    var kind := KindOf(t);
    if kind.Some? {
      var layer := new Layer(entry.fields);
      var ok;
      match kind.value {
        case Background => ok := BackgroundLayer.Render(layer, canvas, data, env);
        case Image => ok := ImageLayer.Render(layer, canvas, data, env);
        case TextKind => ok := TextLayer.Render(layer, canvas, data, env);
      }
    }
    r := Ok(());
  }

  /** `PosterRenderer.render`. */
  method Render(template: Config, data: Json, env: Env) returns (png: Result<Png>)
    ensures png == Rendered(template, data, env)
  {
    var size := CanvasSize(template);
    if size.Err? {
      return Err(size.error);
    }
    var canvas := new Canvas(size.value.0, size.value.1);
    var entries := LayerEntries(Get(template, "layers", JList([])));
    if entries.Err? {
      return Err(entries.error);
    }
    var layers := entries.value;
    ghost var outs := Outcomes(layers, canvas.width, canvas.height, data, env);
    for i := 0 to |layers|
      invariant Sequence(outs[..i]) == Ok(canvas.ops)
    {
      assert outs[i] == LayerOps(layers[i], canvas.width, canvas.height, data, env);
      SequenceSnoc(outs, i);
      var r := RenderLayer(layers[i], canvas, data, env);
      if r.Err? {
        SequenceAbort(outs, i + 1);
        return Err(r.error);
      }
    }
    assert outs[..|layers|] == outs;
    png := Ok(canvas.Encode());
  }

  /** The output file written by `render_to_file`. */
  class FileSystem {
    var files: map<string, Png>

    constructor ()
      ensures files == map[]
    {
      files := map[];
    }
  }

  /** `render_to_file`: the rendered PNG written at `path`; nothing is
      written if rendering raises. */
  method RenderToFile(fs: FileSystem, template: Config, data: Json, path: string, env: Env) returns (r: Result<()>)
    modifies fs
    ensures r.Ok? <==> Rendered(template, data, env).Ok?
    ensures r.Ok? ==> fs.files == old(fs.files)[path := Rendered(template, data, env).value]
    ensures r.Err? ==> fs.files == old(fs.files)
  {
    var png := Render(template, data, env);
    if png.Err? {
      return Err(png.error);
    }
    fs.files := fs.files[path := png.value];
    r := Ok(());
  }

  // ---- properties ----

  /** Running outcomes in sequence is compositional: `a + b` gives `a`'s
      calls then `b`'s, and aborts with the first abort of `a`, else of
      `b`. */
  lemma {:induction false} SequenceAppend(a: seq<Result<seq<DrawOp>>>, b: seq<Result<seq<DrawOp>>>)
    ensures Sequence(a).Err? ==> Sequence(a + b) == Sequence(a)
    ensures Sequence(a).Ok? && Sequence(b).Err? ==> Sequence(a + b) == Sequence(b)
    ensures Sequence(a).Ok? && Sequence(b).Ok? ==> Sequence(a + b) == Ok(Sequence(a).value + Sequence(b).value)
    decreases |b|
  {
    if b == [] {
      assert a + b == a;
      if Sequence(a).Ok? {
        assert Sequence(a).value + [] == Sequence(a).value;
      }
    } else {
      var b', last := b[..|b| - 1], b[|b| - 1];
      assert (a + b)[..|a + b| - 1] == a + b';
      assert (a + b)[|a + b| - 1] == last;
      SequenceAppend(a, b');
      if Sequence(a).Ok? && Sequence(b').Ok? && last.Ok? {
        assert Sequence(a).value + Sequence(b').value + last.value
          == Sequence(a).value + (Sequence(b').value + last.value);
      }
    }
  }

  /** One more outcome: the prefix up to `i + 1` runs the prefix up to
      `i`, then outcome `i`. */
  lemma SequenceSnoc(outs: seq<Result<seq<DrawOp>>>, i: int)
    requires 0 <= i < |outs|
    ensures var before := Sequence(outs[..i]);
            Sequence(outs[..i + 1]) ==
              if before.Err? then before
              else if outs[i].Err? then outs[i]
              else Ok(before.value + outs[i].value)
  {
    assert outs[..i + 1][..i] == outs[..i];
  }

  /** A prefix that aborts makes the whole sequence abort the same way. */
  lemma SequenceAbort(outs: seq<Result<seq<DrawOp>>>, n: int)
    requires 0 <= n <= |outs| && Sequence(outs[..n]).Err?
    ensures Sequence(outs) == Sequence(outs[..n])
  {
    SequenceAppend(outs[..n], outs[n..]);
    assert outs[..n] + outs[n..] == outs;
  }

  /** Drawing is compositional: rendering `a + b` draws `a`'s calls then
      `b`'s, and aborts with the first abort of `a`, else of `b`. */
  lemma ComposeAppend(a: seq<Json>, b: seq<Json>, w: int, h: int, data: Json, env: Env)
    ensures Compose(a, w, h, data, env).Err? ==> Compose(a + b, w, h, data, env) == Compose(a, w, h, data, env)
    ensures Compose(a, w, h, data, env).Ok? && Compose(b, w, h, data, env).Err? ==>
      Compose(a + b, w, h, data, env) == Compose(b, w, h, data, env)
    ensures Compose(a, w, h, data, env).Ok? && Compose(b, w, h, data, env).Ok? ==>
      Compose(a + b, w, h, data, env) == Ok(Compose(a, w, h, data, env).value + Compose(b, w, h, data, env).value)
  {
    OutcomesAppend(a, b, w, h, data, env);
    SequenceAppend(Outcomes(a, w, h, data, env), Outcomes(b, w, h, data, env));
  }

  /** The outcomes of `a + b` are those of `a`, then those of `b`. */
  lemma OutcomesAppend(a: seq<Json>, b: seq<Json>, w: int, h: int, data: Json, env: Env)
    ensures Outcomes(a + b, w, h, data, env) == Outcomes(a, w, h, data, env) + Outcomes(b, w, h, data, env)
  {
    var all, l, r := Outcomes(a + b, w, h, data, env), Outcomes(a, w, h, data, env), Outcomes(b, w, h, data, env);
    forall k | 0 <= k < |a + b| ensures all[k] == (l + r)[k] {
      var entry := (a + b)[k];
      assert all[k] == LayerOps(entry, w, h, data, env);
      if k < |a| {
        assert entry == a[k];
        assert (l + r)[k] == l[k] == LayerOps(entry, w, h, data, env);
      } else {
        assert entry == b[k - |a|];
        assert (l + r)[k] == r[k - |a|] == LayerOps(entry, w, h, data, env);
      }
    }
    assert |all| == |l + r|;
  }

  /** An entry of unknown (or no) type is skipped: removing it changes
      nothing. */
  lemma UnknownTypeSkipped(a: seq<Json>, entry: Json, b: seq<Json>, w: int, h: int, data: Json, env: Env)
    requires entry.JObj?
    requires var t := Get(entry.fields, "type", JNull); !t.JList? && !t.JObj? && KindOf(t).None?
    ensures Compose(a + [entry] + b, w, h, data, env) == Compose(a + b, w, h, data, env)
  {
    ComposeAppend(a + [entry], b, w, h, data, env);
    ComposeAppend(a, [entry], w, h, data, env);
    ComposeAppend(a, b, w, h, data, env);
    assert Compose([entry], w, h, data, env) == Ok([]) by {
      var rs := Outcomes([entry], w, h, data, env);
      assert rs[..0] == [];
      assert LayerOps(entry, w, h, data, env) == Ok([]);
      assert rs[0] == Ok([]);
      var none: seq<DrawOp> := [];
      assert none + none == none;
      assert Sequence(rs) == Ok([]);
    }
    if Compose(a, w, h, data, env).Ok? {
      assert Compose(a, w, h, data, env).value + [] == Compose(a, w, h, data, env).value;
    }
    assert Compose(a + [entry], w, h, data, env) == Compose(a, w, h, data, env);
  }

  /** A layer that raises does not stop the ones after it: the render
      still succeeds when every entry is a mapping with a hashable type,
      whatever the layers themselves do. */
  lemma {:induction false} LayerErrorsContained(entries: seq<Json>, w: int, h: int, data: Json, env: Env)
    requires forall k :: 0 <= k < |entries| ==>
      entries[k].JObj? && !Get(entries[k].fields, "type", JNull).JList? && !Get(entries[k].fields, "type", JNull).JObj?
    ensures Compose(entries, w, h, data, env).Ok?
    decreases |entries|
  {
    if entries != [] {
      var prefix := entries[..|entries| - 1];
      LayerErrorsContained(prefix, w, h, data, env);
      assert Outcomes(entries, w, h, data, env)[..|entries| - 1] == Outcomes(prefix, w, h, data, env);
    }
  }

  /** A template without canvas settings or layers is a blank white
      1080 x 1080 PNG. */
  lemma EmptyTemplate(data: Json, env: Env)
    ensures Rendered(map[], data, env) == Ok(Png(1080, 1080, []))
  {
  }
}

=== FILE: generation_service.dfy ===
/** Poster generation (backend/app/core/posters/generation_service.py):
    admitting a request (template access, product ownership, campaign
    ownership, the monthly quota) and queueing one job for it, and the
    queries over the user's posters. The user's plan is passed beside the
    user (`user.plan`). */
module GenerationService {
  import opened Wrappers
  import opened Json
  import opened Strings
  import opened Models
  import opened Listing
  import opened Authorization
  import opened QueueManager
  import opened BatchJob

  /** What `_check_generation_limit` answers: `float('inf')`, or a count. */
  datatype Quota = Unlimited | Remaining(n: nat)

  /** `_check_generation_limit(user, count)`: `-1` is unlimited, otherwise
      the allowance left this month, never below zero. `count` is unused. */
  function GenerationLimit(plan: Plan, user: User): (q: Quota)
    ensures q.Unlimited? <==> plan.monthlyGenerations == -1
    ensures q.Remaining? ==> q.n >= plan.monthlyGenerations - user.monthlyGenerations
    ensures q.Remaining? && q.n > 0 ==> q.n == plan.monthlyGenerations - user.monthlyGenerations
  {
    if plan.monthlyGenerations == -1 then Unlimited
    else
      var remaining := plan.monthlyGenerations - user.monthlyGenerations;
      Remaining(if remaining > 0 then remaining else 0)
  }

  /** `remaining < count` is false: the quota allows `count` posters. */
  predicate Covers(q: Quota, count: nat) {
    q.Unlimited? || count <= q.n
  }

  /** The quota and the plan check of the authorization rules agree: one
      more poster is allowed by one exactly when it is by the other. */
  lemma QuotaAgreesWithPlanCheck(plan: Plan, user: User)
    ensures Covers(GenerationLimit(plan, user), 1) <==> CanGeneratePoster(plan, user).allowed
  {
  }

  /** The distinct products among `ids` that exist and belong to `uid`:
      the rows `Product.id.in_(ids)` and `user_id == uid` select. */
  function OwnedSelected(products: map<int, Product>, ids: seq<int>, uid: int): set<int> {
    set k | k in products && k in ids && products[k].userId == uid
  }

  /** The campaign is usable: none asked for (a falsy id), or one that
      exists and belongs to `uid`. */
  predicate CampaignOk(campaigns: map<int, Campaign>, campaignId: Option<int>, uid: int) {
    campaignId.None? || campaignId.value == 0
    || (campaignId.value in campaigns && campaigns[campaignId.value].userId == uid)
  }

  /** The admission checks of `queue_generation`, in order; `Ok` means the
      request may be queued. */
  function Admit(templates: map<int, Template>, products: map<int, Product>, campaigns: map<int, Campaign>,
                 user: User, plan: Plan, templateId: int, productIds: seq<int>, campaignId: Option<int>): (r: Result<()>)
    ensures templateId !in templates ==> r == Err("Template not found")
    ensures templateId in templates && !templates[templateId].isSystem && templates[templateId].userId != Some(user.id)
            ==> r == Err("Unauthorized access to template")
    ensures (templateId in templates && (templates[templateId].isSystem || templates[templateId].userId == Some(user.id))
             && productIds == []) ==> r == Err("At least one product is required")
    ensures r.Ok? <==>
      templateId in templates && (templates[templateId].isSystem || templates[templateId].userId == Some(user.id))
      && productIds != [] && |OwnedSelected(products, productIds, user.id)| == |productIds|
      && CampaignOk(campaigns, campaignId, user.id)
      && Covers(GenerationLimit(plan, user), |productIds|)
  {
    if templateId !in templates then Err("Template not found")
    else if !templates[templateId].isSystem && templates[templateId].userId != Some(user.id) then
      Err("Unauthorized access to template")
    else if productIds == [] then Err("At least one product is required")
    else if |OwnedSelected(products, productIds, user.id)| != |productIds| then
      Err("Some products not found or unauthorized")
    else if !CampaignOk(campaigns, campaignId, user.id) then Err("Campaign not found or unauthorized")
    else
      var remaining := GenerationLimit(plan, user);
      if !Covers(remaining, |productIds|) then
        Err("Monthly generation limit exceeded. You can generate " + IntText(remaining.n) + " more posters this month.")
      else Ok(())
  }

  /** A sequence with a repeated element has fewer distinct elements than
      positions. */
  lemma {:induction false} RepeatShrinksSet(ids: seq<int>, i: int, j: int)
    requires 0 <= i < j < |ids| && ids[i] == ids[j]
    ensures |set k | k in ids| < |ids|
  {
    var s := set k | k in ids;
    var t := set k | k in ids[1..];
    assert ids == [ids[0]] + ids[1..];
    assert s == t + {ids[0]};
    DistinctBound(ids[1..]);
    if i == 0 {
      assert ids[0] in t by { assert ids[1..][j - 1] == ids[j]; }
      assert s == t;
    } else {
      assert ids[1..][i - 1] == ids[1..][j - 1];
      RepeatShrinksSet(ids[1..], i - 1, j - 1);
    }
  }

  /** A sequence has at most as many distinct elements as positions. */
  lemma {:induction false} DistinctBound(ids: seq<int>)
    ensures |set k | k in ids| <= |ids|
  {
    if ids != [] {
      var s := set k | k in ids;
      var t := set k | k in ids[1..];
      assert ids == [ids[0]] + ids[1..];
      assert s == t + {ids[0]};
      DistinctBound(ids[1..]);
    }
  }

  /** The ownership check counts distinct rows, so a request that names a
      product twice is refused, even when the user owns it. */
  lemma RepeatedProductRefused(templates: map<int, Template>, products: map<int, Product>, campaigns: map<int, Campaign>,
                               user: User, plan: Plan, templateId: int, productIds: seq<int>, campaignId: Option<int>,
                               i: int, j: int)
    requires 0 <= i < j < |productIds| && productIds[i] == productIds[j]
    ensures Admit(templates, products, campaigns, user, plan, templateId, productIds, campaignId).Err?
  {
    RepeatShrinksSet(productIds, i, j);
    var owned := OwnedSelected(products, productIds, user.id);
    assert owned <= set k | k in productIds;
    SubsetCard(owned, set k | k in productIds);
  }

  lemma SubsetCard(a: set<int>, b: set<int>)
    requires a <= b
    ensures |a| <= |b|
  {
    assert b == a + (b - a);
  }

  /** Asking for more posters than the quota leaves is refused. */
  lemma OverQuotaRefused(templates: map<int, Template>, products: map<int, Product>, campaigns: map<int, Campaign>,
                         user: User, plan: Plan, templateId: int, productIds: seq<int>, campaignId: Option<int>)
    requires plan.monthlyGenerations != -1
    requires plan.monthlyGenerations - user.monthlyGenerations < |productIds|
    ensures Admit(templates, products, campaigns, user, plan, templateId, productIds, campaignId).Err?
  {
  }

  /** The dict `queue_generation` answers. */
  datatype JobInfo = JobInfo(jobId: string, kind: string, templateId: int, productIds: seq<int>, total: nat)

  /** `queue_generation`: after admission, one `single` job for one
      product, otherwise one `batch` job; nothing is queued on refusal.
      `jobId` is the id the queue draws for the new job. */
  method QueueGeneration(qm: QueueManager, templates: map<int, Template>, products: map<int, Product>,
                         campaigns: map<int, Campaign>, user: User, plan: Plan, templateId: int,
                         productIds: seq<int>, campaignId: Option<int>, jobId: string, now: string,
                         configured: Option<string>)
    returns (r: Result<JobInfo>)
    requires qm.Valid() && jobId !in qm.jobs
    modifies qm
    ensures qm.Valid()
    ensures r.Ok? <==> Admit(templates, products, campaigns, user, plan, templateId, productIds, campaignId).Ok?
    ensures r.Err? ==> r.error == Admit(templates, products, campaigns, user, plan, templateId, productIds, campaignId).error
    ensures r.Err? ==> qm.jobs == old(qm.jobs) && qm.queues == old(qm.queues)
    ensures r.Ok? ==> r.value.jobId == jobId && r.value.templateId == templateId && r.value.productIds == productIds
                      && r.value.total == |productIds|
                      && (r.value.kind == "single" <==> |productIds| == 1)
                      && (r.value.kind == "batch" <==> |productIds| > 1)
    ensures r.Ok? ==> jobId in qm.jobs && qm.jobs == old(qm.jobs)[jobId := qm.jobs[jobId]]
                      && qm.jobs[jobId].queue == PosterQueue
                      && qm.jobs[jobId].func == (if |productIds| == 1 then "generate_poster" else "generate_batch")
    ensures r.Ok? ==> qm.jobs[jobId].args == (if |productIds| == 1 then SingleArgs(templateId, productIds[0], user.id, campaignId)
                                              else BatchArgs(templateId, productIds, user.id, campaignId))
                      && qm.jobs[jobId].options == JobOptions(if |productIds| == 1 then SingleTimeout else BatchTimeout)
                      && qm.jobs[jobId].status == "queued"
    ensures r.Ok? ==> PosterQueue in qm.queues && qm.queues[PosterQueue].name == PosterQueue
                      && qm.queues == old(qm.queues)[PosterQueue := qm.queues[PosterQueue]]
                      && (PosterQueue in old(qm.queues) ==> qm.queues == old(qm.queues))
  {
    var admitted := Admit(templates, products, campaigns, user, plan, templateId, productIds, campaignId);
    if admitted.Err? {
      return Err(admitted.error);
    }
    if |productIds| == 1 {
      var id := EnqueueSinglePoster(qm, templateId, productIds[0], user.id, campaignId, jobId, now, configured);
      r := Ok(JobInfo(id, "single", templateId, productIds, 1));
    } else {
      var id := EnqueueBatchPosters(qm, templateId, productIds, user.id, campaignId, jobId, now, configured);
      r := Ok(JobInfo(id, "batch", templateId, productIds, |productIds|));
    }
  }

  /** `get_job_status`: the queue's report for the job, unchanged. */
  method GetJobStatus(qm: QueueManager, jobId: string, configured: Option<string>) returns (report: map<string, Json>)
    requires qm.Valid()
    modifies qm
    ensures qm.Valid()
    ensures report == StatusReport(if jobId in qm.jobs then Some(qm.jobs[jobId]) else None)
    ensures qm.queues == old(qm.queues) && qm.jobs == old(qm.jobs)
  {
    report := qm.GetJobStatus(jobId, configured);
  }

  /** `get_poster`. */
  function GetPoster(posters: map<int, Poster>, posterId: int, user: User): (r: Result<Poster>)
    ensures r.Ok? <==> posterId in posters && posters[posterId].userId == user.id
    ensures r.Ok? ==> r.value == posters[posterId]
    ensures posterId !in posters ==> r == Err("Poster not found")
    ensures posterId in posters && posters[posterId].userId != user.id ==> r == Err("Unauthorized access to poster")
  {
    if posterId !in posters then Err("Poster not found")
    else if posters[posterId].userId != user.id then Err("Unauthorized access to poster")
    else Ok(posters[posterId])
  }

  /** `delete_poster`: removes the poster `get_poster` hands out, and
      nothing else. */
  method DeletePoster(db: Database, posterId: int, user: User) returns (r: Result<()>)
    requires db.Valid()
    modifies db
    ensures db.Valid()
    ensures r.Ok? <==> GetPoster(old(db.posters), posterId, user).Ok?
    ensures r.Err? ==> r.error == GetPoster(old(db.posters), posterId, user).error && db.posters == old(db.posters)
    ensures r.Ok? ==> db.posters == old(db.posters) - {posterId}
    ensures db.plans == old(db.plans) && db.users == old(db.users) && db.products == old(db.products)
    ensures db.templates == old(db.templates) && db.campaigns == old(db.campaigns) && db.resets == old(db.resets)
    ensures db.nextId == old(db.nextId)
  {
    var found := GetPoster(db.posters, posterId, user);
    if found.Err? {
      return Err(found.error);
    }
    db.posters := db.posters - {posterId};
    r := Ok(());
  }

  /** The optional filters of `get_user_posters`; each narrows the listing
      only when truthy. */
  datatype PosterFilter = PosterFilter(productId: Option<int>, templateId: Option<int>,
                                       campaignId: Option<int>, status: Option<string>)

  predicate Active(id: Option<int>) {
    id.Some? && id.value != 0
  }

  /** A poster appears in the listing for `uid` under filter `f`. */
  predicate Listed(p: Poster, uid: int, f: PosterFilter) {
    p.userId == uid
    && (Active(f.productId) ==> p.productId == f.productId.value)
    && (Active(f.templateId) ==> p.templateId == f.templateId.value)
    && (Active(f.campaignId) ==> p.campaignId == f.campaignId)
    && (f.status.Some? && f.status.value != "" ==> p.status == f.status.value)
  }

  /** Newest first. */
  function NewestFirst(p: Poster): Key {
    (p.createdAt, 0)
  }

  /** The rows the keys `ids` name, in order. */
  function Rows(posters: map<int, Poster>, ids: seq<int>): (rows: seq<Poster>)
    requires forall i :: 0 <= i < |ids| ==> ids[i] in posters
    ensures |rows| == |ids| && forall i :: 0 <= i < |ids| ==> rows[i] == posters[ids[i]]
  {
    if ids == [] then [] else [posters[ids[0]]] + Rows(posters, ids[1..])
  }

  /** The page `get_user_posters` answers. */
  datatype PosterPage = PosterPage(posters: seq<Poster>, total: nat, page: int, perPage: int,
                                   pages: nat, hasNext: bool, hasPrev: bool)

  /** `get_user_posters`: the user's posters passing every truthy filter,
      newest first, cut into pages of `perPage`. */
  method GetUserPosters(posters: map<int, Poster>, user: User, f: PosterFilter, page: int, perPage: int)
    returns (r: PosterPage, ids: seq<int>)
    requires page >= 1 && perPage >= 1
    ensures forall k :: k in ids <==> k in posters && Listed(posters[k], user.id, f)
    ensures forall i :: 0 <= i < |ids| ==> ids[i] in posters
    ensures Distinct(ids) && Descending(ids, Rank(posters, NewestFirst))
    ensures r.total == |ids| && r.page == page && r.perPage == perPage
    ensures r.pages == PageCount(|ids|, perPage)
    ensures r.hasNext <==> page < r.pages
    ensures r.hasPrev <==> page > 1
    ensures |r.posters| <= perPage
    ensures r.posters == PageItems(Rows(posters, ids), page, perPage)
    ensures forall p :: p in r.posters ==> Listed(p, user.id, f)
  {
    ids := SelectSorted(posters, (p: Poster) => Listed(p, user.id, f), NewestFirst);
    forall i | 0 <= i < |ids| ensures ids[i] in posters && Listed(posters[ids[i]], user.id, f) {
      assert ids[i] in ids;
    }
    var rows := Rows(posters, ids);
    var items := PageItems(rows, page, perPage);
    assert forall p :: p in items ==> p in rows;
    var pages := PageCount(|ids|, perPage);
    r := PosterPage(items, |ids|, page, perPage, pages, page < pages, page > 1);
  }

  /** The user's posters, and those with a given status. */
  function PostersOf(posters: map<int, Poster>, uid: int): set<int> {
    set k | k in posters && posters[k].userId == uid
  }

  function PostersWith(posters: map<int, Poster>, uid: int, status: string): set<int> {
    set k | k in posters && posters[k].userId == uid && posters[k].status == status
  }

  /** The dict `get_generation_stats` answers. */
  datatype Stats = Stats(used: int, limit: int, remaining: Quota, unlimited: bool,
                         totalPosters: nat, successful: nat, failed: nat)

  /** `get_generation_stats`. */
  function GenerationStats(posters: map<int, Poster>, user: User, plan: Plan): (s: Stats)
    ensures s.unlimited <==> plan.monthlyGenerations == -1
    ensures s.unlimited <==> s.remaining.Unlimited?
    ensures s.used == user.monthlyGenerations && s.limit == plan.monthlyGenerations
    ensures s.successful + s.failed <= s.totalPosters
  {
    var all := PostersOf(posters, user.id);
    var ok := PostersWith(posters, user.id, "generated");
    var bad := PostersWith(posters, user.id, "failed");
    assert ok * bad == {};
    assert ok + bad <= all;
    SubsetCard(ok + bad, all);
    Stats(user.monthlyGenerations, plan.monthlyGenerations, GenerationLimit(plan, user),
          plan.monthlyGenerations == -1, |all|, |ok|, |bad|)
  }
}

=== FILE: image_layer.dfy ===
/** Image layer (backend/renderer/layers/image_layer.py): fetches the
    picture a data path points at, fits it into a w x h box ("cover" crops,
    "contain" letterboxes), optionally rounds its corners and frames it,
    and falls back to a crossed-out grey placeholder when anything fails. */
module ImageLayer {
  import opened Wrappers
  import opened Json
  import opened Strings
  import opened Drawing
  import opened BaseLayer
  import opened Arith

  // ---- fitting ----

  /** Size the picture is resized to in "cover" mode: the side that is
      relatively too short is scaled to the box, the other follows the
      aspect ratio (truncated). */
  function CoverSize(iw: int, ih: int, tw: int, th: int): (int, int)
    requires iw > 0 && ih > 0 && tw > 0 && th > 0
  {
    if iw * th > tw * ih then (th * iw / ih, th) else (tw, tw * ih / iw)
  }

  /** "cover": resize to `CoverSize`, then crop the centred tw x th box. */
  function Cover(pic: Picture, tw: int, th: int): Picture
    requires Width(pic) > 0 && Height(pic) > 0 && tw > 0 && th > 0
  {
    var size := CoverSize(Width(pic), Height(pic), tw, th);
    var left := (size.0 - tw) / 2;
    var top := (size.1 - th) / 2;
    Cropped(Resized(pic, size.0, size.1), left, top, left + tw, top + th)
  }

  /** "contain" (any `fit` other than "cover"): shrink into the box, then
      centre on a white tw x th image. */
  function Contain(pic: Picture, tw: int, th: int): Picture
    requires tw > 0 && th > 0
  {
    var thumb := Thumbnail(pic, tw, th);
    Centered(thumb, tw, th, (tw - Width(thumb)) / 2, (th - Height(thumb)) / 2)
  }

  /** `_resize_image`. */
  function Fit(pic: Picture, tw: int, th: int, fit: Json): Picture
    requires Width(pic) > 0 && Height(pic) > 0 && tw > 0 && th > 0
  {
    if fit == JStr("cover") then Cover(pic, tw, th) else Contain(pic, tw, th)
  }

  /** `_apply_border_radius`: the picture masked by a rounded rectangle of
      its own size on white. */
  function RoundCorners(pic: Picture, radius: real): (r: Picture)
    ensures Width(r) == Width(pic) && Height(r) == Height(pic)
  {
    Rounded(pic, radius)
  }

  /** Pictures in a mode with transparency or a palette are composited on
      white first. */
  function ModeOf(pic: Picture): Mode {
    if pic.Decoded? then pic.mode else RGB
  }

  function FlattenIfNeeded(pic: Picture): Picture {
    if ModeOf(pic) in {RGBA, LA, P} then Flattened(pic) else pic
  }

  // ---- what the layer draws ----

  /** `_draw_placeholder`: a grey box with a border and both diagonals.
      It raises (drawing nothing) unless x, y, w and h are numbers. */
  function Placeholder(config: Config): Effect {
    var x := Number(Get(config, "x", JInt(0)));
    var y := Number(Get(config, "y", JInt(0)));
    var w := Number(Get(config, "w", JInt(400)));
    var h := Number(Get(config, "h", JInt(400)));
    if x.Some? && y.Some? && w.Some? && h.Some? then
      var x0, y0, x1, y1 := x.value, y.value, x.value + w.value, y.value + h.value;
      var grey := Given(JStr("#9ca3af"));
      Effect([Rect(x0, y0, x1, y1, Some(Given(JStr("#e5e7eb"))), Some(grey), JInt(2)),
              Line(x0, y0, x1, y1, grey, 2),
              Line(x1, y0, x0, y1, grey, 2)], true)
    else Effect([], false)
  }

  /** Whether `draw.rectangle(..., outline=color, width=width)` gets past its
      arguments: the colour must be readable, and a width other than 0 goes
      to Pillow's C code as an `int`, which takes ints and bools within the
      32-bit range and refuses anything else. */
  predicate BorderDrawable(env: Env, color: Json, width: Json) {
    InkAccepted(env, color) &&
    match width
    case JInt(i) => -0x8000_0000 <= i < 0x8000_0000
    case JBool(_) => true
    case JFloat(r) => r == 0.0
    case _ => false
  }

  /** Outcome of the guarded block: the calls made, and whether it ran to the
      end or raised after making them. */
  datatype Attempt = Completed(done: seq<DrawOp>) | Raised(done: seq<DrawOp>)

  /** The guarded block of `render`, from the download to the border. The
      box sides go to Pillow's resize and crop, which are modelled for
      positive int sides only; the position goes to `paste`, which takes
      ints; the radius is compared with 0, which any number allows. */
  function Attempted(config: Config, url: Json, env: Env): Attempt {
    match env.fetch(url)
    case FetchFailed => Raised([])
    case Fetched(fetched) =>
      var pic := FlattenIfNeeded(fetched);
      var x := Integral(Get(config, "x", JInt(0)));
      var y := Integral(Get(config, "y", JInt(0)));
      var w := Integral(Get(config, "w", JInt(400)));
      var h := Integral(Get(config, "h", JInt(400)));
      if !(w.Some? && h.Some? && w.value > 0 && h.value > 0 && Width(pic) > 0 && Height(pic) > 0) then Raised([])
      else
        var fitted := Fit(pic, w.value, h.value, Get(config, "fit", JStr("cover")));
        var radius := Number(Get(config, "border_radius", JInt(0)));
        if radius.None? then Raised([])
        else
          var shaped := if radius.value > 0.0 then RoundCorners(fitted, radius.value) else fitted;
          if !(x.Some? && y.Some?) then Raised([])
          else
            var pasted := [Paste(shaped, x.value, y.value)];
            var border := Get(config, "border", JNull);
            if !Truthy(border) then Completed(pasted)
            else if !border.JObj? then Raised(pasted)
            else
              var color := Get(border.fields, "color", JStr("#000000"));
              var width := Get(border.fields, "width", JInt(2));
              if !BorderDrawable(env, color, width) then Raised(pasted)
              else Completed(pasted + [Rect(x.value as real, y.value as real, (x.value + w.value) as real,
                                       (y.value + h.value) as real, None, Some(Given(color)), width)])
  }

  /** What `render` draws: the placeholder for a missing (falsy) image,
      the guarded block otherwise, with the placeholder drawn after whatever
      the block drew if it raised. A non-string `key` raises at once. */
  function ImageEffect(config: Config, data: Json, env: Env): Effect {
    var key := Get(config, "key", JStr("product.image"));
    if !key.JStr? then Effect([], false)
    else
      var url := Resolve(Split(key.s, "."), data, env.attribute);
      if !Truthy(url) then Placeholder(config)
      else Fetched(config, url, env)
  }

  /** The effect once the key has led to a truthy `url`: the guarded block,
      followed by the placeholder when it raised. */
  function Fetched(config: Config, url: Json, env: Env): Effect {
    match Attempted(config, url, env)
    case Completed(ops) => Effect(ops, true)
    case Raised(ops) =>
      var p := Placeholder(config);
      Effect(ops + p.ops, p.ok)
  }

  // ---- the layer's methods ----

  method DrawPlaceholder(layer: Layer, canvas: Canvas) returns (ok: bool)
    modifies canvas
    ensures ok == Placeholder(layer.config).ok
    ensures canvas.ops == old(canvas.ops) + Placeholder(layer.config).ops
  {
    var x := Number(Get(layer.config, "x", JInt(0)));
    var y := Number(Get(layer.config, "y", JInt(0)));
    var w := Number(Get(layer.config, "w", JInt(400)));
    var h := Number(Get(layer.config, "h", JInt(400)));
    if !(x.Some? && y.Some? && w.Some? && h.Some?) {
      return false;
    }
    var x0, y0, x1, y1 := x.value, y.value, x.value + w.value, y.value + h.value;
    var grey := Given(JStr("#9ca3af"));
    canvas.Draw(Rect(x0, y0, x1, y1, Some(Given(JStr("#e5e7eb"))), Some(grey), JInt(2)));
    canvas.Draw(Line(x0, y0, x1, y1, grey, 2));
    canvas.Draw(Line(x1, y0, x0, y1, grey, 2));
    ok := true;
  }

  /** The guarded block; `raised` says whether it stopped on an exception. */
  method TryRender(layer: Layer, canvas: Canvas, url: Json, env: Env) returns (raised: bool)
    modifies canvas
    ensures raised == Attempted(layer.config, url, env).Raised?
    ensures canvas.ops == old(canvas.ops) + Attempted(layer.config, url, env).done
  {
    var response := env.fetch(url);
    if response.FetchFailed? {
      return true;
    }
    var pic := response.pic;
    if ModeOf(pic) in {RGBA, LA, P} {
      pic := Flattened(pic);
    }
    var x := Integral(Get(layer.config, "x", JInt(0)));
    var y := Integral(Get(layer.config, "y", JInt(0)));
    var w := Integral(Get(layer.config, "w", JInt(400)));
    var h := Integral(Get(layer.config, "h", JInt(400)));
    if !(w.Some? && h.Some? && w.value > 0 && h.value > 0 && Width(pic) > 0 && Height(pic) > 0) {
      return true;
    }
    var fitted := Fit(pic, w.value, h.value, Get(layer.config, "fit", JStr("cover")));
    var radius := Number(Get(layer.config, "border_radius", JInt(0)));
    if radius.None? {
      return true;
    }
    if radius.value > 0.0 {
      fitted := RoundCorners(fitted, radius.value);
    }
    if !(x.Some? && y.Some?) {
      return true;
    }
    canvas.Draw(Paste(fitted, x.value, y.value));
    var border := Get(layer.config, "border", JNull);
    if Truthy(border) {
      if !border.JObj? {
        return true;
      }
      var width := Get(border.fields, "width", JInt(2));
      var color := Get(border.fields, "color", JStr("#000000"));
      if !BorderDrawable(env, color, width) {
        return true;
      }
      canvas.Draw(Rect(x.value as real, y.value as real, (x.value + w.value) as real,
                       (y.value + h.value) as real, None, Some(Given(color)), width));
    }
    raised := false;
  }

  /** `render`. */
  method Render(layer: Layer, canvas: Canvas, data: Json, env: Env) returns (ok: bool)
    modifies canvas
    ensures ok == ImageEffect(layer.config, data, env).ok
    ensures canvas.ops == old(canvas.ops) + ImageEffect(layer.config, data, env).ops
  {
    var key := Get(layer.config, "key", JStr("product.image"));
    if !key.JStr? {
      return false;
    }
    var url := layer.ResolveKey(key.s, data, env.attribute);
    if !Truthy(url) {
      ok := DrawPlaceholder(layer, canvas);
      return;
    }
    ok := RenderFetched(layer, canvas, url, env);
  }

  /** `render` past the key lookup, for a truthy `url`. */
  method RenderFetched(layer: Layer, canvas: Canvas, url: Json, env: Env) returns (ok: bool)
    modifies canvas
    ensures ok == Fetched(layer.config, url, env).ok
    ensures canvas.ops == old(canvas.ops) + Fetched(layer.config, url, env).ops
  {
    var raised := TryRender(layer, canvas, url, env);
    if raised {
      ok := DrawPlaceholder(layer, canvas);
    } else {
      ok := true;
    }
  }

  // ---- properties ----

  /** The cover size covers the box: one side matches it exactly and the
      other is the aspect-preserving length, truncated, which is never
      shorter than the box. */
  lemma CoverSizeCovers(iw: int, ih: int, tw: int, th: int)
    requires iw > 0 && ih > 0 && tw > 0 && th > 0
    ensures var s := CoverSize(iw, ih, tw, th);
      && s.0 >= tw && s.1 >= th
      && (iw * th > tw * ih ==> s.1 == th && s.0 * ih <= th * iw < (s.0 + 1) * ih)
      && (iw * th <= tw * ih ==> s.0 == tw && s.1 * iw <= tw * ih < (s.1 + 1) * iw)
  {
    if iw * th > tw * ih {
      ScaledSide(th * iw, ih, tw);
    } else {
      ScaledSide(tw * ih, iw, th);
    }
  }

  /** The side scaled to keep the aspect ratio, `n / d`, is never shorter
      than a side `t` with `t * d <= n`, and is `n / d` truncated. */
  lemma ScaledSide(n: int, d: int, t: int)
    requires d > 0 && t * d <= n
    ensures n / d >= t && (n / d) * d <= n < (n / d + 1) * d
  {
    var q := n / d;
    DivBounds(n, d);
    assert (q + 1) * d == q * d + d;
    MulCancelLt(t, q + 1, d);
  }

  /** "cover" yields exactly the box size, cut from the middle of the
      resized picture: the crop window lies inside it and the margins on
      the two sides differ by at most one pixel. */
  lemma CoverFillsBox(pic: Picture, tw: int, th: int)
    requires Width(pic) > 0 && Height(pic) > 0 && tw > 0 && th > 0
    ensures Width(Cover(pic, tw, th)) == tw && Height(Cover(pic, tw, th)) == th
    ensures var c := Cover(pic, tw, th);
      && 0 <= c.left && c.right <= Width(c.src)
      && 0 <= c.top && c.bottom <= Height(c.src)
      && 0 <= (Width(c.src) - c.right) - c.left <= 1
      && 0 <= (Height(c.src) - c.bottom) - c.top <= 1
  {
    CoverSizeCovers(Width(pic), Height(pic), tw, th);
  }

  /** The floor of `n / d` is at most `m` when `n <= m * d`, and so is the
      ceiling when `d` does not divide `n`. */
  lemma NearSideBound(n: int, d: int, m: int)
    requires d > 0 && n <= m * d
    ensures n / d <= m
    ensures (n / d) * d < n ==> n / d + 1 <= m
  {
    DivBounds(n, d);
    assert (m + 1) * d == m * d + d;
    MulCancelLt(n / d, m + 1, d);
    if (n / d) * d < n {
      MulCancelLt(n / d, m, d);
    }
  }

  /** A picture relatively wider than the box keeps the box width, and its
      rounded height fits the box without growing. */
  lemma ThumbByWidth(w: int, h: int, bw: int, bh: int)
    requires w > 0 && h > 0 && bw > 0 && bh > 0
    requires !(bw >= w && bh >= h) && bw * h < bh * w
    ensures bw < w
    ensures var s := ThumbSize(w, h, bw, bh); s.0 == bw && 1 <= s.1 <= h && s.1 <= bh
  {
    if bh < h {
      MulLt(bh, h, w);
      assert bw * h < h * w;
      MulCancelLt(bw, w, h);
    }
    MulLt(bw, w, h);
    NearSideBound(bw * h, w, h);
    NearSideBound(bw * h, w, bh);
  }

  /** A picture relatively taller than the box keeps the box height, and its
      rounded width fits the box without growing. */
  lemma ThumbByHeight(w: int, h: int, bw: int, bh: int)
    requires w > 0 && h > 0 && bw > 0 && bh > 0
    requires !(bw >= w && bh >= h) && bw * h >= bh * w
    ensures bh < h
    ensures var s := ThumbSize(w, h, bw, bh); s.1 == bh && 1 <= s.0 <= w && s.0 <= bw
  {
    if bw < w {
      MulLt(bw, w, h);
      assert bh * w < h * w;
      MulCancelLt(bh, h, w);
    }
    MulLt(bh, h, w);
    NearSideBound(bh * w, h, w);
    NearSideBound(bh * w, h, bw);
  }

  /** How far apart two whole numbers are. */
  function Dist(a: int, b: int): nat {
    if a < b then b - a else a - b
  }

  /** When the box height binds, the width is the positive whole number
      nearest the aspect-preserving width `bh * w / h`; a tie keeps the
      smaller. */
  lemma ThumbWidthNearest(w: int, h: int, bw: int, bh: int, k: int)
    requires w > 0 && h > 0 && bw > 0 && bh > 0
    requires !(bw >= w && bh >= h) && bw * h >= bh * w
    requires k >= 1
    ensures Dist(ThumbSize(w, h, bw, bh).0 * h, bh * w) <= Dist(k * h, bh * w)
  {
    var e := bh * w;
    assert ThumbSize(w, h, bw, bh).0 == Max1(if 2 * (e - e / h * h) <= h then e / h else e / h + 1);
    NearestWhole(e, h, k);
  }

  /** Rounding `e / h` to the nearer whole number, ties down, and then up
      to at least 1 gives the positive whole number nearest `e / h`. */
  lemma NearestWhole(e: int, h: int, k: int)
    requires e > 0 && h > 0 && k >= 1
    ensures var f := e / h;
      Dist(Max1(if 2 * (e - f * h) <= h then f else f + 1) * h, e) <= Dist(k * h, e)
  {
    var f := e / h;
    DivBounds(e, h);
    assert (f + 1) * h == f * h + h;
    if k <= f {
      MulLe(k, f, h);
    } else {
      MulLe(f + 1, k, h);
    }
  }

  /** When the box width binds, the height `n` makes the aspect ratio
      `bw / n` as near to `w / h` as any positive height can: the distance
      `|bw * h - w * n| / (n * h)` is smallest, compared here across
      multiplied out. */
  lemma ThumbHeightNearest(w: int, h: int, bw: int, bh: int, k: int)
    requires w > 0 && h > 0 && bw > 0 && bh > 0
    requires !(bw >= w && bh >= h) && bw * h < bh * w
    requires k >= 1
    ensures var n := ThumbSize(w, h, bw, bh).1;
      n >= 1 && Dist(w * n, bw * h) * k <= Dist(w * k, bw * h) * n
  {
    var e := bw * h;
    var f := e / w;
    var c := if f * w == e then f else f + 1;
    DivBounds(e, w);
    assert w * f == f * w && w * (f + 1) == f * w + w;
    var n := ThumbSize(w, h, bw, bh).1;
    if f == 0 {
      assert n == 1 && c == 1;
      MulLe(1, k, w);
      MulLe(1, k, e);
      FartherBelow(e, w, 1, k);
    } else if k <= f {
      MulLe(k, f, w);
      NearerAbove(e, w, k, f);
      if n == c && c != f {
        RoundedUp(e, w, f, c);
        RatioChain(Dist(w * c, e), c, Dist(w * f, e), f, Dist(w * k, e), k);
      }
    } else {
      MulLe(c, k, w);
      FartherBelow(e, w, c, k);
      if n == f && c != f {
        RoundedDown(e, w, f, c);
        RatioChain(Dist(w * f, e), f, Dist(w * c, e), c, Dist(w * k, e), k);
      }
    }
  }

  /** Below the exact height `e / w`, a smaller height is farther off. */
  lemma NearerAbove(e: int, w: int, k: int, f: int)
    requires w > 0 && 1 <= k <= f && w * f <= e
    ensures Dist(w * f, e) * k <= Dist(w * k, e) * f
  {
    MulLe(k, f, w);
    MulLe(k, f, e);
    assert (e - w * f) * k == e * k - w * f * k;
    assert (e - w * k) * f == e * f - w * k * f;
  }

  /** Above the exact height `e / w`, a larger height is farther off. */
  lemma FartherBelow(e: int, w: int, c: int, k: int)
    requires w > 0 && 1 <= c <= k && 0 <= e <= w * c
    ensures Dist(w * c, e) * k <= Dist(w * k, e) * c
  {
    MulLe(c, k, w);
    MulLe(c, k, e);
    assert (w * c - e) * k == w * c * k - e * k;
    assert (w * k - e) * c == w * k * c - e * c;
  }

  /** The rounding picks the ceiling `c` only when its ratio is nearer. */
  lemma RoundedUp(e: int, w: int, f: int, c: int)
    requires w > 0 && f >= 1 && c == f + 1 && w * f <= e <= w * c
    requires !(e * (f + c) <= 2 * w * f * c)
    ensures Dist(w * c, e) * f <= Dist(w * f, e) * c
  {
    assert (w * c - e) * f == w * c * f - e * f;
    assert (e - w * f) * c == e * c - w * f * c;
  }

  /** The rounding keeps the floor `f` only when its ratio is no farther. */
  lemma RoundedDown(e: int, w: int, f: int, c: int)
    requires w > 0 && f >= 1 && c == f + 1 && w * f <= e <= w * c
    requires e * (f + c) <= 2 * w * f * c
    ensures Dist(w * f, e) * c <= Dist(w * c, e) * f
  {
    assert (w * c - e) * f == w * c * f - e * f;
    assert (e - w * f) * c == e * c - w * f * c;
  }

  /** `a / p <= b / q` and `b / q <= d / r` give `a / p <= d / r`. */
  lemma RatioChain(a: int, p: int, b: int, q: int, d: int, r: int)
    requires p > 0 && q > 0 && r > 0
    requires a * q <= b * p && b * r <= d * q
    ensures a * r <= d * p
  {
    MulLe(a * q, b * p, r);
    MulLe(b * r, d * q, p);
    assert a * q * r == (a * r) * q && b * p * r == b * r * p && d * q * p == (d * p) * q;
    if a * r > d * p {
      MulLt(d * p, a * r, q);
    }
  }

  /** The thumbnail size never grows the picture, fits the box and keeps
      both sides positive. */
  lemma ThumbSizeFits(w: int, h: int, bw: int, bh: int)
    requires w > 0 && h > 0 && bw > 0 && bh > 0
    ensures var s := ThumbSize(w, h, bw, bh);
      && 1 <= s.0 <= w && s.0 <= bw
      && 1 <= s.1 <= h && s.1 <= bh
  {
    if bw >= w && bh >= h {
    } else if bw * h >= bh * w {
      ThumbByHeight(w, h, bw, bh);
    } else {
      ThumbByWidth(w, h, bw, bh);
    }
  }

  /** "contain" yields exactly the box size, with the shrunk picture
      centred inside it. */
  lemma ContainFillsBox(pic: Picture, tw: int, th: int)
    requires Width(pic) > 0 && Height(pic) > 0 && tw > 0 && th > 0
    ensures Width(Contain(pic, tw, th)) == tw && Height(Contain(pic, tw, th)) == th
    ensures var c := Contain(pic, tw, th);
      && 0 < Width(c.src) <= Width(pic) && 0 < Height(c.src) <= Height(pic)
      && 0 <= c.offX && c.offX + Width(c.src) <= tw
      && 0 <= c.offY && c.offY + Height(c.src) <= th
      && 0 <= (tw - c.offX - Width(c.src)) - c.offX <= 1
      && 0 <= (th - c.offY - Height(c.src)) - c.offY <= 1
  {
    ThumbSizeFits(Width(pic), Height(pic), tw, th);
  }

  /** Whatever the fit, a picture that is pasted is exactly w x h and is
      pasted at (x, y); a border, when drawn, frames that same box. */
  lemma PastedFillsBox(config: Config, url: Json, env: Env)
    requires Attempted(config, url, env).done != []
    ensures var ops := Attempted(config, url, env).done;
      && ops[0].Paste?
      && Some(ops[0].left) == Integral(Get(config, "x", JInt(0)))
      && Some(ops[0].top) == Integral(Get(config, "y", JInt(0)))
      && Some(Width(ops[0].pic)) == Integral(Get(config, "w", JInt(400)))
      && Some(Height(ops[0].pic)) == Integral(Get(config, "h", JInt(400)))
      && (|ops| == 2 ==> ops[1] == Rect(ops[0].left as real, ops[0].top as real, (ops[0].left + Width(ops[0].pic)) as real,
            (ops[0].top + Height(ops[0].pic)) as real, None, ops[1].outline, ops[1].strokeWidth))
  {
    var fetched := env.fetch(url).pic;
    var pic := FlattenIfNeeded(fetched);
    var w := Integral(Get(config, "w", JInt(400))).value;
    var h := Integral(Get(config, "h", JInt(400))).value;
    var fit := Get(config, "fit", JStr("cover"));
    if fit == JStr("cover") {
      CoverFillsBox(pic, w, h);
    } else {
      ContainFillsBox(pic, w, h);
    }
  }

  /** A border Pillow cannot draw raises after the paste, inside the
      guarded block, so the placeholder is drawn over the pasted picture; a
      drawable border completes the block. */
  lemma BorderFaultDrawsPlaceholder(config: Config, url: Json, env: Env)
    requires Attempted(config, url, env).done != []
    requires var border := Get(config, "border", JNull); border.JObj? && border.fields != map[]
    ensures var border := Get(config, "border", JNull).fields;
      var drawable := BorderDrawable(env, Get(border, "color", JStr("#000000")), Get(border, "width", JInt(2)));
      var a := Attempted(config, url, env);
      && (drawable <==> a.Completed?)
      && (!drawable ==> Fetched(config, url, env) == Effect([a.done[0]] + Placeholder(config).ops, Placeholder(config).ok))
  {
  }

  /** The layer fails only on a non-string key or when the placeholder
      itself cannot be drawn: with a string key and numeric x, y, w, h
      every failure inside the guarded block is absorbed. */
  lemma FaultsAbsorbed(config: Config, data: Json, env: Env)
    requires Get(config, "key", JStr("product.image")).JStr?
    requires Placeholder(config).ok
    ensures ImageEffect(config, data, env).ok
  {
  }

  /** A missing image draws exactly the placeholder and never fetches. */
  lemma MissingImageDrawsPlaceholder(config: Config, data: Json, env: Env)
    requires Get(config, "key", JStr("product.image")).JStr?
    requires !Truthy(Resolve(Split(Get(config, "key", JStr("product.image")).s, "."), data, env.attribute))
    ensures ImageEffect(config, data, env) == Placeholder(config)
  {
  }

  /** A 100 x 100 picture covering a 50 x 200 box is scaled to 200 x 200
      and cropped to columns 75..125. */
  lemma CoverExample(pic: Picture)
    requires Width(pic) == 100 && Height(pic) == 100
    ensures Cover(pic, 50, 200) == Cropped(Resized(pic, 200, 200), 75, 0, 125, 200)
  {
  }

  /** A 1000 x 667 picture contained in a 400 x 400 box is shrunk to
      400 x 267 (the ceiling is nearer the aspect ratio) and pasted 66
      pixels down; a 5 x 3 picture in a 100 x 1 box becomes 2 x 1. */
  lemma ContainExample(pic: Picture)
    requires Width(pic) == 1000 && Height(pic) == 667
    ensures ThumbSize(1000, 667, 400, 400) == (400, 267)
    ensures ThumbSize(5, 3, 100, 1) == (2, 1)
    ensures Contain(pic, 400, 400) == Centered(Thumbnail(pic, 400, 400), 400, 400, 0, 66)
  {
  }
}

=== FILE: json.dfy ===
/** JSON-like values as Python sees them after `json.loads`: the template
    definitions, layer configurations and data contexts of the renderer. */
module Json {
  import opened Strings
  import opened Wrappers

  datatype Json =
    | JNull
    | JBool(b: bool)
    | JInt(i: int)
    | JFloat(r: real)
    | JStr(s: string)
    | JList(items: seq<Json>)
    | JObj(fields: map<string, Json>)

  /** A Python dict with string keys, such as a layer configuration. */
  type Config = map<string, Json>

  /** `d.get(k, default)`. */
  function Get(d: Config, k: string, default: Json): (v: Json)
    ensures k in d ==> v == d[k]
    ensures k !in d ==> v == default
  {
    if k in d then d[k] else default
  }

  /** Python truthiness (`if v:`). */
  predicate Truthy(v: Json) {
    match v
    case JNull => false
    case JBool(b) => b
    case JInt(i) => i != 0
    case JFloat(r) => r != 0.0
    case JStr(s) => s != ""
    case JList(xs) => xs != []
    case JObj(m) => m != map[]
  }

  /** The value as a number in arithmetic: ints, floats and bools (`True`
      is 1); None for anything else. */
  function Number(v: Json): (r: Option<real>)
    ensures r.Some? <==> v.JInt? || v.JFloat? || v.JBool?
  {
    match v
    case JInt(i) => Some(i as real)
    case JFloat(r) => Some(r)
    case JBool(b) => Some(if b then 1.0 else 0.0)
    case _ => None
  }

  /** The value where Python demands an int: ints and bools. */
  function Integral(v: Json): (r: Option<int>)
    ensures r.Some? <==> v.JInt? || v.JBool?
    ensures r.Some? ==> Number(v) == Some(r.value as real)
  {
    match v
    case JInt(i) => Some(i)
    case JBool(b) => Some(if b then 1 else 0)
    case _ => None
  }

  /** Python `str(v)` for the scalar values; lists and mappings are
      abbreviated, since a map keeps no insertion order to print in. */
  function PyStr(v: Json): string {
    match v
    case JNull => "None"
    case JBool(b) => if b then "True" else "False"
    case JInt(i) => IntText(i)
    case JFloat(r) => FloatText(r)
    case JStr(s) => s
    case JList(_) => "[...]"
    case JObj(_) => "{...}"
  }

  /** Digits of a fraction in [0, 1), at most `n` of them, stopping at an
      exact end. */
  function FractionDigits(f: real, n: nat): string
    requires 0.0 <= f < 1.0
    decreases n
  {
    if n == 0 || f == 0.0 then ""
    else
      var d := (f * 10.0).Floor;
      [DigitChar(d)] + FractionDigits(f * 10.0 - d as real, n - 1)
  }

  /** Decimal text of a float: `100.0`, `-2.5`. */
  function FloatText(r: real): string {
    var a := if r < 0.0 then -r else r;
    var whole := a.Floor;
    var frac := FractionDigits(a - whole as real, 17);
    (if r < 0.0 then "-" else "") + IntText(whole) + "." + (if frac == "" then "0" else frac)
  }
}

=== FILE: listing.dfy ===
/** Listing queries: selecting the rows of a table that pass a filter,
    ordered by a descending sort key (`order_by(... .desc())`), and
    cutting the result into pages (`paginate`). */
module Listing {
  import opened Arith

  /** A sort key: compared first on `.0`, then on `.1`, both descending. */
  type Key = (int, int)

  predicate NoLater(a: Key, b: Key) {
    a.0 > b.0 || (a.0 == b.0 && a.1 >= b.1)
  }

  ghost predicate Descending(ids: seq<int>, rank: int -> Key) {
    forall i, j :: 0 <= i < j < |ids| ==> NoLater(rank(ids[i]), rank(ids[j]))
  }

  ghost predicate Distinct(ids: seq<int>) {
    forall i, j :: 0 <= i < j < |ids| ==> ids[i] != ids[j]
  }

  /** Places `x` in front of the first id that does not sort before it. */
  function Insert(ids: seq<int>, x: int, rank: int -> Key): (r: seq<int>)
    ensures |r| == |ids| + 1
    ensures forall y :: y in r <==> y in ids || y == x
    ensures multiset(r) == multiset(ids) + multiset{x}
  {
    if ids == [] || NoLater(rank(x), rank(ids[0])) then [x] + ids
    else
      assert ids == [ids[0]] + ids[1..];
      [ids[0]] + Insert(ids[1..], x, rank)
  }

  lemma {:induction false} InsertDescending(ids: seq<int>, x: int, rank: int -> Key)
    requires Descending(ids, rank)
    ensures Descending(Insert(ids, x, rank), rank)
  {
    if ids == [] || NoLater(rank(x), rank(ids[0])) {
    } else {
      InsertDescending(ids[1..], x, rank);
      var r := Insert(ids, x, rank);
      var tail := Insert(ids[1..], x, rank);
      assert r == [ids[0]] + tail;
      forall j | 0 < j < |r| ensures NoLater(rank(r[0]), rank(r[j])) {
        assert r[j] in tail;
      }
    }
  }

  lemma InsertDistinct(ids: seq<int>, x: int, rank: int -> Key)
    requires Distinct(ids) && x !in ids
    ensures Distinct(Insert(ids, x, rank))
  {
    var r := Insert(ids, x, rank);
    forall i, j | 0 <= i < j < |r| ensures r[i] != r[j] {
      DistinctCount(ids, r[i]);
      if r[i] == r[j] {
        TwoOccurrences(r, i, j);
      }
    }
  }

  lemma TwoOccurrences(r: seq<int>, i: int, j: int)
    requires 0 <= i < j < |r| && r[i] == r[j]
    ensures multiset(r)[r[i]] >= 2
  {
    assert r == r[..j] + [r[j]] + r[j + 1..];
    assert r[i] in r[..j];
  }

  lemma {:induction false} DistinctCount(ids: seq<int>, y: int)
    requires Distinct(ids)
    ensures multiset(ids)[y] <= 1
  {
    if ids != [] {
      var t := ids[1..];
      assert ids == [ids[0]] + t;
      assert Distinct(t);
      DistinctCount(t, y);
      if ids[0] == y {
        assert y !in t;
      }
    }
  }

  /** The sort key of row `k` of `m`. */
  function Rank<T>(m: map<int, T>, key: T -> Key): int -> Key {
    k => if k in m then key(m[k]) else (0, 0)
  }

  /** The keys of the rows of `m` that pass `keep`, each once, sorted by
      `key` descending (rows with equal keys in any order, as the database
      leaves them). */
  method SelectSorted<T>(m: map<int, T>, keep: T -> bool, key: T -> Key) returns (ids: seq<int>)
    ensures forall k :: k in ids <==> k in m && keep(m[k])
    ensures Distinct(ids)
    ensures Descending(ids, Rank(m, key))
  {
    var rank := Rank(m, key);
    ids := [];
    var rest := m.Keys;
    while rest != {}
      invariant rest <= m.Keys
      invariant forall k :: k in ids <==> k in m && k !in rest && keep(m[k])
      invariant Distinct(ids) && Descending(ids, rank)
      decreases |rest|
    {
      assert exists k :: k in rest by {
        if forall k :: k !in rest {
          assert false;
        }
      }
      var k :| k in rest;
      if keep(m[k]) {
        InsertDescending(ids, k, rank);
        InsertDistinct(ids, k, rank);
        ids := Insert(ids, k, rank);
      }
      rest := rest - {k};
    }
  }

  /** `(total + per_page - 1) // per_page`: how many pages `total` rows
      fill. */
  function PageCount(total: nat, perPage: int): (n: nat)
    requires perPage >= 1
  {
    (total + perPage - 1) / perPage
  }

  /** The rows on page `page` (counted from 1) of `per_page` rows each;
      past the end a page is empty. */
  function PageItems<T>(xs: seq<T>, page: int, perPage: int): (r: seq<T>)
    requires page >= 1 && perPage >= 1
    ensures |r| <= perPage
  {
    var start := (page - 1) * perPage;
    assert start >= 0 by { MulLe(0, page - 1, perPage); }
    if start >= |xs| then []
    else if start + perPage <= |xs| then xs[start..start + perPage]
    else xs[start..]
  }

  /** Every row sits on exactly one page: row `i` is item `i % per_page`
      of page `i // per_page + 1`, and that page exists. */
  lemma PageLocation<T>(xs: seq<T>, i: int, perPage: int)
    requires 0 <= i < |xs| && perPage >= 1
    ensures var p := PageItems(xs, i / perPage + 1, perPage);
            i % perPage < |p| && p[i % perPage] == xs[i]
    ensures i / perPage + 1 <= PageCount(|xs|, perPage)
  {
    PageHolds(xs, i, perPage);
    PageExists(|xs|, i, perPage);
  }

  /** Row `i` is item `i % per_page` of page `i // per_page + 1`. */
  lemma PageHolds<T>(xs: seq<T>, i: int, perPage: int)
    requires 0 <= i < |xs| && perPage >= 1
    ensures var p := PageItems(xs, i / perPage + 1, perPage);
            i % perPage < |p| && p[i % perPage] == xs[i]
  {
    var q := i / perPage;
    DivBounds(i, perPage);
    assert q * perPage + i % perPage == i;
    assert (q + 1 - 1) * perPage == q * perPage;
  }

  /** The page of row `i` is within the page count. */
  lemma PageExists(n: nat, i: int, perPage: int)
    requires 0 <= i < n && perPage >= 1
    ensures i / perPage + 1 <= PageCount(n, perPage)
  {
    DivMonotone(i + perPage, n + perPage - 1, perPage);
    DivShift(i, perPage);
  }

  /** Adding the divisor adds one to the quotient. */
  lemma DivShift(i: int, d: int)
    requires d >= 1
    ensures (i + d) / d == i / d + 1
  {
    var q := i / d;
    DivBounds(i, d);
    DivBounds(i + d, d);
    MulCancelLt((i + d) / d, q + 2, d);
    MulCancelLt(q, (i + d) / d, d);
  }
}

=== FILE: models.dfy ===
/** The database rows the backend works on (the model classes under
    backend/app/models), as values, and the database itself as one object
    holding a table per model. A timestamp is a number of seconds on an abstract clock; a
    password hash is an opaque digest of the password. */
module Models {
  import opened Wrappers
  import opened Json
  import opened Strings
  import opened Builtins

  /** `generate_password_hash(p)`: checking a password against it succeeds
      exactly for `p`. */
  datatype Digest = Hashed(password: string)

  datatype Plan = Plan(
    id: int,
    name: string,
    maxProducts: int,          // -1: unlimited
    maxTemplates: int,         // -1: unlimited
    monthlyGenerations: int,   // -1: unlimited
    features: Config,
    isActive: bool)

  datatype User = User(
    id: int,
    userName: string,
    email: string,
    passwordHash: Digest,
    planId: int,
    monthlyGenerations: int,
    passwordChangedAt: Option<int>,
    createdAt: int)

  datatype Product = Product(
    id: int,
    userId: int,
    name: string,
    price: real,
    category: Option<string>,
    imageUrl: Json,
    sku: Option<string>,
    description: Option<string>,
    createdAt: int)

  datatype Template = Template(
    id: int,
    userId: Option<int>,       // None for system templates
    name: string,
    format: string,
    backgroundUrl: Json,
    definition: Json,
    previewUrl: Json,
    isSystem: bool,
    isActive: bool,
    createdAt: int)

  datatype Poster = Poster(
    id: int,
    userId: int,
    productId: int,
    campaignId: Option<int>,
    templateId: int,
    imageUrl: string,
    format: string,
    status: string,            // "generated" or "failed"
    errorMessage: Option<string>,
    createdAt: int)

  datatype Campaign = Campaign(
    id: int,
    userId: int,
    name: string,
    rules: Json)

  /** A password-reset token record (`PasswordResetToken`). */
  datatype ResetRecord = ResetRecord(
    userId: int,
    token: string,
    expiresAt: int,
    used: bool,
    usedAt: Option<int>)

  // ---- what the columns take on commit (PostgreSQL, the default database) ----

  /** PostgreSQL's refusal of text longer than a `String(n)` column. */
  function TooLong(n: nat): string {
    "value too long for type character varying(" + IntText(n) + ")"
  }

  /** The driver's refusal of a value it has no SQL form for. */
  function CannotAdapt(v: Json): string {
    "can't adapt type '" + TypeName(v) + "'"
  }

  /** Whether a `String(n)` column takes the text `s`: at most n
      characters, or more when everything past the n-th is a space. */
  predicate TextFits(s: string, n: nat) {
    |s| <= n || forall i :: n <= i < |s| ==> s[i] == ' '
  }

  /** Whether a nullable `String(n)` column takes `t`. */
  predicate OptionFits(t: Option<string>, n: nat) {
    t.Some? ==> TextFits(t.value, n)
  }

  /** Whether a nullable `String(n)` column takes the JSON value `v` as
      given: None, fitting text, or a number, bool or list, which
      PostgreSQL stores as its text form; a mapping cannot be sent. */
  predicate JsonFits(v: Json, n: nat) {
    !v.JObj? && (v.JStr? ==> TextFits(v.s, n))
  }

  /** The error of a `String(n)` column given `v`, once every value has
      been sent. */
  function LengthError(v: Json, n: nat): (e: Option<string>)
    ensures e.None? <==> (v.JStr? ==> TextFits(v.s, n))
    ensures e.Some? ==> e.value == TooLong(n)
  {
    if v.JStr? && !TextFits(v.s, n) then Some(TooLong(n)) else None
  }

  /** The database: one table per model, keyed by primary key, and the
      next key to hand out. */
  class Database {
    var plans: map<int, Plan>
    var users: map<int, User>
    var products: map<int, Product>
    var templates: map<int, Template>
    var posters: map<int, Poster>
    var campaigns: map<int, Campaign>
    var resets: map<int, ResetRecord>
    var nextId: int

    /** Every key in use is below `nextId`, so a new row never overwrites
        an old one. */
    ghost predicate Valid()
      reads this
    {
      (forall k :: k in plans ==> k < nextId) &&
      (forall k :: k in users ==> k < nextId) &&
      (forall k :: k in products ==> k < nextId) &&
      (forall k :: k in templates ==> k < nextId) &&
      (forall k :: k in posters ==> k < nextId) &&
      (forall k :: k in campaigns ==> k < nextId) &&
      (forall k :: k in resets ==> k < nextId)
    }

    constructor ()
      ensures Valid()
      ensures plans == map[] && users == map[] && products == map[] && templates == map[]
      ensures posters == map[] && campaigns == map[] && resets == map[]
    {
      plans := map[];
      users := map[];
      products := map[];
      templates := map[];
      posters := map[];
      campaigns := map[];
      resets := map[];
      nextId := 1;
    }

    /** Hands out a fresh primary key. */
    method NewId() returns (id: int)
      requires Valid()
      modifies this
      ensures Valid()
      ensures id == old(nextId) && nextId == old(nextId) + 1
      ensures id !in plans && id !in users && id !in products && id !in templates
      ensures id !in posters && id !in campaigns && id !in resets
      ensures plans == old(plans) && users == old(users) && products == old(products)
      ensures templates == old(templates) && posters == old(posters)
      ensures campaigns == old(campaigns) && resets == old(resets)
    {
      id := nextId;
      nextId := nextId + 1;
    }
  }
}

=== FILE: poster_routes.dfy ===
/** The poster endpoints of backend/app/routes/posters.py: the checks made
    on a generation request before it is queued, the clamped listing, and
    the ZIP download, which skips every poster it cannot or should not
    add and goes on with the rest. */
module PosterRoutes {
  import opened Wrappers
  import opened Json
  import opened Strings
  import opened Models
  import opened Responses
  import opened QueueManager
  import opened GenerationService
  import opened Listing
  import ProductRoutes

  const BodyRequired := "Request body is required"
  const TemplateRequired := "template_id is required"
  const ProductIdsRequired := "product_ids must be a non-empty array"
  const QueueFailed := "Failed to queue poster generation"
  const PosterIdsRequired := "poster_ids must be a non-empty array"
  const DownloadFailed := "Failed to create download"
  const NameLimit := 30

  // ---- generate_posters ----

  /** The ids a generation request names, once read as integers. */
  datatype GenerateRequest = GenerateRequest(templateId: int, productIds: seq<int>, campaignId: Option<int>)

  /** The outcome of the request checks: a refusal with its status and
      message, or the request to queue. */
  datatype Checked = Refused(status: int, message: string) | Accepted(request: GenerateRequest)

  /** The integers of a list whose every element is one. */
  function Ints(items: seq<Json>): (r: Option<seq<int>>)
    ensures r.Some? <==> forall k :: 0 <= k < |items| ==> items[k].JInt?
    ensures r.Some? ==> |r.value| == |items| && forall k :: 0 <= k < |items| ==> r.value[k] == items[k].i
  {
    if items == [] then Some([])
    else if !items[0].JInt? then None
    else
      var rest := Ints(items[1..]);
      if rest.None? then
        assert exists k :: 0 <= k < |items| && !items[k].JInt? by {
          var k :| 0 <= k < |items[1..]| && !items[1..][k].JInt?;
          assert items[1..][k] == items[k + 1];
        }
        None
      else Some([items[0].i] + rest.value)
  }

  /** The checks `generate_posters` makes before queueing: a falsy body,
      a falsy `template_id`, and a `product_ids` that is empty or not a
      list are 400s; reading `.get` of a body that is not a mapping raises
      and is answered as a failure to queue. A falsy `campaign_id` names
      no campaign and is handed on as it is. */
  function CheckGenerate(data: Json): (r: Checked)
    ensures !Truthy(data) ==> r == Refused(400, BodyRequired)
    ensures Truthy(data) && !data.JObj? ==> r == Refused(500, QueueFailed)
    ensures data.JObj? && Truthy(data) && !Truthy(Get(data.fields, "template_id", JNull)) ==>
              r == Refused(400, TemplateRequired)
    ensures data.JObj? && Truthy(data) && Truthy(Get(data.fields, "template_id", JNull)) ==>
              var ids := Get(data.fields, "product_ids", JList([]));
              (!Truthy(ids) || !ids.JList?) ==> r == Refused(400, ProductIdsRequired)
    ensures r.Accepted? ==>
              data.JObj? && Get(data.fields, "template_id", JNull) == JInt(r.request.templateId)
              && r.request.templateId != 0
              && Get(data.fields, "product_ids", JList([])).JList?
              && |r.request.productIds| == |Get(data.fields, "product_ids", JList([])).items| > 0
              && (forall k :: 0 <= k < |r.request.productIds| ==>
                    Get(data.fields, "product_ids", JList([])).items[k] == JInt(r.request.productIds[k]))
              && (r.request.campaignId.Some? ==> Get(data.fields, "campaign_id", JNull) == JInt(r.request.campaignId.value))
              && (r.request.campaignId.None? ==> !Get(data.fields, "campaign_id", JNull).JInt?
                                                 && !Truthy(Get(data.fields, "campaign_id", JNull)))
    // a falsy campaign_id is no campaign: it never stops the request
    ensures data.JObj? && Truthy(data) && Get(data.fields, "template_id", JNull).JInt?
            && Truthy(Get(data.fields, "template_id", JNull))
            && Get(data.fields, "product_ids", JList([])).JList? && Truthy(Get(data.fields, "product_ids", JList([])))
            && Ints(Get(data.fields, "product_ids", JList([])).items).Some?
            && !Truthy(Get(data.fields, "campaign_id", JNull)) ==>
              r.Accepted?
    ensures r.Refused? ==> r.status in {400, 500}
  {
    if !Truthy(data) then Refused(400, BodyRequired)
    else if !data.JObj? then Refused(500, QueueFailed)
    else
      var templateId := Get(data.fields, "template_id", JNull);
      var productIds := Get(data.fields, "product_ids", JList([]));
      var campaignId := Get(data.fields, "campaign_id", JNull);
      if !Truthy(templateId) then Refused(400, TemplateRequired)
      else if !Truthy(productIds) || !productIds.JList? then Refused(400, ProductIdsRequired)
      // an id that is not an integer fails inside the service
      else if !templateId.JInt? || Ints(productIds.items).None? || (Truthy(campaignId) && !campaignId.JInt?) then
        Refused(500, QueueFailed)
      else
        Accepted(GenerateRequest(templateId.i, Ints(productIds.items).value,
                                 if campaignId.JInt? then Some(campaignId.i) else None))
  }

  /** The success message: singular for exactly one poster. */
  function QueuedMessage(total: int): (m: string)
    ensures total == 1 <==> m == "Poster queued for generation"
    ensures total != 1 <==> m == "Posters queued for generation"
  {
    (if total == 1 then "Poster" else "Posters") + " queued for generation"
  }

  /** The dict `queue_generation` answers. */
  function JobJson(info: JobInfo): (j: Json)
    ensures j.JObj? && j.fields.Keys == {"job_id", "type", "template_id", "product_ids", "total"}
    ensures j.fields["job_id"] == JStr(info.jobId) && j.fields["type"] == JStr(info.kind)
    ensures j.fields["total"] == JInt(info.total)
  {
    JObj(map["job_id" := JStr(info.jobId), "type" := JStr(info.kind), "template_id" := JInt(info.templateId),
             "product_ids" := JList(seq(|info.productIds|, k requires 0 <= k < |info.productIds| => JInt(info.productIds[k]))),
             "total" := JInt(info.total)])
  }

  /** `generate_posters`: the request checks, then `queue_generation`;
      its refusals are 400s carrying their message, and a queued job is a
      201 whose message counts the posters. */
  method GeneratePosters(qm: QueueManager, templates: map<int, Template>, products: map<int, Product>,
                         campaigns: map<int, Campaign>, user: User, plan: Plan, data: Json,
                         jobId: string, now: string, configured: Option<string>)
    returns (resp: Response)
    requires qm.Valid() && jobId !in qm.jobs
    modifies qm
    ensures qm.Valid()
    ensures CheckGenerate(data).Refused? ==>
              resp == ErrorResponse(JStr(CheckGenerate(data).message), CheckGenerate(data).status, JNull)
              && qm.jobs == old(qm.jobs)
    ensures CheckGenerate(data).Accepted? ==>
              var q := CheckGenerate(data).request;
              var admitted := Admit(templates, products, campaigns, user, plan, q.templateId, q.productIds, q.campaignId);
              (admitted.Err? ==> resp == ErrorResponse(JStr(admitted.error), 400, JNull) && qm.jobs == old(qm.jobs))
              && (admitted.Ok? ==>
                    jobId in qm.jobs
                    && resp == CreatedResponse(JobJson(JobInfo(jobId, if |q.productIds| == 1 then "single" else "batch",
                                                               q.templateId, q.productIds, |q.productIds|)),
                                               JStr(QueuedMessage(|q.productIds|))))
  {
    var checked := CheckGenerate(data);
    if checked.Refused? {
      return ErrorResponse(JStr(checked.message), checked.status, JNull);
    }
    var q := checked.request;
    var r := QueueGeneration(qm, templates, products, campaigns, user, plan, q.templateId, q.productIds,
                             q.campaignId, jobId, now, configured);
    if r.Err? {
      return ErrorResponse(JStr(r.error), 400, JNull);
    }
    var info := r.value;
    assert info == JobInfo(jobId, if |q.productIds| == 1 then "single" else "batch", q.templateId, q.productIds, |q.productIds|);
    resp := CreatedResponse(JobJson(info), JStr(QueuedMessage(info.total)));
  }

  /** A request naming one product is answered in the singular, any other
      in the plural. */
  lemma MessageAgreesWithJob(info: JobInfo)
    requires info.total == |info.productIds| && (info.kind == "single" <==> |info.productIds| == 1)
    ensures QueuedMessage(info.total) == "Poster queued for generation" <==> info.kind == "single"
  {
  }

  // ---- get_posters ----

  /** `get_posters`: `page` and `per_page` default to 1 and 20 when absent
      or not integers, are clamped, and the listing is the service's. */
  method GetPosters(posters: map<int, Poster>, user: User, productId: Option<int>, templateId: Option<int>,
                    campaignId: Option<int>, status: Option<string>, page: Option<int>, perPage: Option<int>)
    returns (r: PosterPage, ids: seq<int>)
    ensures (r.page, r.perPage) == ProductRoutes.ClampPaging(if page.Some? then page.value else 1,
                                                             if perPage.Some? then perPage.value else ProductRoutes.DefaultPerPage)
    ensures r.page >= 1 && 1 <= r.perPage <= ProductRoutes.MaxPerPage
    ensures forall k :: k in ids <==> k in posters && Listed(posters[k], user.id, PosterFilter(productId, templateId, campaignId, status))
    ensures forall i :: 0 <= i < |ids| ==> ids[i] in posters
    ensures Distinct(ids) && Descending(ids, Rank(posters, NewestFirst))
    ensures r.total == |ids| && |r.posters| <= r.perPage
    ensures r.pages == PageCount(|ids|, r.perPage)
    ensures (r.hasNext <==> r.page < r.pages) && (r.hasPrev <==> r.page > 1)
    ensures r.posters == PageItems(Rows(posters, ids), r.page, r.perPage)
    ensures forall p :: p in r.posters ==> p.userId == user.id
  {
    var clamped := ProductRoutes.ClampPaging(if page.Some? then page.value else 1,
                                             if perPage.Some? then perPage.value else ProductRoutes.DefaultPerPage);
    r, ids := GetUserPosters(posters, user, PosterFilter(productId, templateId, campaignId, status), clamped.0, clamped.1);
  }

  // ---- download_posters ----

  /** `c.isalnum() or c in (' ', '_', '-', '.')`. */
  predicate Kept(c: char) {
    IsAlnum(c) || c == ' ' || c == '_' || c == '-' || c == '.'
  }

  /** The characters of `s` that the sanitiser keeps, in order. */
  function Filter(s: string): (r: string)
    ensures |r| <= |s|
    ensures forall k :: 0 <= k < |r| ==> Kept(r[k])
  {
    if s == [] then []
    else (if Kept(s[0]) then [s[0]] else []) + Filter(s[1..])
  }

  /** Filtering a concatenation filters each part. */
  lemma {:induction false} FilterAppend(a: string, b: string)
    ensures Filter(a + b) == Filter(a) + Filter(b)
    decreases |a|
  {
    if a != [] {
      assert (a + b)[0] == a[0];
      assert (a + b)[1..] == a[1..] + b;
      FilterAppend(a[1..], b);
    } else {
      assert a + b == b;
    }
  }

  /** A string of kept characters passes the filter unchanged. */
  lemma {:induction false} FilterKeepsKept(s: string)
    requires forall k :: 0 <= k < |s| ==> Kept(s[k])
    ensures Filter(s) == s
    decreases |s|
  {
    if s != [] {
      FilterKeepsKept(s[1..]);
    }
  }

  /** `strip()` of kept characters leaves kept characters: what it
      leaves is a slice of the original. */
  lemma StripKept(s: string)
    requires forall k :: 0 <= k < |s| ==> Kept(s[k])
    ensures forall k :: 0 <= k < |Strip(s)| ==> Kept(Strip(s)[k])
  {
    var t := StripStart(s);
    var r := StripEnd(t);
    assert Strip(s) == r;
    forall k | 0 <= k < |r|
      ensures Kept(r[k])
    {
      assert r[k] == t[k];
      assert t[k] == s[|s| - |t| + k];
    }
  }

  /** A string with no surrounding whitespace is left alone by `strip()`. */
  lemma StripUnspaced(s: string)
    requires s != [] ==> !IsSpace(s[0]) && !IsSpace(s[|s| - 1])
    ensures Strip(s) == s
  {
  }

  /** The sanitised name: the kept characters, then `strip()`. */
  function Sanitize(s: string): (r: string)
    ensures |r| <= |s|
    ensures forall k :: 0 <= k < |r| ==> Kept(r[k])
    ensures r != [] ==> !IsSpace(r[0]) && !IsSpace(r[|r| - 1])
  {
    StripKept(Filter(s));
    Strip(Filter(s))
  }

  /** Sanitising a sanitised name changes nothing. */
  lemma SanitizeIdempotent(s: string)
    ensures Sanitize(Sanitize(s)) == Sanitize(s)
  {
    var r := Sanitize(s);
    FilterKeepsKept(r);
    StripUnspaced(r);
    calc {
      Sanitize(r);
    ==
      Strip(Filter(r));
    ==  { assert Filter(r) == r; }
      Strip(r);
    }
  }

  /** At most the first 30 characters of the product name. */
  function NamePrefix(name: string): (r: string)
    ensures |r| <= NameLimit && |r| <= |name| && r == name[..|r|]
    ensures |name| <= NameLimit ==> r == name
  {
    if |name| <= NameLimit then name else name[..NameLimit]
  }

  /** `poster_{id}_{name[:30]}.png`, sanitised. */
  function EntryName(posterId: int, productName: string): string {
    Sanitize("poster_" + IntText(posterId) + "_" + NamePrefix(productName) + ".png")
  }

  /** The decimal text of an integer is digits after an optional sign. */
  lemma {:induction false} IntTextKept(i: int)
    ensures forall k :: 0 <= k < |IntText(i)| ==> Kept(IntText(i)[k])
    decreases if i < 0 then 1 - i else i
  {
    if i < 0 {
      IntTextKept(-i);
      assert IntText(i) == "-" + IntText(-i);
    } else if i >= 10 {
      IntTextKept(i / 10);
    }
  }

  /** The `poster_<id>_` head passes the filter unchanged. */
  lemma HeadKept(posterId: int)
    ensures Filter("poster_" + IntText(posterId) + "_") == "poster_" + IntText(posterId) + "_"
  {
    var head := "poster_" + IntText(posterId) + "_";
    IntTextKept(posterId);
    forall k | 0 <= k < |head|
      ensures Kept(head[k])
    {
      if 7 <= k < |head| - 1 {
        assert head[k] == IntText(posterId)[k - 7];
      }
    }
    FilterKeepsKept(head);
  }

  /** The entry name keeps the `poster_<id>_` head and the `.png` tail and
      filters only the (at most 30 characters of the) product name; the
      final `strip()` then removes nothing. */
  lemma EntryNameShape(posterId: int, productName: string)
    ensures EntryName(posterId, productName) ==
            "poster_" + IntText(posterId) + "_" + Filter(NamePrefix(productName)) + ".png"
    ensures |EntryName(posterId, productName)| <= |IntText(posterId)| + 12 + NameLimit
  {
    var head := "poster_" + IntText(posterId) + "_";
    var name := NamePrefix(productName);
    HeadKept(posterId);
    FilterKeepsKept(".png");
    FilterAppend(head + name, ".png");
    FilterAppend(head, name);
    var whole := head + Filter(name) + ".png";
    assert Filter(head + name + ".png") == whole;
    assert whole[0] == 'p' && whole[|whole| - 1] == 'g';
    StripUnspaced(whole);
    assert EntryName(posterId, productName) == Strip(Filter(head + name + ".png"));
  }

  /** A ZIP member: its name and the downloaded bytes. */
  datatype ZipEntry = ZipEntry(name: string, content: seq<bv8>)

  /** The answer of `download_posters`: an error, or the archive. */
  datatype DownloadReply = DownloadRefused(status: int, message: string) | Archive(entries: seq<ZipEntry>)

  /** The entry one requested id contributes, if any. `download` is the
      image fetch (`None` when it fails or answers an error status). A
      poster that is missing, not the user's, not generated, without an
      image, without its product, or whose image cannot be fetched adds
      nothing. Only an integer id is looked up; any other is taken as not
      found. */
  function Entry(posters: map<int, Poster>, products: map<int, Product>, user: User, id: Json,
                 download: string -> Option<seq<bv8>>): (r: Option<ZipEntry>)
    ensures r.Some? <==>
              id.JInt? && GetPoster(posters, id.i, user).Ok?
              && posters[id.i].status == "generated" && posters[id.i].imageUrl != ""
              && download(posters[id.i].imageUrl).Some? && posters[id.i].productId in products
    ensures r.Some? ==> r.value == ZipEntry(EntryName(posters[id.i].id, products[posters[id.i].productId].name),
                                            download(posters[id.i].imageUrl).value)
  {
    if !id.JInt? then None
    else
      var found := GetPoster(posters, id.i, user);
      if found.Err? then None
      else
        var p := found.value;
        if p.status != "generated" || p.imageUrl == "" then None
        else
          var content := download(p.imageUrl);
          if content.None? || p.productId !in products then None
          else Some(ZipEntry(EntryName(p.id, products[p.productId].name), content.value))
  }

  /** The archive the loop builds for the requested ids, in order. */
  function Entries(posters: map<int, Poster>, products: map<int, Product>, user: User, ids: seq<Json>,
                   download: string -> Option<seq<bv8>>): seq<ZipEntry>
  {
    if ids == [] then []
    else
      var last := Entry(posters, products, user, ids[|ids| - 1], download);
      Entries(posters, products, user, ids[..|ids| - 1], download) + (if last.Some? then [last.value] else [])
  }

  /** With each lookup answering found or not found, the ids are handled
      independently: the archive for a list is the archive for each part,
      so a skipped poster does not affect the others. */
  lemma {:induction false} EntriesAppend(posters: map<int, Poster>, products: map<int, Product>, user: User,
                                         a: seq<Json>, b: seq<Json>, download: string -> Option<seq<bv8>>)
    ensures Entries(posters, products, user, a + b, download)
            == Entries(posters, products, user, a, download) + Entries(posters, products, user, b, download)
    decreases |b|
  {
    if b == [] {
      assert a + b == a;
    } else {
      var b' := b[..|b| - 1];
      assert (a + b)[..|a + b| - 1] == a + b';
      assert (a + b)[|a + b| - 1] == b[|b| - 1];
      EntriesAppend(posters, products, user, a, b', download);
    }
  }

  /** Every entry of the archive comes from one requested id, and there
      are never more entries than ids. */
  lemma {:induction false} EntriesFromIds(posters: map<int, Poster>, products: map<int, Product>, user: User,
                                          ids: seq<Json>, download: string -> Option<seq<bv8>>)
    ensures |Entries(posters, products, user, ids, download)| <= |ids|
    ensures forall e :: e in Entries(posters, products, user, ids, download) ==>
              exists k :: 0 <= k < |ids| && Entry(posters, products, user, ids[k], download) == Some(e)
    decreases |ids|
  {
    if ids != [] {
      var init := ids[..|ids| - 1];
      EntriesFromIds(posters, products, user, init, download);
      forall e | e in Entries(posters, products, user, ids, download)
        ensures exists k :: 0 <= k < |ids| && Entry(posters, products, user, ids[k], download) == Some(e)
      {
        if e in Entries(posters, products, user, init, download) {
          var k :| 0 <= k < |init| && Entry(posters, products, user, init[k], download) == Some(e);
          assert ids[k] == init[k];
        } else {
          assert Entry(posters, products, user, ids[|ids| - 1], download) == Some(e);
        }
      }
    }
  }

  /** Every entry of the archive is a generated poster of the user, under
      a sanitised name. */
  lemma ArchiveHoldsOwnGeneratedPosters(posters: map<int, Poster>, products: map<int, Product>, user: User,
                                        ids: seq<Json>, download: string -> Option<seq<bv8>>, e: ZipEntry)
    requires e in Entries(posters, products, user, ids, download)
    ensures exists id :: id in posters && posters[id].userId == user.id && posters[id].status == "generated"
                         && posters[id].imageUrl != "" && download(posters[id].imageUrl) == Some(e.content)
    ensures forall k :: 0 <= k < |e.name| ==> Kept(e.name[k])
  {
    EntriesFromIds(posters, products, user, ids, download);
    var k :| 0 <= k < |ids| && Entry(posters, products, user, ids[k], download) == Some(e);
    assert ids[k].i in posters;
  }

  /** `download_posters`: a body that is not a mapping fails; a missing,
      empty or non-list `poster_ids` is a 400; otherwise each id is tried
      in turn and the archive holds what could be added. */
  method DownloadPosters(posters: map<int, Poster>, products: map<int, Product>, user: User, data: Json,
                         download: string -> Option<seq<bv8>>)
    returns (reply: DownloadReply)
    ensures !data.JObj? ==> reply == DownloadRefused(500, DownloadFailed)
    ensures (data.JObj? && (!Truthy(Get(data.fields, "poster_ids", JList([]))) || !Get(data.fields, "poster_ids", JList([])).JList?))
              ==> reply == DownloadRefused(400, PosterIdsRequired)
    ensures reply.Archive? ==>
              data.JObj? && Get(data.fields, "poster_ids", JList([])).JList?
              && reply.entries == Entries(posters, products, user, Get(data.fields, "poster_ids", JList([])).items, download)
    ensures (data.JObj? && Truthy(Get(data.fields, "poster_ids", JList([]))) && Get(data.fields, "poster_ids", JList([])).JList?)
              ==> reply.Archive?
  {
    if !data.JObj? {
      // `.get` on a value that is not a mapping raises
      return DownloadRefused(500, DownloadFailed);
    }
    var requested := Get(data.fields, "poster_ids", JList([]));
    if !Truthy(requested) || !requested.JList? {
      return DownloadRefused(400, PosterIdsRequired);
    }
    var ids := requested.items;
    var entries: seq<ZipEntry> := [];
    for i := 0 to |ids|
      invariant entries == Entries(posters, products, user, ids[..i], download)
    {
      assert ids[..i + 1][..i] == ids[..i];
      var entry := Entry(posters, products, user, ids[i], download);
      if entry.Some? {
        entries := entries + [entry.value];
      }
    }
    assert ids[..|ids|] == ids;
    reply := Archive(entries);
  }
}

=== FILE: product_routes.dfy ===
/** The product routes' own logic (backend/app/routes/products.py): the
    image file-name check, the pagination clamp, the checks and storage
    calls of an image upload, and bulk creation. */
module ProductRoutes {
  import opened Wrappers
  import opened Json
  import opened Strings
  import opened Builtins
  import opened Models
  import opened Responses
  import opened ProductValidators
  import opened ProductService

  /** `ALLOWED_EXTENSIONS`. */
  const AllowedExtensions: set<string> := {"png", "jpg", "jpeg", "gif", "webp"}
  /** `MAX_FILE_SIZE`: 10 MB. */
  const MaxFileSize := 10 * 1024 * 1024
  const DefaultPerPage := 20
  const MaxPerPage := 100
  const MaxBulkItems := 100

  /** `allowed_file(filename)`: there is a dot, and the text after the last
      one, lower-cased, is an allowed extension. */
  function AllowedFile(filename: string): (ok: bool)
    ensures ok ==> '.' in filename
    ensures '.' in filename ==> (ok <==> Lower(filename[RFind(filename, '.') + 1..]) in AllowedExtensions)
  {
    var i := RFind(filename, '.');
    if i < 0 then false else Lower(filename[i + 1..]) in AllowedExtensions
  }

  /** A name built from a stem and a dot-free extension passes exactly when
      the extension, lower-cased, is allowed, whatever the stem holds. */
  lemma AllowedFileOfParts(stem: string, ext: string)
    requires '.' !in ext
    ensures AllowedFile(stem + "." + ext) <==> Lower(ext) in AllowedExtensions
  {
    var name := stem + "." + ext;
    var i := |stem|;
    assert name[i] == '.';
    forall k | i < k < |name| ensures name[k] != '.' {
      assert name[k] == ext[k - i - 1];
    }
    assert RFind(name, '.') == i;
    assert name[i + 1..] == ext;
  }

  /** The pagination clamp: a page below 1 becomes 1, a page size outside
      [1, 100] becomes 20. */
  function ClampPaging(page: int, perPage: int): (r: (int, int))
    ensures r.0 >= 1 && 1 <= r.1 <= MaxPerPage
    ensures page >= 1 ==> r.0 == page
    ensures page < 1 ==> r.0 == 1
    ensures 1 <= perPage <= MaxPerPage ==> r.1 == perPage
    ensures !(1 <= perPage <= MaxPerPage) ==> r.1 == DefaultPerPage
  {
    (if page < 1 then 1 else page, if perPage < 1 || perPage > MaxPerPage then DefaultPerPage else perPage)
  }

  /** Clamping twice is clamping once. */
  lemma ClampIdempotent(page: int, perPage: int)
    ensures var r := ClampPaging(page, perPage); ClampPaging(r.0, r.1) == r
  {
  }

  /** An uploaded file as the request carries it. */
  datatype Upload = Upload(filename: string, size: nat)

  /** `'Invalid file type. Allowed: ...'`. */
  const InvalidTypeMessage := "Invalid file type. Allowed: png, jpg, jpeg, gif, webp"

  /** The checks made on the request before the product is read: the error
      response, or none. */
  function UploadRejection(file: Option<Upload>): (r: Option<Response>)
    ensures r.None? <==> file.Some? && file.value.filename != "" && AllowedFile(file.value.filename)
                         && file.value.size <= MaxFileSize
    ensures r.Some? ==> r.value.status == 400
  {
    if file.None? then Some(ErrorResponse(JStr("No image file provided"), 400, JNull))
    else if file.value.filename == "" then Some(ErrorResponse(JStr("No file selected"), 400, JNull))
    else if !AllowedFile(file.value.filename) then Some(ErrorResponse(JStr(InvalidTypeMessage), 400, JNull))
    else if file.value.size > MaxFileSize then Some(ErrorResponse(JStr("File too large. Maximum size: 10MB"), 400, JNull))
    else None
  }

  /** A call the route makes on the image storage. */
  datatype StorageCall = DeleteImage(url: Json) | UploadImage(folder: string)

  /** `upload_product_image`: the request checks, then the product (404 when
      it cannot be had), then the old image deleted when there is one, then
      the upload (`uploaded` is the URL storage answers, None on failure),
      then the row's update; a failed upload or update answers 500.
      `calls` lists the storage calls in order. */
  method UploadProductImage(db: Database, user: User, productId: int, file: Option<Upload>, uploaded: Option<string>)
    returns (resp: Response, calls: seq<StorageCall>)
    requires SkusUnique(db.products)
    modifies db
    ensures SkusUnique(db.products)
    // a request refused by the checks reads nothing and calls no storage
    ensures UploadRejection(file).Some? ==> resp == UploadRejection(file).value && calls == []
                                            && db.products == old(db.products)
    ensures UploadRejection(file).None? && GetProduct(old(db.products), productId, user.id).Err? ==>
              resp == ErrorResponse(JStr(GetProduct(old(db.products), productId, user.id).error), 404, JNull)
              && calls == [] && db.products == old(db.products)
    // once the product is known: delete the old image first, then upload
    ensures UploadRejection(file).None? && GetProduct(old(db.products), productId, user.id).Ok? ==>
              var old_url := old(db.products)[productId].imageUrl;
              calls == (if Truthy(old_url) then [DeleteImage(old_url)] else []) + [UploadImage("products")]
    ensures resp.status == 200 <==>
              UploadRejection(file).None? && GetProduct(old(db.products), productId, user.id).Ok?
              && uploaded.Some? && uploaded.value != ""
              && (JStr(uploaded.value) != old(db.products)[productId].imageUrl ==> TextFits(uploaded.value, 500))
    ensures resp.status == 200 ==>
              db.products == old(db.products)[productId := old(db.products)[productId].(imageUrl := JStr(uploaded.value))]
    ensures resp.status != 200 ==> db.products == old(db.products)
    ensures db.nextId == old(db.nextId) && db.users == old(db.users) && db.posters == old(db.posters)
  {
    calls := [];
    var rejection := UploadRejection(file);
    if rejection.Some? {
      return rejection.value, calls;
    }
    var product := GetProduct(db.products, productId, user.id);
    if product.Err? {
      return ErrorResponse(JStr(product.error), 404, JNull), calls;
    }
    if Truthy(product.value.imageUrl) {
      calls := calls + [DeleteImage(product.value.imageUrl)];
    }
    calls := calls + [UploadImage("products")];
    if uploaded.None? || uploaded.value == "" {
      return ErrorResponse(JStr("Failed to upload image"), 500, JNull), calls;
    }
    var updated := UpdateProductImage(db, productId, user, uploaded.value);
    if updated.Err? {
      return ErrorResponse(JStr("Failed to upload image"), 500, JNull), calls;
    }
    resp := SuccessResponse(JObj(map["image_url" := JStr(uploaded.value)]), JStr("Image uploaded successfully"), 200);
  }

  /** One entry of the bulk reply's `errors`: the validator's messages, or
      the message of what was raised. */
  datatype BulkError = Invalid(index: nat, errors: seq<string>) | Failed(index: nat, error: string)

  /** What `bulk_create_products` answers: a refusal, or the products made
      and the errors. */
  datatype BulkReply = Refused(status: int, message: string) | Done(created: seq<Product>, errors: seq<BulkError>, message: string)

  /** The error indices strictly increase. */
  predicate IndicesIncrease(errors: seq<BulkError>) {
    forall i, j :: 0 <= i < j < |errors| ==> errors[i].index < errors[j].index
  }

  /** The checks on the request body, in order. `Err` carries the status
      and message of the refusal, `Ok` the items. */
  function BulkItems(body: Json): (r: Result<seq<Json>>)
    ensures r.Ok? <==> body.JObj? && "products" in body.fields && body.fields["products"].JList?
                       && |body.fields["products"].items| <= MaxBulkItems
    ensures r.Ok? ==> r.value == body.fields["products"].items
  {
    if !Truthy(body) then Err("Products array is required")
    else if body.JObj? then
      if "products" !in body.fields then Err("Products array is required")
      else if !body.fields["products"].JList? then Err("Products must be an array")
      else if |body.fields["products"].items| > MaxBulkItems then Err("Maximum 100 products per bulk upload")
      else Ok(body.fields["products"].items)
    // `'products' in data` on another truthy value: membership in a list
    // or string is asked, and indexing either by a string raises
    else if body.JList? then
      if JStr("products") in body.items then Err("Bulk creation failed") else Err("Products array is required")
    else if body.JStr? then
      if Contains(body.s, "products") then Err("Bulk creation failed") else Err("Products array is required")
    else Err("Bulk creation failed")
  }

  /** The status of a refusal: the failure of the whole request is a 500,
      the rest are 400. */
  function RefusalStatus(message: string): int {
    if message == "Bulk creation failed" then 500 else 400
  }

  /** The entry item `i` must have in `errors`, if any is known in
      advance: a malformed item, or one the validator refuses. */
  function Expected(item: Json, i: nat): (e: Option<BulkError>)
    ensures e.Some? ==> e.value.index == i
    ensures e.None? <==> item.JObj? && CreateErrors(item.fields) == Ok([])
  {
    if !item.JObj? then Some(Failed(i, NoAttribute(item, "get")))
    else
      var verdict := CreateErrors(item.fields);
      if verdict.Err? then Some(Failed(i, verdict.error))
      else if verdict.value != [] then Some(Invalid(i, verdict.value))
      else None
  }

  /** `exp` holds the known entries of the first `n` items. */
  predicate Matches(items: seq<Json>, exp: seq<Option<BulkError>>, n: nat)
    requires n <= |items| && n <= |exp|
  {
    forall i :: 0 <= i < n ==> exp[i] == Expected(items[i], i)
  }

  /** The known entry of the next item extends the match. */
  lemma MatchesStep(items: seq<Json>, exp: seq<Option<BulkError>>, v: Option<BulkError>)
    requires |exp| < |items| && Matches(items, exp, |exp|) && v == Expected(items[|exp|], |exp|)
    ensures Matches(items, exp + [v], |exp| + 1)
  {
  }

  /** The first `n` items are reported as they must be: each known entry
      is in `errors`. */
  predicate Reported(exp: seq<Option<BulkError>>, n: nat, errors: seq<BulkError>)
    requires n <= |exp|
  {
    forall i :: 0 <= i < n && exp[i].Some? ==> exp[i].value in errors
  }

  /** Reporting one more item, by the entries `added`, keeps the earlier
      items reported. */
  lemma ReportedStep(exp: seq<Option<BulkError>>, n: nat, errors: seq<BulkError>, added: seq<BulkError>)
    requires n < |exp| && Reported(exp, n, errors)
    requires exp[n].Some? ==> exp[n].value in added
    ensures Reported(exp, n + 1, errors + added)
  {
  }

  /** The database session as the bulk loop sees it: the table, the next
      id, and whether a failed commit has left the session inactive
      (nothing in the route calls `rollback`). */
  datatype Session = Session(products: map<int, Product>, nextId: int, inactive: bool)

  /** What one item comes to: a product made, or its error entry. */
  datatype ItemResult = Made(product: Product) | Errored(entry: BulkError)

  /** One item of the bulk loop, as a function of the session: a known
      entry when the item is malformed or refused by the validator,
      otherwise `create_product` in the session. A commit that fails
      leaves the session inactive for every later item. */
  function ItemStep(s: Session, userId: int, now: int, idx: nat, item: Json): (r: (Session, ItemResult))
    ensures Expected(item, idx).Some? ==> r == (s, Errored(Expected(item, idx).value))
    ensures r.1.Errored? ==> r.1.entry.index == idx && r.0.products == s.products && r.0.nextId == s.nextId
    ensures r.1.Made? ==> !s.inactive && !r.0.inactive && r.1.product.id == s.nextId
                          && r.0 == Session(s.products[s.nextId := r.1.product], s.nextId + 1, false)
    ensures s.inactive ==> r.0 == s && r.1.Errored?
  {
    match Expected(item, idx)
    case Some(known) => (s, Errored(known))
    case None =>
      match Created(s.products, s.nextId, userId, now, item.fields, s.inactive)
      case Ok(p) => (Session(s.products[s.nextId := p], s.nextId + 1, s.inactive), Made(p))
      case Err(message) =>
        var poisoned := s.inactive || CommitFails(s.products, s.nextId, userId, now, item.fields);
        (Session(s.products, s.nextId, poisoned), Errored(Failed(idx, message)))
  }

  /** An item the validator accepts comes to what `create_product` answers
      in the session. */
  lemma AcceptedStep(s: Session, userId: int, now: int, idx: nat, item: Json)
    requires item.JObj? && Expected(item, idx).None?
    ensures var r := Created(s.products, s.nextId, userId, now, item.fields, s.inactive);
            var after := s.inactive || CommitFails(s.products, s.nextId, userId, now, item.fields);
            ItemStep(s, userId, now, idx, item)
            == if r.Ok? then (Session(s.products[s.nextId := r.value], s.nextId + 1, after), Made(r.value))
               else (Session(s.products, s.nextId, after), Errored(Failed(idx, r.error)))
  {
  }

  /** The loop's state after some items: the session, the products made and
      the error entries. */
  datatype BulkState = BulkState(session: Session, created: seq<Product>, errors: seq<BulkError>)

  /** The loop of `bulk_create_products` over `items`, the first of which
      has index `start`, from the session `s`. Once the session is
      inactive nothing more is made and the session stays as it is. */
  function Run(s: Session, userId: int, now: int, start: nat, items: seq<Json>): (b: BulkState)
    ensures |b.created| + |b.errors| == |items|
    ensures s.inactive ==> b.session == s && b.created == []
  {
    InactiveStays(s, userId, now, start, items);
    RunWith(StepOf(userId, now), s, start, items)
  }

  /** The step of the loop for one user at one time. */
  function StepOf(userId: int, now: int): (Session, nat, Json) -> (Session, ItemResult) {
    (s: Session, i: nat, x: Json) => ItemStep(s, userId, now, i, x)
  }

  /** The loop with its step as a parameter. */
  function RunWith(step: (Session, nat, Json) -> (Session, ItemResult), s: Session, start: nat, items: seq<Json>): (b: BulkState)
    ensures |b.created| + |b.errors| == |items|
    decreases |items|
  {
    if items == [] then BulkState(s, [], [])
    else
      var t := step(s, start, items[0]);
      Prepend(t.1, RunWith(step, t.0, start + 1, items[1..]))
  }

  /** Over an inactive session the loop makes nothing and leaves the
      session as it is. */
  lemma {:induction false} InactiveStays(s: Session, userId: int, now: int, start: nat, items: seq<Json>)
    ensures var b := RunWith(StepOf(userId, now), s, start, items);
            s.inactive ==> b.session == s && b.created == []
    decreases |items|
  {
    if items != [] && s.inactive {
      var t := ItemStep(s, userId, now, start, items[0]);
      assert StepOf(userId, now)(s, start, items[0]) == t;
      InactiveStays(t.0, userId, now, start + 1, items[1..]);
    }
  }

  /** What one item came to, followed by what the items after it did. */
  function Prepend(first: ItemResult, rest: BulkState): (b: BulkState)
    ensures b.session == rest.session
    ensures first.Made? ==> b.created == [first.product] + rest.created && b.errors == rest.errors
    ensures first.Errored? ==> b.created == rest.created && b.errors == [first.entry] + rest.errors
  {
    match first
    case Made(p) => BulkState(rest.session, [p] + rest.created, rest.errors)
    case Errored(e) => BulkState(rest.session, rest.created, [e] + rest.errors)
  }

  /** Prepending an item's outcome to the rest commutes with joining. */
  lemma PrependJoin(first: ItemResult, a: BulkState, r: BulkState)
    ensures Prepend(first, Join(a, r)) == Join(Prepend(first, a), r)
  {
    match first
    case Made(p) =>
      assert [p] + (a.created + r.created) == ([p] + a.created) + r.created;
    case Errored(e) =>
      assert [e] + (a.errors + r.errors) == ([e] + a.errors) + r.errors;
  }

  /** The whole list, from index 0. */
  function Bulk(s0: Session, userId: int, now: int, items: seq<Json>): (b: BulkState)
    ensures |b.created| + |b.errors| == |items|
  {
    Run(s0, userId, now, 0, items)
  }

  /** What a first part of the list did, followed by what the rest did. */
  function Join(done: BulkState, rest: BulkState): (b: BulkState)
    ensures b.session == rest.session
    ensures |b.created| == |done.created| + |rest.created| && |b.errors| == |done.errors| + |rest.errors|
  {
    BulkState(rest.session, done.created + rest.created, done.errors + rest.errors)
  }

  /** The loop, whatever its step, over two lists one after the other. */
  lemma {:induction false} RunWithAppend(step: (Session, nat, Json) -> (Session, ItemResult), s: Session, start: nat, xs: seq<Json>, ys: seq<Json>)
    ensures var a := RunWith(step, s, start, xs);
            RunWith(step, s, start, xs + ys) == Join(a, RunWith(step, a.session, start + |xs|, ys))
    decreases |xs|
  {
    if xs == [] {
      assert xs + ys == ys;
      var r := RunWith(step, s, start, ys);
      assert [] + r.created == r.created && [] + r.errors == r.errors;
    } else {
      var t := step(s, start, xs[0]);
      assert (xs + ys)[0] == xs[0] && (xs + ys)[1..] == xs[1..] + ys;
      RunWithAppend(step, t.0, start + 1, xs[1..], ys);
      var a := RunWith(step, t.0, start + 1, xs[1..]);
      var r := RunWith(step, a.session, start + |xs|, ys);
      PrependJoin(t.1, a, r);
    }
  }

  /** The loop over two lists one after the other is the loop over the
      first followed by the loop over the second, from the session the
      first left. */
  lemma RunAppend(s: Session, userId: int, now: int, start: nat, xs: seq<Json>, ys: seq<Json>)
    ensures var a := Run(s, userId, now, start, xs);
            Run(s, userId, now, start, xs + ys) == Join(a, Run(a.session, userId, now, start + |xs|, ys))
  {
    RunWithAppend(StepOf(userId, now), s, start, xs, ys);
  }

  /** Once a commit has failed, the rest of the list makes nothing: the
      table stays as it is and every later item adds one error entry. */
  lemma NothingAfterFailedCommit(s0: Session, userId: int, now: int, items: seq<Json>, n: nat)
    requires n <= |items| && Bulk(s0, userId, now, items[..n]).session.inactive
    ensures var b, bn := Bulk(s0, userId, now, items), Bulk(s0, userId, now, items[..n]);
            b.session == bn.session && b.created == bn.created
            && |b.errors| == |bn.errors| + (|items| - n)
  {
    assert items == items[..n] + items[n..];
    RunAppend(s0, userId, now, 0, items[..n], items[n..]);
    var bn := Bulk(s0, userId, now, items[..n]);
    var r := Run(bn.session, userId, now, n, items[n..]);
    assert r.created == [] && bn.created + [] == bn.created;
  }

  /** A first item that passes validation but whose commit fails (a SKU
      the table already holds once stripped, say) leaves the whole list
      unmade: nothing is created and every item has an error entry. */
  lemma FailedCommitStopsLaterItems(s0: Session, userId: int, now: int, items: seq<Json>)
    requires !s0.inactive && |items| >= 1
    requires Expected(items[0], 0).None? && CommitFails(s0.products, s0.nextId, userId, now, items[0].fields)
    ensures var b := Bulk(s0, userId, now, items);
            b.created == [] && |b.errors| == |items| && b.session.products == s0.products
  {
    var step := ItemStep(s0, userId, now, 0, items[0]);
    AcceptedStep(s0, userId, now, 0, items[0]);
    assert step.0 == Session(s0.products, s0.nextId, true) && step.1.Errored?;
    var rest := Run(step.0, userId, now, 1, items[1..]);
    assert StepOf(userId, now)(s0, 0, items[0]) == step;
    assert Bulk(s0, userId, now, items) == Prepend(step.1, rest);
  }

  /** One item of the bulk loop: validated, then created; either a product
      or the error entry for it. `inactive` says whether an earlier commit
      failed; `inactiveAfter` whether one has now. */
  method BulkItem(db: Database, user: User, idx: nat, item: Json, now: int, inactive: bool)
    returns (made: Option<Product>, e: BulkError, inactiveAfter: bool, ghost expected: Option<BulkError>)
    requires db.Valid() && SkusUnique(db.products)
    modifies db
    ensures db.Valid() && SkusUnique(db.products)
    ensures expected == Expected(item, idx)
    ensures ItemStep(Session(old(db.products), old(db.nextId), inactive), user.id, now, idx, item)
            == (Session(db.products, db.nextId, inactiveAfter), if made.Some? then Made(made.value) else Errored(e))
    ensures made.None? ==> e.index == idx && (expected.Some? ==> expected.value == e)
                           && db.products == old(db.products)
    ensures made.Some? ==> expected.None? && made.value.id !in old(db.products)
                           && db.products == old(db.products)[made.value.id := made.value]
    ensures db.users == old(db.users) && db.posters == old(db.posters) && db.templates == old(db.templates)
  {
    expected := Expected(item, idx);
    made := None;
    inactiveAfter := inactive;
    if !item.JObj? {
      e := Failed(idx, NoAttribute(item, "get"));
      return;
    }
    var checked := ValidateCreate(item.fields);
    if checked.Err? {
      e := Failed(idx, checked.error);
      assert expected == Some(e);
    } else if !checked.value.0 {
      e := Invalid(idx, checked.value.1);
      assert expected == Some(e);
    } else {
      made, e, inactiveAfter := CreateAccepted(db, user, idx, item, now, inactive);
    }
  }

  /** An item the validator accepts, handed to `create_product`. */
  method CreateAccepted(db: Database, user: User, idx: nat, item: Json, now: int, inactive: bool)
    returns (made: Option<Product>, e: BulkError, inactiveAfter: bool)
    requires db.Valid() && SkusUnique(db.products)
    requires item.JObj? && Expected(item, idx).None?
    modifies db
    ensures db.Valid() && SkusUnique(db.products)
    ensures ItemStep(Session(old(db.products), old(db.nextId), inactive), user.id, now, idx, item)
            == (Session(db.products, db.nextId, inactiveAfter), if made.Some? then Made(made.value) else Errored(e))
    ensures made.None? ==> e.index == idx && db.products == old(db.products)
    ensures made.Some? ==> made.value.id !in old(db.products)
                           && db.products == old(db.products)[made.value.id := made.value]
    ensures db.users == old(db.users) && db.posters == old(db.posters) && db.templates == old(db.templates)
  {
    ghost var s := Session(db.products, db.nextId, inactive);
    AcceptedStep(s, user.id, now, idx, item);
    ghost var step := ItemStep(s, user.id, now, idx, item);
    var p;
    p, inactiveAfter := CreateProduct(db, user, item.fields, now, inactive);
    if p.Err? {
      made, e := None, Failed(idx, p.error);
      assert step == (Session(s.products, s.nextId, inactiveAfter), Errored(e));
      assert db.products == s.products && db.nextId == s.nextId;
      assert step == (Session(db.products, db.nextId, inactiveAfter), Errored(e));
    } else {
      made, e := Some(p.value), Failed(idx, "");
      assert step == (Session(s.products[s.nextId := p.value], s.nextId + 1, inactiveAfter), Made(p.value));
      assert db.products == s.products[s.nextId := p.value] && db.nextId == s.nextId + 1;
      assert step == (Session(db.products, db.nextId, inactiveAfter), Made(made.value));
    }
  }

  /** The keys of the products made. */
  function CreatedIds(created: seq<Product>): set<int> {
    set p | p in created :: p.id
  }

  lemma CreatedIdsAppend(created: seq<Product>, p: Product)
    ensures CreatedIds(created + [p]) == CreatedIds(created) + {p.id}
  {
  }

  /** What the loop of `bulk_create_products` has done after `n` items,
      with `products` the table now and `before` the table at the start:
      each item is either a product made or an entry in `errors`, the
      known entries all present, and only the made products added. */
  predicate Tally(products: map<int, Product>, before: map<int, Product>, items: seq<Json>, n: nat,
                  created: seq<Product>, errors: seq<BulkError>, exp: seq<Option<BulkError>>)
  {
    n <= |items|
    && |created| + |errors| == n
    && IndicesIncrease(errors) && (forall e :: e in errors ==> e.index < n)
    && |exp| == n && Reported(exp, n, errors)
    && (forall p :: p in created ==> p.id in products && products[p.id] == p && p.id !in before)
    && products.Keys == before.Keys + CreatedIds(created)
  }

  /** The tally after one more item made into a product. */
  lemma TallyMade(products: map<int, Product>, before: map<int, Product>, items: seq<Json>, n: nat,
                  created: seq<Product>, errors: seq<BulkError>, exp: seq<Option<BulkError>>, p: Product)
    requires n < |items| && Tally(products, before, items, n, created, errors, exp)
    requires p.id !in products
    ensures Tally(products[p.id := p], before, items, n + 1, created + [p], errors, exp + [None])
  {
    ReportedStep(exp + [None], n, errors, []);
    assert errors + [] == errors;
    CreatedIdsAppend(created, p);
  }

  /** The tally after one more item reported by the entry `e`. */
  lemma TallyReported(products: map<int, Product>, before: map<int, Product>, items: seq<Json>, n: nat,
                      created: seq<Product>, errors: seq<BulkError>, exp: seq<Option<BulkError>>,
                      e: BulkError, v: Option<BulkError>)
    requires n < |items| && Tally(products, before, items, n, created, errors, exp)
    requires e.index == n && (v.Some? ==> v.value == e)
    ensures Tally(products, before, items, n + 1, created, errors + [e], exp + [v])
  {
    ReportedStep(exp + [v], n, errors, [e]);
  }

  /** After the whole list: every malformed or refused item has its entry
      in `errors`. */
  lemma EveryKnownEntryReported(items: seq<Json>, exp: seq<Option<BulkError>>, errors: seq<BulkError>)
    requires |exp| == |items| && Matches(items, exp, |items|) && Reported(exp, |items|, errors)
    ensures forall i :: 0 <= i < |items| && Expected(items[i], i).Some? ==> Expected(items[i], i).value in errors
  {
    forall i | 0 <= i < |items| && Expected(items[i], i).Some?
      ensures Expected(items[i], i).value in errors
    {
      assert exp[i] == Expected(items[i], i);
    }
  }

  /** The loop of `bulk_create_products` over the items, in one session
      that nothing rolls back. */
  method CreateAll(db: Database, user: User, items: seq<Json>, now: int)
    returns (created: seq<Product>, errors: seq<BulkError>, ghost exp: seq<Option<BulkError>>)
    requires db.Valid() && SkusUnique(db.products)
    modifies db
    ensures db.Valid() && SkusUnique(db.products)
    ensures var b := Bulk(Session(old(db.products), old(db.nextId), false), user.id, now, items);
            created == b.created && errors == b.errors
            && db.products == b.session.products && db.nextId == b.session.nextId
    ensures Tally(db.products, old(db.products), items, |items|, created, errors, exp)
    ensures Matches(items, exp, |items|)
    ensures db.users == old(db.users) && db.posters == old(db.posters) && db.templates == old(db.templates)
  {
    created := [];
    errors := [];
    exp := [];
    var inactive := false;
    ghost var before := db.products;
    ghost var s0 := Session(db.products, db.nextId, false);
    RunFromStart(s0, user.id, now, items);
    for idx := 0 to |items|
      invariant db.Valid() && SkusUnique(db.products)
      invariant Bulk(s0, user.id, now, items)
                == Join(BulkState(Session(db.products, db.nextId, inactive), created, errors),
                        Run(Session(db.products, db.nextId, inactive), user.id, now, idx, items[idx..]))
      invariant Tally(db.products, before, items, idx, created, errors, exp)
      invariant Matches(items, exp, idx)
      invariant db.users == old(db.users) && db.posters == old(db.posters) && db.templates == old(db.templates)
    {
      created, errors, inactive, exp := CreateNext(db, user, items, idx, now, created, errors, inactive, before, exp);
    }
    RunAtEnd(Session(db.products, db.nextId, inactive), user.id, now, items, created, errors);
  }

  /** Before the loop nothing is done and all the list remains. */
  lemma RunFromStart(s: Session, userId: int, now: int, items: seq<Json>)
    ensures Bulk(s, userId, now, items) == Join(BulkState(s, [], []), Run(s, userId, now, 0, items[0..]))
  {
    assert items[0..] == items;
    var b := Bulk(s, userId, now, items);
    assert [] + b.created == b.created && [] + b.errors == b.errors;
  }

  /** After the loop nothing remains. */
  lemma RunAtEnd(s: Session, userId: int, now: int, items: seq<Json>, created: seq<Product>, errors: seq<BulkError>)
    ensures Join(BulkState(s, created, errors), Run(s, userId, now, |items|, items[|items|..]))
            == BulkState(s, created, errors)
  {
    assert items[|items|..] == [] && created + [] == created && errors + [] == errors;
  }

  /** One turn of the loop of `bulk_create_products`: item `idx` moves from
      what remains to what is done, and the tally grows by it. */
  method CreateNext(db: Database, user: User, items: seq<Json>, idx: nat, now: int,
                    created: seq<Product>, errors: seq<BulkError>, inactive: bool,
                    ghost before: map<int, Product>, ghost exp: seq<Option<BulkError>>)
    returns (created': seq<Product>, errors': seq<BulkError>, inactive': bool, ghost exp': seq<Option<BulkError>>)
    requires idx < |items| && db.Valid() && SkusUnique(db.products)
    requires Tally(db.products, before, items, idx, created, errors, exp) && Matches(items, exp, idx)
    modifies db
    ensures db.Valid() && SkusUnique(db.products)
    ensures Join(BulkState(Session(old(db.products), old(db.nextId), inactive), created, errors),
                 Run(Session(old(db.products), old(db.nextId), inactive), user.id, now, idx, items[idx..]))
            == Join(BulkState(Session(db.products, db.nextId, inactive'), created', errors'),
                    Run(Session(db.products, db.nextId, inactive'), user.id, now, idx + 1, items[idx + 1..]))
    ensures Tally(db.products, before, items, idx + 1, created', errors', exp') && Matches(items, exp', idx + 1)
    ensures db.users == old(db.users) && db.posters == old(db.posters) && db.templates == old(db.templates)
  {
    ghost var products := db.products;
    ghost var session := Session(db.products, db.nextId, inactive);
    var made, e; ghost var v;
    made, e, inactive', v := BulkItem(db, user, idx, items[idx], now, inactive);
    RunStep(session, user.id, now, idx, items, created, errors);
    MatchesStep(items, exp, v);
    if made.Some? {
      TallyMade(products, before, items, idx, created, errors, exp, made.value);
      created', errors' := created + [made.value], errors;
    } else {
      TallyReported(products, before, items, idx, created, errors, exp, e, v);
      created', errors' := created, errors + [e];
    }
    exp' := exp + [v];
  }

  /** One more item, done in the loop, moves it from the rest to the part
      done. */
  lemma RunStep(session: Session, userId: int, now: int, idx: nat, items: seq<Json>,
                created: seq<Product>, errors: seq<BulkError>)
    requires idx < |items|
    ensures var step := ItemStep(session, userId, now, idx, items[idx]);
            var done := if step.1.Made? then BulkState(step.0, created + [step.1.product], errors)
                        else BulkState(step.0, created, errors + [step.1.entry]);
            Join(BulkState(session, created, errors), Run(session, userId, now, idx, items[idx..]))
            == Join(done, Run(step.0, userId, now, idx + 1, items[idx + 1..]))
  {
    assert items[idx..][0] == items[idx] && items[idx..][1..] == items[idx + 1..];
    var step := ItemStep(session, userId, now, idx, items[idx]);
    var r := Run(step.0, userId, now, idx + 1, items[idx + 1..]);
    assert StepOf(userId, now)(session, idx, items[idx]) == step;
    assert Run(session, userId, now, idx, items[idx..]) == Prepend(step.1, r);
    match step.1
    case Made(p) =>
      assert created + ([p] + r.created) == (created + [p]) + r.created;
    case Errored(e) =>
      assert errors + ([e] + r.errors) == (errors + [e]) + r.errors;
  }

  /** `bulk_create_products`: the body checks, then each item validated
      and, when valid, created; every item ends up in exactly one of the
      two lists. */
  method BulkCreateProducts(db: Database, user: User, body: Json, now: int) returns (reply: BulkReply)
    requires db.Valid() && SkusUnique(db.products)
    modifies db
    ensures db.Valid() && SkusUnique(db.products)
    ensures BulkItems(body).Err? ==> reply == Refused(RefusalStatus(BulkItems(body).error), BulkItems(body).error)
                                     && db.products == old(db.products)
    ensures BulkItems(body).Ok? ==> reply.Done? && reply.message == BulkMessage(reply.created)
    ensures reply.Done? ==>
              var items := BulkItems(body).value;
              |reply.created| + |reply.errors| == |items|
              && IndicesIncrease(reply.errors)
              && (forall e :: e in reply.errors ==> e.index < |items|)
              && (forall i :: 0 <= i < |items| && Expected(items[i], i).Some? ==>
                                Expected(items[i], i).value in reply.errors)
              // the products made are in the table, and only they were added
              && (forall p :: p in reply.created ==> p.id in db.products && db.products[p.id] == p
                                                     && p.id !in old(db.products))
              && db.products.Keys == old(db.products).Keys + CreatedIds(reply.created)
    // item by item, in one session that a failed commit leaves inactive
    ensures reply.Done? ==>
              var b := Bulk(Session(old(db.products), old(db.nextId), false), user.id, now, BulkItems(body).value);
              reply.created == b.created && reply.errors == b.errors && db.products == b.session.products
    ensures db.users == old(db.users) && db.posters == old(db.posters) && db.templates == old(db.templates)
  {
    var items := BulkItems(body);
    if items.Err? {
      return Refused(RefusalStatus(items.error), items.error);
    }
    ghost var exp;
    var created, errors;
    created, errors, exp := CreateAll(db, user, items.value, now);
    EveryKnownEntryReported(items.value, exp, errors);
    reply := Done(created, errors, BulkMessage(created));
  }

  /** The reply's message, `'Created N products'`. */
  function BulkMessage(created: seq<Product>): string {
    "Created " + IntText(|created|) + " products"
  }
}

=== FILE: product_service.dfy ===
/** The product store (backend/app/core/products/product_service.py): the
    products table of the `Database`, whose `sku` column is unique.
    A `ValueError` raised by the service, and any other exception on the
    way, is `Err` with its message; a failed operation commits nothing. */
module ProductService {
  import opened Wrappers
  import opened Json
  import opened Strings
  import opened Builtins
  import opened Models
  import opened ProductValidators

  /** The `unique=True` constraint on `Product.sku`: no two products carry
      the same SKU (any number may have none). */
  ghost predicate SkusUnique(products: map<int, Product>) {
    forall a, b :: a in products && b in products && a != b && products[a].sku.Some? ==>
      products[a].sku != products[b].sku
  }

  /** `Product.query.filter_by(sku=sku).first()` finds a row. */
  predicate SkuTaken(products: map<int, Product>, sku: string) {
    exists k :: k in products && products[k].sku == Some(sku)
  }

  /** The `ValueError` messages of the service. */
  const InvalidPriceFormat := "Invalid price format"
  const ProductNotFound := "Product not found"
  const UnauthorizedProduct := "Unauthorized access to product"

  /** The message of the database's unique constraint when a commit would
      store a SKU twice: PostgreSQL's report on `products_sku_key`, the
      constraint `unique=True` creates. */
  const SkuConstraintViolated := "duplicate key value violates unique constraint \"products_sku_key\""

  /** The message of every later query or commit once a commit has
      failed in a session that nothing rolls back. */
  const SessionInactive := "This Session's transaction has been rolled back due to a previous exception during flush. To begin a new transaction with this Session, first issue Session.rollback()."

  /** `float(price)` refusing negatives; both failures surface as
      `Invalid price format`, since the inner error is caught too. */
  function ParsePrice(v: Json): (r: Result<real>)
    ensures r.Ok? <==> ToFloat(v).Some? && ToFloat(v).value >= 0.0
    ensures r.Ok? ==> r.value == ToFloat(v).value
    ensures r.Err? ==> r.error == InvalidPriceFormat
  {
    match ToFloat(v)
    case None => Err(InvalidPriceFormat)
    case Some(p) => if p < 0.0 then Err(InvalidPriceFormat) else Ok(p)
  }

  /** `v.strip() if v else None` for an optional text column. */
  function OptionalText(v: Json): (r: Result<Option<string>>)
    ensures !Truthy(v) ==> r == Ok(None)
    ensures Truthy(v) && v.JStr? ==> r == Ok(Some(Strip(v.s)))
    ensures Truthy(v) && !v.JStr? ==> r == Err(NoAttribute(v, "strip"))
  {
    if !Truthy(v) then Ok(None)
    else match StripValue(v)
      case Err(e) => Err(e)
      case Ok(t) => Ok(Some(t))
  }

  /** The row `create_product` builds for user `userId` as product `id`
      at time `now`, or the error it raises first. The duplicate check
      looks up the SKU as given; the row stores it stripped. A SKU that is
      not a string matches no row. */
  function NewProduct(products: map<int, Product>, id: int, userId: int, now: int, data: Config): (r: Result<Product>)
    ensures !Truthy(Get(data, "name", JNull)) ==> r == Err(NameRequired)
    ensures Truthy(Get(data, "name", JNull)) && !Truthy(Get(data, "price", JNull)) ==>
              r == Err(PriceRequired)
    ensures (Truthy(Get(data, "name", JNull)) && Truthy(Get(data, "price", JNull))
             && ParsePrice(data["price"]).Err?) ==> r == Err(InvalidPriceFormat)
    ensures r.Ok? ==> r.value.id == id && r.value.userId == userId && r.value.createdAt == now
    ensures r.Ok? ==> "name" in data && data["name"].JStr? && r.value.name == Strip(data["name"].s)
    ensures r.Ok? ==> "price" in data && ParsePrice(data["price"]) == Ok(r.value.price)
    ensures r.Ok? ==> OptionalText(Get(data, "category", JNull)) == Ok(r.value.category)
    ensures r.Ok? ==> OptionalText(Get(data, "sku", JNull)) == Ok(r.value.sku)
    ensures r.Ok? ==> OptionalText(Get(data, "description", JNull)) == Ok(r.value.description)
    ensures r.Ok? ==> r.value.imageUrl == Get(data, "image_url", JNull)
    // the duplicate check compares the SKU as given
    ensures r.Ok? && r.value.sku.Some? ==> !SkuTaken(products, data["sku"].s)
  {
    var name := Get(data, "name", JNull);
    var sku := Get(data, "sku", JNull);
    if !Truthy(name) then Err(NameRequired)
    else if !Truthy(Get(data, "price", JNull)) then Err(PriceRequired)
    else match ParsePrice(data["price"])
      case Err(e) => Err(e)
      case Ok(price) =>
        if Truthy(sku) && sku.JStr? && SkuTaken(products, sku.s) then
          Err("Product with SKU " + sku.s + " already exists")
        else match StripValue(name)
          case Err(e) => Err(e)
          case Ok(stripped) =>
            match OptionalText(Get(data, "category", JNull))
            case Err(e) => Err(e)
            case Ok(category) =>
              match OptionalText(sku)
              case Err(e) => Err(e)
              case Ok(storedSku) =>
                match OptionalText(Get(data, "description", JNull))
                case Err(e) => Err(e)
                case Ok(description) =>
                  Ok(Product(id, userId, stripped, price, category, Get(data, "image_url", JNull),
                             storedSku, description, now))
  }

  /** Whether the products table takes the row `p` (product.py:11-17):
      each text within its `String(n)` column (`name` 200, `category` 100,
      `image_url` 500, `sku` 100) and an image URL the driver can send. */
  predicate Storable(p: Product) {
    TextFits(p.name, 200) && OptionFits(p.category, 100) && JsonFits(p.imageUrl, 500)
    && OptionFits(p.sku, 100)
  }

  /** The error the INSERT of row `p` raises, if any: the driver refuses an
      image URL it cannot send before the statement leaves; the database
      then checks the text columns in table order, and the unique SKU
      last. */
  function InsertError(products: map<int, Product>, p: Product): (e: Option<string>)
    ensures e.None? <==> Storable(p) && (p.sku.Some? ==> !SkuTaken(products, p.sku.value))
    ensures p.imageUrl.JObj? ==> e == Some(CannotAdapt(p.imageUrl))
    ensures !Storable(p) && !p.imageUrl.JObj? ==> e == Some(TooLong(200)) || e == Some(TooLong(100)) || e == Some(TooLong(500))
    ensures Storable(p) && e.Some? ==> e.value == SkuConstraintViolated
  {
    if p.imageUrl.JObj? then Some(CannotAdapt(p.imageUrl))
    else if !TextFits(p.name, 200) then Some(TooLong(200))
    else if !OptionFits(p.category, 100) then Some(TooLong(100))
    else if LengthError(p.imageUrl, 500).Some? then LengthError(p.imageUrl, 500)
    else if !OptionFits(p.sku, 100) then Some(TooLong(100))
    else if p.sku.Some? && SkuTaken(products, p.sku.value) then Some(SkuConstraintViolated)
    else None
  }

  /** The commit of a new row: refused when a column does not take it or
      its SKU is already stored. */
  function Committed(products: map<int, Product>, made: Result<Product>): (r: Result<Product>)
    ensures made.Err? ==> r == made
    ensures made.Ok? ==> (r.Ok? <==> Storable(made.value)
                                     && (made.value.sku.None? || !SkuTaken(products, made.value.sku.value)))
    ensures r.Ok? ==> r == made
    ensures r.Err? && made.Ok? && Storable(made.value) ==> r.error == SkuConstraintViolated
    ensures made.Ok? && made.value.imageUrl.JObj? ==> r == Err(CannotAdapt(made.value.imageUrl))
  {
    if made.Err? then made
    else match InsertError(products, made.value)
      case Some(e) => Err(e)
      case None => made
  }

  /** Adding a row whose SKU is new keeps the SKUs unique. */
  lemma InsertKeepsSkusUnique(products: map<int, Product>, p: Product)
    requires SkusUnique(products) && p.id !in products
    requires p.sku.Some? ==> !SkuTaken(products, p.sku.value)
    ensures SkusUnique(products[p.id := p])
  {
    var m := products[p.id := p];
    forall a, b | a in m && b in m && a != b && m[a].sku.Some? ensures m[a].sku != m[b].sku {
      if a == p.id {
        assert b in products && m[b] == products[b];
      } else if b == p.id {
        assert a in products && m[a] == products[a];
      }
    }
  }

  /** The service's duplicate check looks at the SKU as given and not as
      stored: a padded copy of a stored SKU (" A1" when "A1" is stored)
      passes it, and the commit refuses the row instead with the
      database's own error. */
  lemma PaddedSkuReachesCommit(products: map<int, Product>, id: int, userId: int, now: int,
                               name: string, price: int, sku: string)
    requires name != "" && price > 0 && sku != "" && |name| <= 200 && |sku| <= 100
    requires SkuTaken(products, Strip(sku)) && !SkuTaken(products, sku)
    ensures var data := map["name" := JStr(name), "price" := JInt(price), "sku" := JStr(sku)];
            NewProduct(products, id, userId, now, data).Ok?
            && Committed(products, NewProduct(products, id, userId, now, data)) == Err(SkuConstraintViolated)
  {
    var data := map["name" := JStr(name), "price" := JInt(price), "sku" := JStr(sku)];
    assert data.Keys == {"name", "price", "sku"};
    assert "category" !in data && "description" !in data && "image_url" !in data;
    assert Get(data, "name", JNull) == JStr(name) && Get(data, "price", JNull) == JInt(price);
    assert Get(data, "sku", JNull) == JStr(sku) && Get(data, "category", JNull) == JNull;
    assert Get(data, "description", JNull) == JNull && Get(data, "image_url", JNull) == JNull;
    NewProductOfPlainData(products, id, userId, now, data, name, price, sku);
    assert Storable(NewProduct(products, id, userId, now, data).value);
  }

  /** The row made from a name, a positive integer price and a SKU not
      stored as given, with nothing else set. */
  lemma NewProductOfPlainData(products: map<int, Product>, id: int, userId: int, now: int, data: Config,
                              name: string, price: int, sku: string)
    requires name != "" && price > 0 && sku != "" && !SkuTaken(products, sku)
    requires Get(data, "name", JNull) == JStr(name) && Get(data, "price", JNull) == JInt(price)
    requires Get(data, "sku", JNull) == JStr(sku) && Get(data, "category", JNull) == JNull
    requires Get(data, "description", JNull) == JNull && Get(data, "image_url", JNull) == JNull
    ensures NewProduct(products, id, userId, now, data)
            == Ok(Product(id, userId, Strip(name), price as real, None, JNull, Some(Strip(sku)), None, now))
  {
  }

  /** Data the validator accepts, with text fields given as text and a
      SKU the service has not seen, makes a product: the validator's rules
      are at least as strict as the service's. */
  lemma ValidatedDataCreates(products: map<int, Product>, id: int, userId: int, now: int, data: Config)
    requires CreateAcceptable(data)
    requires StrOrFalsy(Get(data, "category", JNull)) && StrOrFalsy(Get(data, "sku", JNull))
    requires StrOrFalsy(Get(data, "description", JNull))
    requires Truthy(Get(data, "sku", JNull)) ==> !SkuTaken(products, data["sku"].s)
    ensures NewProduct(products, id, userId, now, data).Ok?
  {
    assert |data["name"].s| >= 2;
  }

  /** A row built from data the validator accepts fits the table when its
      image URL does: the validator's bounds on the name, category and SKU
      are those of their columns. */
  lemma ValidatedRowStorable(products: map<int, Product>, id: int, userId: int, now: int, data: Config)
    requires CreateAcceptable(data)
    requires StrOrFalsy(Get(data, "category", JNull)) && StrOrFalsy(Get(data, "sku", JNull))
    requires JsonFits(Get(data, "image_url", JNull), 500)
    requires NewProduct(products, id, userId, now, data).Ok?
    ensures Storable(NewProduct(products, id, userId, now, data).value)
  {
    var p := NewProduct(products, id, userId, now, data).value;
    var category, sku := Get(data, "category", JNull), Get(data, "sku", JNull);
    if p.category.Some? {
      assert p.category.value == Strip(category.s) && Len(category) == Ok(|category.s|);
    }
    if p.sku.Some? {
      assert p.sku.value == Strip(sku.s) && Len(sku) == Ok(|sku.s|);
    }
  }

  /** `get_product`: the row, if it exists and belongs to the user. */
  function GetProduct(products: map<int, Product>, id: int, userId: int): (r: Result<Product>)
    ensures id !in products ==> r == Err(ProductNotFound)
    ensures id in products && products[id].userId != userId ==> r == Err(UnauthorizedProduct)
    ensures r.Ok? <==> id in products && products[id].userId == userId
    ensures r.Ok? ==> r.value == products[id]
  {
    if id !in products then Err(ProductNotFound)
    else if products[id].userId != userId then Err(UnauthorizedProduct)
    else Ok(products[id])
  }

  /** The checks `create_product` makes before it first touches the
      database: a name, a price, and a price that reads as a number. */
  predicate PriceChecked(data: Config) {
    Truthy(Get(data, "name", JNull)) && Truthy(Get(data, "price", JNull)) && ParsePrice(data["price"]).Ok?
  }

  /** The row passes every check and only the commit refuses it, which
      leaves the session inactive. */
  predicate CommitFails(products: map<int, Product>, id: int, userId: int, now: int, data: Config) {
    var made := NewProduct(products, id, userId, now, data);
    made.Ok? && Committed(products, made).Err?
  }

  /** `create_product` in a session that a failed commit has left inactive
      (nothing calls `rollback`): the checks made before the first query
      raise as before; past them the session raises on its first use,
      the SKU query when a SKU is given and otherwise the read of the
      user's id, which the failed commit expired, for the new row. No row
      is ever stored. */
  function CreateInInactiveSession(products: map<int, Product>, id: int, userId: int, now: int, data: Config): (r: Result<Product>)
    ensures r.Err?
    ensures !PriceChecked(data) ==> r == NewProduct(products, id, userId, now, data)
    ensures !PriceChecked(data) ==> r.error in {NameRequired, PriceRequired, InvalidPriceFormat}
    ensures PriceChecked(data) ==> r == Err(SessionInactive)
  {
    if !PriceChecked(data) then NewProduct(products, id, userId, now, data)
    else Err(SessionInactive)
  }

  /** What `create_product` answers as product `id`, in a live session or
      an inactive one. */
  function Created(products: map<int, Product>, id: int, userId: int, now: int, data: Config, inactive: bool): Result<Product> {
    if inactive then CreateInInactiveSession(products, id, userId, now, data)
    else Committed(products, NewProduct(products, id, userId, now, data))
  }

  /** `create_product`: the new row is stored under a fresh id. `inactive`
      says whether an earlier commit in the same session failed; the
      answer says whether the session is inactive afterwards. */
  method CreateProduct(db: Database, user: User, data: Config, now: int, inactive: bool)
    returns (r: Result<Product>, inactiveAfter: bool)
    requires db.Valid() && SkusUnique(db.products)
    modifies db
    ensures db.Valid() && SkusUnique(db.products)
    ensures r == Created(old(db.products), old(db.nextId), user.id, now, data, inactive)
    ensures inactiveAfter <==> inactive || CommitFails(old(db.products), old(db.nextId), user.id, now, data)
    ensures r.Ok? ==> !inactive && r.value.id == old(db.nextId) && r.value.id !in old(db.products)
                      && db.products == old(db.products)[r.value.id := r.value] && db.nextId == old(db.nextId) + 1
    ensures r.Err? ==> db.products == old(db.products) && db.nextId == old(db.nextId)
    ensures db.users == old(db.users) && db.plans == old(db.plans) && db.templates == old(db.templates)
    ensures db.posters == old(db.posters) && db.campaigns == old(db.campaigns) && db.resets == old(db.resets)
  {
    inactiveAfter := inactive;
    if inactive {
      return CreateInInactiveSession(db.products, db.nextId, user.id, now, data), true;
    }
    var built := NewProduct(db.products, db.nextId, user.id, now, data);
    var made := Committed(db.products, built);
    if made.Err? {
      return made, built.Ok?;
    }
    var id := db.NewId();
    InsertKeepsSkusUnique(db.products, made.value);
    db.products := db.products[id := made.value];
    r := made;
  }

  /** The row `update_product` builds, writing the fields in the order it
      writes them, or the error it raises before the commit. */
  function Edited(products: map<int, Product>, id: int, userId: int, data: Config): (r: Result<Product>)
    ensures GetProduct(products, id, userId).Err? ==> r == GetProduct(products, id, userId)
    ensures r.Ok? ==> id in products && products[id].userId == userId
    ensures r.Ok? ==> r.value.id == products[id].id && r.value.userId == products[id].userId
                      && r.value.createdAt == products[id].createdAt
    // a SKU that changes is one no row has
    ensures r.Ok? && r.value.sku != products[id].sku ==> r.value.sku.Some? && !SkuTaken(products, r.value.sku.value)
    // it succeeds exactly when the lookup does and each present value is
    // acceptable
    ensures r.Ok? <==> GetProduct(products, id, userId).Ok?
                       && ("name" in data && Truthy(data["name"]) ==> data["name"].JStr?)
                       && ("price" in data ==> ParsePrice(data["price"]).Ok?)
                       && ("category" in data ==> OptionalText(data["category"]).Ok?)
                       && SkuUpdate(products, products[id].sku, data).Ok?
                       && ("description" in data ==> OptionalText(data["description"]).Ok?)
    // what a present key sets; the name changes only for a truthy one
    ensures r.Ok? ==> ("name" in data && Truthy(data["name"]) ==> r.value.name == Strip(data["name"].s))
                      && (("name" !in data || !Truthy(data["name"])) ==> r.value.name == products[id].name)
                      && ("price" in data ==> r.value.price == ToFloat(data["price"]).value)
                      && ("category" in data ==> r.value.category == OptionalText(data["category"]).value)
                      && r.value.sku == SkuUpdate(products, products[id].sku, data).value
                      && ("description" in data ==> r.value.description == OptionalText(data["description"]).value)
                      && ("image_url" in data ==> r.value.imageUrl == data["image_url"])
    // a bad price, once the name has passed, is reported as such
    ensures (GetProduct(products, id, userId).Ok? && ("name" in data && Truthy(data["name"]) ==> data["name"].JStr?)
             && "price" in data && ParsePrice(data["price"]).Err?) ==> r == Err(InvalidPriceFormat)
  {
    match GetProduct(products, id, userId)
    case Err(e) => Err(e)
    case Ok(p) =>
      var name := if "name" in data && Truthy(data["name"]) then StripValue(data["name"]) else Ok(p.name);
      if name.Err? then Err(name.error) else
      var price := if "price" in data then ParsePrice(data["price"]) else Ok(p.price);
      if price.Err? then Err(price.error) else
      var category := if "category" in data then OptionalText(data["category"]) else Ok(p.category);
      if category.Err? then Err(category.error) else
      var sku := SkuUpdate(products, p.sku, data);
      if sku.Err? then Err(sku.error) else
      var description := if "description" in data then OptionalText(data["description"]) else Ok(p.description);
      if description.Err? then Err(description.error) else
      var image := if "image_url" in data then data["image_url"] else p.imageUrl;
      Ok(p.(name := name.value, price := price.value, category := category.value, sku := sku.value,
            description := description.value, imageUrl := image))
  }

  /** Whether the UPDATE of row `p` to `q` goes through: it sends only the
      columns that changed, and each of those must fit (product.py:11-17). */
  predicate ChangeFits(p: Product, q: Product) {
    (q.name != p.name ==> TextFits(q.name, 200))
    && (q.category != p.category ==> OptionFits(q.category, 100))
    && (q.imageUrl != p.imageUrl ==> JsonFits(q.imageUrl, 500))
    && (q.sku != p.sku ==> OptionFits(q.sku, 100))
  }

  /** The error the UPDATE of row `p` to `q` raises, if any, in the order of
      `InsertError`. */
  function ChangeError(p: Product, q: Product): (e: Option<string>)
    ensures e.None? <==> ChangeFits(p, q)
    ensures q.imageUrl != p.imageUrl && q.imageUrl.JObj? ==> e == Some(CannotAdapt(q.imageUrl))
    ensures e.Some? && !(q.imageUrl != p.imageUrl && q.imageUrl.JObj?) ==>
              e == Some(TooLong(200)) || e == Some(TooLong(100)) || e == Some(TooLong(500))
  {
    if q.imageUrl != p.imageUrl && q.imageUrl.JObj? then Some(CannotAdapt(q.imageUrl))
    else if q.name != p.name && !TextFits(q.name, 200) then Some(TooLong(200))
    else if q.category != p.category && !OptionFits(q.category, 100) then Some(TooLong(100))
    else if q.imageUrl != p.imageUrl && LengthError(q.imageUrl, 500).Some? then LengthError(q.imageUrl, 500)
    else if q.sku != p.sku && !OptionFits(q.sku, 100) then Some(TooLong(100))
    else None
  }

  /** `update_product`'s answer: the edited row once committed. */
  function Updated(products: map<int, Product>, id: int, userId: int, data: Config): (r: Result<Product>)
    ensures Edited(products, id, userId, data).Err? ==> r == Edited(products, id, userId, data)
    ensures Edited(products, id, userId, data).Ok? ==>
              (r.Ok? <==> ChangeFits(products[id], Edited(products, id, userId, data).value))
    ensures r.Ok? ==> r == Edited(products, id, userId, data)
    ensures r.Err? && Edited(products, id, userId, data).Ok? ==>
              r.error == ChangeError(products[id], Edited(products, id, userId, data).value).value
  {
    match Edited(products, id, userId, data)
    case Err(e) => Err(e)
    case Ok(q) =>
      match ChangeError(products[id], q)
      case Some(e) => Err(e)
      case None => Ok(q)
  }

  /** An update the validator accepts, with text given as text and an image
      URL that fits, commits whenever the service's own checks pass: the
      validator's bounds are those of the columns. */
  lemma ValidatedUpdateCommits(products: map<int, Product>, id: int, userId: int, data: Config)
    requires UpdateAcceptable(data) && Edited(products, id, userId, data).Ok?
    requires StrOrFalsy(Get(data, "category", JNull)) && StrOrFalsy(Get(data, "sku", JNull))
    requires JsonFits(Get(data, "image_url", JNull), 500)
    ensures Updated(products, id, userId, data) == Edited(products, id, userId, data)
  {
    var p, q := products[id], Edited(products, id, userId, data).value;
    var category, sku := Get(data, "category", JNull), Get(data, "sku", JNull);
    if q.name != p.name {
      assert q.name == Strip(data["name"].s);
    }
    if q.category != p.category && q.category.Some? {
      assert "category" in data && category == data["category"];
      assert q.category.value == Strip(category.s) && Len(category) == Ok(|category.s|);
    }
    if q.sku != p.sku {
      assert "sku" in data && sku == data["sku"];
      assert q.sku.value == Strip(sku.s) && Len(sku) == Ok(|sku.s|);
    }
    if q.imageUrl != p.imageUrl {
      assert "image_url" in data && q.imageUrl == Get(data, "image_url", JNull);
    }
    assert ChangeFits(p, q);
  }

  /** The SKU after an update: a non-empty stripped SKU different from the
      current one replaces it unless another row has it; an empty one
      leaves the current SKU in place. */
  function SkuUpdate(products: map<int, Product>, current: Option<string>, data: Config): (r: Result<Option<string>>)
    ensures "sku" !in data ==> r == Ok(current)
    ensures r.Ok? && r.value != current ==>
              "sku" in data && data["sku"].JStr? && r.value == Some(Strip(data["sku"].s))
              && Strip(data["sku"].s) != "" && !SkuTaken(products, Strip(data["sku"].s))
  {
    if "sku" !in data then Ok(current)
    else match OptionalText(data["sku"])
      case Err(e) => Err(e)
      case Ok(newSku) =>
        if newSku.Some? && newSku.value != "" && newSku != current then
          if SkuTaken(products, newSku.value) then Err("Product with SKU " + newSku.value + " already exists")
          else Ok(newSku)
        else Ok(current)
  }

  /** An update leaves every field whose key the data lacks as it was. */
  lemma UpdateKeepsAbsentFields(products: map<int, Product>, id: int, userId: int, data: Config)
    requires Updated(products, id, userId, data).Ok?
    ensures var p, q := products[id], Updated(products, id, userId, data).value;
            ("name" !in data ==> q.name == p.name) && ("price" !in data ==> q.price == p.price)
            && ("category" !in data ==> q.category == p.category) && ("sku" !in data ==> q.sku == p.sku)
            && ("description" !in data ==> q.description == p.description)
            && ("image_url" !in data ==> q.imageUrl == p.imageUrl)
  {
  }

  /** An empty or blank SKU, or a falsy name, never clears the stored
      value. */
  lemma BlankValuesKeepNameAndSku(products: map<int, Product>, id: int, userId: int, data: Config)
    requires Updated(products, id, userId, data).Ok?
    requires "name" in data ==> !Truthy(data["name"])
    requires "sku" in data ==> data["sku"].JStr? && Strip(data["sku"].s) == ""
    ensures Updated(products, id, userId, data).value.name == products[id].name
    ensures Updated(products, id, userId, data).value.sku == products[id].sku
  {
  }

  /** Replacing a row by one whose SKU is unchanged or unused elsewhere
      keeps the SKUs unique. */
  lemma ReplaceKeepsSkusUnique(products: map<int, Product>, id: int, p: Product)
    requires SkusUnique(products) && id in products
    requires p.sku == products[id].sku || p.sku.None? || !SkuTaken(products, p.sku.value)
    ensures SkusUnique(products[id := p])
  {
    var m := products[id := p];
    forall a, b | a in m && b in m && a != b && m[a].sku.Some? ensures m[a].sku != m[b].sku {
      if a == id {
        assert b in products && m[b] == products[b];
      } else if b == id {
        assert a in products && m[a] == products[a];
      }
    }
  }

  /** `update_product`: the owner's row takes the new values. */
  method UpdateProduct(db: Database, id: int, user: User, data: Config) returns (r: Result<Product>)
    requires SkusUnique(db.products)
    modifies db
    ensures SkusUnique(db.products)
    ensures r == Updated(old(db.products), id, user.id, data)
    ensures r.Ok? ==> db.products == old(db.products)[id := r.value]
    ensures r.Err? ==> db.products == old(db.products)
    ensures db.nextId == old(db.nextId) && db.users == old(db.users) && db.plans == old(db.plans)
    ensures db.templates == old(db.templates) && db.posters == old(db.posters)
    ensures db.campaigns == old(db.campaigns) && db.resets == old(db.resets)
  {
    r := Updated(db.products, id, user.id, data);
    if r.Ok? {
      ReplaceKeepsSkusUnique(db.products, id, r.value);
      db.products := db.products[id := r.value];
    }
  }

  /** `delete_product`: the owner's row goes, and with it the posters made
      from it (the relationship cascades deletes). */
  method DeleteProduct(db: Database, id: int, user: User) returns (r: Result<()>)
    requires db.Valid()
    modifies db
    ensures db.Valid()
    ensures r.Ok? <==> GetProduct(old(db.products), id, user.id).Ok?
    ensures r.Err? ==> r.error == GetProduct(old(db.products), id, user.id).error
    ensures r.Ok? ==> db.products == old(db.products) - {id}
    ensures r.Ok? ==> db.posters == map k | k in old(db.posters) && old(db.posters)[k].productId != id :: old(db.posters)[k]
    ensures r.Err? ==> db.products == old(db.products) && db.posters == old(db.posters)
    ensures db.nextId == old(db.nextId) && db.users == old(db.users) && db.plans == old(db.plans)
    ensures db.templates == old(db.templates) && db.campaigns == old(db.campaigns) && db.resets == old(db.resets)
  {
    var found := GetProduct(db.products, id, user.id);
    if found.Err? {
      return Err(found.error);
    }
    db.products := db.products - {id};
    db.posters := map k | k in db.posters && db.posters[k].productId != id :: db.posters[k];
    r := Ok(());
  }

  /** `get_categories`: the distinct non-empty categories of the user's
      own products. */
  function Categories(products: map<int, Product>, userId: int): (cs: set<string>)
    ensures forall c :: c in cs <==>
              c != "" && exists k :: k in products && products[k].userId == userId && products[k].category == Some(c)
  {
    set k | k in products && products[k].userId == userId && products[k].category.Some?
                          && products[k].category.value != "" :: products[k].category.value
  }

  /** Another user's products never contribute a category. */
  lemma CategoriesIgnoreOthers(products: map<int, Product>, userId: int, p: Product)
    requires p.userId != userId && p.id !in products
    ensures Categories(products[p.id := p], userId) == Categories(products, userId)
  {
    var m := products[p.id := p];
    forall c | c in Categories(m, userId) ensures c in Categories(products, userId) {
      var k :| k in m && m[k].userId == userId && m[k].category == Some(c);
      assert k != p.id && k in products;
    }
    forall c | c in Categories(products, userId) ensures c in Categories(m, userId) {
      var k :| k in products && products[k].userId == userId && products[k].category == Some(c);
      assert k in m && m[k] == products[k];
    }
  }

  /** `update_product_image`: only the image URL of the owner's row
      changes, when the column takes the new URL. */
  method UpdateProductImage(db: Database, id: int, user: User, url: string) returns (r: Result<Product>)
    requires SkusUnique(db.products)
    modifies db
    ensures SkusUnique(db.products)
    ensures r.Ok? <==> GetProduct(old(db.products), id, user.id).Ok?
                       && (JStr(url) != old(db.products)[id].imageUrl ==> TextFits(url, 500))
    ensures GetProduct(old(db.products), id, user.id).Err? ==> r == GetProduct(old(db.products), id, user.id)
    ensures GetProduct(old(db.products), id, user.id).Ok? && r.Err? ==> r == Err(TooLong(500))
    ensures r.Err? ==> db.products == old(db.products)
    ensures r.Ok? ==> r.value == old(db.products)[id].(imageUrl := JStr(url))
                      && db.products == old(db.products)[id := r.value]
    ensures db.nextId == old(db.nextId) && db.users == old(db.users) && db.plans == old(db.plans)
    ensures db.templates == old(db.templates) && db.posters == old(db.posters)
    ensures db.campaigns == old(db.campaigns) && db.resets == old(db.resets)
  {
    r := GetProduct(db.products, id, user.id);
    if r.Ok? {
      var p := r.value.(imageUrl := JStr(url));
      var refused := ChangeError(r.value, p);
      if refused.Some? {
        return Err(refused.value);
      }
      ReplaceKeepsSkusUnique(db.products, id, p);
      db.products := db.products[id := p];
      r := Ok(p);
    }
  }
}

=== FILE: product_validators.dfy ===
/** Request checks for products (backend/app/core/products/validators.py):
    each validator collects error messages field by field, in the order
    name, price, category, sku, description, and the data is valid when
    none was collected. A value of the wrong type can make `strip` or
    `len` raise; that exception escapes the validator (`Err`). */
module ProductValidators {
  import opened Wrappers
  import opened Json
  import opened Strings
  import opened Builtins

  const MaxPrice: real := 1000000000.0

  /** The messages the validators collect. */
  const NameRequired := "Product name is required"
  const NameEmpty := "Product name cannot be empty"
  const NameTooShort := "Product name must be at least 2 characters"
  const NameTooLong := "Product name must be less than 200 characters"
  const PriceRequired := "Product price is required"
  const PriceNotNumber := "Price must be a valid number"
  const PriceNegative := "Price must be a positive number"
  const PriceTooLarge := "Price is too large"
  const CategoryTooLong := "Category must be less than 100 characters"
  const SkuTooLong := "SKU must be less than 100 characters"
  const DescriptionTooLong := "Description must be less than 5000 characters"

  /** The errors collected so far followed by those of the next check;
      the first exception raised wins. */
  function Then(acc: Result<seq<string>>, next: Result<seq<string>>): (r: Result<seq<string>>)
    ensures r.Ok? <==> acc.Ok? && next.Ok?
    ensures r.Ok? ==> r.value == acc.value + next.value
  {
    if acc.Err? then acc else if next.Err? then next else Ok(acc.value + next.value)
  }

  /** Nothing collected yet: the next check's outcome is the whole
      outcome. */
  lemma ThenFromEmpty(next: Result<seq<string>>)
    ensures Then(Ok([]), next) == next
  {
    if next.Ok? {
      assert [] + next.value == next.value;
    }
  }

  /** Name rules once a truthy name is present: its stripped length must
      lie in [2, 200]. */
  function NameLength(name: Json): (r: Result<seq<string>>)
    ensures r.Ok? <==> name.JStr?
    ensures r.Ok? ==> |r.value| <= 1
    ensures r.Ok? ==> (r.value == [] <==> 2 <= |Strip(name.s)| <= 200)
  {
    match StripValue(name)
    case Err(e) => Err(e)
    case Ok(t) =>
      if |t| < 2 then Ok([NameTooShort])
      else if |t| > 200 then Ok([NameTooLong])
      else Ok([])
  }

  /** Price rules once a price is present: `float(price)` must succeed and
      lie in [0, 1e9]. */
  function PriceRange(price: Json): (r: seq<string>)
    ensures |r| <= 1
    ensures r == [] <==> ToFloat(price).Some? && 0.0 <= ToFloat(price).value <= MaxPrice
  {
    match ToFloat(price)
    case None => [PriceNotNumber]
    case Some(p) =>
      (if p < 0.0 then [PriceNegative] else [])
      + (if p > MaxPrice then [PriceTooLarge] else [])
  }

  /** `if v and len(v) > limit`: an optional field's length bound. */
  function LengthBound(v: Json, limit: nat, message: string): (r: Result<seq<string>>)
    ensures !Truthy(v) ==> r == Ok([])
    ensures r.Ok? ==> |r.value| <= 1
    ensures Truthy(v) && Len(v).Ok? ==> r == Ok(if Len(v).value > limit then [message] else [])
    ensures Truthy(v) && Len(v).Err? ==> r == Err(Len(v).error)
  {
    if !Truthy(v) then Ok([])
    else match Len(v)
      case Err(e) => Err(e)
      case Ok(n) => Ok(if n > limit then [message] else [])
  }

  /** The category, sku and description bounds, checked after `acc`. */
  function OptionalFields(acc: Result<seq<string>>, data: Config): Result<seq<string>> {
    var withCategory := Then(acc, LengthBound(Get(data, "category", JNull), 100, CategoryTooLong));
    var withSku := Then(withCategory, LengthBound(Get(data, "sku", JNull), 100, SkuTooLong));
    Then(withSku, LengthBound(Get(data, "description", JNull), 5000, DescriptionTooLong))
  }

  /** An exception raised before the optional fields escapes them. */
  lemma OptionalFieldsRaise(e: string, data: Config)
    ensures OptionalFields(Err(e), data) == Err(e)
  {
  }

  /** The name errors of `validate_create`. */
  function CreateNameErrors(name: Json): (r: Result<seq<string>>)
    ensures r.Ok? ==> |r.value| <= 1
  {
    if !Truthy(name) then Ok([NameRequired]) else NameLength(name)
  }

  /** The price errors of `validate_create`: a falsy price, 0 included,
      is missing. */
  function CreatePriceErrors(price: Json): (r: seq<string>)
    ensures |r| <= 1
  {
    if !Truthy(price) then [PriceRequired] else PriceRange(price)
  }

  /** The errors `validate_create` collects. */
  function CreateErrors(data: Config): Result<seq<string>> {
    OptionalFields(Then(CreateNameErrors(Get(data, "name", JNull)),
                        Ok(CreatePriceErrors(Get(data, "price", JNull)))), data)
  }

  /** The name errors of `validate_update`: checked only when the key is
      present; a present but falsy name cannot be empty. */
  function UpdateNameErrors(data: Config): (r: Result<seq<string>>)
    ensures r.Ok? ==> |r.value| <= 1
  {
    if "name" !in data then Ok([])
    else if !Truthy(data["name"]) then Ok([NameEmpty])
    else NameLength(data["name"])
  }

  /** The price errors of `validate_update`: a present price is parsed
      even when it is 0. */
  function UpdatePriceErrors(data: Config): (r: seq<string>)
    ensures |r| <= 1
  {
    if "price" in data then PriceRange(data["price"]) else []
  }

  /** The errors `validate_update` collects. */
  function UpdateErrors(data: Config): Result<seq<string>> {
    OptionalFields(Then(UpdateNameErrors(data), Ok(UpdatePriceErrors(data))), data)
  }

  /** Appends `message` when an optional field is longer than `limit`. */
  method CheckLength(errors: seq<string>, v: Json, limit: nat, message: string) returns (r: Result<seq<string>>)
    ensures r == Then(Ok(errors), LengthBound(v, limit, message))
  {
    assert errors + [] == errors;
    r := Ok(errors);
    if Truthy(v) {
      var n := Len(v);
      if n.Err? {
        return Err(n.error);
      }
      if n.value > limit {
        r := Ok(errors + [message]);
      }
    }
  }

  /** The name checks: `missing` when the name is falsy, otherwise its
      stripped length; a name that is not a string raises on `strip`. */
  method CheckName(errors: seq<string>, name: Json, missing: string) returns (r: Result<seq<string>>)
    ensures r == Then(Ok(errors), if !Truthy(name) then Ok([missing]) else NameLength(name))
  {
    if !Truthy(name) {
      return Ok(errors + [missing]);
    }
    if !name.JStr? {
      return Err(NoAttribute(name, "strip"));
    }
    var stripped := Strip(name.s);
    if |stripped| < 2 {
      r := Ok(errors + [NameTooShort]);
    } else if |stripped| > 200 {
      r := Ok(errors + [NameTooLong]);
    } else {
      assert errors + [] == errors;
      r := Ok(errors);
    }
  }

  /** `validate_create(data)`: `(is_valid, errors)`. */
  method ValidateCreate(data: Config) returns (r: Result<(bool, seq<string>)>)
    ensures r.Ok? <==> CreateErrors(data).Ok?
    ensures r.Err? ==> r.error == CreateErrors(data).error
    ensures r.Ok? ==> r.value.1 == CreateErrors(data).value
    ensures r.Ok? ==> (r.value.0 <==> r.value.1 == [])
  {
    var named := CheckName([], Get(data, "name", JNull), NameRequired);
    ThenFromEmpty(CreateNameErrors(Get(data, "name", JNull)));
    if named.Err? {
      OptionalFieldsRaise(named.error, data);
      return Err(named.error);
    }
    var price := Get(data, "price", JNull);
    var errors := named.value + (if !Truthy(price) then [PriceRequired] else PriceRange(price));
    assert Then(named, Ok(CreatePriceErrors(price))) == Ok(errors);
    r := FinishOptional(data, errors);
  }

  /** `validate_update(data)`: only the fields present are checked, except
      that the optional fields are checked as in `validate_create`. */
  method ValidateUpdate(data: Config) returns (r: Result<(bool, seq<string>)>)
    ensures r.Ok? <==> UpdateErrors(data).Ok?
    ensures r.Err? ==> r.error == UpdateErrors(data).error
    ensures r.Ok? ==> r.value.1 == UpdateErrors(data).value
    ensures r.Ok? ==> (r.value.0 <==> r.value.1 == [])
  {
    var errors: seq<string> := [];
    if "name" in data {
      var named := CheckName([], data["name"], NameEmpty);
      ThenFromEmpty(UpdateNameErrors(data));
      if named.Err? {
        OptionalFieldsRaise(named.error, data);
        return Err(named.error);
      }
      errors := named.value;
    }
    assert UpdateNameErrors(data) == Ok(errors);
    if "price" in data {
      errors := errors + PriceRange(data["price"]);
    } else {
      assert errors + [] == errors;
    }
    r := FinishOptional(data, errors);
  }

  /** The category, sku and description checks shared by both validators,
      then the verdict. */
  method FinishOptional(data: Config, errors: seq<string>) returns (r: Result<(bool, seq<string>)>)
    ensures r.Ok? <==> OptionalFields(Ok(errors), data).Ok?
    ensures r.Err? ==> r.error == OptionalFields(Ok(errors), data).error
    ensures r.Ok? ==> r.value.1 == OptionalFields(Ok(errors), data).value
    ensures r.Ok? ==> (r.value.0 <==> r.value.1 == [])
  {
    var e1 := CheckLength(errors, Get(data, "category", JNull), 100, CategoryTooLong);
    if e1.Err? {
      return Err(e1.error);
    }
    var e2 := CheckLength(e1.value, Get(data, "sku", JNull), 100, SkuTooLong);
    if e2.Err? {
      return Err(e2.error);
    }
    var e3 := CheckLength(e2.value, Get(data, "description", JNull), 5000, DescriptionTooLong);
    if e3.Err? {
      return Err(e3.error);
    }
    r := Ok((|e3.value| == 0, e3.value));
  }

  /** An optional field passes its bound: absent or falsy, or of a type
      with a length no greater than `limit`. */
  predicate Within(v: Json, limit: nat) {
    !Truthy(v) || (Len(v).Ok? && Len(v).value <= limit)
  }

  predicate OptionalWithin(data: Config) {
    Within(Get(data, "category", JNull), 100) && Within(Get(data, "sku", JNull), 100)
    && Within(Get(data, "description", JNull), 5000)
  }

  predicate NameAcceptable(name: Json) {
    name.JStr? && 2 <= |Strip(name.s)| <= 200
  }

  predicate PriceAcceptable(price: Json) {
    ToFloat(price).Some? && 0.0 <= ToFloat(price).value <= MaxPrice
  }

  /** The rules a new product must meet, stated field by field. */
  predicate CreateAcceptable(data: Config) {
    NameAcceptable(Get(data, "name", JNull)) && Truthy(Get(data, "price", JNull))
    && PriceAcceptable(Get(data, "price", JNull)) && OptionalWithin(data)
  }

  /** The rules an update must meet: only the fields it carries. */
  predicate UpdateAcceptable(data: Config) {
    ("name" in data ==> NameAcceptable(data["name"]))
    && ("price" in data ==> PriceAcceptable(data["price"]))
    && OptionalWithin(data)
  }

  /** A bound check adds nothing exactly when the field is within it. */
  lemma WithinBound(v: Json, limit: nat, message: string)
    ensures LengthBound(v, limit, message) == Ok([]) <==> Within(v, limit)
  {
  }

  /** The optional fields add nothing to `acc` exactly when each is within
      its bound. */
  lemma OptionalFieldsClean(acc: seq<string>, data: Config)
    ensures OptionalFields(Ok(acc), data) == Ok(acc) <==> OptionalWithin(data)
  {
    var c := LengthBound(Get(data, "category", JNull), 100, CategoryTooLong);
    var k := LengthBound(Get(data, "sku", JNull), 100, SkuTooLong);
    var d := LengthBound(Get(data, "description", JNull), 5000, DescriptionTooLong);
    WithinBound(Get(data, "category", JNull), 100, CategoryTooLong);
    WithinBound(Get(data, "sku", JNull), 100, SkuTooLong);
    WithinBound(Get(data, "description", JNull), 5000, DescriptionTooLong);
    if c.Ok? && k.Ok? && d.Ok? {
      var all := acc + c.value + k.value + d.value;
      assert OptionalFields(Ok(acc), data) == Ok(all);
      assert |all| == |acc| + |c.value| + |k.value| + |d.value|;
      if c.value == [] && k.value == [] && d.value == [] {
        assert all == acc;
      }
    }
  }

  /** The name and price checks of `validate_create` report nothing
      exactly when both meet their rules. */
  lemma CreateHeadClean(name: Json, price: Json)
    ensures Then(CreateNameErrors(name), Ok(CreatePriceErrors(price))) == Ok([])
            <==> NameAcceptable(name) && Truthy(price) && PriceAcceptable(price)
  {
    var n := CreateNameErrors(name);
    var p := CreatePriceErrors(price);
    assert p == [] <==> Truthy(price) && PriceAcceptable(price) by {
      if Truthy(price) {
        assert p == PriceRange(price);
      }
    }
    assert n == Ok([]) <==> NameAcceptable(name) by {
      if NameAcceptable(name) {
        assert |name.s| >= 2;
      }
    }
    if n.Ok? {
      assert |n.value + p| == |n.value| + |p|;
    }
  }

  /** `validate_create` finds nothing to report exactly when the data
      meets every rule. */
  lemma CreateAcceptsExactly(data: Config)
    ensures CreateErrors(data) == Ok([]) <==> CreateAcceptable(data)
  {
    var name := Get(data, "name", JNull);
    var price := Get(data, "price", JNull);
    var head := Then(CreateNameErrors(name), Ok(CreatePriceErrors(price)));
    CreateHeadClean(name, price);
    if head.Ok? {
      OptionalFieldsClean(head.value, data);
      OptionalGrows(head.value, data);
    } else {
      OptionalFieldsRaise(head.error, data);
    }
  }

  /** The optional fields never remove what was collected before them. */
  lemma OptionalGrows(acc: seq<string>, data: Config)
    ensures OptionalFields(Ok(acc), data).Ok? ==> |OptionalFields(Ok(acc), data).value| >= |acc|
  {
  }

  /** The name and price checks of `validate_update` report nothing
      exactly when the fields present meet their rules. */
  lemma UpdateHeadClean(data: Config)
    ensures Then(UpdateNameErrors(data), Ok(UpdatePriceErrors(data))) == Ok([])
            <==> ("name" in data ==> NameAcceptable(data["name"]))
                 && ("price" in data ==> PriceAcceptable(data["price"]))
  {
    var n := UpdateNameErrors(data);
    var p := UpdatePriceErrors(data);
    if "name" in data && NameAcceptable(data["name"]) {
      assert |data["name"].s| >= 2;
      assert n == Ok([]);
    }
    if n.Ok? {
      assert |n.value + p| == |n.value| + |p|;
    }
  }

  /** `validate_update` finds nothing to report exactly when the fields
      the update carries meet their rules. */
  lemma UpdateAcceptsExactly(data: Config)
    ensures UpdateErrors(data) == Ok([]) <==> UpdateAcceptable(data)
  {
    var head := Then(UpdateNameErrors(data), Ok(UpdatePriceErrors(data)));
    UpdateHeadClean(data);
    if head.Ok? {
      OptionalFieldsClean(head.value, data);
      OptionalGrows(head.value, data);
    } else {
      OptionalFieldsRaise(head.error, data);
    }
  }

  /** A string, or a falsy value, has a length or is skipped: its bound
      check cannot raise. */
  predicate StrOrFalsy(v: Json) {
    v.JStr? || !Truthy(v)
  }

  /** A request whose name and optional fields are strings (or absent or
      falsy) never makes a validator raise. */
  lemma StringFieldsNeverRaise(data: Config)
    requires StrOrFalsy(Get(data, "name", JNull))
    requires StrOrFalsy(Get(data, "category", JNull)) && StrOrFalsy(Get(data, "sku", JNull))
    requires StrOrFalsy(Get(data, "description", JNull))
    ensures CreateErrors(data).Ok? && UpdateErrors(data).Ok?
  {
  }
}

=== FILE: queue_manager.dfy ===
/** The job queue front end (backend/app/workers/queue_manager.py). The
    class-level caches of `QueueManager` (the Redis connection and the
    queues by name) are the fields of one `QueueManager` object, and the
    jobs Redis holds are a map from job id to job. The function a job runs
    is named by a string; the job id RQ draws is an argument. */
module QueueManager {
  import opened Wrappers
  import opened Json

  const DefaultRedisUrl := "redis://localhost:6379/0"
  const DefaultTimeout := 600        // 10 minutes
  const DefaultResultTtl := 3600     // 1 hour
  const DefaultFailureTtl := 86400   // 24 hours

  /** An RQ queue: its name and the connection it was made with. */
  datatype Queue = Queue(name: string, connection: string)

  /** An RQ job as stored in Redis. Timestamps are ISO texts when set. */
  datatype Job = Job(
    id: string,
    func: string,
    args: seq<Json>,
    queue: string,
    options: map<string, Json>,
    status: string,
    createdAt: Option<string>,
    startedAt: Option<string>,
    endedAt: Option<string>,
    result: Json,
    excInfo: Option<string>)

  /** The job options every job gets unless the caller says otherwise. */
  function Defaults(): map<string, Json> {
    map["timeout" := JInt(DefaultTimeout), "result_ttl" := JInt(DefaultResultTtl),
        "failure_ttl" := JInt(DefaultFailureTtl)]
  }

  /** `{**defaults, **job_kwargs}`, then an explicit `timeout` on top. */
  function MergeOptions(jobKwargs: map<string, Json>, timeout: Option<int>): (r: map<string, Json>)
    ensures r.Keys == Defaults().Keys + jobKwargs.Keys
    ensures timeout.Some? ==> r["timeout"] == JInt(timeout.value)
    ensures forall k :: k in jobKwargs && (k != "timeout" || timeout.None?) ==> r[k] == jobKwargs[k]
    ensures forall k :: k in Defaults() && k !in jobKwargs && (k != "timeout" || timeout.None?) ==>
              r[k] == Defaults()[k]
  {
    var merged := Defaults() + jobKwargs;
    if timeout.Some? then merged["timeout" := JInt(timeout.value)] else merged
  }

  /** With no caller options, a job gets the defaults with the timeout
      replaced when one is given. */
  lemma PlainOptions(timeout: Option<int>)
    ensures MergeOptions(map[], timeout)["result_ttl"] == JInt(DefaultResultTtl)
    ensures MergeOptions(map[], timeout)["failure_ttl"] == JInt(DefaultFailureTtl)
    ensures MergeOptions(map[], timeout)["timeout"] == JInt(if timeout.Some? then timeout.value else DefaultTimeout)
    ensures MergeOptions(map[], timeout) ==
            map["timeout" := JInt(if timeout.Some? then timeout.value else DefaultTimeout),
                "result_ttl" := JInt(DefaultResultTtl), "failure_ttl" := JInt(DefaultFailureTtl)]
  {
    assert Defaults() + map[] == Defaults();
  }

  /** `status_map.get(status, 'unknown')`. */
  function PublicStatus(status: string): (s: string)
    ensures status == "queued" ==> s == "pending"
    ensures status == "started" ==> s == "processing"
    ensures status == "finished" ==> s == "completed"
    ensures status == "failed" ==> s == "failed"
    ensures status !in {"queued", "started", "finished", "failed"} ==> s == "unknown"
  {
    if status == "queued" then "pending"
    else if status == "started" then "processing"
    else if status == "finished" then "completed"
    else if status == "failed" then "failed"
    else "unknown"
  }

  function Timestamp(t: Option<string>): Json {
    if t.Some? then JStr(t.value) else JNull
  }

  /** The dict `get_job_status` answers for a fetched job, or for none. */
  function StatusReport(job: Option<Job>): (r: map<string, Json>)
    ensures job.None? ==> r == map["status" := JStr("not_found"), "message" := JStr("Job not found")]
    ensures job.Some? ==> "status" in r && r["status"] == JStr(PublicStatus(job.value.status))
    ensures job.Some? ==> "created_at" in r && "started_at" in r && "ended_at" in r
                          && (job.value.createdAt.None? <==> r["created_at"] == JNull)
                          && (job.value.startedAt.None? <==> r["started_at"] == JNull)
                          && (job.value.endedAt.None? <==> r["ended_at"] == JNull)
    // a result only for a finished job, an error only for a failed one
    ensures "result" in r <==> job.Some? && job.value.status == "finished"
    ensures "result" in r ==> r["result"] == job.value.result
    ensures "error" in r <==> job.Some? && job.value.status == "failed"
    ensures "error" in r ==> r["error"] == JStr(if job.value.excInfo.Some? && job.value.excInfo.value != ""
                                               then job.value.excInfo.value else "Unknown error")
  {
    if job.None? then map["status" := JStr("not_found"), "message" := JStr("Job not found")]
    else
      var j := job.value;
      var base := map["status" := JStr(PublicStatus(j.status)), "created_at" := Timestamp(j.createdAt),
                      "started_at" := Timestamp(j.startedAt), "ended_at" := Timestamp(j.endedAt)];
      var withResult := if j.status == "finished" then base["result" := j.result] else base;
      if j.status == "failed" then
        withResult["error" := JStr(if j.excInfo.Some? && j.excInfo.value != "" then j.excInfo.value else "Unknown error")]
      else withResult
  }

  class QueueManager {
    var connection: Option<string>
    var queues: map<string, Queue>
    var jobs: map<string, Job>

    /** Every cached queue is registered under its own name and uses the
        one connection. */
    ghost predicate Valid()
      reads this
    {
      forall n :: n in queues ==> queues[n].name == n && connection.Some? && queues[n].connection == connection.value
    }

    constructor ()
      ensures Valid() && connection.None? && queues == map[] && jobs == map[]
    {
      connection := None;
      queues := map[];
      jobs := map[];
    }

    /** `get_redis_connection`: made from the configured URL (`configured`,
        `REDIS_URL`) on first use, the same one afterwards. */
    method GetRedisConnection(configured: Option<string>) returns (c: string)
      requires Valid()
      modifies this
      ensures Valid()
      ensures old(connection).Some? ==> connection == old(connection)
      ensures old(connection).None? ==> connection == Some(if configured.Some? then configured.value else DefaultRedisUrl)
      ensures connection == Some(c)
      ensures queues == old(queues) && jobs == old(jobs)
    {
      if connection.None? {
        connection := Some(if configured.Some? then configured.value else DefaultRedisUrl);
      }
      c := connection.value;
    }

    /** `get_queue`: at most one queue per name, the cached one after the
        first call. */
    method GetQueue(name: string, configured: Option<string>) returns (q: Queue)
      requires Valid()
      modifies this
      ensures Valid()
      ensures q.name == name && name in queues && queues[name] == q
      ensures name in old(queues) ==> q == old(queues)[name] && queues == old(queues) && connection == old(connection)
      ensures name !in old(queues) ==> queues == old(queues)[name := q]
      ensures old(connection).Some? ==> connection == old(connection)
      ensures jobs == old(jobs)
    {
      if name !in queues {
        var c := GetRedisConnection(configured);
        queues := queues[name := Queue(name, c)];
      }
      q := queues[name];
    }

    /** `enqueue_job`: a queued job under the new id `jobId`, on the named
        queue, with the merged options. */
    method EnqueueJob(func: string, args: seq<Json>, queueName: string, timeout: Option<int>,
                      jobKwargs: map<string, Json>, jobId: string, now: string, configured: Option<string>)
      returns (job: Job)
      requires Valid() && jobId !in jobs
      modifies this
      ensures Valid()
      ensures job == Job(jobId, func, args, queueName, MergeOptions(jobKwargs, timeout), "queued",
                         Some(now), None, None, JNull, None)
      ensures jobs == old(jobs)[jobId := job]
      ensures queueName in queues && queues[queueName].name == queueName
      ensures queueName in old(queues) ==> queues == old(queues) && connection == old(connection)
      ensures queueName !in old(queues) ==> queues == old(queues)[queueName := queues[queueName]]
      ensures old(connection).Some? ==> connection == old(connection)
    {
      var q := GetQueue(queueName, configured);
      var options := MergeOptions(jobKwargs, timeout);
      job := Job(jobId, func, args, q.name, options, "queued", Some(now), None, None, JNull, None);
      jobs := jobs[jobId := job];
    }

    /** `get_job`: the job, or None when it cannot be fetched. */
    method GetJob(jobId: string, configured: Option<string>) returns (job: Option<Job>)
      requires Valid()
      modifies this
      ensures Valid()
      ensures job.Some? <==> jobId in jobs
      ensures job.Some? ==> job.value == jobs[jobId]
      ensures queues == old(queues) && jobs == old(jobs)
      ensures old(connection).Some? ==> connection == old(connection)
    {
      var _ := GetRedisConnection(configured);
      job := if jobId in jobs then Some(jobs[jobId]) else None;
    }

    /** `get_job_status`. */
    method GetJobStatus(jobId: string, configured: Option<string>) returns (report: map<string, Json>)
      requires Valid()
      modifies this
      ensures Valid()
      ensures report == StatusReport(if jobId in jobs then Some(jobs[jobId]) else None)
      ensures queues == old(queues) && jobs == old(jobs)
    {
      var job := GetJob(jobId, configured);
      report := StatusReport(job);
    }
  }

  /** A job just enqueued reports `pending`, with neither result nor
      error. */
  lemma FreshJobIsPending(job: Job)
    requires job.status == "queued"
    ensures StatusReport(Some(job))["status"] == JStr("pending")
    ensures "result" !in StatusReport(Some(job)) && "error" !in StatusReport(Some(job))
  {
  }
}

=== FILE: render_job.dfy ===
/** The worker jobs (backend/app/workers/render_job.py): `generate_poster`
    renders one template for one product, uploads the image and records
    the outcome; `generate_batch` runs it for every product of a list and
    sums up. Storage is an oracle: the URL an upload answers (None when it
    failed), and whether recording a failed poster commits. */
module RenderJob {
  import opened Wrappers
  import opened Json
  import opened Strings
  import opened Builtins
  import opened Drawing
  import opened Models
  import Engine

  /** The storage and database outcomes the worker cannot see in advance. */
  datatype Services = Services(
    upload: (Png, string) -> Option<string>,
    failureRecorded: (int, int) -> bool)   // by (product id, template id)

  /** What a successful render and upload produced. */
  datatype Rendition = Rendition(imageUrl: string, productName: string, templateName: string, format: string)

  /** The dict `generate_poster` returns. */
  datatype PosterResult = PosterResult(posterId: int, imageUrl: string, productName: string, templateName: string)

  function OptionalText(s: Option<string>): (j: Json)
    ensures s.None? <==> j == JNull
  {
    if s.Some? then JStr(s.value) else JNull
  }

  /** The data context the template is rendered against: the product's
      fields under `product`, and the campaign rules (or `{}`) under
      `campaign` when there is a campaign. */
  function DataContext(product: Product, campaign: Option<Campaign>): (d: Json)
    ensures d.JObj? && "product" in d.fields && d.fields["product"].JObj?
    ensures var p := d.fields["product"].fields;
            p.Keys == {"name", "price", "image", "category", "sku", "description"}
            && p["name"] == JStr(product.name) && p["price"] == JFloat(product.price)
            && p["image"] == product.imageUrl && p["category"] == OptionalText(product.category)
            && p["sku"] == OptionalText(product.sku) && p["description"] == OptionalText(product.description)
    ensures "campaign" in d.fields <==> campaign.Some?
    ensures campaign.Some? ==> d.fields["campaign"] == (if Truthy(campaign.value.rules) then campaign.value.rules else JObj(map[]))
    ensures d.fields.Keys <= {"product", "campaign"}
  {
    var p := map["name" := JStr(product.name), "price" := JFloat(product.price), "image" := product.imageUrl,
                 "category" := OptionalText(product.category), "sku" := OptionalText(product.sku),
                 "description" := OptionalText(product.description)];
    var base := map["product" := JObj(p)];
    if campaign.Some? then
      JObj(base["campaign" := if Truthy(campaign.value.rules) then campaign.value.rules else JObj(map[])])
    else JObj(base)
  }

  /** `Campaign.query.get(campaign_id) if campaign_id else None`. */
  function CampaignFor(campaigns: map<int, Campaign>, campaignId: Option<int>): (c: Option<Campaign>)
    ensures c.Some? <==> campaignId.Some? && campaignId.value != 0 && campaignId.value in campaigns
    ensures c.Some? ==> c.value == campaigns[campaignId.value]
  {
    if campaignId.Some? && campaignId.value != 0 && campaignId.value in campaigns then Some(campaigns[campaignId.value])
    else None
  }

  /** `PosterRenderer().render(template.json_definition, data)`: the
      definition must be a mapping, or `.get` raises. */
  function RenderDefinition(definition: Json, data: Json, env: Env): (r: Result<Png>)
    ensures !definition.JObj? ==> r.Err?
    ensures definition.JObj? ==> r == Engine.Rendered(definition.fields, data, env)
  {
    if definition.JObj? then Engine.Rendered(definition.fields, data, env)
    else Err(NoAttribute(definition, "get"))
  }

  /** The name the rendered file is uploaded under. */
  function UploadName(productId: int, templateId: int): string {
    "poster_" + IntText(productId) + "_" + IntText(templateId) + ".png"
  }

  /** What one attempt of `generate_poster` comes to, before anything is
      recorded: the rows are looked up (template, then product, then user),
      the template rendered against the data context and the image
      uploaded. `userKnown` says whether the user row exists. */
  function Attempt(templates: map<int, Template>, products: map<int, Product>, campaigns: map<int, Campaign>,
                   userKnown: bool, templateId: int, productId: int, userId: int, campaignId: Option<int>,
                   env: Env, svc: Services): (r: Result<Rendition>)
    ensures templateId !in templates ==> r == Err("Template " + IntText(templateId) + " not found")
    ensures templateId in templates && productId !in products ==> r == Err("Product " + IntText(productId) + " not found")
    ensures (templateId in templates && productId in products && !userKnown) ==> r == Err("User " + IntText(userId) + " not found")
    ensures r.Ok? ==> templateId in templates && productId in products && userKnown
                      && templates[templateId].definition.JObj?
                      && r.value.imageUrl != ""
                      && r.value.productName == products[productId].name
                      && r.value.templateName == templates[templateId].name
                      && r.value.format == templates[templateId].format
  {
    if templateId !in templates then Err("Template " + IntText(templateId) + " not found")
    else if productId !in products then Err("Product " + IntText(productId) + " not found")
    else if !userKnown then Err("User " + IntText(userId) + " not found")
    else
      var template := templates[templateId];
      var product := products[productId];
      var data := DataContext(product, CampaignFor(campaigns, campaignId));
      var png := RenderDefinition(template.definition, data, env);
      if png.Err? then Err(png.error)
      else
        var url := svc.upload(png.value, UploadName(productId, templateId));
        if url.None? || url.value == "" then Err("Failed to upload poster to storage")
        else Ok(Rendition(url.value, product.name, template.name, template.format))
  }

  /** `generate_poster`: one attempt, one poster row at most, and the
      user's counter raised by one only on success. */
  method GeneratePoster(db: Database, templateId: int, productId: int, userId: int, campaignId: Option<int>,
                        now: int, env: Env, svc: Services)
    returns (r: Result<PosterResult>)
    requires db.Valid()
    modifies db
    ensures db.Valid()
    ensures var a := Attempt(old(db.templates), old(db.products), old(db.campaigns), userId in old(db.users),
                             templateId, productId, userId, campaignId, env, svc);
            (r.Ok? <==> a.Ok?) && (r.Err? ==> r.error == a.error)
            && (r.Ok? ==> r.value == PosterResult(old(db.nextId), a.value.imageUrl, a.value.productName, a.value.templateName))
    // success: one `generated` poster, and the user's counter up by one
    ensures r.Ok? ==> userId in old(db.users)
                      && db.posters == old(db.posters)[old(db.nextId) :=
                           Poster(old(db.nextId), userId, productId, campaignId, templateId, r.value.imageUrl,
                                  old(db.templates)[templateId].format, "generated", None, now)]
                      && db.users == old(db.users)[userId := old(db.users)[userId].(monthlyGenerations :=
                                                                   old(db.users)[userId].monthlyGenerations + 1)]
    // failure: the counter is left alone, and at most one `failed` poster
    ensures r.Err? ==> db.users == old(db.users)
    ensures r.Err? && svc.failureRecorded(productId, templateId) ==>
              db.posters == old(db.posters)[old(db.nextId) :=
                Poster(old(db.nextId), userId, productId, campaignId, templateId, "", "square", "failed", Some(r.error), now)]
    ensures r.Err? && !svc.failureRecorded(productId, templateId) ==> db.posters == old(db.posters)
    // exactly one poster row per attempt, unless recording a failure did not commit
    ensures |db.posters| == |old(db.posters)| + (if r.Ok? || svc.failureRecorded(productId, templateId) then 1 else 0)
    ensures db.nextId == old(db.nextId) + (if r.Ok? || svc.failureRecorded(productId, templateId) then 1 else 0)
    ensures db.users.Keys == old(db.users).Keys
    ensures db.plans == old(db.plans) && db.products == old(db.products) && db.templates == old(db.templates)
    ensures db.campaigns == old(db.campaigns) && db.resets == old(db.resets)
  {
    var outcome := Attempt(db.templates, db.products, db.campaigns, userId in db.users,
                           templateId, productId, userId, campaignId, env, svc);
    if outcome.Ok? {
      var id := RecordPoster(db, userId, productId, campaignId, templateId, outcome.value.imageUrl,
                             outcome.value.format, "generated", None, now);
      CountGeneration(db, userId);
      return Ok(PosterResult(id, outcome.value.imageUrl, outcome.value.productName, outcome.value.templateName));
    }
    if svc.failureRecorded(productId, templateId) {
      var _ := RecordPoster(db, userId, productId, campaignId, templateId, "", "square", "failed",
                            Some(outcome.error), now);
    }
    r := Err(outcome.error);
  }

  /** `user.monthly_generations += 1`: one more generation this month,
      every other row and table untouched. */
  method CountGeneration(db: Database, userId: int)
    requires db.Valid() && userId in db.users
    modifies db
    ensures db.Valid()
    ensures db.users == old(db.users)[userId := old(db.users)[userId].(monthlyGenerations :=
                                                  old(db.users)[userId].monthlyGenerations + 1)]
    ensures db.posters == old(db.posters) && db.nextId == old(db.nextId)
    ensures db.plans == old(db.plans) && db.products == old(db.products) && db.templates == old(db.templates)
    ensures db.campaigns == old(db.campaigns) && db.resets == old(db.resets)
  {
    var user := db.users[userId];
    db.users := db.users[userId := user.(monthlyGenerations := user.monthlyGenerations + 1)];
  }

  /** `db.session.add(Poster(...))` and commit: the row under a new key,
      one more row in the table. */
  method RecordPoster(db: Database, userId: int, productId: int, campaignId: Option<int>, templateId: int,
                      imageUrl: string, format: string, status: string, error: Option<string>, now: int)
    returns (id: int)
    requires db.Valid()
    modifies db
    ensures db.Valid()
    ensures id == old(db.nextId) && id !in old(db.posters) && db.nextId == old(db.nextId) + 1
    ensures db.posters == old(db.posters)[id := Poster(id, userId, productId, campaignId, templateId, imageUrl,
                                                       format, status, error, now)]
    ensures |db.posters| == |old(db.posters)| + 1
    ensures db.users == old(db.users) && db.plans == old(db.plans) && db.products == old(db.products)
    ensures db.templates == old(db.templates) && db.campaigns == old(db.campaigns) && db.resets == old(db.resets)
  {
    id := db.NewId();
    var p := Poster(id, userId, productId, campaignId, templateId, imageUrl, format, status, error, now);
    OnePosterPerAttempt(db.posters, id, p);
    db.posters := db.posters[id := p];
  }

  /** A row under a new key adds one to the table's size. */
  lemma OnePosterPerAttempt(before: map<int, Poster>, id: int, p: Poster)
    requires id !in before
    ensures |before[id := p]| == |before| + 1
  {
    assert before[id := p].Keys == before.Keys + {id};
  }

  /** One entry of the batch's `errors` list. */
  datatype BatchError = BatchError(productId: int, error: string)

  /** The dict `generate_batch` returns. */
  datatype BatchSummary = BatchSummary(total: nat, successful: nat, failed: nat,
                                       results: seq<PosterResult>, errors: seq<BatchError>)

  /** The rows an attempt reads and which batch items leave unchanged. */
  datatype World = World(templates: map<int, Template>, products: map<int, Product>,
                         campaigns: map<int, Campaign>, userKnown: bool)

  /** The attempt for product `productId` against the rows of `w`. */
  function AttemptIn(w: World, templateId: int, productId: int, userId: int, campaignId: Option<int>,
                     env: Env, svc: Services): Result<Rendition> {
    Attempt(w.templates, w.products, w.campaigns, w.userKnown, templateId, productId, userId, campaignId, env, svc)
  }

  /** The outcome of each product's attempt in a batch: every item reads
      the same rows, as the rows an attempt reads are not changed by the
      others (only user counters and posters are). */
  function Outcomes(w: World, templateId: int, userId: int, campaignId: Option<int>,
                    env: Env, svc: Services): int -> Result<Rendition> {
    productId => AttemptIn(w, templateId, productId, userId, campaignId, env, svc)
  }

  /** The failures of a batch, in input order. */
  function Failures(outcome: int -> Result<Rendition>, productIds: seq<int>): (errs: seq<BatchError>)
    ensures |errs| <= |productIds|
  {
    if productIds == [] then []
    else
      var init := Failures(outcome, productIds[..|productIds| - 1]);
      var last := productIds[|productIds| - 1];
      var a := outcome(last);
      if a.Err? then init + [BatchError(last, a.error)] else init
  }

  /** The successes of a batch, in input order. */
  function Successes(outcome: int -> Result<Rendition>, productIds: seq<int>): (oks: seq<Rendition>)
    ensures |oks| <= |productIds|
  {
    if productIds == [] then []
    else
      var init := Successes(outcome, productIds[..|productIds| - 1]);
      var last := productIds[|productIds| - 1];
      var a := outcome(last);
      if a.Ok? then init + [a.value] else init
  }

  /** Every item is either a success or a failure: the two lists together
      are as long as the input. */
  lemma {:induction false} EveryItemCounted(outcome: int -> Result<Rendition>, productIds: seq<int>)
    ensures |Successes(outcome, productIds)| + |Failures(outcome, productIds)| == |productIds|
  {
    if productIds != [] {
      EveryItemCounted(outcome, productIds[..|productIds| - 1]);
    }
  }

  /** The results list reports the renditions, in order. */
  predicate Reports(results: seq<PosterResult>, oks: seq<Rendition>) {
    |results| == |oks|
    && forall j :: 0 <= j < |oks| ==> results[j].imageUrl == oks[j].imageUrl
                                      && results[j].productName == oks[j].productName
                                      && results[j].templateName == oks[j].templateName
  }

  /** One more item: the lists grow by that item's outcome. */
  lemma BatchStep(outcome: int -> Result<Rendition>, productIds: seq<int>, i: int,
                  results: seq<PosterResult>, errors: seq<BatchError>, r: Result<PosterResult>)
    requires 0 <= i < |productIds|
    requires errors == Failures(outcome, productIds[..i])
    requires Reports(results, Successes(outcome, productIds[..i]))
    requires var a := outcome(productIds[i]);
             (r.Ok? <==> a.Ok?) && (r.Err? ==> r.error == a.error)
             && (r.Ok? ==> r.value.imageUrl == a.value.imageUrl && r.value.productName == a.value.productName
                           && r.value.templateName == a.value.templateName)
    ensures r.Err? ==> errors + [BatchError(productIds[i], r.error)] == Failures(outcome, productIds[..i + 1])
    ensures r.Err? ==> Reports(results, Successes(outcome, productIds[..i + 1]))
    ensures r.Ok? ==> errors == Failures(outcome, productIds[..i + 1])
    ensures r.Ok? ==> Reports(results + [r.value], Successes(outcome, productIds[..i + 1]))
  {
    assert productIds[..i + 1][..i] == productIds[..i];
  }

  /** The poster row one attempt leaves under key `id`: a `generated` row
      for a success, a `failed` one for a failure whose recording
      committed, and none otherwise. */
  function RowOf(a: Result<Rendition>, recorded: bool, id: int, userId: int, productId: int,
                 campaignId: Option<int>, templateId: int, now: int): Option<Poster>
  {
    if a.Ok? then
      Some(Poster(id, userId, productId, campaignId, templateId, a.value.imageUrl, a.value.format, "generated", None, now))
    else if recorded then
      Some(Poster(id, userId, productId, campaignId, templateId, "", "square", "failed", Some(a.error), now))
    else None
  }

  /** Whether the failed row of each product of a batch commits. */
  function Recorder(svc: Services, templateId: int): int -> bool {
    productId => svc.failureRecorded(productId, templateId)
  }

  /** How many poster rows a batch writes: one per success and one per
      failure whose recording commits. */
  function BatchCount(outcome: int -> Result<Rendition>, recorded: int -> bool, productIds: seq<int>): (n: nat)
    ensures n <= |productIds|
  {
    if productIds == [] then 0
    else
      var last := productIds[|productIds| - 1];
      BatchCount(outcome, recorded, productIds[..|productIds| - 1])
        + (if outcome(last).Ok? || recorded(last) then 1 else 0)
  }

  /** The poster rows a batch writes, in input order, under the
      consecutive keys `start .. start + BatchCount(...)`. */
  function BatchRows(outcome: int -> Result<Rendition>, recorded: int -> bool, productIds: seq<int>, start: int,
                     userId: int, campaignId: Option<int>, templateId: int, now: int): (rows: map<int, Poster>)
    ensures forall k :: k in rows <==> start <= k < start + BatchCount(outcome, recorded, productIds)
  {
    if productIds == [] then map[]
    else
      var init := productIds[..|productIds| - 1];
      var last := productIds[|productIds| - 1];
      var next := start + BatchCount(outcome, recorded, init);
      var rows := BatchRows(outcome, recorded, init, start, userId, campaignId, templateId, now);
      var row := RowOf(outcome(last), recorded(last), next, userId, last, campaignId, templateId, now);
      if row.Some? then rows[next := row.value] else rows
  }

  /** Each row is keyed by its own id and belongs to `userId` and to one of
      `productIds`. */
  ghost predicate OwnedRows(rows: map<int, Poster>, userId: int, productIds: seq<int>) {
    forall k :: k in rows ==> rows[k].id == k && rows[k].userId == userId && rows[k].productId in productIds
  }

  /** Each row of a batch is keyed by its own id and belongs to the user
      and to one of the batch's products. */
  lemma {:induction false} BatchRowsOwned(outcome: int -> Result<Rendition>, recorded: int -> bool, productIds: seq<int>,
                                          start: int, userId: int, campaignId: Option<int>, templateId: int, now: int)
    ensures OwnedRows(BatchRows(outcome, recorded, productIds, start, userId, campaignId, templateId, now), userId, productIds)
  {
    if productIds != [] {
      var init := productIds[..|productIds| - 1];
      var last := productIds[|productIds| - 1];
      BatchRowsOwned(outcome, recorded, init, start, userId, campaignId, templateId, now);
      var next := start + BatchCount(outcome, recorded, init);
      var before := BatchRows(outcome, recorded, init, start, userId, campaignId, templateId, now);
      var row := RowOf(outcome(last), recorded(last), next, userId, last, campaignId, templateId, now);
      var rows := BatchRows(outcome, recorded, productIds, start, userId, campaignId, templateId, now);
      assert rows == if row.Some? then before[next := row.value] else before;
      assert OwnedRows(before, userId, init);
      forall k | k in rows
        ensures rows[k].id == k && rows[k].userId == userId && rows[k].productId in productIds
      {
        if row.Some? && k == next {
          assert rows[k] == row.value;
        } else {
          assert k in before && rows[k] == before[k];
          assert before[k].productId in init;
        }
      }
    }
  }

  /** How many failures of a batch have their row recorded. */
  function RecordedCount(errs: seq<BatchError>, recorded: int -> bool): nat {
    if errs == [] then 0
    else RecordedCount(errs[..|errs| - 1], recorded) + (if recorded(errs[|errs| - 1].productId) then 1 else 0)
  }

  /** The rows of a batch are its successes and its recorded failures. */
  lemma {:induction false} BatchCountSplit(outcome: int -> Result<Rendition>, recorded: int -> bool, productIds: seq<int>)
    ensures BatchCount(outcome, recorded, productIds)
            == |Successes(outcome, productIds)| + RecordedCount(Failures(outcome, productIds), recorded)
  {
    if productIds != [] {
      var init := productIds[..|productIds| - 1];
      var last := productIds[|productIds| - 1];
      BatchCountSplit(outcome, recorded, init);
      if outcome(last).Err? {
        var errs := Failures(outcome, init) + [BatchError(last, outcome(last).error)];
        assert errs[..|errs| - 1] == Failures(outcome, init);
      }
    }
  }

  /** One more item of a batch: the rows grow by that item's row, if any,
      under the next key. */
  lemma PostersStep(posters0: map<int, Poster>, before: map<int, Poster>, after: map<int, Poster>,
                    nextBefore: int, nextAfter: int, row: Option<Poster>,
                    outcome: int -> Result<Rendition>, recorded: int -> bool, productIds: seq<int>, i: int, start: int,
                    userId: int, campaignId: Option<int>, templateId: int, now: int)
    requires 0 <= i < |productIds|
    requires before == posters0 + BatchRows(outcome, recorded, productIds[..i], start, userId, campaignId, templateId, now)
    requires nextBefore == start + BatchCount(outcome, recorded, productIds[..i])
    requires row == RowOf(outcome(productIds[i]), recorded(productIds[i]), nextBefore, userId, productIds[i],
                          campaignId, templateId, now)
    requires (row.Some? ==> after == before[nextBefore := row.value] && nextAfter == nextBefore + 1)
             && (row.None? ==> after == before && nextAfter == nextBefore)
    ensures after == posters0 + BatchRows(outcome, recorded, productIds[..i + 1], start, userId, campaignId, templateId, now)
    ensures nextAfter == start + BatchCount(outcome, recorded, productIds[..i + 1])
  {
    var rows := BatchRows(outcome, recorded, productIds[..i], start, userId, campaignId, templateId, now);
    assert productIds[..i + 1][..i] == productIds[..i];
    assert productIds[..i + 1][i] == productIds[i];
    assert BatchRows(outcome, recorded, productIds[..i + 1], start, userId, campaignId, templateId, now)
        == if row.Some? then rows[nextBefore := row.value] else rows;
    if row.Some? {
      assert (posters0 + rows)[nextBefore := row.value] == posters0 + rows[nextBefore := row.value];
    }
  }

  /** The users after `n` of a batch's generations were counted. */
  function UsersAfter(users: map<int, User>, userId: int, n: int): map<int, User> {
    if userId in users
    then users[userId := users[userId].(monthlyGenerations := users[userId].monthlyGenerations + n)]
    else users
  }

  /** Counting no generations changes no user. */
  lemma NoneCounted(users: map<int, User>, userId: int)
    ensures UsersAfter(users, userId, 0) == users
  {
    if userId in users {
      assert users[userId].(monthlyGenerations := users[userId].monthlyGenerations + 0) == users[userId];
    }
  }

  /** Counting `n` generations, then `d` more, counts `n + d`. */
  lemma UsersStep(users0: map<int, User>, before: map<int, User>, after: map<int, User>, userId: int, n: int, d: int)
    requires before == UsersAfter(users0, userId, n) && after == UsersAfter(before, userId, d)
    ensures after == UsersAfter(users0, userId, n + d)
  {
  }

  /** One product of a batch: `generate_poster` seen from the batch loop,
      where `a` is the attempt against the rows of `w` and `recorded` says
      whether its failed row would commit. */
  method BatchItem(db: Database, templateId: int, productId: int, userId: int, campaignId: Option<int>,
                   now: int, env: Env, svc: Services, ghost w: World, ghost a: Result<Rendition>, ghost recorded: bool)
    returns (r: Result<PosterResult>)
    requires db.Valid() && w == World(db.templates, db.products, db.campaigns, userId in db.users)
    requires a == AttemptIn(w, templateId, productId, userId, campaignId, env, svc)
    requires recorded == svc.failureRecorded(productId, templateId)
    modifies db
    ensures db.Valid()
    ensures (r.Ok? <==> a.Ok?) && (r.Err? ==> r.error == a.error)
            && (r.Ok? ==> r.value.imageUrl == a.value.imageUrl && r.value.productName == a.value.productName
                          && r.value.templateName == a.value.templateName)
    // the attempt's row, if any, under the next key
    ensures var row := RowOf(a, recorded, old(db.nextId), userId, productId, campaignId, templateId, now);
            (row.Some? ==> db.posters == old(db.posters)[old(db.nextId) := row.value] && db.nextId == old(db.nextId) + 1)
            && (row.None? ==> db.posters == old(db.posters) && db.nextId == old(db.nextId))
    // only the user's counter changes, and only on success
    ensures db.users == UsersAfter(old(db.users), userId, if r.Ok? then 1 else 0)
    ensures db.templates == old(db.templates) && db.products == old(db.products) && db.campaigns == old(db.campaigns)
    ensures db.plans == old(db.plans) && db.resets == old(db.resets)
  {
    r := GeneratePoster(db, templateId, productId, userId, campaignId, now, env, svc);
  }

  /** Whether the database and the lists reached after the first `i`
      products are those of a batch that started from `posters0`, `users0`
      and the key `start`. The loop invariant and `BatchAdvance` bind it with
      `var`, so that it is handed on whole instead of being proved again
      conjunct by conjunct. */
  ghost predicate BatchSoFar(posters: map<int, Poster>, nextId: int, users: map<int, User>,
                             results: seq<PosterResult>, errors: seq<BatchError>,
                             posters0: map<int, Poster>, users0: map<int, User>, start: int,
                             outcome: int -> Result<Rendition>, recorded: int -> bool, productIds: seq<int>, i: int,
                             userId: int, campaignId: Option<int>, templateId: int, now: int)
    requires 0 <= i <= |productIds|
  {
    && users == UsersAfter(users0, userId, |results|)
    && posters == posters0 + BatchRows(outcome, recorded, productIds[..i], start, userId, campaignId, templateId, now)
    && nextId == start + BatchCount(outcome, recorded, productIds[..i])
    && errors == Failures(outcome, productIds[..i])
    && Reports(results, Successes(outcome, productIds[..i]))
  }

  /** The outcome of product `i`, as `generate_poster` left it, carries a
      batch one product further. */
  lemma BatchAdvance(posters: map<int, Poster>, nextId: int, users: map<int, User>,
                     posters': map<int, Poster>, nextId': int, users': map<int, User>,
                     results: seq<PosterResult>, errors: seq<BatchError>, r: Result<PosterResult>,
                     results': seq<PosterResult>, errors': seq<BatchError>,
                     posters0: map<int, Poster>, users0: map<int, User>, start: int,
                     outcome: int -> Result<Rendition>, recorded: int -> bool, productIds: seq<int>, i: int,
                     userId: int, campaignId: Option<int>, templateId: int, now: int, a: Result<Rendition>, rec: bool)
    requires 0 <= i < |productIds|
    requires var sofar := BatchSoFar(posters, nextId, users, results, errors, posters0, users0, start,
                                     outcome, recorded, productIds, i, userId, campaignId, templateId, now);
             sofar
    requires a == outcome(productIds[i]) && rec == recorded(productIds[i])
    requires (r.Ok? <==> a.Ok?) && (r.Err? ==> r.error == a.error)
             && (r.Ok? ==> r.value.imageUrl == a.value.imageUrl && r.value.productName == a.value.productName
                           && r.value.templateName == a.value.templateName)
    requires var row := RowOf(a, rec, nextId, userId, productIds[i], campaignId, templateId, now);
             (row.Some? ==> posters' == posters[nextId := row.value] && nextId' == nextId + 1)
             && (row.None? ==> posters' == posters && nextId' == nextId)
    requires users' == UsersAfter(users, userId, if r.Ok? then 1 else 0)
    requires r.Ok? ==> results' == results + [r.value] && errors' == errors
    requires r.Err? ==> results' == results && errors' == errors + [BatchError(productIds[i], r.error)]
    ensures BatchSoFar(posters', nextId', users', results', errors', posters0, users0, start,
                       outcome, recorded, productIds, i + 1, userId, campaignId, templateId, now)
  {
    var row := RowOf(a, rec, nextId, userId, productIds[i], campaignId, templateId, now);
    PostersStep(posters0, posters, posters', nextId, nextId', row, outcome, recorded, productIds, i, start,
                userId, campaignId, templateId, now);
    BatchStep(outcome, productIds, i, results, errors, r);
    UsersStep(users0, users, users', userId, |results|, if r.Ok? then 1 else 0);
  }

  /** A batch starts with nothing attempted. */
  lemma BatchStart(posters0: map<int, Poster>, users0: map<int, User>, start: int,
                   outcome: int -> Result<Rendition>, recorded: int -> bool, productIds: seq<int>,
                   userId: int, campaignId: Option<int>, templateId: int, now: int)
    ensures BatchSoFar(posters0, start, users0, [], [], posters0, users0, start,
                       outcome, recorded, productIds, 0, userId, campaignId, templateId, now)
  {
    NoneCounted(users0, userId);
    assert productIds[..0] == [];
    assert posters0 + map[] == posters0;
  }

  /** A batch that reached the end has attempted every product. */
  lemma BatchDone(posters: map<int, Poster>, nextId: int, users: map<int, User>,
                  results: seq<PosterResult>, errors: seq<BatchError>,
                  posters0: map<int, Poster>, users0: map<int, User>, start: int,
                  outcome: int -> Result<Rendition>, recorded: int -> bool, productIds: seq<int>,
                  userId: int, campaignId: Option<int>, templateId: int, now: int)
    requires BatchSoFar(posters, nextId, users, results, errors, posters0, users0, start,
                        outcome, recorded, productIds, |productIds|, userId, campaignId, templateId, now)
    ensures errors == Failures(outcome, productIds) && Reports(results, Successes(outcome, productIds))
    ensures posters == posters0 + BatchRows(outcome, recorded, productIds, start, userId, campaignId, templateId, now)
    ensures nextId == start + BatchCount(outcome, recorded, productIds)
    ensures users == UsersAfter(users0, userId, |results|)
  {
    assert productIds[..|productIds|] == productIds;
  }

  /** The loop of `generate_batch`: every product attempted in input
      order, one failure not stopping the rest. */
  method RunBatch(db: Database, templateId: int, productIds: seq<int>, userId: int, campaignId: Option<int>,
                  now: int, env: Env, svc: Services, ghost w: World,
                  ghost outcome: int -> Result<Rendition>, ghost recorded: int -> bool)
    returns (results: seq<PosterResult>, errors: seq<BatchError>)
    requires db.Valid() && w == World(db.templates, db.products, db.campaigns, userId in db.users)
    requires outcome == Outcomes(w, templateId, userId, campaignId, env, svc) && recorded == Recorder(svc, templateId)
    modifies db
    ensures db.Valid()
    ensures errors == Failures(outcome, productIds) && Reports(results, Successes(outcome, productIds))
    ensures db.posters == old(db.posters) + BatchRows(outcome, recorded, productIds, old(db.nextId), userId, campaignId, templateId, now)
    ensures db.nextId == old(db.nextId) + BatchCount(outcome, recorded, productIds)
    ensures db.users == UsersAfter(old(db.users), userId, |results|)
    ensures db.templates == old(db.templates) && db.products == old(db.products) && db.campaigns == old(db.campaigns)
    ensures db.plans == old(db.plans) && db.resets == old(db.resets)
  {
    ghost var posters0, users0, start := db.posters, db.users, db.nextId;
    results, errors := [], [];
    BatchStart(posters0, users0, start, outcome, recorded, productIds, userId, campaignId, templateId, now);
    for i := 0 to |productIds|
      invariant db.Valid() && w == World(db.templates, db.products, db.campaigns, userId in db.users)
      invariant db.plans == old(db.plans) && db.resets == old(db.resets)
      invariant var sofar := BatchSoFar(db.posters, db.nextId, db.users, results, errors, posters0, users0, start,
                                        outcome, recorded, productIds, i, userId, campaignId, templateId, now);
                sofar
    {
      ghost var a := outcome(productIds[i]);
      ghost var rec := recorded(productIds[i]);
      assert a == AttemptIn(w, templateId, productIds[i], userId, campaignId, env, svc);
      assert rec == svc.failureRecorded(productIds[i], templateId);
      ghost var posters, nextId, users := db.posters, db.nextId, db.users;
      var r := BatchItem(db, templateId, productIds[i], userId, campaignId, now, env, svc, w, a, rec);
      var results', errors' := results, errors;
      if r.Ok? {
        results' := results + [r.value];
      } else {
        errors' := errors + [BatchError(productIds[i], r.error)];
      }
      BatchAdvance(posters, nextId, users, db.posters, db.nextId, db.users, results, errors, r, results', errors',
                   posters0, users0, start, outcome, recorded, productIds, i, userId, campaignId, templateId, now, a, rec);
      results, errors := results', errors';
    }
    BatchDone(db.posters, db.nextId, db.users, results, errors, posters0, users0, start,
              outcome, recorded, productIds, userId, campaignId, templateId, now);
  }

  /** `generate_batch`: the summary of the batch loop. */
  method GenerateBatch(db: Database, templateId: int, productIds: seq<int>, userId: int, campaignId: Option<int>,
                       now: int, env: Env, svc: Services)
    returns (s: BatchSummary)
    requires db.Valid()
    modifies db
    ensures db.Valid()
    ensures s.total == |productIds| && s.successful == |s.results| && s.failed == |s.errors|
    ensures s.successful + s.failed == s.total
    ensures var w := World(old(db.templates), old(db.products), old(db.campaigns), userId in old(db.users));
            s.errors == Failures(Outcomes(w, templateId, userId, campaignId, env, svc), productIds)
            && Reports(s.results, Successes(Outcomes(w, templateId, userId, campaignId, env, svc), productIds))
    // the rows written: one per success and one per recorded failure, in
    // input order under fresh consecutive keys
    ensures var w := World(old(db.templates), old(db.products), old(db.campaigns), userId in old(db.users));
            var outcome, recorded := Outcomes(w, templateId, userId, campaignId, env, svc), Recorder(svc, templateId);
            db.posters == old(db.posters) + BatchRows(outcome, recorded, productIds, old(db.nextId), userId, campaignId, templateId, now)
            && db.nextId == old(db.nextId) + BatchCount(outcome, recorded, productIds)
    ensures db.nextId == old(db.nextId) + s.successful + RecordedCount(s.errors, Recorder(svc, templateId))
    // the user's counter rises by the number of successes; nothing else changes
    ensures db.users == UsersAfter(old(db.users), userId, s.successful)
    ensures db.templates == old(db.templates) && db.products == old(db.products) && db.campaigns == old(db.campaigns)
    ensures db.plans == old(db.plans) && db.resets == old(db.resets)
  {
    ghost var w := World(db.templates, db.products, db.campaigns, userId in db.users);
    ghost var outcome := Outcomes(w, templateId, userId, campaignId, env, svc);
    ghost var recorded := Recorder(svc, templateId);
    var results, errors := RunBatch(db, templateId, productIds, userId, campaignId, now, env, svc, w, outcome, recorded);
    EveryItemCounted(outcome, productIds);
    BatchCountSplit(outcome, recorded, productIds);
    s := BatchSummary(|productIds|, |results|, |errors|, results, errors);
  }
}

=== FILE: responses.dfy ===
/** The JSON envelopes every route answers with
    (backend/app/utils/responses.py). */
module Responses {
  import opened Json

  /** A Flask response: the JSON body and the HTTP status. */
  datatype Response = Response(body: Json, status: int)

  /** `success_response(data, message, status)`; `JNull` stands for `None`.
      The defaults are `data=None`, `message=None`, `status=200`. */
  function SuccessResponse(data: Json, message: Json, status: int): (r: Response)
    ensures r.status == status && r.body.JObj?
    ensures "success" in r.body.fields && r.body.fields["success"] == JBool(true)
    ensures "message" in r.body.fields <==> Truthy(message)
    ensures "data" in r.body.fields <==> !data.JNull?
    ensures r.body.fields.Keys <= {"success", "message", "data"}
    // reading the envelope back gives what was put in
    ensures Get(r.body.fields, "data", JNull) == data
    ensures Truthy(message) ==> Get(r.body.fields, "message", JNull) == message
  {
    var withMessage := if Truthy(message) then map["success" := JBool(true), "message" := message]
                       else map["success" := JBool(true)];
    var fields := if !data.JNull? then withMessage["data" := data] else withMessage;
    Response(JObj(fields), status)
  }

  /** `created_response(data, message)`: a success with status 201. */
  function CreatedResponse(data: Json, message: Json): (r: Response)
    ensures r.status == 201
    ensures r.body.JObj? && "success" in r.body.fields && r.body.fields["success"] == JBool(true)
    ensures Get(r.body.fields, "data", JNull) == data
  {
    SuccessResponse(data, message, 201)
  }

  /** `error_response(message, status, errors)`; the default status is 400
      and `errors` defaults to `None`. */
  function ErrorResponse(message: Json, status: int, errors: Json): (r: Response)
    ensures r.status == status && r.body.JObj?
    ensures "success" in r.body.fields && r.body.fields["success"] == JBool(false)
    ensures "error" in r.body.fields && r.body.fields["error"] == message
    ensures "errors" in r.body.fields <==> Truthy(errors)
    ensures Truthy(errors) ==> r.body.fields["errors"] == errors
    ensures r.body.fields.Keys <= {"success", "error", "errors"}
  {
    var base := map["success" := JBool(false), "error" := message];
    Response(JObj(if Truthy(errors) then base["errors" := errors] else base), status)
  }

  /** `no_content_response()`: an empty body with status 204. */
  function NoContentResponse(): (r: Response)
    ensures r.status == 204 && r.body == JStr("")
  {
    Response(JStr(""), 204)
  }

  /** A success envelope and an error envelope are never confused: their
      `success` fields differ. */
  lemma EnvelopesDiffer(data: Json, message: Json, status: int, error: Json, errors: Json, status2: int)
    ensures SuccessResponse(data, message, status).body != ErrorResponse(error, status2, errors).body
  {
    var s := SuccessResponse(data, message, status).body.fields;
    var e := ErrorResponse(error, status2, errors).body.fields;
    assert s["success"] != e["success"];
  }
}

=== FILE: s3_storage.dfy ===
/** The S3 file store of backend/app/infrastructure/storage/s3_storage.py:
    object keys and public URLs built from the folder, a fresh UUID and
    the upload's extension, the key read back out of a URL on delete, and
    the client and bucket set up lazily on first use. The AWS calls are
    oracles: `put` and `remove` answer whether the call succeeded. */
module S3Storage {
  import opened Wrappers
  import opened Strings

  /** The application settings the store reads. */
  datatype AwsConfig = AwsConfig(accessKeyId: string, secretAccessKey: string, region: string, bucket: string)

  /** A boto3 client, by the settings it was made with. */
  datatype S3Client = S3Client(accessKeyId: string, secretAccessKey: string, region: string)

  /** The key of an upload: `{folder}/{uuid}{ext}`. */
  function ObjectKey(folder: string, uuid: string, filename: string): (k: string)
    ensures k == folder + "/" + uuid + SplitExt(filename).1
    ensures StartsWith(k, folder + "/")
  {
    var k := folder + "/" + uuid + SplitExt(filename).1;
    assert k[..|folder + "/"|] == folder + "/";
    k
  }

  /** The host part of a public URL, which `delete_file` splits on. */
  function Marker(bucket: string, region: string): string {
    bucket + ".s3." + region + ".amazonaws.com/"
  }

  /** The public URL of a key. */
  function PublicUrl(bucket: string, region: string, key: string): string {
    "https://" + Marker(bucket, region) + key
  }

  /** `url.split(marker)[1]`: the text between the first and the second
      occurrence of the marker, or none when it does not occur. */
  function ExtractKey(url: string, marker: string): (r: Option<string>)
    requires marker != []
    ensures r.None? <==> !Contains(url, marker)
  {
    var parts := Split(url, marker);
    assert Find(url, marker, 0) != -1 ==> OccursAt(url, marker, Find(url, marker, 0));
    if |parts| < 2 then None else Some(parts[1])
  }

  /** The only `/` of a marker is its last character when bucket and
      region have none. */
  lemma MarkerSlash(bucket: string, region: string)
    requires '/' !in bucket && '/' !in region
    ensures |Marker(bucket, region)| >= 19
    ensures forall t :: 0 <= t < |Marker(bucket, region)| - 1 ==> Marker(bucket, region)[t] != '/'
  {
    var m := Marker(bucket, region);
    forall t | 0 <= t < |m| - 1
      ensures m[t] != '/'
    {
      if t < |bucket| {
        assert m[t] == bucket[t];
      } else if t < |bucket| + 4 {
      } else if t < |bucket| + 4 + |region| {
        assert m[t] == region[t - |bucket| - 4];
      }
    }
  }

  /** The URL of a key holds the marker first right after `https://`. */
  lemma FirstMarkerAfterScheme(bucket: string, region: string, key: string)
    requires '/' !in bucket && '/' !in region
    ensures Find(PublicUrl(bucket, region, key), Marker(bucket, region), 0) == 8
  {
    var m := Marker(bucket, region);
    var url := PublicUrl(bucket, region, key);
    MarkerSlash(bucket, region);
    assert url[8..8 + |m|] == m;
    assert OccursAt(url, m, 8);
    assert url[7] == '/';
    forall j | 0 <= j < 8
      ensures !OccursAt(url, m, j)
    {
      assert url[j..j + |m|][7 - j] == '/';
      assert m[7 - j] != '/';
    }
  }

  /** Reading the key back out of its URL gives the key, when bucket and
      region are free of `/` and the key does not hold the marker. */
  lemma KeyRoundTrip(bucket: string, region: string, key: string)
    requires '/' !in bucket && '/' !in region && !Contains(key, Marker(bucket, region))
    ensures ExtractKey(PublicUrl(bucket, region, key), Marker(bucket, region)) == Some(key)
  {
    var m := Marker(bucket, region);
    var url := PublicUrl(bucket, region, key);
    FirstMarkerAfterScheme(bucket, region, key);
    assert url[8 + |m|..] == key;
    SplitAbsent(key, m);
    assert Split(url, m) == [url[..8]] + Split(key, m);
  }

  /** A URL without the marker yields no key. */
  lemma NoMarkerNoKey(url: string, marker: string)
    requires marker != [] && !Contains(url, marker)
    ensures ExtractKey(url, marker) == None
  {
  }

  /** The bucket as an f-string shows it: `None` before the client is made. */
  function BucketText(bucket: Option<string>): (t: string)
    ensures bucket.None? ==> t == "None"
    ensures bucket.Some? ==> t == bucket.value
  {
    if bucket.Some? then bucket.value else "None"
  }

  /** What `delete_file` answers, for the bucket the store holds when it
      is called: the key is read with that bucket's text in the marker,
      and only then is the client made. */
  function DeleteResult(bucket: Option<string>, cfg: AwsConfig, url: string,
                        remove: (string, string) -> bool): bool
  {
    var key := ExtractKey(url, Marker(BucketText(bucket), cfg.region));
    key.Some? && remove(if bucket.Some? then bucket.value else cfg.bucket, key.value)
  }

  /** What `delete_file` answers when the client is made before the key
      is read: the marker names the bucket the client uses. */
  function DeleteResultAfterSetup(bucket: Option<string>, cfg: AwsConfig, url: string,
                                  remove: (string, string) -> bool): bool
  {
    var b := if bucket.Some? then bucket.value else cfg.bucket;
    var key := ExtractKey(url, Marker(b, cfg.region));
    key.Some? && remove(b, key.value)
  }

  class S3Storage {
    var client: Option<S3Client>
    var bucket: Option<string>

    /** Client and bucket are set together. */
    predicate Valid()
      reads this
    {
      client.Some? <==> bucket.Some?
    }

    constructor ()
      ensures Valid() && client.None? && bucket.None?
    {
      client := None;
      bucket := None;
    }

    /** `_get_client`: made from the settings on first use, the same one
        afterwards. */
    method GetClient(cfg: AwsConfig) returns (c: S3Client)
      requires Valid()
      modifies this
      ensures Valid() && client == Some(c)
      ensures old(client).Some? ==> client == old(client) && bucket == old(bucket)
      ensures old(client).None? ==> c == S3Client(cfg.accessKeyId, cfg.secretAccessKey, cfg.region)
                                    && bucket == Some(cfg.bucket)
    {
      if client.None? {
        client := Some(S3Client(cfg.accessKeyId, cfg.secretAccessKey, cfg.region));
        bucket := Some(cfg.bucket);
      }
      c := client.value;
    }

    /** `upload_file`: the object goes under `{folder}/{uuid}{ext}`; a
        failed upload answers None, a stored one its public URL. */
    method UploadFile(filename: string, folder: string, uuid: string, cfg: AwsConfig,
                      put: (string, string) -> bool)
      returns (url: Option<string>)
      requires Valid()
      modifies this
      ensures Valid() && bucket.Some?
      ensures old(bucket).Some? ==> bucket == old(bucket)
      ensures old(bucket).None? ==> bucket == Some(cfg.bucket)
      ensures url.Some? <==> put(bucket.value, ObjectKey(folder, uuid, filename))
      ensures url.Some? ==> url.value == PublicUrl(bucket.value, cfg.region, ObjectKey(folder, uuid, filename))
    {
      var key := ObjectKey(folder, uuid, filename);
      var _ := GetClient(cfg);
      if !put(bucket.value, key) {
        return None;
      }
      url := Some(PublicUrl(bucket.value, cfg.region, key));
    }

    /** `delete_file`: the key is read before the client is made, so on a
        fresh store the marker names the bucket `None`; a URL without the
        marker fails before the client is touched. */
    method DeleteFile(url: string, cfg: AwsConfig, remove: (string, string) -> bool) returns (ok: bool)
      requires Valid()
      modifies this
      ensures Valid()
      ensures ok == DeleteResult(old(bucket), cfg, url, remove)
      ensures ExtractKey(url, Marker(BucketText(old(bucket)), cfg.region)).None? ==>
                client == old(client) && bucket == old(bucket)
    {
      var key := ExtractKey(url, Marker(BucketText(bucket), cfg.region));
      if key.None? {
        return false;
      }
      var _ := GetClient(cfg);
      ok := remove(bucket.value, key.value);
    }

    /** `delete_file` with the client made before the key is read: the
        marker then always names the configured bucket. */
    method DeleteFileAfterSetup(url: string, cfg: AwsConfig, remove: (string, string) -> bool) returns (ok: bool)
      requires Valid()
      modifies this
      ensures Valid() && bucket.Some?
      ensures old(bucket).Some? ==> bucket == old(bucket)
      ensures old(bucket).None? ==> bucket == Some(cfg.bucket)
      ensures ok == DeleteResultAfterSetup(old(bucket), cfg, url, remove)
    {
      var _ := GetClient(cfg);
      var key := ExtractKey(url, Marker(bucket.value, cfg.region));
      ok := key.Some? && remove(bucket.value, key.value);
    }
  }

  /** None of the characters of `s` is `c`. */
  predicate Lacks(s: string, c: char) {
    forall k :: 0 <= k < |s| ==> s[k] != c
  }

  /** On a fresh store, `delete_file` fails for the URL of any key of a
      bucket whose names hold no capital `N` (S3 bucket names are lower
      case): the marker it looks for starts with `None`. */
  lemma FreshStoreCannotDelete(cfg: AwsConfig, key: string, remove: (string, string) -> bool)
    requires Lacks(cfg.bucket, 'N') && Lacks(cfg.region, 'N') && Lacks(key, 'N')
    ensures !DeleteResult(None, cfg, PublicUrl(cfg.bucket, cfg.region, key), remove)
  {
    var url := PublicUrl(cfg.bucket, cfg.region, key);
    var m := Marker("None", cfg.region);
    forall k | 0 <= k < |url|
      ensures url[k] != 'N'
    {
      var b := |cfg.bucket|;
      var r := |cfg.region|;
      if 8 <= k < 8 + b {
        assert url[k] == cfg.bucket[k - 8];
      } else if 8 + b + 4 <= k < 8 + b + 4 + r {
        assert url[k] == cfg.region[k - 8 - b - 4];
      } else if 8 + b + 4 + r + 15 <= k {
        assert url[k] == key[k - 8 - b - 4 - r - 15];
      }
    }
    forall j | 0 <= j <= |url|
      ensures !OccursAt(url, m, j)
    {
      assert j + |m| <= |url| ==> url[j..j + |m|][0] == url[j];
    }
  }

  /** With the client made first, the URL `upload_file` answers for a key
      deletes that key, whether or not the store was fresh. */
  lemma UploadThenDelete(bucket: Option<string>, cfg: AwsConfig, key: string,
                         remove: (string, string) -> bool)
    requires var b := if bucket.Some? then bucket.value else cfg.bucket;
             '/' !in b && '/' !in cfg.region && !Contains(key, Marker(b, cfg.region))
    ensures var b := if bucket.Some? then bucket.value else cfg.bucket;
            DeleteResultAfterSetup(bucket, cfg, PublicUrl(b, cfg.region, key), remove) == remove(b, key)
  {
    var b := if bucket.Some? then bucket.value else cfg.bucket;
    KeyRoundTrip(b, cfg.region, key);
  }
}

=== FILE: strings.dfy ===
/** Python's `str` operations that the backend relies on, over `seq<char>`:
    `split`, `join`, `strip`, `lower`, `startswith`, `os.path.splitext`
    and the decimal text of an integer. */
module Strings {

  function DigitChar(d: int): char
    requires 0 <= d <= 9
  {
    "0123456789"[d]
  }

  /** `str(i)` for an integer. */
  function IntText(i: int): string
    decreases if i < 0 then 1 - i else i
  {
    if i < 0 then "-" + IntText(-i)
    else if i < 10 then [DigitChar(i)]
    else IntText(i / 10) + [DigitChar(i % 10)]
  }

  /** The whitespace that `str.split()` and `str.strip()` remove (the ASCII
      and Latin-1 part of Python's set). */
  predicate IsSpace(c: char) {
    c == ' ' || c == '\t' || c == '\n' || c == '\r' || c == '\U{0B}' || c == '\U{0C}'
    || c == '\U{1C}' || c == '\U{1D}' || c == '\U{1E}' || c == '\U{1F}'
    || c == '\U{85}' || c == '\U{A0}'
  }

  predicate IsDigit(c: char) { '0' <= c <= '9' }

  /** `c.isalnum()` restricted to ASCII letters and digits. */
  predicate IsAlnum(c: char) { IsDigit(c) || 'a' <= c <= 'z' || 'A' <= c <= 'Z' }

  /** `s.lower()` on ASCII letters. */
  function Lower(s: string): (r: string)
    ensures |r| == |s|
    ensures forall i :: 0 <= i < |s| && !('A' <= s[i] <= 'Z') ==> r[i] == s[i]
  {
    if s == [] then []
    else
      var c := s[0];
      [if 'A' <= c <= 'Z' then (c as int + 32) as char else c] + Lower(s[1..])
  }

  function StripStart(s: string): (r: string)
    ensures |r| <= |s| && r == s[|s| - |r|..]
    ensures r != [] ==> !IsSpace(r[0])
  {
    if s != [] && IsSpace(s[0]) then StripStart(s[1..]) else s
  }

  function StripEnd(s: string): (r: string)
    ensures |r| <= |s| && r == s[..|r|]
    ensures r != [] ==> !IsSpace(r[|r| - 1])
  {
    if s != [] && IsSpace(s[|s| - 1]) then StripEnd(s[..|s| - 1]) else s
  }

  /** `s.strip()`. */
  function Strip(s: string): (r: string)
    ensures |r| <= |s|
    ensures r != [] ==> !IsSpace(r[0]) && !IsSpace(r[|r| - 1])
  {
    StripEnd(StripStart(s))
  }

  predicate StartsWith(s: string, prefix: string) {
    |prefix| <= |s| && s[..|prefix|] == prefix
  }

  /** `sep` occurs in `s` at index `j`. */
  predicate OccursAt(s: string, sep: string, j: int) {
    0 <= j && j + |sep| <= |s| && s[j..j + |sep|] == sep
  }

  /** `sep in s`. */
  predicate Contains(s: string, sep: string) {
    exists j :: 0 <= j <= |s| && OccursAt(s, sep, j)
  }

  /** `s.find(sep, start)`: the first occurrence at or after `start`, or -1. */
  function Find(s: string, sep: string, start: nat): (i: int)
    decreases |s| - start
    ensures i == -1 || (start <= i && OccursAt(s, sep, i))
    ensures i != -1 ==> forall j :: start <= j < i ==> !OccursAt(s, sep, j)
    ensures i == -1 ==> forall j :: start <= j ==> !OccursAt(s, sep, j)
  {
    if start + |sep| > |s| then -1
    else if s[start..start + |sep|] == sep then start
    else Find(s, sep, start + 1)
  }

  /** `s.split(sep)` for a non-empty separator. */
  function Split(s: string, sep: string): (parts: seq<string>)
    requires sep != []
    ensures |parts| >= 1
    decreases |s|
  {
    var i := Find(s, sep, 0);
    if i < 0 then [s] else [s[..i]] + Split(s[i + |sep|..], sep)
  }

  /** `sep.join(parts)`. */
  function Join(parts: seq<string>, sep: string): string {
    if parts == [] then ""
    else if |parts| == 1 then parts[0]
    else parts[0] + sep + Join(parts[1..], sep)
  }

  /** Length of the leading run of non-whitespace characters. */
  function WordLength(s: string): (n: nat)
    ensures n <= |s|
    ensures forall k :: 0 <= k < n ==> !IsSpace(s[k])
    ensures n < |s| ==> IsSpace(s[n])
  {
    if s == [] || IsSpace(s[0]) then 0 else 1 + WordLength(s[1..])
  }

  /** `s.split()`: the maximal runs of non-whitespace characters. */
  function Words(s: string): (ws: seq<string>)
    ensures forall k :: 0 <= k < |ws| ==> ws[k] != []
    decreases |s|
  {
    if s == [] then []
    else if IsSpace(s[0]) then Words(s[1..])
    else
      var n := WordLength(s);
      [s[..n]] + Words(s[n..])
  }

  /** `s.rfind(c)`. */
  function RFind(s: string, c: char): (i: int)
    ensures -1 <= i < |s|
    ensures i >= 0 ==> s[i] == c && forall k :: i < k < |s| ==> s[k] != c
    ensures i == -1 ==> forall k :: 0 <= k < |s| ==> s[k] != c
  {
    if s == [] then -1
    else if s[|s| - 1] == c then |s| - 1
    else RFind(s[..|s| - 1], c)
  }

  /** `os.path.splitext(p)` (POSIX): the extension starts at the last dot of
      the last path component, unless that component is only dots up to it. */
  function SplitExt(p: string): (r: (string, string))
    ensures r.0 + r.1 == p
    ensures r.1 == [] || r.1[0] == '.'
    ensures forall k :: 0 <= k < |r.1| ==> r.1[k] != '/'
  {
    var sepIndex := RFind(p, '/');
    var dotIndex := RFind(p, '.');
    if dotIndex > sepIndex && exists k :: sepIndex + 1 <= k < dotIndex && p[k] != '.' then
      assert p[..dotIndex] + p[dotIndex..] == p;
      (p[..dotIndex], p[dotIndex..])
    else (p, "")
  }

  // ---- lemmas about splitting and joining ----

  lemma {:induction false} JoinAppend(xs: seq<string>, ys: seq<string>, sep: string)
    requires xs != [] && ys != []
    ensures Join(xs + ys, sep) == Join(xs, sep) + sep + Join(ys, sep)
  {
    if |xs| == 1 {
      assert (xs + ys)[1..] == ys;
    } else {
      assert (xs + ys)[1..] == xs[1..] + ys;
      JoinAppend(xs[1..], ys, sep);
    }
  }

  /** Splitting on a separator that does not occur yields the string itself. */
  lemma SplitAbsent(s: string, sep: string)
    requires sep != [] && !Contains(s, sep)
    ensures Split(s, sep) == [s]
  {
    var i := Find(s, sep, 0);
    assert i != -1 ==> 0 <= i <= |s| && OccursAt(s, sep, i);
  }

  /** A string none of whose characters is `c` does not contain `[c]`. */
  lemma AbsentChar(s: string, c: char)
    requires forall k :: 0 <= k < |s| ==> s[k] != c
    ensures !Contains(s, [c])
  {
    forall j | 0 <= j <= |s| ensures !OccursAt(s, [c], j) {
      if j < |s| {
        assert s[j..j + 1] == [s[j]];
      }
    }
  }

  /** The first place `sep` occurs is what `find` answers. */
  lemma FirstOccurrence(s: string, sep: string, i: nat)
    requires OccursAt(s, sep, i) && forall k :: 0 <= k < i ==> !OccursAt(s, sep, k)
    ensures Find(s, sep, 0) == i
  {
  }

  /** When `a` lacks `c`, the first `c` of `a + [c] + b` is the one after `a`. */
  lemma FindAfterPrefix(a: string, c: char, b: string)
    requires Find(a, [c], 0) < 0
    ensures Find(a + [c] + b, [c], 0) == |a|
  {
    var s := a + [c] + b;
    assert OccursAt(s, [c], |a|);
    forall k | 0 <= k < |a| ensures !OccursAt(s, [c], k) {
      assert !OccursAt(a, [c], k);
      assert s[k] == a[k];
    }
    FirstOccurrence(s, [c], |a|);
  }

  /** When `a` holds `c`, the first `c` of `a + [c] + b` is the first of `a`. */
  lemma FindInPrefix(a: string, c: char, b: string)
    requires Find(a, [c], 0) >= 0
    ensures Find(a + [c] + b, [c], 0) == Find(a, [c], 0)
  {
    var s := a + [c] + b;
    var i := Find(a, [c], 0);
    assert OccursAt(s, [c], i) by {
      assert a[i..i + 1] == [a[i]] && s[i..i + 1] == [s[i]] && s[i] == a[i];
    }
    forall k | 0 <= k < i ensures !OccursAt(s, [c], k) {
      assert !OccursAt(a, [c], k);
      assert a[k..k + 1] == [a[k]] && s[k..k + 1] == [s[k]] && s[k] == a[k];
    }
    FirstOccurrence(s, [c], i);
  }

  /** Splitting on one character distributes over a join with it. */
  lemma {:induction false} SplitConcat(a: string, c: char, b: string)
    ensures Split(a + [c] + b, [c]) == Split(a, [c]) + Split(b, [c])
    decreases |a|
  {
    var s := a + [c] + b;
    var i := Find(a, [c], 0);
    if i < 0 {
      FindAfterPrefix(a, c, b);
      assert s[..|a|] == a;
      assert s[|a| + 1..] == b;
    } else {
      FindInPrefix(a, c, b);
      assert s[..i] == a[..i];
      assert s[i + 1..] == a[i + 1..] + [c] + b;
      SplitConcat(a[i + 1..], c, b);
    }
  }

  /** Joining the pieces of a split restores the string. */
  lemma {:induction false} JoinSplit(s: string, sep: string)
    requires sep != []
    ensures Join(Split(s, sep), sep) == s
    decreases |s|
  {
    var i := Find(s, sep, 0);
    if i >= 0 {
      var rest := s[i + |sep|..];
      var parts := Split(rest, sep);
      assert Split(s, sep) == [s[..i]] + parts;
      JoinSplit(rest, sep);
      assert ([s[..i]] + parts)[1..] == parts;
      assert Join([s[..i]] + parts, sep) == s[..i] + sep + Join(parts, sep);
      assert s == s[..i] + sep + rest;
    }
  }
}

=== FILE: template_service.dfy ===
/** The template store (backend/app/core/templates/template_service.py):
    the templates table of the `Database`. System templates (no owner)
    are visible to everyone and can be neither edited nor deleted; a
    user's own templates are visible to that user only. */
module TemplateService {
  import opened Wrappers
  import opened Json
  import opened Strings
  import opened Builtins
  import opened Models
  import opened Listing
  import TemplateValidators

  /** The formats a template may have. */
  predicate KnownFormat(v: Json) {
    v == JStr("square") || v == JStr("story") || v == JStr("a4")
  }

  /** A user may use a template: a system one, or one of their own. */
  predicate Accessible(t: Template, userId: int) {
    t.isSystem || t.userId == Some(userId)
  }

  /** `get_template`. */
  function GetTemplate(templates: map<int, Template>, id: int, userId: int): (r: Result<Template>)
    ensures id !in templates ==> r == Err("Template not found")
    ensures id in templates && !Accessible(templates[id], userId) ==> r == Err("Unauthorized access to template")
    ensures r.Ok? <==> id in templates && Accessible(templates[id], userId)
    ensures r.Ok? ==> r.value == templates[id]
  {
    if id !in templates then Err("Template not found")
    else if !templates[id].isSystem && templates[id].userId != Some(userId) then Err("Unauthorized access to template")
    else Ok(templates[id])
  }

  /** The template `create_template` builds, or the error it raises first. */
  function NewTemplate(id: int, userId: int, now: int, data: Config): (r: Result<Template>)
    ensures !Truthy(Get(data, "name", JNull)) ==> r == Err("Template name is required")
    ensures Truthy(Get(data, "name", JNull)) && !Truthy(Get(data, "format", JNull)) ==>
              r == Err("Template format is required")
    ensures r.Ok? ==> r.value.userId == Some(userId) && !r.value.isSystem && r.value.isActive
    ensures r.Ok? ==> r.value.id == id && r.value.createdAt == now
    ensures r.Ok? ==> "name" in data && data["name"].JStr? && r.value.name == Strip(data["name"].s)
    ensures r.Ok? ==> "format" in data && KnownFormat(data["format"]) && r.value.format == data["format"].s
    ensures r.Ok? ==> "json_definition" in data && r.value.definition.JObj? && r.value.definition == data["json_definition"]
    ensures r.Ok? ==> "canvas" in r.value.definition.fields && "layers" in r.value.definition.fields
    ensures r.Ok? ==> r.value.backgroundUrl == Get(data, "background_url", JNull)
                      && r.value.previewUrl == Get(data, "preview_url", JNull)
  {
    var name := Get(data, "name", JNull);
    var format := Get(data, "format", JNull);
    var def := Get(data, "json_definition", JNull);
    if !Truthy(name) then Err("Template name is required")
    else if !Truthy(format) then Err("Template format is required")
    else if !KnownFormat(format) then Err("Invalid format. Must be: square, story, or a4")
    else if !Truthy(def) then Err("Template definition is required")
    else if !def.JObj? then Err("Template definition must be a valid JSON object")
    else if "canvas" !in def.fields || "layers" !in def.fields then Err("Template must have canvas and layers")
    else match StripValue(name)
      case Err(e) => Err(e)
      case Ok(stripped) =>
        Ok(Template(id, Some(userId), stripped, format.s, Get(data, "background_url", JNull), def,
                    Get(data, "preview_url", JNull), false, true, now))
  }

  /** Data the validator accepts always makes a template: the service's
      own checks are weaker. */
  lemma ValidatedDataCreates(id: int, userId: int, now: int, data: Config)
    requires TemplateValidators.CreateAcceptable(data)
    ensures NewTemplate(id, userId, now, data).Ok?
  {
    var name := data["name"];
    assert |name.s| >= 2;
    var def := data["json_definition"];
    assert "canvas" in def.fields;
  }

  /** Whether the templates table takes the template `t` (template.py:12-18):
      each text within its `String(n)` column (`name` 200, `format` 50,
      `background_url` and `preview_url` 500) and URLs the driver can
      send. */
  predicate Storable(t: Template) {
    TextFits(t.name, 200) && TextFits(t.format, 50) && JsonFits(t.backgroundUrl, 500)
    && JsonFits(t.previewUrl, 500)
  }

  /** The error the INSERT of `t` raises, if any: the driver refuses a URL
      it cannot send before the statement leaves, and the database then
      checks the text columns in table order. */
  function InsertError(t: Template): (e: Option<string>)
    ensures e.None? <==> Storable(t)
    ensures t.backgroundUrl.JObj? ==> e == Some(CannotAdapt(t.backgroundUrl))
    ensures !t.backgroundUrl.JObj? && t.previewUrl.JObj? ==> e == Some(CannotAdapt(t.previewUrl))
    ensures e.Some? && !t.backgroundUrl.JObj? && !t.previewUrl.JObj? ==>
              e == Some(TooLong(200)) || e == Some(TooLong(50)) || e == Some(TooLong(500))
  {
    if t.backgroundUrl.JObj? then Some(CannotAdapt(t.backgroundUrl))
    else if t.previewUrl.JObj? then Some(CannotAdapt(t.previewUrl))
    else if !TextFits(t.name, 200) then Some(TooLong(200))
    else if !TextFits(t.format, 50) then Some(TooLong(50))
    else if LengthError(t.backgroundUrl, 500).Some? then LengthError(t.backgroundUrl, 500)
    else LengthError(t.previewUrl, 500)
  }

  /** The commit of a new template. */
  function Committed(made: Result<Template>): (r: Result<Template>)
    ensures made.Err? ==> r == made
    ensures made.Ok? ==> (r.Ok? <==> Storable(made.value))
    ensures r.Ok? ==> r == made
    ensures r.Err? && made.Ok? ==> r.error == InsertError(made.value).value
  {
    if made.Err? then made
    else match InsertError(made.value)
      case Some(e) => Err(e)
      case None => made
  }

  /** The validator does not bound the name, so accepted data whose name
      is longer than its column once stripped builds a template the commit
      refuses. */
  lemma LongNameReachesCommit(id: int, userId: int, now: int, data: Config)
    requires TemplateValidators.CreateAcceptable(data) && |Strip(data["name"].s)| > 200
    ensures NewTemplate(id, userId, now, data).Ok?
    ensures !Storable(NewTemplate(id, userId, now, data).value)
  {
    ValidatedDataCreates(id, userId, now, data);
    var name := Strip(data["name"].s);
    assert name[|name| - 1] != ' ';
  }

  /** Every system template stays exactly as it was. */
  ghost predicate SystemKept(before: map<int, Template>, after: map<int, Template>) {
    forall k :: k in before && before[k].isSystem ==> k in after && after[k] == before[k]
  }

  /** `create_template`: the new template is stored under a fresh id. */
  method CreateTemplate(db: Database, user: User, data: Config, now: int) returns (r: Result<Template>)
    requires db.Valid()
    modifies db
    ensures db.Valid()
    ensures r == Committed(NewTemplate(old(db.nextId), user.id, now, data))
    ensures r.Ok? ==> r.value.id !in old(db.templates) && db.templates == old(db.templates)[r.value.id := r.value]
    ensures r.Err? ==> db.templates == old(db.templates) && db.nextId == old(db.nextId)
    ensures SystemKept(old(db.templates), db.templates)
    ensures db.users == old(db.users) && db.plans == old(db.plans) && db.products == old(db.products)
    ensures db.posters == old(db.posters) && db.campaigns == old(db.campaigns) && db.resets == old(db.resets)
  {
    r := Committed(NewTemplate(db.nextId, user.id, now, data));
    if r.Ok? {
      var id := db.NewId();
      db.templates := db.templates[id := r.value];
    }
  }

  /** The template `update_template` builds, or the error it raises before
      the commit. */
  function Edited(templates: map<int, Template>, id: int, userId: int, data: Config): (r: Result<Template>)
    ensures GetTemplate(templates, id, userId).Err? ==> r == GetTemplate(templates, id, userId)
    ensures id in templates && Accessible(templates[id], userId) && templates[id].isSystem ==>
              r == Err("Cannot edit system templates")
    // only the owner gets to change a template
    ensures r.Ok? ==> id in templates && templates[id].userId == Some(userId) && !templates[id].isSystem
    ensures r.Ok? ==> r.value.id == templates[id].id && r.value.userId == templates[id].userId
                      && r.value.isSystem == templates[id].isSystem && r.value.isActive == templates[id].isActive
                      && r.value.createdAt == templates[id].createdAt
    ensures r.Ok? ==> ("name" !in data ==> r.value.name == templates[id].name)
                      && ("format" !in data ==> r.value.format == templates[id].format)
                      && ("background_url" !in data ==> r.value.backgroundUrl == templates[id].backgroundUrl)
                      && ("json_definition" !in data ==> r.value.definition == templates[id].definition)
                      && ("preview_url" !in data ==> r.value.previewUrl == templates[id].previewUrl)
    // it succeeds exactly when the lookup does, the template is not a
    // system one and each present value is acceptable
    ensures r.Ok? <==> GetTemplate(templates, id, userId).Ok? && !templates[id].isSystem
                       && ("name" in data && Truthy(data["name"]) ==> data["name"].JStr?)
                       && ("format" in data ==> KnownFormat(data["format"]))
                       && ("json_definition" in data ==> data["json_definition"].JObj?)
    // what a present key sets; the name changes only for a truthy one
    ensures r.Ok? ==> ("name" in data && Truthy(data["name"]) ==> r.value.name == Strip(data["name"].s))
                      && (("name" !in data || !Truthy(data["name"])) ==> r.value.name == templates[id].name)
                      && ("format" in data ==> r.value.format == data["format"].s)
                      && ("background_url" in data ==> r.value.backgroundUrl == data["background_url"])
                      && ("json_definition" in data ==> r.value.definition == data["json_definition"])
                      && ("preview_url" in data ==> r.value.previewUrl == data["preview_url"])
  {
    match GetTemplate(templates, id, userId)
    case Err(e) => Err(e)
    case Ok(t) =>
      if t.isSystem then Err("Cannot edit system templates") else
      var name := if "name" in data && Truthy(data["name"]) then StripValue(data["name"]) else Ok(t.name);
      if name.Err? then Err(name.error)
      else if "format" in data && !KnownFormat(data["format"]) then Err("Invalid format")
      else
        var format := if "format" in data then data["format"].s else t.format;
        var background := if "background_url" in data then data["background_url"] else t.backgroundUrl;
        if "json_definition" in data && !data["json_definition"].JObj? then
          Err("Template definition must be a valid JSON object")
        else
          var def := if "json_definition" in data then data["json_definition"] else t.definition;
          var preview := if "preview_url" in data then data["preview_url"] else t.previewUrl;
          Ok(t.(name := name.value, format := format, backgroundUrl := background, definition := def,
                previewUrl := preview))
  }

  /** Whether the UPDATE of `t` to `u` goes through: it sends only the
      columns that changed, and each of those must fit. */
  predicate ChangeFits(t: Template, u: Template) {
    (u.name != t.name ==> TextFits(u.name, 200)) && (u.format != t.format ==> TextFits(u.format, 50))
    && (u.backgroundUrl != t.backgroundUrl ==> JsonFits(u.backgroundUrl, 500))
    && (u.previewUrl != t.previewUrl ==> JsonFits(u.previewUrl, 500))
  }

  /** The error the UPDATE of `t` to `u` raises, if any, in the order of
      `InsertError`. */
  function ChangeError(t: Template, u: Template): (e: Option<string>)
    ensures e.None? <==> ChangeFits(t, u)
    ensures u.backgroundUrl != t.backgroundUrl && u.backgroundUrl.JObj? ==> e == Some(CannotAdapt(u.backgroundUrl))
  {
    if u.backgroundUrl != t.backgroundUrl && u.backgroundUrl.JObj? then Some(CannotAdapt(u.backgroundUrl))
    else if u.previewUrl != t.previewUrl && u.previewUrl.JObj? then Some(CannotAdapt(u.previewUrl))
    else if u.name != t.name && !TextFits(u.name, 200) then Some(TooLong(200))
    else if u.format != t.format && !TextFits(u.format, 50) then Some(TooLong(50))
    else if u.backgroundUrl != t.backgroundUrl && LengthError(u.backgroundUrl, 500).Some? then
      LengthError(u.backgroundUrl, 500)
    else if u.previewUrl != t.previewUrl then LengthError(u.previewUrl, 500)
    else None
  }

  /** `update_template`'s answer: the edited template once committed. */
  function Updated(templates: map<int, Template>, id: int, userId: int, data: Config): (r: Result<Template>)
    ensures Edited(templates, id, userId, data).Err? ==> r == Edited(templates, id, userId, data)
    ensures Edited(templates, id, userId, data).Ok? ==>
              (r.Ok? <==> ChangeFits(templates[id], Edited(templates, id, userId, data).value))
    ensures r.Ok? ==> r == Edited(templates, id, userId, data)
    ensures r.Err? && Edited(templates, id, userId, data).Ok? ==>
              r.error == ChangeError(templates[id], Edited(templates, id, userId, data).value).value
  {
    match Edited(templates, id, userId, data)
    case Err(e) => Err(e)
    case Ok(u) =>
      match ChangeError(templates[id], u)
      case Some(e) => Err(e)
      case None => Ok(u)
  }

  /** An update that keeps the name within its column and the URLs as
      text within theirs commits whenever the service's checks pass. */
  lemma FittingUpdateCommits(templates: map<int, Template>, id: int, userId: int, data: Config)
    requires Edited(templates, id, userId, data).Ok?
    requires "name" in data && Truthy(data["name"]) ==> |Strip(data["name"].s)| <= 200
    requires JsonFits(Get(data, "background_url", JNull), 500) && JsonFits(Get(data, "preview_url", JNull), 500)
    ensures Updated(templates, id, userId, data) == Edited(templates, id, userId, data)
  {
    var t, u := templates[id], Edited(templates, id, userId, data).value;
    if u.backgroundUrl != t.backgroundUrl {
      assert u.backgroundUrl == Get(data, "background_url", JNull);
    }
    if u.previewUrl != t.previewUrl {
      assert u.previewUrl == Get(data, "preview_url", JNull);
    }
    assert ChangeFits(t, u);
  }

  /** Past the lookup and the name, a bad format is refused before a
      definition that is not a mapping. */
  lemma UpdateRefusals(templates: map<int, Template>, id: int, userId: int, data: Config)
    requires GetTemplate(templates, id, userId).Ok? && !templates[id].isSystem
    requires "name" in data && Truthy(data["name"]) ==> data["name"].JStr?
    ensures "format" in data && !KnownFormat(data["format"]) ==>
              Edited(templates, id, userId, data) == Err("Invalid format")
    ensures ("format" in data ==> KnownFormat(data["format"]))
            && "json_definition" in data && !data["json_definition"].JObj? ==>
              Edited(templates, id, userId, data) == Err("Template definition must be a valid JSON object")
  {
  }

  /** `update_template`: the owner's template takes the new values. */
  method UpdateTemplate(db: Database, id: int, user: User, data: Config) returns (r: Result<Template>)
    modifies db
    ensures r == Updated(old(db.templates), id, user.id, data)
    ensures r.Ok? ==> db.templates == old(db.templates)[id := r.value]
    ensures r.Err? ==> db.templates == old(db.templates)
    ensures SystemKept(old(db.templates), db.templates)
    ensures db.nextId == old(db.nextId) && db.users == old(db.users) && db.plans == old(db.plans)
    ensures db.products == old(db.products) && db.posters == old(db.posters)
    ensures db.campaigns == old(db.campaigns) && db.resets == old(db.resets)
  {
    r := Updated(db.templates, id, user.id, data);
    if r.Ok? {
      db.templates := db.templates[id := r.value];
    }
  }

  /** `delete_template`: only the owner's own template goes. */
  method DeleteTemplate(db: Database, id: int, user: User) returns (r: Result<()>)
    requires db.Valid()
    modifies db
    ensures db.Valid()
    ensures GetTemplate(old(db.templates), id, user.id).Err? ==>
              r == Err(GetTemplate(old(db.templates), id, user.id).error)
    ensures GetTemplate(old(db.templates), id, user.id).Ok? && old(db.templates)[id].isSystem ==>
              r == Err("Cannot delete system templates")
    ensures r.Ok? <==> id in old(db.templates) && old(db.templates)[id].userId == Some(user.id)
                       && !old(db.templates)[id].isSystem
    ensures r.Ok? ==> db.templates == old(db.templates) - {id}
    ensures r.Err? ==> db.templates == old(db.templates)
    ensures SystemKept(old(db.templates), db.templates)
    ensures db.nextId == old(db.nextId) && db.users == old(db.users) && db.plans == old(db.plans)
    ensures db.products == old(db.products) && db.posters == old(db.posters)
    ensures db.campaigns == old(db.campaigns) && db.resets == old(db.resets)
  {
    var found := GetTemplate(db.templates, id, user.id);
    if found.Err? {
      return Err(found.error);
    }
    if found.value.isSystem {
      return Err("Cannot delete system templates");
    }
    db.templates := db.templates - {id};
    r := Ok(());
  }

  /** The copy `duplicate_template` makes of a template the user may use. */
  function Duplicate(original: Template, id: int, userId: int, now: int): (t: Template)
    ensures t.name == original.name + " (Copy)"
    ensures t.userId == Some(userId) && !t.isSystem && t.isActive
    ensures t.format == original.format && t.definition == original.definition
    ensures t.backgroundUrl == original.backgroundUrl && t.previewUrl == original.previewUrl
    ensures Accessible(t, userId)
    ensures Storable(original) ==> (Storable(t) <==> |original.name| <= 193)
  {
    assert (original.name + " (Copy)")[|original.name| + 6] == ')';
    Template(id, Some(userId), original.name + " (Copy)", original.format, original.backgroundUrl,
             original.definition, original.previewUrl, false, true, now)
  }

  /** `duplicate_template`: a private copy of a system or own template. */
  method DuplicateTemplate(db: Database, id: int, user: User, now: int) returns (r: Result<Template>)
    requires db.Valid()
    modifies db
    ensures db.Valid()
    ensures GetTemplate(old(db.templates), id, user.id).Err? ==> r == GetTemplate(old(db.templates), id, user.id)
    ensures r.Ok? <==> GetTemplate(old(db.templates), id, user.id).Ok?
                       && Storable(Duplicate(old(db.templates)[id], old(db.nextId), user.id, now))
    ensures GetTemplate(old(db.templates), id, user.id).Ok? && r.Err? ==>
              r.error == InsertError(Duplicate(old(db.templates)[id], old(db.nextId), user.id, now)).value
    ensures r.Ok? ==> r.value == Duplicate(old(db.templates)[id], old(db.nextId), user.id, now)
                      && r.value.id !in old(db.templates)
                      && db.templates == old(db.templates)[r.value.id := r.value]
    ensures r.Err? ==> db.templates == old(db.templates) && db.nextId == old(db.nextId)
    ensures SystemKept(old(db.templates), db.templates)
    ensures db.users == old(db.users) && db.plans == old(db.plans) && db.products == old(db.products)
    ensures db.posters == old(db.posters) && db.campaigns == old(db.campaigns) && db.resets == old(db.resets)
  {
    var found := GetTemplate(db.templates, id, user.id);
    if found.Err? {
      return found;
    }
    var copy := Duplicate(found.value, db.nextId, user.id, now);
    var refused := InsertError(copy);
    if refused.Some? {
      return Err(refused.value);
    }
    var newId := db.NewId();
    db.templates := db.templates[newId := copy];
    r := Ok(copy);
  }

  /** The listing order: system templates first, then newest first. */
  function ListingKey(t: Template): Key {
    (if t.isSystem then 1 else 0, t.createdAt)
  }

  /** `get_all_templates`: the active templates the user may use, system
      ones first, newest first within each group. */
  method GetAllTemplates(templates: map<int, Template>, user: User) returns (ids: seq<int>)
    ensures forall k :: k in ids <==> k in templates && templates[k].isActive && Accessible(templates[k], user.id)
    ensures Distinct(ids)
    ensures Descending(ids, Rank(templates, ListingKey))
  {
    ids := SelectSorted(templates, (t: Template) => t.isActive && Accessible(t, user.id), ListingKey);
  }

  /** `get_templates_by_format`: the same listing narrowed to one format. */
  method GetTemplatesByFormat(templates: map<int, Template>, user: User, format: string) returns (ids: seq<int>)
    ensures forall k :: k in ids <==> k in templates && templates[k].isActive && Accessible(templates[k], user.id)
                                      && templates[k].format == format
    ensures Distinct(ids)
    ensures Descending(ids, Rank(templates, ListingKey))
  {
    ids := SelectSorted(templates, (t: Template) => t.isActive && Accessible(t, user.id) && t.format == format, ListingKey);
  }

  /** In a listing, whatever precedes a system template is a system
      template: system templates come first. */
  lemma SystemTemplatesFirst(templates: map<int, Template>, ids: seq<int>, i: int, j: int)
    requires Descending(ids, Rank(templates, ListingKey))
    requires 0 <= i < j < |ids| && ids[i] in templates && ids[j] in templates
    ensures templates[ids[j]].isSystem ==> templates[ids[i]].isSystem
  {
    assert NoLater(Rank(templates, ListingKey)(ids[i]), Rank(templates, ListingKey)(ids[j]));
  }
}

=== FILE: template_validators.dfy ===
/** Request checks for templates (backend/app/core/templates/validators.py):
    `validate_create` collects error messages for the name, the format and
    the JSON definition, whose structure `_validate_json_definition`
    checks: a canvas with `w` and `h`, and a non-empty list of layers,
    each a mapping with a known `type`. */
module TemplateValidators {
  import opened Wrappers
  import opened Json
  import opened Strings
  import opened Builtins

  /** `VALID_FORMATS`. */
  predicate ValidFormat(v: Json) {
    v == JStr("square") || v == JStr("story") || v == JStr("a4")
  }

  /** `VALID_LAYER_TYPES`: the renderer's three layer types and `shape`. */
  predicate ValidLayerType(v: Json) {
    v == JStr("background") || v == JStr("image") || v == JStr("text") || v == JStr("shape")
  }

  /** A layer passes: a mapping whose `type` is a known one. */
  predicate LayerOk(layer: Json) {
    layer.JObj? && "type" in layer.fields && ValidLayerType(layer.fields["type"])
  }

  /** The error, if any, for layer number `idx`. */
  function LayerError(idx: nat, layer: Json): (r: seq<string>)
    ensures |r| <= 1
    ensures r == [] <==> LayerOk(layer)
  {
    if !layer.JObj? then ["Layer " + IntText(idx) + " must be an object"]
    else if "type" !in layer.fields then ["Layer " + IntText(idx) + " must have a type"]
    else if !ValidLayerType(layer.fields["type"]) then
      ["Layer " + IntText(idx) + " has invalid type: " + PyStr(layer.fields["type"])]
    else []
  }

  /** The errors of the first `n` layers, in layer order. */
  function LayerErrors(layers: seq<Json>, n: nat): seq<string>
    requires n <= |layers|
  {
    if n == 0 then [] else LayerErrors(layers, n - 1) + LayerError(n - 1, layers[n - 1])
  }

  /** At most one error per layer. */
  lemma {:induction false} LayerErrorsCount(layers: seq<Json>, n: nat)
    requires n <= |layers|
    ensures |LayerErrors(layers, n)| <= n
  {
    if n > 0 {
      LayerErrorsCount(layers, n - 1);
      var prev := LayerErrors(layers, n - 1);
      var last := LayerError(n - 1, layers[n - 1]);
      assert |prev + last| == |prev| + |last|;
    }
  }

  /** No error exactly when every layer passes. */
  lemma {:induction false} LayerErrorsNone(layers: seq<Json>, n: nat)
    requires n <= |layers|
    ensures LayerErrors(layers, n) == [] <==> forall i :: 0 <= i < n ==> LayerOk(layers[i])
  {
    if n > 0 {
      LayerErrorsNone(layers, n - 1);
      var prev := LayerErrors(layers, n - 1);
      var last := LayerError(n - 1, layers[n - 1]);
      assert |prev + last| == |prev| + |last|;
      if forall i :: 0 <= i < n ==> LayerOk(layers[i]) {
        assert LayerOk(layers[n - 1]);
        assert last == [];
        assert prev + last == [];
      }
    }
  }

  /** The canvas errors of a definition mapping. */
  function CanvasErrors(def: Config): (r: seq<string>)
    ensures |r| <= 1
  {
    if "canvas" !in def then ["Template must have a canvas definition"]
    else if !def["canvas"].JObj? then ["Canvas must be an object"]
    else if "w" !in def["canvas"].fields || "h" !in def["canvas"].fields then
      ["Canvas must have width (w) and height (h)"]
    else []
  }

  /** The layer errors of a definition mapping. */
  function LayersErrors(def: Config): seq<string> {
    if "layers" !in def then ["Template must have layers"]
    else if !def["layers"].JList? then ["Layers must be an array"]
    else if def["layers"].items == [] then ["Template must have at least one layer"]
    else LayerErrors(def["layers"].items, |def["layers"].items|)
  }

  /** The errors `_validate_json_definition` returns. */
  function DefinitionErrors(def: Json): seq<string> {
    if !def.JObj? then ["Template definition must be an object"]
    else CanvasErrors(def.fields) + LayersErrors(def.fields)
  }

  /** A definition with the structure the renderer needs. */
  predicate WellFormed(def: Json) {
    def.JObj? && "canvas" in def.fields && def.fields["canvas"].JObj?
    && "w" in def.fields["canvas"].fields && "h" in def.fields["canvas"].fields
    && "layers" in def.fields && def.fields["layers"].JList? && def.fields["layers"].items != []
    && forall i :: 0 <= i < |def.fields["layers"].items| ==> LayerOk(def.fields["layers"].items[i])
  }

  /** The structural check reports nothing exactly for well-formed
      definitions. */
  lemma DefinitionErrorsExact(def: Json)
    ensures DefinitionErrors(def) == [] <==> WellFormed(def)
  {
    if def.JObj? {
      var d := def.fields;
      assert |DefinitionErrors(def)| == |CanvasErrors(d)| + |LayersErrors(d)|;
      if "layers" in d && d["layers"].JList? && d["layers"].items != [] {
        LayerErrorsNone(d["layers"].items, |d["layers"].items|);
      }
    }
  }

  /** `_validate_json_definition(json_def)`. */
  method ValidateDefinition(def: Json) returns (errors: seq<string>)
    ensures errors == DefinitionErrors(def)
  {
    if !def.JObj? {
      return ["Template definition must be an object"];
    }
    var d := def.fields;
    errors := [];
    if "canvas" !in d {
      errors := errors + ["Template must have a canvas definition"];
    } else if !d["canvas"].JObj? {
      errors := errors + ["Canvas must be an object"];
    } else if "w" !in d["canvas"].fields || "h" !in d["canvas"].fields {
      errors := errors + ["Canvas must have width (w) and height (h)"];
    }
    assert errors == CanvasErrors(d);
    if "layers" !in d {
      errors := errors + ["Template must have layers"];
    } else if !d["layers"].JList? {
      errors := errors + ["Layers must be an array"];
    } else if d["layers"].items == [] {
      errors := errors + ["Template must have at least one layer"];
    } else {
      var layers := d["layers"].items;
      var idx := 0;
      while idx < |layers|
        invariant 0 <= idx <= |layers|
        invariant errors == CanvasErrors(d) + LayerErrors(layers, idx)
      {
        ghost var c, l, e := CanvasErrors(d), LayerErrors(layers, idx), LayerError(idx, layers[idx]);
        assert LayerErrors(layers, idx + 1) == l + e;
        assert (c + l) + e == c + (l + e);
        errors := errors + LayerError(idx, layers[idx]);
        idx := idx + 1;
      }
    }
  }

  /** The name errors, once the name is known not to raise. */
  function NameErrors(name: Json): (r: seq<string>)
    requires !Truthy(name) || name.JStr?
    ensures |r| <= 1
    ensures r == [] <==> name.JStr? && |Strip(name.s)| >= 2
  {
    if !Truthy(name) then ["Template name is required"]
    else if |Strip(name.s)| < 2 then ["Template name must be at least 2 characters"]
    else []
  }

  /** The format errors. */
  function FormatErrors(format: Json): (r: seq<string>)
    ensures |r| <= 1
    ensures r == [] <==> ValidFormat(format)
  {
    if !Truthy(format) then ["Template format is required"]
    else if !ValidFormat(format) then ["Format must be one of: square, story, a4"]
    else []
  }

  /** The definition errors: a missing definition is the only one. */
  function DefErrors(def: Json): (r: seq<string>)
    ensures !Truthy(def) ==> r == ["Template definition is required"]
    ensures r == [] <==> WellFormed(def)
  {
    DefinitionErrorsExact(def);
    assert WellFormed(def) ==> "canvas" in def.fields && Truthy(def);
    if !Truthy(def) then ["Template definition is required"] else DefinitionErrors(def)
  }

  /** The errors `validate_create` collects: a name that is not a string
      makes `strip` raise. */
  function CreateErrors(data: Config): (r: Result<seq<string>>)
    ensures r.Err? <==> Truthy(Get(data, "name", JNull)) && !data["name"].JStr?
  {
    var name := Get(data, "name", JNull);
    if Truthy(name) && !name.JStr? then Err(NoAttribute(name, "strip"))
    else Ok(NameErrors(name) + FormatErrors(Get(data, "format", JNull)) + DefErrors(Get(data, "json_definition", JNull)))
  }

  /** The rules a new template must meet, stated field by field. */
  predicate CreateAcceptable(data: Config) {
    var name := Get(data, "name", JNull);
    name.JStr? && |Strip(name.s)| >= 2 && ValidFormat(Get(data, "format", JNull))
    && WellFormed(Get(data, "json_definition", JNull))
  }

  /** `validate_create` reports nothing exactly when the data meets every
      rule. */
  lemma CreateAcceptsExactly(data: Config)
    ensures CreateErrors(data) == Ok([]) <==> CreateAcceptable(data)
  {
    var name := Get(data, "name", JNull);
    if !Truthy(name) || name.JStr? {
      var a := NameErrors(name);
      var b := FormatErrors(Get(data, "format", JNull));
      var c := DefErrors(Get(data, "json_definition", JNull));
      assert |a + b + c| == |a| + |b| + |c|;
    }
  }

  /** `validate_create(data)`: `(is_valid, errors)`. */
  method ValidateCreate(data: Config) returns (r: Result<(bool, seq<string>)>)
    ensures r.Ok? <==> CreateErrors(data).Ok?
    ensures r.Ok? ==> r.value.1 == CreateErrors(data).value
    ensures r.Ok? ==> (r.value.0 <==> r.value.1 == [])
  {
    var errors: seq<string> := [];
    var name := Get(data, "name", JNull);
    if !Truthy(name) {
      errors := errors + ["Template name is required"];
    } else {
      if !name.JStr? {
        return Err(NoAttribute(name, "strip"));
      }
      if |Strip(name.s)| < 2 {
        errors := errors + ["Template name must be at least 2 characters"];
      }
    }
    assert errors == NameErrors(name);
    var format := Get(data, "format", JNull);
    if !Truthy(format) {
      errors := errors + ["Template format is required"];
    } else if !ValidFormat(format) {
      errors := errors + ["Format must be one of: square, story, a4"];
    }
    assert errors == NameErrors(name) + FormatErrors(format);
    var def := Get(data, "json_definition", JNull);
    if !Truthy(def) {
      errors := errors + ["Template definition is required"];
    } else {
      var defErrors := ValidateDefinition(def);
      errors := errors + defErrors;
    }
    assert errors == NameErrors(name) + FormatErrors(format) + DefErrors(def);
    r := Ok((|errors| == 0, errors));
  }
}

=== FILE: text_layer.dfy ===
/** Text layer (backend/renderer/layers/text_layer.py): a static or
    data-driven string, optionally word-wrapped to a maximum width, aligned
    on its anchor and drawn with an optional drop shadow. */
module TextLayer {
  import opened Wrappers
  import opened Json
  import opened Strings
  import opened Builtins
  import opened Drawing
  import opened BaseLayer

  /** `FONT_PATHS`: the two font names the layer knows. */
  function FontPath(name: string): Option<string> {
    if name == "bold" then Some("renderer/fonts/bold.ttf")
    else if name == "regular" then Some("renderer/fonts/regular.ttf")
    else None
  }

  /** `_get_font`: the TrueType font of a known name when its file exists
      and loads at that size, the default font otherwise. Looking up a name
      that is a list or a mapping raises (it is unhashable). */
  function GetFont(name: Json, size: Json, env: Env): (r: Result<Font>)
    ensures r.Err? <==> name.JList? || name.JObj?
    ensures r.Err? ==> r.error == Unhashable(name)
    ensures r.Ok? && r.value.TrueType? <==>
      name.JStr? && FontPath(name.s).Some?
      && env.fontFileExists(FontPath(name.s).value) && env.fontLoads(FontPath(name.s).value, size)
    ensures r.Ok? && r.value.TrueType? ==> r.value == TrueType(FontPath(name.s).value, size)
  {
    if name.JList? || name.JObj? then Err(Unhashable(name))
    else
      var path := if name.JStr? then FontPath(name.s) else None;
      if path.Some? && env.fontFileExists(path.value) && env.fontLoads(path.value, size)
      then Ok(TrueType(path.value, size))
      else Ok(DefaultFont)
  }

  // ---- word wrapping ----

  /** Values `width <= max_width` can compare an int with. */
  predicate Comparable(v: Json) { v.JInt? || v.JFloat? || v.JBool? }

  /** `width <= max_width`. */
  predicate Fits(width: int, max: Json)
    requires Comparable(max)
  {
    match max
    case JInt(i) => width <= i
    case JFloat(r) => width as real <= r
    case JBool(b) => width <= (if b then 1 else 0)
  }

  /** Whether a candidate line, as measured in `font`, fits. */
  predicate LineFits(env: Env, font: Font, max: Json, line: string)
    requires Comparable(max)
  {
    Fits(env.measure(font, line), max)
  }

  function Flatten(groups: seq<seq<string>>): seq<string> {
    if groups == [] then [] else groups[0] + Flatten(groups[1..])
  }

  /** Greedy line filling: `groups` are the finished lines (as word lists),
      `current` the line being filled, `words` what is left to place. Each
      word joins the current line if the line with it fits; otherwise the
      current line (if any) is finished and the word starts a new one. */
  function WrapFrom(words: seq<string>, groups: seq<seq<string>>, current: seq<string>,
                    env: Env, font: Font, max: Json): seq<seq<string>>
    requires Comparable(max)
    decreases |words|
  {
    if words == [] then
      if current != [] then groups + [current] else groups
    else if LineFits(env, font, max, Join(current + [words[0]], " ")) then
      WrapFrom(words[1..], groups, current + [words[0]], env, font, max)
    else
      WrapFrom(words[1..], if current != [] then groups + [current] else groups, [words[0]], env, font, max)
  }

  /** The lines of `text` wrapped to `max`, as word lists. */
  function WrapLines(text: string, env: Env, font: Font, max: Json): seq<seq<string>>
    requires Comparable(max)
  {
    WrapFrom(Words(text), [], [], env, font, max)
  }

  function JoinEach(groups: seq<seq<string>>): (lines: seq<string>)
    ensures |lines| == |groups|
    ensures forall k :: 0 <= k < |groups| ==> lines[k] == Join(groups[k], " ")
  {
    if groups == [] then [] else [Join(groups[0], " ")] + JoinEach(groups[1..])
  }

  /** `_wrap_text`: the wrapped lines, each the words of one line joined by
      single spaces, joined by newlines. */
  method WrapText(text: string, font: Font, max: Json, env: Env) returns (wrapped: string)
    requires Comparable(max)
    ensures wrapped == Join(JoinEach(WrapLines(text, env, font, max)), "\n")
  {
    var words := Words(text);
    var lines: seq<string> := [];
    var current: seq<string> := [];
    ghost var groups: seq<seq<string>> := [];
    for i := 0 to |words|
      invariant lines == JoinEach(groups)
      invariant WrapFrom(words[i..], groups, current, env, font, max) == WrapLines(text, env, font, max)
    {
      assert words[i..][1..] == words[i + 1..];
      var testLine := Join(current + [words[i]], " ");
      var width := env.measure(font, testLine);
      if Fits(width, max) {
        current := current + [words[i]];
      } else {
        if current != [] {
          JoinEachAppend(groups, current);
          lines := lines + [Join(current, " ")];
          groups := groups + [current];
        }
        current := [words[i]];
      }
    }
    assert words[|words|..] == [];
    if current != [] {
      JoinEachAppend(groups, current);
      lines := lines + [Join(current, " ")];
      groups := groups + [current];
    }
    wrapped := Join(lines, "\n");
  }

  lemma JoinEachAppend(groups: seq<seq<string>>, g: seq<string>)
    ensures JoinEach(groups + [g]) == JoinEach(groups) + [Join(g, " ")]
  {
  }

  // ---- the layer ----

  /** The string to draw: `value` as is, or the value at `key` after
      `prefix`; nothing when neither is given or the key resolves to None.
      A `key` that is not a string raises. */
  function TextOf(config: Config, data: Json, attribute: (Json, string) -> Option<Json>): Result<Option<string>> {
    if "value" in config then Ok(Some(PyStr(config["value"])))
    else if "key" in config then
      var key := config["key"];
      if !key.JStr? then Err("key is not a string")
      else
        var v := Resolve(Split(key.s, "."), data, attribute);
        if v == JNull then Ok(None)
        else Ok(Some(PyStr(Get(config, "prefix", JStr(""))) + PyStr(v)))
    else Ok(None)
  }

  /** The anchor moved left by the whole (right) or half (center) measured
      width. */
  function Align(align: Json, x: real, width: int): real {
    if align == JStr("center") then x - (width / 2) as real
    else if align == JStr("right") then x - width as real
    else x
  }

  /** The text after the optional wrapping; None when `max_width` is truthy
      but cannot be compared with a width and there is a word to measure. */
  function Wrapped(text: string, font: Font, max: Json, env: Env): Option<string> {
    if !Truthy(max) then Some(text)
    else if !Comparable(max) then (if Words(text) == [] then Some("") else None)
    else Some(Join(JoinEach(WrapLines(text, env, font, max)), "\n"))
  }

  /** What `render` draws: the shadow (offset by 3, half-transparent black)
      when `shadow` is truthy, then the text in `color`; a colour Pillow
      cannot read raises once the shadow is drawn. */
  function TextEffect(config: Config, data: Json, env: Env): Effect {
    match TextOf(config, data, env.attribute)
    case Err(_) => Effect([], false)
    case Ok(None) => Effect([], true)
    case Ok(Some(text)) => PlacedText(config, text, env)
  }

  /** What `render` draws for the string `text` once it is known. */
  function PlacedText(config: Config, text: string, env: Env): Effect {
    var x := Number(Get(config, "x", JInt(0)));
    var y := Number(Get(config, "y", JInt(0)));
    var font := GetFont(Get(config, "font", JStr("regular")), Get(config, "size", JInt(48)), env);
    if font.Err? then Effect([], false)
    else
      var wrapped := Wrapped(text, font.value, Get(config, "max_width", JNull), env);
      if wrapped.None? || x.None? || y.None? then Effect([], false)
      else
        var s := wrapped.value;
        var ax := Align(Get(config, "align", JStr("left")), x.value, env.measure(font.value, s));
        var color := Get(config, "color", JStr("#000000"));
        var shadow := if Truthy(Get(config, "shadow", JNull))
          then [Text(ax + 3.0, y.value + 3.0, s, font.value, Given(JStr("#00000080")))] else [];
        if InkAccepted(env, color) then Effect(shadow + [Text(ax, y.value, s, font.value, Given(color))], true)
        else Effect(shadow, false)
  }

  method Render(layer: Layer, canvas: Canvas, data: Json, env: Env) returns (ok: bool)
    modifies canvas
    ensures ok == TextEffect(layer.config, data, env).ok
    ensures canvas.ops == old(canvas.ops) + TextEffect(layer.config, data, env).ops
  {
    var text: string;
    if "value" in layer.config {
      text := PyStr(layer.config["value"]);
    } else if "key" in layer.config {
      var key := layer.config["key"];
      if !key.JStr? {
        return false;
      }
      var v := layer.ResolveKey(key.s, data, env.attribute);
      if v == JNull {
        return true;
      }
      text := PyStr(Get(layer.config, "prefix", JStr(""))) + PyStr(v);
    } else {
      return true;
    }
    assert TextOf(layer.config, data, env.attribute) == Ok(Some(text));
    ok := Place(layer.config, canvas, text, env);
  }

  /** The drawing half of `render`, once the string is known. */
  method Place(config: Config, canvas: Canvas, text: string, env: Env) returns (ok: bool)
    modifies canvas
    ensures ok == PlacedText(config, text, env).ok
    ensures canvas.ops == old(canvas.ops) + PlacedText(config, text, env).ops
  {
    var x := Number(Get(config, "x", JInt(0)));
    var y := Number(Get(config, "y", JInt(0)));
    var font := GetFont(Get(config, "font", JStr("regular")), Get(config, "size", JInt(48)), env);
    if font.Err? {
      return false;
    }
    var color := Get(config, "color", JStr("#000000"));
    var align := Get(config, "align", JStr("left"));
    var max := Get(config, "max_width", JNull);
    var line := text;
    if Truthy(max) {
      if !Comparable(max) {
        if Words(text) != [] {
          return false;
        }
        line := "";
      } else {
        line := WrapText(text, font.value, max, env);
      }
    }
    assert Wrapped(text, font.value, max, env) == Some(line);
    if x.None? || y.None? {
      return false;
    }
    var ax := Align(align, x.value, env.measure(font.value, line));
    if Truthy(Get(config, "shadow", JNull)) {
      canvas.Draw(Text(ax + 3.0, y.value + 3.0, line, font.value, Given(JStr("#00000080"))));
    }
    if !InkAccepted(env, color) {
      return false;
    }
    canvas.Draw(Text(ax, y.value, line, font.value, Given(color)));
    ok := true;
  }

  // ---- properties of the wrapping ----

  lemma {:induction false} FlattenAppend(groups: seq<seq<string>>, g: seq<string>)
    ensures Flatten(groups + [g]) == Flatten(groups) + g
  {
    if groups != [] {
      assert (groups + [g])[1..] == groups[1..] + [g];
      FlattenAppend(groups[1..], g);
    }
  }

  /** No word is lost, duplicated or reordered: the lines hold exactly the
      words still to place after those already placed. */
  lemma {:induction false} WrapKeepsWords(words: seq<string>, groups: seq<seq<string>>, current: seq<string>,
                                          env: Env, font: Font, max: Json)
    requires Comparable(max)
    ensures Flatten(WrapFrom(words, groups, current, env, font, max)) == Flatten(groups) + current + words
    decreases |words|
  {
    if words == [] {
      FlattenAppend(groups, current);
    } else if LineFits(env, font, max, Join(current + [words[0]], " ")) {
      var c := current + [words[0]];
      assert WrapFrom(words, groups, current, env, font, max) == WrapFrom(words[1..], groups, c, env, font, max);
      WrapKeepsWords(words[1..], groups, c, env, font, max);
      Regroup(Flatten(groups), current, words[0], words[1..]);
      assert [words[0]] + words[1..] == words;
    } else {
      var groups' := if current != [] then groups + [current] else groups;
      assert WrapFrom(words, groups, current, env, font, max) == WrapFrom(words[1..], groups', [words[0]], env, font, max);
      WrapKeepsWords(words[1..], groups', [words[0]], env, font, max);
      assert Flatten(groups') == Flatten(groups) + current by {
        FlattenAppend(groups, current);
      }
      Regroup(Flatten(groups), current, words[0], words[1..]);
      assert [words[0]] + words[1..] == words;
    }
  }

  /** Regrouping the words around one word moved between lines. */
  lemma Regroup(placed: seq<string>, current: seq<string>, w: string, rest: seq<string>)
    ensures placed + (current + [w]) + rest == placed + current + ([w] + rest)
    ensures (placed + current) + [w] + rest == placed + current + ([w] + rest)
  {
  }

  predicate AllNonEmpty(groups: seq<seq<string>>) {
    forall k :: 0 <= k < |groups| ==> groups[k] != []
  }

  /** Every line of more than one word fits the width; only a single word
      longer than the width gets a line that does not. */
  predicate MultiWordLinesFit(groups: seq<seq<string>>, env: Env, font: Font, max: Json)
    requires Comparable(max)
  {
    forall k :: 0 <= k < |groups| && |groups[k]| >= 2 ==> LineFits(env, font, max, Join(groups[k], " "))
  }

  /** Lines are filled greedily: the first word of each line would not have
      fitted at the end of the line before it. */
  ghost predicate Greedy(groups: seq<seq<string>>, env: Env, font: Font, max: Json)
    requires Comparable(max)
  {
    forall i, j :: 0 <= i < j < |groups| && j == i + 1 ==> Breaks(groups[i], groups[j], env, font, max)
  }

  /** Line `b` starts with a word that would not have fitted at the end of
      line `a`. */
  predicate Breaks(a: seq<string>, b: seq<string>, env: Env, font: Font, max: Json)
    requires Comparable(max)
  {
    b != [] && !LineFits(env, font, max, Join(a + [b[0]], " "))
  }

  /** Finishing a line keeps the three shape properties. */
  lemma FinishLine(groups: seq<seq<string>>, current: seq<string>, env: Env, font: Font, max: Json)
    requires Comparable(max)
    requires AllNonEmpty(groups) && MultiWordLinesFit(groups, env, font, max) && Greedy(groups, env, font, max)
    requires current != []
    requires |current| >= 2 ==> LineFits(env, font, max, Join(current, " "))
    requires groups != [] ==> Breaks(groups[|groups| - 1], current, env, font, max)
    ensures var r := groups + [current];
      AllNonEmpty(r) && MultiWordLinesFit(r, env, font, max) && Greedy(r, env, font, max)
  {
    FinishNonEmpty(groups, current);
    FinishFits(groups, current, env, font, max);
    FinishGreedy(groups, current, env, font, max);
  }

  lemma FinishNonEmpty(groups: seq<seq<string>>, current: seq<string>)
    requires AllNonEmpty(groups) && current != []
    ensures AllNonEmpty(groups + [current])
  {
    var r := groups + [current];
    forall k | 0 <= k < |r| ensures r[k] != [] {
      if k < |groups| {
        assert r[k] == groups[k];
      }
    }
  }

  lemma FinishFits(groups: seq<seq<string>>, current: seq<string>, env: Env, font: Font, max: Json)
    requires Comparable(max)
    requires MultiWordLinesFit(groups, env, font, max)
    requires |current| >= 2 ==> LineFits(env, font, max, Join(current, " "))
    ensures MultiWordLinesFit(groups + [current], env, font, max)
  {
    var r := groups + [current];
    forall k | 0 <= k < |r| && |r[k]| >= 2 ensures LineFits(env, font, max, Join(r[k], " ")) {
      if k < |groups| {
        assert r[k] == groups[k];
      }
    }
  }

  lemma FinishGreedy(groups: seq<seq<string>>, current: seq<string>, env: Env, font: Font, max: Json)
    requires Comparable(max)
    requires Greedy(groups, env, font, max)
    requires groups != [] ==> Breaks(groups[|groups| - 1], current, env, font, max)
    ensures Greedy(groups + [current], env, font, max)
  {
    var r := groups + [current];
    forall i, j | 0 <= i < j < |r| && j == i + 1 ensures Breaks(r[i], r[j], env, font, max) {
      if j < |groups| {
        assert r[i] == groups[i] && r[j] == groups[j];
      } else {
        assert r[i] == groups[|groups| - 1] && r[j] == current;
      }
    }
  }

  lemma {:induction false} WrapShape(words: seq<string>, groups: seq<seq<string>>, current: seq<string>,
                                     env: Env, font: Font, max: Json)
    requires Comparable(max)
    requires AllNonEmpty(groups) && MultiWordLinesFit(groups, env, font, max) && Greedy(groups, env, font, max)
    requires |current| >= 2 ==> LineFits(env, font, max, Join(current, " "))
    requires current == [] ==> groups == []
    requires groups != [] && current != [] ==> Breaks(groups[|groups| - 1], current, env, font, max)
    ensures var r := WrapFrom(words, groups, current, env, font, max);
      AllNonEmpty(r) && MultiWordLinesFit(r, env, font, max) && Greedy(r, env, font, max)
    decreases |words|
  {
    if words == [] {
      if current != [] {
        FinishLine(groups, current, env, font, max);
      }
    } else if LineFits(env, font, max, Join(current + [words[0]], " ")) {
      var c := current + [words[0]];
      assert current != [] ==> c[0] == current[0];
      WrapShape(words[1..], groups, c, env, font, max);
    } else if current != [] {
      FinishLine(groups, current, env, font, max);
      var groups' := groups + [current];
      assert Breaks(groups'[|groups'| - 1], [words[0]], env, font, max);
      WrapShape(words[1..], groups', [words[0]], env, font, max);
    } else {
      WrapShape(words[1..], groups, [words[0]], env, font, max);
    }
  }

  /** The wrapped lines of a text: non-empty, holding its words in order,
      each of more than one word within the width, filled greedily. */
  lemma WrapLinesCorrect(text: string, env: Env, font: Font, max: Json)
    requires Comparable(max)
    ensures Flatten(WrapLines(text, env, font, max)) == Words(text)
    ensures var r := WrapLines(text, env, font, max);
      AllNonEmpty(r) && MultiWordLinesFit(r, env, font, max) && Greedy(r, env, font, max)
  {
    WrapKeepsWords(Words(text), [], [], env, font, max);
    WrapShape(Words(text), [], [], env, font, max);
  }

  /** Text with no words wraps to the empty string. */
  lemma WrapBlank(text: string, env: Env, font: Font, max: Json)
    requires Words(text) == []
    ensures Wrapped(text, font, max, env) == (if Truthy(max) then Some("") else Some(text))
  {
  }

  // ---- properties of the layer ----

  /** A static `value` wins over `key`, and is drawn without the prefix. */
  lemma ValueWins(config: Config, data: Json, attribute: (Json, string) -> Option<Json>)
    requires "value" in config
    ensures TextOf(config, data, attribute) == Ok(Some(PyStr(config["value"])))
  {
  }

  /** Nothing is drawn, and the layer does not fail, when neither `value`
      nor `key` is given or when the key resolves to None. */
  lemma NothingToDraw(config: Config, data: Json, env: Env)
    requires "value" !in config
    requires "key" in config ==> config["key"].JStr? && Resolve(Split(config["key"].s, "."), data, env.attribute) == JNull
    ensures TextEffect(config, data, env) == Effect([], true)
  {
  }

  /** With the shadow on, the shadow is drawn first, 3 pixels right and
      down of the text it shadows, and the text comes last in `color`. A
      colour Pillow cannot read fails the layer with only the shadow drawn. */
  lemma ShadowBeneath(config: Config, data: Json, env: Env)
    requires TextEffect(config, data, env).ops != []
    ensures var e := TextEffect(config, data, env);
      var color := Get(config, "color", JStr("#000000"));
      var shadow := Truthy(Get(config, "shadow", JNull));
      && e.ops[0].Text?
      && (e.ok <==> InkAccepted(env, color))
      && (|e.ops| == 2 <==> shadow && e.ok)
      && (|e.ops| == 2 ==>
            e.ops[0] == Text(e.ops[1].x + 3.0, e.ops[1].y + 3.0, e.ops[1].text, e.ops[1].font, Given(JStr("#00000080")))
            && e.ops[1].ink == Given(color))
      && (e.ok && |e.ops| == 1 ==> !shadow && e.ops[0].ink == Given(color))
      && (!e.ok ==> shadow && e.ops == [e.ops[0]] && e.ops[0].ink == Given(JStr("#00000080")))
  {
  }

  /** Right alignment ends the text at the anchor; centring puts the
      anchor at its middle, to within one pixel. */
  lemma AlignAnchors(align: Json, x: real, width: int)
    requires width >= 0
    ensures align == JStr("right") ==> Align(align, x, width) + width as real == x
    ensures align == JStr("center") ==>
      0.0 <= (Align(align, x, width) + width as real - x) - (x - Align(align, x, width)) <= 1.0
    ensures align != JStr("right") && align != JStr("center") ==> Align(align, x, width) == x
  {
  }
}

=== FILE: wrappers.dfy ===
/** Option and Result: the model's stand-ins for Python's `None` and for a
    raised exception (carried as its message). */
module Wrappers {

  datatype Option<+T> = None | Some(value: T)

  datatype Result<+T> = Ok(value: T) | Err(error: string) {
    predicate IsFailure() { Err? }
  }
}
